=== FILE: README.md ===
# Intake workflow of the municipal form application, in Dafny

This project is a model of the logic core of a browser application for municipal project intake ("sjablonen"). The app has four form types:

- the intake form (`intakeformulier`);
- the small-project mandate (`klein-project-mandaat`);
- the ICT project mandate (`ict-projectmandaat`);
- the impact analysis (`impactanalyse`).

The model covers these parts:

- **The intake workflow.** It is a nine-status state machine with role-gated actions, an append-only status history and notifications on arrival.
- **The collections the components keep.** These are notifications, comments with replies, track changes, tri-state buttons, and the work queue list.
- **The form models.** This covers their defaults, validators and list operations.
- **Storage and the data service.** The store is modelled as a prefix-namespaced key/value list.
- **The hash router.**
- **The `.eml` reader.** It covers:
  - header unfolding, after section 2.2.3 of RFC 5322;
  - encoded words, after section 4 of RFC 2047;
  - quoted-printable and base64 bodies, after sections 6.7 and 6.8 of RFC 2045;
  - multipart bodies, after section 5.1.1 of RFC 2046.
- **The small helpers of the application.**

Forms, comments and stored objects are JSON values (`Json.Value`). The workflow, comments, track changes and notifications use typed records holding the fields those parts read. Every mutating method is a function from the old state to the new state.

Parts of the environment are parameters rather than models:

- the clock;
- random sources;
- `atob`;
- `JSON.parse`;
- date parsing and formatting.

Where the source throws a `TypeError` on a missing or ill-typed object, most operations return the `Err` case of a `Result`; the operations that instead read such an object as empty, reject a value the source would accept, or treat a key that names an inherited property (`toString`, `__proto__`) as an ordinary key, are named under "## Left out".

## Model

| member | source | states |
|---|---|---|
| Config.ParseRole | js/config.js:65-72 | a role name parses only to the role it names |
| Config.RoleNameRoundTrip | js/config.js:65-72 | every role's name parses back to that role |
| Config.ParseStatus | js/config.js:84-111 | a status text parses only to the status it names |
| Config.StatusNameRoundTrip | js/config.js:84-111 | the nine status names are pairwise distinct and each parses back to its status |
| Config.TransitionsFor | js/config.js:171-227 | a status text has a table entry exactly when it is one of the nine statuses |
| Config.ActionsWithinNext | js/config.js:171-227 | every action of a status leads to a status in that status's own `next` list |
| Config.ArchivedIsTerminal | js/config.js:223-226 | `gearchiveerd` has no next status and no action |
| Config.BijBaHasNoActions | js/config.js:211-216 | `bij_ba` lists `gearchiveerd` as next but offers no action |
| Config.EdgesMoveForward | js/config.js:171-227 | no status lists itself; the only backward edges are klant_akkoord→im_aanvullen and im_routering→stakeholder_review |
| Config.RouteTypesOnlyWhenRouting | js/config.js:206-207 | only the im_routering actions to bij_ba and fb_backlog carry a route type, `project` and `change` respectively |
| Config.QueueConfigFor | js/config.js:230-257 | only the five queue roles have a work queue; a stakeholder or unknown name has none |
| Config.EffectivePermissions | js/config.js:362-411 | a role without a permission entry gets the stakeholder flags; others get their own |
| Config.FeedbackRole | js/components/wl-comment-panel.js:45-47 | an empty role attribute means `stakeholder`, any other is kept |
| Config.PermissionShape | js/config.js:362-411 | only the information manager may delete all comments; stakeholder and client have every review flag off |
| Config.UnknownRoleIsStakeholder | js/config.js:362-411 | any role outside the four feedback roles gets exactly the stakeholder permissions |
| Config.FieldSplitDisjoint | js/config.js:342-351 | within each section no field is both client-visible and information-manager-only |
| Config.ParseNotificationType | js/config.js:259-270 | a type name parses only to the type it names |
| Config.NotificationTypeRoundTrip | js/config.js:259-270 | every notification type's name parses back to the type |
| Config.NotificationLabelFor | js/config.js:272-333 | a label is found exactly for the ten type names |
| Config.NotificationLabelLookup | js/config.js:272-333 | each type name finds its own label; a name without a label names no type |
| Workflow.EffectiveStatus | js/services/WorkqueueService.js:117-119 | `intakeStatus` when non-empty, else the legacy `status`, else `draft`; never empty |
| Workflow.FirstActionTo | js/services/WorkqueueService.js:100-112 | the action found leads to the named status; none is found only when no action leads there |
| Workflow.CanTransitionOnNames | js/services/WorkqueueService.js:100-112 | a move is allowed when the current status has an entry, the target is in its `next`, and the first action to the target belongs to the role |
| Workflow.CanTransitionIsLegalEdge | js/services/WorkqueueService.js:100-112 | `canTransition` accepts exactly the ten (from, to, role) moves of the table |
| Workflow.CanTransitionAllows | js/services/WorkqueueService.js:100-112 | `canTransition` holds exactly when the texts name a status, a status and a role, the target is in the current status's `next`, and the first action to the target belongs to that role |
| Workflow.TableIsLegalMoves | js/config.js:171-227 | the table read through its first matching action gives exactly the listed moves |
| Workflow.NoSelfOrTerminalMoves | js/services/WorkqueueService.js:100-112 | no status moves to itself; nothing leaves `gearchiveerd` or `bij_ba` |
| Workflow.AvailableActions | js/services/WorkqueueService.js:127-139 | no actions for an unknown status; every action offered belongs to the asking role |
| Workflow.AvailableActionsAreAllowed | js/services/WorkqueueService.js:127-139 | an action to a status is offered to a role exactly when `canTransition` accepts that move |
| Workflow.ActionToFindsEach | js/config.js:171-227 | within one entry no two actions lead to the same status |
| Workflow.Route | js/services/WorkqueueService.js:171-177 | a move changes no field other than `routeType` and `assignedTo` |
| Workflow.Transition | js/services/WorkqueueService.js:144-186 | fails for a missing form and for a move `canTransition` refuses, changing nothing; on success both status fields become the new status, exactly one history entry is appended (prior effective status, new status, the user's name, id and role, the time, the reason and route type or null), the store holds the saved form, every field other than the status, history, route, assignee, id and `updatedAt` is kept, and the notifications are those of the arrival status |
| Workflow.TransitionRouteFields | js/services/WorkqueueService.js:171-177 | route fields are written only for (`project`, bij_ba) and (`change`, fb_backlog), else kept |
| Workflow.TransitionKeepsHistoryChain | js/services/WorkqueueService.js:155-168 | a history that is a chain of permitted moves ending at the current status stays one after a transition |
| Workflow.FormTitle | js/services/WorkqueueService.js:192 | the title used in notifications is never empty |
| Workflow.ReviewRequests | js/services/WorkqueueService.js:231-243 | one stakeholder-review request per stakeholder with a person, in table order |
| Workflow.TransitionNotifications | js/services/WorkqueueService.js:191-280 | requests are only of the arrival status's type; none for statuses without one; one per linked stakeholder on stakeholder_review; one broadcast on gearchiveerd; at most one otherwise |
| Workflow.StatusInfo | js/services/WorkqueueService.js:287-296 | a known status gives its label and description; an unknown text is its own label with no description |
| Workflow.StatusHistory | js/services/WorkqueueService.js:301-308 | the stored history, empty for an unknown form |
| Workflow.GetWorkqueue | js/services/WorkqueueService.js:27-54 | an unknown role gets nothing; every returned intake is listed, with a legacy status the role's queue shows; with a user and no see-all, a client gets only their own intakes and BA/FB only those assigned to them; every qualifying intake is returned |
| Workflow.GetWorkqueueExact | js/services/WorkqueueService.js:27-54 | for a known role, the queue holds each intake the role's queue takes in exactly as often as it is listed, and no other |
| Workflow.GetWorkqueueConcat | js/services/WorkqueueService.js:36-53 | the queue keeps the listed order: the queue of two lists joined is the two queues joined |
| Workflow.GroupedByStatus | js/services/WorkqueueService.js:60-77 | one group per status name and no other key; each group holds every listed intake whose legacy status is that name, as often as it is listed, and nothing else |
| Workflow.GroupedByStatusConcat | js/services/WorkqueueService.js:60-77 | every group keeps the listed order: the group of two lists joined is the two groups joined |
| Workflow.CountByStatus | js/services/WorkqueueService.js:82-95 | one count per status name; each count is the number of positions in the list whose intake has that legacy status |
| Workflow.GroupedIsPartition | js/services/WorkqueueService.js:60-95 | summed over all statuses the counts equal the number of intakes with a known status |
| Workflow.GroupsPartition | js/services/WorkqueueService.js:60-95 | the counts summed over any distinct status list equal the number of intakes in those groups |
| Workflow.CalculateDurations | js/services/WorkqueueService.js:313-335 | nothing for fewer than two entries; keys are exactly the arrival statuses before the last entry; each key holds the stay of its latest arrival |
| Notifications.NewNotification | js/services/NotificationService.js:67-94 | a new notification is unread; title and message come from the data, else the type's label, else `Notificatie` and empty |
| Notifications.NotificationLabelLookupAll | js/services/NotificationService.js:68-73 | every type name finds its label |
| Notifications.Create | js/services/NotificationService.js:67-105 | the new notification is prepended and the others keep their order |
| Notifications.Send | js/services/NotificationService.js:67-105 | carrying out a request prepends one notification for its target |
| Notifications.GetAll | js/services/NotificationService.js:111-118 | without a user, everything; with one, each notification addressed to that user or to nobody, as often as it is stored, and no other |
| Notifications.GetAllConcat | js/services/NotificationService.js:111-118 | the stored order is kept: the list of two stores joined is the two lists joined |
| Notifications.GetAllAfterCreate | js/services/NotificationService.js:67-118 | a created notification is the first its target sees; users it is not for see no change |
| Notifications.GetUnread | js/services/NotificationService.js:125-128 | each unread notification the user sees, as often as it is stored, and no other; every stored position holding one is represented |
| Notifications.GetUnreadConcat | js/services/NotificationService.js:125-128 | the stored order is kept: the unread list of two stores joined is the two unread lists joined |
| Notifications.CountUnread | js/services/NotificationService.js:134-136 | the count is the number of stored positions holding an unread notification the user sees, and at most the visible count |
| Notifications.MarkAsRead | js/services/NotificationService.js:142-150 | only the first notification with the id changes, and only if unread |
| Notifications.MarkAsReadIdempotent | js/services/NotificationService.js:142-150 | a second mark of the same id changes nothing |
| Notifications.MarkAllAsRead | js/services/NotificationService.js:156-175 | with unique ids, the user's notifications become read, others are unchanged, and no unread notification is left for the user |
| Notifications.MarkAllLeavesNoneUnread | js/services/NotificationService.js:156-175 | after marking all read, the user's unread count is zero |
| Notifications.Delete | js/services/NotificationService.js:181-188 | removes only the first notification with the id |
| Notifications.DeleteAll | js/services/NotificationService.js:194-204 | without a user, empties the list; with one, keeps each notification the user does not see, as often as it is stored, and no other |
| Notifications.DeleteAllConcat | js/services/NotificationService.js:194-204 | the survivors keep their stored order |
| Notifications.DeleteAllHidesEverything | js/services/NotificationService.js:194-204 | after deleting all for a user, that user sees nothing |
| Notifications.NotifyCommentAdded | js/services/NotificationService.js:310-318 | the message quotes the comment whole up to 50 characters, else its first 50 and `...` (characters counted as Unicode scalar values) |
| Notifications.HelperTitleIsLabel | js/services/NotificationService.js:245-374 | a typed helper's notification carries its type's label title and the helper's own message |
| Comments.CommentPermissions | js/components/wl-comment-panel.js:54-56 | the role's flags, the stakeholder flags for an unknown role |
| Comments.FilteredComments | js/components/wl-comment-panel.js:58-63 | `all` gives every comment; any other filter gives each comment with that status, as often as it occurs, and no other |
| Comments.FilteredCommentsConcat | js/components/wl-comment-panel.js:58-63 | the filter keeps the comments' order |
| Comments.CountByStatus | js/components/wl-comment-panel.js:65-67 | the number of positions in the list whose comment has that status, at most the number of comments |
| Comments.CountsCoverAll | js/components/wl-comment-panel.js:65-67 | when every comment has one of the three statuses, the three counts add up to the total |
| Comments.ShownStatus | js/components/wl-comment-panel.js:136-138 | a comment without a status is shown as open |
| Comments.StatusActions | js/components/wl-comment-panel.js:215-231 | an open comment offers verwerkt iff the role may resolve and afgewezen iff it may reject; a closed one offers open iff it may reopen |
| Comments.RoleGating | js/components/wl-comment-panel.js:160-198 | stakeholder and client see no status buttons and delete only their own; the information manager may delete any |
| Comments.NewComment | js/components/wl-comment-panel.js:352-371 | a new comment is open, with no replies and no status history |
| Comments.AddComment | js/components/wl-comment-panel.js:352-371 | appends exactly one open section comment with the given id, text and time as creation and update time, no status change, no parent and no replies; an empty author or role falls back to the current user |
| Comments.SectionOf | js/components/wl-field-comment.js:260-279 | the field path's text before its first `.` |
| Comments.AddFieldComment | js/components/wl-field-comment.js:260-279 | appends exactly one open field comment in the section of its path, with the given id, text and time as creation and update time, the current user as author, no status change, no parent and no replies |
| Comments.OpenComments | js/components/wl-field-comment.js:64-66 | each comment whose status is open, as often as it occurs, and no other |
| Comments.OpenCommentsConcat | js/components/wl-field-comment.js:64-66 | the open comments keep their order |
| Comments.AddReply | js/components/wl-comment-panel.js:380-397 | nothing happens without the parent; otherwise one reply is appended to that parent only |
| Comments.UpdateCommentStatus | js/components/wl-comment-panel.js:405-413 | nothing happens for an unknown id; otherwise only that comment changes: it gets the status, the reason, the changer's name and the change time, `updatedAt` becomes now, and every other field is kept |
| Comments.DeleteComment | js/components/wl-comment-panel.js:429-440 | removes only the first comment with the id |
| Comments.DeleteCommentMultiset | js/components/wl-comment-sidebar.js:292-298 | deleting removes exactly one occurrence and keeps all other comments |
| Comments.DeleteReply | js/components/wl-comment-panel.js:442-457 | removes the first reply with the id from that parent only |
| Comments.Merge | js/components/wl-comment-sidebar.js:284-290 | identity, author role and parent fields are kept; each given update replaces its field (text, status, status reason, changed-by, changed-at and updated-at), and an absent one keeps the old value |
| Comments.UpdateComment | js/components/wl-comment-sidebar.js:284-290 | merges into the first matching comment only; nothing happens otherwise |
| Comments.EmptyPatchIsNoOp | js/components/wl-comment-sidebar.js:284-290 | an empty update changes nothing |
| Comments.SectionKey | js/components/wl-comment-sidebar.js:86-96 | the section id, or `algemeen` when it is empty |
| Comments.GroupBySectionIsPartition | js/components/wl-comment-sidebar.js:86-96 | the loop builds exactly one group per occurring key, holding that key's comments in order |
| Comments.FieldLabel | js/components/wl-comment-sidebar.js:189-195 | the last `.`-separated segment, the empty text for an empty path |
| Comments.CountPendingChanges | js/components/wl-comment-sidebar.js:82-84 | the number of pending track changes |
| TrackChanges.PendingChanges | js/components/wl-track-changes.js:74-76 | each pending change, as often as it occurs, and no other |
| TrackChanges.PendingChangesConcat | js/components/wl-track-changes.js:74-76 | the pending changes keep their order |
| TrackChanges.Classify | js/components/wl-track-changes.js:256-275 | insert iff only the new side is non-empty, delete iff only the original is, replace otherwise |
| TrackChanges.AddChange | js/components/wl-track-changes.js:256-275 | appends one pending change of its class; author and role default to the user's |
| TrackChanges.AcceptChange | js/components/wl-track-changes.js:286-295 | only an existing pending change is accepted, with the reviewer's name and the review time and nothing else of it changed; the value becomes its new text |
| TrackChanges.RejectChange | js/components/wl-track-changes.js:309-318 | only an existing pending change is rejected, with the reviewer's name and the review time and nothing else of it changed; the value becomes its original text |
| TrackChanges.ReviewIsFinal | js/components/wl-track-changes.js:286-318 | a reviewed change cannot be reviewed again |
| TrackChanges.AcceptAllChanges | js/components/wl-track-changes.js:332-343 | every pending change is accepted with the reviewer's name and the review time; reviewed ones are untouched |
| TrackChanges.RejectAllChanges | js/components/wl-track-changes.js:357-368 | every pending change is rejected with the reviewer's name and the review time; reviewed ones are untouched |
| TrackChanges.PendingLast | js/components/wl-track-changes.js:332-343 | the last pending change found from the end is the last of the pending list |
| TrackChanges.AcceptAllLeavesNothingPending | js/components/wl-track-changes.js:332-343 | afterwards nothing is pending and the value is the last pending change's new text, or unchanged |
| TrackChanges.RejectAllLeavesNothingPending | js/components/wl-track-changes.js:357-368 | afterwards nothing is pending and the value is the first pending change's original text, or unchanged |
| TrackChanges.PendingFirst | js/components/wl-track-changes.js:357-368 | the head of the pending list is the first pending change |
| TrackChanges.CanReview | js/components/wl-track-changes.js:70-81 | the review buttons are shown exactly to roles that may accept or reject changes |
| Strings.Truncate | js/components/wl-track-changes.js:204-207 | a text of at most `max` characters is kept; a longer one is its first `max` characters and `...` (characters counted as Unicode scalar values) |
| Strings.TrimMaximal | js/utils/emailParser.js:234 | `trim` takes off exactly the white space at both ends: what it removes before and after the kept text is all white space |
| WorkqueueView.RoleOf | js/components/wl-workqueue.js:32-34 | a missing role attribute means the information manager |
| WorkqueueView.QueueOf | js/components/wl-workqueue.js:68-70 | the role's queue, else the information manager's |
| WorkqueueView.Title | js/components/wl-workqueue.js:44-48 | the title attribute when given, else the queue title of the role, else `Werkvoorraad` |
| WorkqueueView.UnknownRoleGetsImQueue | js/components/wl-workqueue.js:68-70 | a missing role, or one without a queue, gets the information manager's queue |
| WorkqueueView.FilteredItems | js/components/wl-workqueue.js:72-98 | a permutation of the items with the filter status (all items for `all`), ordered on the sort field in the sort direction |
| WorkqueueView.DefaultOrderIsNewestFirst | js/components/wl-workqueue.js:23-24 | a fresh list is ordered by `updatedAt`, newest first |
| WorkqueueView.ToggleSort | js/components/wl-workqueue.js:287-293 | the same field flips the direction; a new field starts descending |
| WorkqueueView.ToggleTwice | js/components/wl-workqueue.js:287-293 | two clicks on the current field restore the ordering |
| WorkqueueView.NoStatusIsCalledAll | js/components/wl-workqueue.js:100-109 | the `all` total never collides with a status count |
| WorkqueueView.CountByStatus | js/components/wl-workqueue.js:100-109 | `all` counts every item and each queue status counts its items |
| WorkqueueView.Priority | js/components/wl-workqueue.js:183-189 | high iff `hoog` or `urgent` occurs ignoring case; low iff not high and `laag` occurs |
| WorkqueueView.PriorityIgnoresCase | js/components/wl-workqueue.js:183-189 | lower-casing the text does not change its priority |
| WorkqueueView.OpenCommentCount | js/components/wl-workqueue.js:191-192 | the number of positions whose comment status is `open`; zero exactly when no comment is open |
| TriState.Cycle | js/components/wl-stakeholder-table.js:141-148 | unset becomes yes, yes becomes no, and anything else becomes unset |
| TriState.CycleHasPeriodThree | js/components/wl-checklist.js:72-79 | three clicks return to the same value; from unset, three clicks give unset |
| TriState.DisplayText | js/components/wl-checklist.js:42-43 | `Ja` exactly for yes, `Nee` exactly for no, `-` for anything else |
| StakeholderTable.StatusKey | js/components/wl-stakeholder-table.js:34-35 | `akkoord` exactly for the akkoord table, otherwise `geinformeerd` |
| StakeholderTable.TableType | js/components/wl-stakeholder-table.js:20 | the type attribute when given; without one the table is an approval table |
| StakeholderTable.StatusText | js/components/wl-stakeholder-table.js:68-78 | the display text of the row's approval field |
| StakeholderTable.AddRow | js/components/wl-stakeholder-table.js:171-179 | appends one row with empty texts and an unset approval |
| StakeholderTable.RemoveRow | js/components/wl-stakeholder-table.js:188-194 | does nothing while at most one row is left; otherwise behaves as `splice(index, 1)`, removing exactly the given index when it is in range |
| StakeholderTable.RemoveRowKeepsOne | js/components/wl-stakeholder-table.js:188-194 | the table never loses its last row |
| StakeholderTable.EditField | js/components/wl-stakeholder-table.js:121-131 | typing changes one field of one row only |
| StakeholderTable.ToggleApproval | js/components/wl-stakeholder-table.js:141-148 | a click cycles the approval of that row only |
| StakeholderTable.ThreeClicksOnNewRow | js/components/wl-stakeholder-table.js:141-179 | three clicks on a new row bring it back to unset |
| Checklist.ToggleWaarde | js/components/wl-checklist.js:72-79 | a click cycles the value of that item only |
| Checklist.ItemText | js/components/wl-checklist.js:42-43 | `Ja` exactly for a done item, `Nee` exactly for a no |
| Checklist.RoundDiv | js/components/wl-checklist.js:106 | the quotient rounded half up: within half a unit of the exact share |
| Checklist.GetProgress | js/components/wl-checklist.js:103-106 | completed counts the yes items; the percentage is the rounded share, 0 for an empty list |
| Checklist.PercentageBounds | js/components/wl-checklist.js:103-106 | the percentage is within 0..100, 100 when all are done and 0 when none are |
| Checklist.RoundedPercentBounds | js/components/wl-checklist.js:106 | any half-up rounding of the percentage of c out of t items lies within 0..100, at the ends exactly |
| FormBase.NewForm | js/models/FormBase.js:42-54 | a new form is a draft, not archived, with no comments or changes and equal creation and update times |
| FormBase.BaseErrors | js/models/FormBase.js:59-66 | one error exactly when `formType` is falsy |
| FormBase.ValidateWith | js/models/FormBase.js:59-66 | the base errors, then one error per empty required field |
| FormBase.ValidateExact | js/models/FormBase.js:59-66 | with distinct fields, each field's error is reported exactly when the field is empty |
| FormBase.ToJson | js/models/FormBase.js:78-80 | a copy of exactly the form's own fields |
| FormBase.FromJson | js/models/FormBase.js:85-88 | the data's fields win; the form's other fields stay |
| FormBase.FromJsonToJson | js/models/FormBase.js:78-88 | loading a form's JSON restores its fields |
| FormBase.SetStatus | js/models/FormBase.js:93-100 | only draft, in_review and approved are written, with the time; any other status leaves the form unchanged |
| FormBase.SetStatusKeepsClosedSet | js/models/FormBase.js:93-100 | a form whose status is one of the three keeps such a status |
| FormBase.AppendItem | js/models/KleinProjectMandaat.js:98-101 | a missing or falsy list becomes a one-element list; an array gets the item appended; anything else fails |
| FormBase.PushInSection | js/models/ICTProjectMandaat.js:108-126 | appends to a list inside a section object, failing when the section is missing |
| IntakeForm.NewIntake | js/models/Intakeformulier.js:9-62 | a new intake is a draft intake form with the seven initial stakeholders |
| IntakeForm.ValidateIntake | js/models/Intakeformulier.js:65-83 | the base errors, then one per empty required intake field |
| IntakeForm.IntakeErrorsExact | js/models/Intakeformulier.js:65-83 | each of onderwerp, aanvrager, inleiding and doel is reported exactly when empty |
| IntakeForm.FreshIntakeErrors | js/models/Intakeformulier.js:13-83 | a fresh intake has exactly the four errors, in order, and is not valid |
| IntakeForm.FreshStakeholders | js/models/Intakeformulier.js:54-62 | a fresh intake lists seven stakeholders, none informed |
| IntakeForm.QuestionsHaveFields | js/models/Intakeformulier.js:95-224 | every question id is a field of the initial `vragen` |
| Mandates.VersionFor | js/models/KleinProjectMandaat.js:85-96 | the version after n entries is 0.(n+1) below ten, then 1.(n-9) |
| Mandates.VersionInjective | js/models/KleinProjectMandaat.js:85-96 | different history lengths give different versions |
| Mandates.AddHistorieEntry | js/models/KleinProjectMandaat.js:85-96 | appends one entry of exactly five fields: the next version, the current date, the given status or `In bewerking`, the author and the changes |
| Mandates.FirstAddedVersion | js/models/KleinProjectMandaat.js:13-15 | the first entry added to a fresh mandate is 0.2 |
| Mandates.AddKeepsNumbering | js/models/KleinProjectMandaat.js:85-96 | added entries keep all versions pairwise distinct |
| Mandates.ValidateKleinProject | js/models/KleinProjectMandaat.js:66-83 | each required field is reported exactly when empty |
| Mandates.AddKkvResultaat | js/models/KleinProjectMandaat.js:98-101 | appends a result to an existing `kkv.resultaten` list; a missing or falsy list becomes the one-element list; a truthy non-list fails, as does a form without a `kkv` object; every other top-level field and every other `kkv` field is kept |
| Mandates.FreshAkkoordRows | js/models/ICTProjectMandaat.js:13-21 | a fresh ICT mandate has seven approval rows, none approved |
| Mandates.ValidateIct | js/models/ICTProjectMandaat.js:83-103 | field errors as required; the approval error exactly when approved with no approval row set |
| Mandates.ApprovalNeedsAkkoord | js/models/ICTProjectMandaat.js:99-103 | an approved mandate without the approval error has an approval |
| Mandates.AddToProject | js/models/ICTProjectMandaat.js:108-126 | appends to a `project` list, creating it; other fields unchanged; fails without a `project` object |
| ImpactAnalysis.AddScenario | js/models/Impactanalyse.js:149-156 | appends an empty, non-preferred scenario with the given name, or `Nieuw scenario` without one |
| ImpactAnalysis.RemoveScenario | js/models/Impactanalyse.js:158-162 | does nothing while one scenario is left; otherwise behaves as `splice(index, 1)`, removing exactly the given index when it is in range |
| ImpactAnalysis.AddRisico | js/models/Impactanalyse.js:164-174 | appends an empty risk numbered one past the length |
| ImpactAnalysis.RemoveRisico | js/models/Impactanalyse.js:176-180 | does nothing while one risk is left; otherwise behaves as `splice(index, 1)`, removing exactly the given index when it is in range |
| ImpactAnalysis.AddRisicoKeepsNumbering | js/models/Impactanalyse.js:164-174 | risk ids stay numbered 1, 2, …, hence distinct |
| ImpactAnalysis.ListsStayNonEmpty | js/models/Impactanalyse.js:158-180 | neither list can be emptied |
| ImpactAnalysis.AddRequirement | js/models/Impactanalyse.js:182-188 | appends the requirement and gives every solution an empty score for it |
| ImpactAnalysis.AddOplossing | js/models/Impactanalyse.js:190-196 | a new solution, named as given or `Nieuwe oplossing`, has an empty score for exactly the current requirements |
| ImpactAnalysis.InitialMatrixConsistent | js/models/Impactanalyse.js:56-63 | the initial matrix scores every requirement |
| ImpactAnalysis.AddRequirementKeepsConsistent | js/models/Impactanalyse.js:182-188 | adding a requirement keeps every solution scoring every requirement |
| ImpactAnalysis.AddOplossingKeepsConsistent | js/models/Impactanalyse.js:190-196 | adding a solution keeps every solution scoring every requirement |
| ImpactAnalysis.ValidateImpact | js/models/Impactanalyse.js:127-147 | each required field is reported exactly when empty |
| Storage.Create | js/data/LocalStorageAdapter.js:20-27 | an id is assigned only when missing or falsy; the object is stored under its key and nothing else changes |
| Storage.Read | js/data/LocalStorageAdapter.js:32-36 | the stored object; null for a missing key or empty text; an error for other unparsable text |
| Storage.CreateThenRead | js/data/LocalStorageAdapter.js:20-36 | what create stored reads back under its id |
| Storage.Update | js/data/LocalStorageAdapter.js:41-44 | forces the id onto the data and stores it under that id; nothing else changes |
| Storage.Delete | js/data/LocalStorageAdapter.js:49-53 | afterwards read gives null; nothing else changes |
| Storage.List | js/data/LocalStorageAdapter.js:58-79 | a permutation of the prefixed, parsed entries of the type, newest update first |
| Sorting.SortBy | js/data/LocalStorageAdapter.js:75-78 | a permutation of its input, ordered on the key in the direction asked |
| Storage.ListOnlyPrefixed | js/data/LocalStorageAdapter.js:58-79 | every listed object comes from an entry under the prefix |
| Storage.CountForms | js/data/LocalStorageAdapter.js:101-103 | the count is the length of the list |
| Storage.Clear | js/data/LocalStorageAdapter.js:84-96 | removes exactly the prefixed entries and reports how many |
| Storage.ClearSplits | js/data/LocalStorageAdapter.js:84-96 | removed and kept entries add up to the store |
| DataService.CreateForm | js/data/DataService.js:14-18 | creation and update times are equal; the form is stored; other fields are kept |
| DataService.UpdateForm | js/data/DataService.js:30-33 | refreshes the update time and stores under the given id |
| DataService.AddComment | js/data/DataService.js:52-70 | fails for a missing form; otherwise the new unresolved comment |
| DataService.AddCommentAppends | js/data/DataService.js:52-70 | the stored comment list gets exactly the new comment appended |
| DataService.GetComments | js/data/DataService.js:75-83 | empty for a missing form; with a section, only that section's comments |
| DataService.SectionFilter | js/data/DataService.js:79-82 | without a section, every comment unchanged; with one, each comment whose `sectionId` is that section, as often as it is stored, and no other |
| DataService.OfSection | js/data/DataService.js:80 | each comment of the section, as often as it is stored, and no other |
| DataService.OfSectionConcat | js/data/DataService.js:80 | a section's comments keep their stored order |
| DataService.SectionFilterConcat | js/data/DataService.js:79-82 | the filtered comments keep their stored order |
| DataService.GetCommentsComplete | js/data/DataService.js:75-83 | every comment of the section is returned |
| DataService.ResolveComment | js/data/DataService.js:88-97 | a missing form changes nothing |
| DataService.MarkResolved | js/data/DataService.js:90-95 | only the first comment with the id gets `resolved: true`; no match leaves the list as it was |
| DataService.ResolveCommentMarksOne | js/data/DataService.js:88-97 | only the first matching comment becomes resolved |
| DataService.ImportFromJson | js/data/DataService.js:109-119 | fails with `Ongeldig JSON formaat` on unparsable text; otherwise a new id and import time, other fields kept |
| Router.Tokenize | js/router.js:42-47 | a literal first character stays a literal |
| Router.Match | js/router.js:48-56 | the parameters bound are exactly the pattern's names, each a non-empty slash-free segment |
| Router.MatchSound | js/router.js:48-56 | when the parameter names are distinct, a matched hash is the pattern filled with the values bound |
| Router.MatchFill | js/router.js:42-56 | a filled-in pattern matches and binds each parameter to its value |
| Router.Register | js/router.js:17-20 | a new pattern is appended; a known one keeps its place with the new handler |
| Router.ParseRoute | js/router.js:39-65 | a found route is not `*` and matches the hash |
| Router.ParseRouteFirstMatch | js/router.js:39-61 | the route found is the first matching one; none is found only when no route matches |
| Router.HandleRoute | js/router.js:70-81 | the matching handler gets the parameters; otherwise the `*` handler gets the path, if registered |
| Router.AsWrittenThrows | js/router.js:39-65 | the source's parse throws once it reaches `*` before a match |
| Router.UnknownHashThrows | js/router.js:39-81 | with the application's routes, an unmatched hash throws as written and falls back as corrected |
| Router.UnknownHashFallsBack | js/router.js:70-81 | a hash no route matches goes to the home fallback |
| Router.GetHash | js/router.js:32-34 | the hash without `#`, `/` when empty |
| Router.ParseFormUrl | js/router.js:126-133 | a result comes only from a hash `#/form/<type>/<id>`, with a non-empty, slash-free type and id |
| Router.FormUrlMatchSound | js/router.js:128 | only `/form/<type>/<id>` matches the form link pattern |
| Router.LocationHash | js/router.js:127 | empty without a `#`; otherwise the text from the first `#` on, so that the URL is its part before it and the hash |
| Router.ShareUrlRoundTrip | js/router.js:97-133 | the hash of a share URL parses back to its type and id |
| Router.ParseFilledFormUrl | js/router.js:126-133 | `#/form/<type>/<id>` parses to that type and id |
| EmailHeaders.ParseHeaders | js/utils/emailParser.js:84-113 | every header name is stored lower-cased |
| EmailHeaders.SplitLines | js/utils/emailParser.js:86 | one line per line-feed piece, a carriage return before each line feed dropped |
| EmailHeaders.Saved | js/utils/emailParser.js:96-98 | the pending header is stored under its lower-cased name; without one nothing changes |
| EmailHeaders.ColonAt | js/utils/emailParser.js:100-101 | the first colon of the line, and only when it is not at the start |
| EmailHeaders.HeaderOr | js/utils/emailParser.js:35-37 | the header when present and non-empty, else the fallback |
| EmailHeaders.RunIsAssign | js/utils/emailParser.js:84-113 | on header lines the parser computes the line-by-line assignment |
| EmailHeaders.RepeatedHeaderKeepsLast | js/utils/emailParser.js:84-113 | a repeated header keeps its last value |
| EmailHeaders.UnfoldContinuation | js/utils/emailParser.js:91-93 | a continuation line is appended after one space |
| EmailHeaders.IgnoredLine | js/utils/emailParser.js:94-105 | a line neither continuing nor starting a header changes nothing |
| MimeText.QDecode | js/utils/emailParser.js:128-130 | decoding never lengthens the text |
| MimeText.DecodeWord | js/utils/emailParser.js:121-136 | Q words are Q-decoded; B words go through `atob`, keeping the text when it fails |
| MimeText.WordAtSpelled | js/utils/emailParser.js:121 | a recognised encoded word is spelled `=?charset?X?text?=` at the start of the text |
| MimeText.PlainHeaderUnchanged | js/utils/emailParser.js:118-137 | a header without `=?` is left as it is |
| MimeText.QRoundTrip | js/utils/emailParser.js:128-130 | Q decoding undoes Q encoding of Latin-1 text |
| MimeText.EncodedWordRoundTrip | js/utils/emailParser.js:118-137 | a header that is one Q word decodes to the encoded text |
| MimeText.RemoveSoftBreaks | js/utils/emailParser.js:214 | never lengthens the text |
| MimeText.DecodeQuotedPrintable | js/utils/emailParser.js:212-215 | never lengthens the text |
| MimeText.RemoveSpace | js/utils/emailParser.js:208 | no white space is left in the base64 text |
| MimeText.DecodeBody | js/utils/emailParser.js:201-219 | empty stays empty; base64 through `atob` with the raw body as fallback; quoted-printable decoded; other encodings unchanged |
| MimeText.QuotedPrintableRoundTrip | js/utils/emailParser.js:212-215 | decoding undoes quoted-printable encoding |
| MimeText.SoftBreakJoins | js/utils/emailParser.js:214 | a soft line break between two encoded texts disappears |
| Multipart.FindParam | js/utils/emailParser.js:142-145 | a parameter value is non-empty and free of stop characters |
| Multipart.ExtractBoundary | js/utils/emailParser.js:142-145 | a boundary is non-empty, without quotes, `;` or white space |
| Multipart.ParamRoundTrip | js/utils/emailParser.js:142-145 | a parameter written quoted or not is read back |
| Multipart.ParseMultipart | js/utils/emailParser.js:150-196 | every part returned is a leaf, nested multiparts flattened |
| Multipart.SectionParts | js/utils/emailParser.js:156-192 | one section gives only leaf parts |
| Multipart.SkippedSections | js/utils/emailParser.js:155-163 | the closing section and a section without a blank line give no part |
| Multipart.LeafSection | js/utils/emailParser.js:165-192 | a non-multipart section gives one part with its headers and trimmed body |
| FromAddress.ParseFromAsWritten | js/utils/emailParser.js:41-47 | without a match the whole header is the address |
| FromAddress.ParseFrom | js/utils/emailParser.js:41-47 | without a `<` there is no display name |
| FromAddress.BareAddressAsWritten | js/utils/emailParser.js:41-47 | as written, a bare address is split before its last local character |
| FromAddress.BareAddressSplit | js/utils/emailParser.js:41-47 | as written, `john@x.com` gives name `joh` and address `n@x.com` |
| FromAddress.BareAddressWhole | js/utils/emailParser.js:41-47 | corrected, a bare address is all address with no name |
| FromAddress.NamedAddress | js/utils/emailParser.js:41-47 | `Name <address>` gives the trimmed name and the address |
| FromAddress.QuotedNamedAddress | js/utils/emailParser.js:41-47 | `"Name" <address>` gives the name between the quotes |
| FromAddress.NameTryDown | js/utils/emailParser.js:41-47 | the greedy name group, tried from its longest length down, keeps the first length after which the rest of the pattern matches |
| EmailBody.CollapseNoTriple | js/utils/emailParser.js:229-230 | after collapsing, no run of three line feeds is left |
| EmailBody.Collapse | js/utils/emailParser.js:230 | collapsing never lengthens the text |
| EmailBody.RemoveSignatures | js/utils/emailParser.js:232 | removing signature lines never lengthens the text |
| EmailBody.CleanBodyAsWritten | js/utils/emailParser.js:224-235 | the result is trimmed |
| EmailBody.CleanBody | js/utils/emailParser.js:224-235 | the result is trimmed and has no run of three line feeds |
| EmailBody.SignatureLeavesTriple | js/utils/emailParser.js:224-235 | as written, `a\n\n--\nb` cleans to a text with three line feeds |
| EmailBody.AsWrittenJoinsFeeds | js/utils/emailParser.js:224-235 | as written, `x\n\n--\ny` cleans to `x\n\n\ny` for any `x` and `y` that are neither dashes nor white space |
| EmailBody.CarriageReturnKept | js/utils/emailParser.js:229-230 | a carriage return before a CRLF survives clean-up |
| EmailBody.FirstParagraph | js/utils/emailParser.js:249 | the first paragraph is a prefix of the text |
| EmailBody.ExtractSummary | js/utils/emailParser.js:240-256 | at most `max` characters and `...`; empty for an empty body |
| EmailBody.QuoteOnlySummary | js/utils/emailParser.js:240-256 | a body that is one quoted line has no summary |
| EmailBody.SingleLineSummary | js/utils/emailParser.js:240-256 | a single unquoted line is trimmed, or cut to `max` and `...` |
| EmailBody.QuotedLineSkipped | js/utils/emailParser.js:243-246 | a quoted line after the text does not change the summary |
| EmailBody.QuotedLineIgnored | js/utils/emailParser.js:240-256 | removing a quoted line from anywhere in a body of lines never changes the summary |
| Eml.SplitMessage | js/utils/emailParser.js:24-30 | headers and body are split at the first CRLF blank line, else the first LF blank line |
| Eml.NoBlankLine | js/utils/emailParser.js:24-30 | without a blank line there are no headers and the body loses its first character |
| Eml.CollectAll | js/utils/emailParser.js:53-67 | every attachment comes from a named part |
| Eml.CollectFindsPlainBody | js/utils/emailParser.js:56-58 | the body is the first text part that decodes to something |
| Eml.NamedPartsAttached | js/utils/emailParser.js:56-66 | a named part is listed as an attachment unless it is plain text while no body is found yet or HTML while no HTML body is found yet |
| Eml.NamedPartsAttachedFromStart | js/utils/emailParser.js:56-66 | from the start of a message: a named part is an attachment when it is not plain text before the reference body and not HTML before the reference HTML body |
| Eml.CollectFindsHtmlBody | js/utils/emailParser.js:56-60 | the HTML body is the first HTML part that decodes to something and is not taken as the plain body |
| Eml.ParseEml | js/utils/emailParser.js:11-79 | corrected: the body is clean, every attachment is named, a display name needs a `<`, and a message without a boundary has no HTML body and no attachments |
| Eml.ParseEmlAsWritten | js/utils/emailParser.js:11-79 | as written: the body is trimmed and every attachment is named; subject, addresses, date, HTML body and attachments agree with the corrected parse, and only sender split and body clean-up differ |
| Eml.MultipartBody | js/utils/emailParser.js:53-79 | corrected: a multipart message's body is its first text part, cleaned |
| Eml.MultipartBodyAsWritten | js/utils/emailParser.js:53-79 | as written: a multipart message's body is its first text part, cleaned by the as-written clean-up |
| Eml.MultipartHtmlBody | js/utils/emailParser.js:53-60 | a multipart message's HTML body is its first HTML part's, in both the corrected and the as-written parse |
| Eml.EmailToIntakeData | js/utils/emailParser.js:261-271 | subject and requester defaults, the summary within 503 characters, attachment names in order, and an error only for an unparsable date |
| Helpers.FormatRelativeTime | js/utils/helpers.js:41-56 | `Zojuist` under a minute; then the whole minutes, hours or days elapsed; the absolute date from seven days on |
| Helpers.RelativeMinutesReadBack | js/utils/helpers.js:41-56 | the number in a minutes text reads back as the whole minutes elapsed |
| Helpers.VariantNibble | js/utils/helpers.js:13-17 | the variant digit is 8 to 11 and keeps the draw's two low bits |
| Helpers.Fill | js/utils/helpers.js:13-17 | the filled template has the template's shape |
| Helpers.FillOnto | js/utils/helpers.js:13-17 | every string of the template's shape is produced by some random source |
| Helpers.FallbackUuid | js/utils/helpers.js:13-17 | 36 characters; dashes at 8, 13, 18 and 23; `4` at 14; 8, 9, a or b at 19; hex digits elsewhere |
| Helpers.FallbackUuidOnto | js/utils/helpers.js:13-17 | every string of that shape is a possible fallback UUID |
| Helpers.StatusLabelsMatchStatuses | js/utils/helpers.js:163-167 | a status has a label exactly when `setStatus` accepts it |
| App.GetFormName | js/app.js:153-166 | the type's name field when truthy, else the type's placeholder; `Naamloos formulier` for an unknown type; never falsy |
| App.SetPath | js/app.js:803-813 | the value reads back along the path; missing or falsy intermediates become objects; other top-level keys unchanged |
| App.SetPathFailsIffBlocked | js/app.js:803-813 | writing fails exactly when a truthy non-object stands on the path |
| App.SetPathKeepsOthers | js/app.js:807-812 | a path diverging from the written one reads as before |
| App.UpdateFormValue | js/app.js:803-813 | the value reads back along the dotted path; keys off the path are unchanged; fails exactly when blocked |
| App.NameReadsBack | js/app.js:153-166 | writing a non-empty name into a form's name field makes it the form's name |
| App.NewFormOfType | js/app.js:171-190 | a form is built exactly for the four known types |
| App.CreateNewForm | js/app.js:171-195 | a form is created exactly for a known type; an unknown type leaves the store unchanged |
| App.CreateNewFormStores | js/app.js:171-195 | a known type's form is stored as a draft of that type under its id, the given id when non-empty, and links to `/form/<type>/<id>` |
| App.FormTypesBuildable | js/utils/helpers.js:137-158 | the keys of `FORM_TYPES` are exactly the buildable types |
| App.NewFormUnnamed | js/app.js:153-190 | a new form of each type shows its type's placeholder name |
| App.CreatedHashParses | js/app.js:171-190 | the link of a created form parses back to its type and id |
| App.Sanitize | js/app.js:871 | length kept; ASCII letters and digits kept; every other character becomes `_` (one per Unicode scalar value) |
| App.SanitizeIdempotent | js/app.js:871 | sanitizing twice equals sanitizing once |
| App.ExportFileName | js/app.js:871-884 | a string name gives type, `-`, the name with each character other than an ASCII letter or digit replaced by `_`, and `.json`; any other name fails |
| App.ExportKeepsSafeName | js/app.js:871-884 | the name part of the file name is made only of safe characters |
| App.PanelComments | js/app.js:780-784 | fails exactly when the comment list is not a list or holds a `null`; otherwise each comment of the section, as often as it is stored, and no other |
| App.PanelCommentsInOrder | js/app.js:780-784 | a panel lists its section's comments in stored order |
| App.PanelMatchesGetComments | js/app.js:780-784 | a panel's comments are those the data service returns for the section |

## Left out

- **Rendering, DOM events and widgets.** This covers `render*`, `setupEvents`, custom-element registration, modals, toasts, `navigate`, and the autosave and debounce timers. None of them decides anything the model states.
- **Whole UI and file-glue components:** `wl-notification-badge`, `wl-form-section`, `wl-header`, `wl-attachments` and `wl-email-dropzone`. They hold no logic beyond presentation, FileReader or list splicing.
- **Browser and platform calls.**
  - `localStorage` is a list of keyed entries.
  - `crypto.randomUUID` is left out. Only its fallback template is modelled.
  - `Math.random`, `atob`, `JSON.parse` and `new Date(...).toISOString()` are function parameters.
  - `navigator.clipboard` and `URL.createObjectURL` are left out.
- **Notification listeners, `subscribe` and `cleanupOld`.** These are event and date plumbing.
- **`escapeHtml`.** It relies on the DOM.
- **Wall-clock time.** Timestamps are integers or opaque texts, and the current time is a parameter. `formatDate` is the `absolute` parameter of `Helpers.FormatRelativeTime`.
- Workflow.CalculateDurations keeps whole-millisecond stays. It leaves out the floating-point `Math.round(hours * 10) / 10`. When a history entry's `to` is `__proto__`, the source's assignment replaces the prototype of the result object and adds no key. The model adds a `__proto__` key.
- Helpers.FormatRelativeTime does not model an invalid date, whose elapsed time is `NaN`.
- **Form type icons in `FORM_TYPES`.** These are presentation.
- App.NewFormOfType builds only some defaults of the two mandates and the impact analysis: the base fields, plus `historie` and `stakeholdersAkkoord`. Their nested empty-text sections are left out, such as `documentgegevens`, `kkv`, `project`, `businesscase` and `header`. No property of the model reads them.
- App.SetPath treats an array on the path as a value it cannot write into, and returns `Err`. The source would set a property on the array.
- App.UpdateFormValue treats inherited property names such as `toString` or `length` as absent.
- Router.Tokenize handles patterns made of literal text and `:name` parameters only. No application pattern uses other regular-expression syntax, apart from `*`.
- MimeText.QDecode maps `=XX` to the character with that code, not to a byte in the named charset.
- EmailBody.CleanBody keeps a carriage return that stands before a CRLF. `CarriageReturnKept` shows this, so "no `\r\n` in the result" is not claimed.
- DataService.GetComments does not model a `null` element of the comment list, on which the source's filter would throw.
- Checklist.GetProgress rounds the exact share of done items half up. It leaves out the floating-point `Math.round((completed / total) * 100)`.
- WorkqueueView.FilteredItems is stated up to the order of items with equal sort keys. It claims the result is sorted and a permutation, not that the sort is stable.
- Strings.Truncate counts characters as Unicode scalar values. JavaScript's `length` and `substring` count UTF-16 code units, so the two agree only on text without characters outside the Basic Multilingual Plane.
- Notifications.NotifyCommentAdded cuts the comment at 50 Unicode scalar values, not at 50 UTF-16 code units as the source does. An emoji near the cut can therefore end up whole where the source would split it.
- EmailBody.ExtractSummary cuts the summary at `max` Unicode scalar values, not at `max` UTF-16 code units.
- App.Sanitize turns each non-ASCII character into one `_`. The source's pattern has no `u` flag, so a character outside the Basic Multilingual Plane, such as an emoji, becomes `__` there.
- Strings.ToLower lowers ASCII letters only. `toLowerCase` also lowers other letters, but it is only applied to header names and charset and encoding names here, which are ASCII.
- DataService.ImportFromJson rejects a JSON array with `Ongeldig JSON formaat`. The source would give the array an `id` and an `importedAt` property and return it. The JSON values of the model have no array that carries named properties.
- DataService.GetComments returns `Err` when the stored `comments` field is truthy but not a list and no section is given. The source returns that value as it is.
- FormBase.ValidateWith reads a required field inside a missing or `null` section as empty. The source's `validate` reads such a field directly and throws a `TypeError`.
- FormBase.PushInSection fails when the section is a list. The source would add the named list as a property of that array.
- Eml.ParseEml and Eml.MultipartBody model the parser with both findings below corrected. Eml.ParseEmlAsWritten and Eml.MultipartBodyAsWritten model it as written.
- Config.QueueConfigFor reads an inherited property name such as `toString` as an unknown role. In the source `WORKQUEUE_CONFIG[role]` yields the inherited function there.
- Config.EffectivePermissions gives an inherited property name the stakeholder permissions. The source's `ROLE_PERMISSIONS[role] ||` keeps the inherited function, which has no permission flags.
- Config.NotificationLabelFor gives no label for an inherited property name. The source's `NOTIFICATION_LABELS[type]` yields the inherited function.
- Workflow.CanTransitionOnNames answers false for a status that is an inherited property name. The source throws a `TypeError` there on `.next.includes`.
- Workflow.AvailableActions gives no actions for a status that is an inherited property name. The source throws a `TypeError` there on `.actions.filter`.
- Workflow.GetWorkqueue gives an empty queue for a role that is an inherited property name. The source throws a `TypeError` there on `config.statuses.includes`.
- Notifications.NewNotification titles a notification whose type is an inherited property name with the type itself. The source takes the inherited function as the title.
- Comments.CommentPermissions gives an inherited role name the stakeholder flags. The source's `FEEDBACK_PERMISSIONS[role] ||` keeps the inherited function, whose flags are all undefined.
- TrackChanges.CanReview gives an inherited role name the stakeholder flags. The source reads the undefined flags of the inherited function.
- WorkqueueView.QueueOf gives an inherited role name the `im` queue. The source's `WORKQUEUE_CONFIG[role] ||` keeps the inherited function.
- Mandates.ValidateIct reads a `stakeholdersAkkoord` that is not a list as no rows, and a `null` row as not approved. The source's `.some(s => s.akkoord === true)` throws a `TypeError` on both.
- DataService.ResolveComment skips a `null` element of the comment list. The source's `find(c => c.id === commentId)` throws a `TypeError` when it reaches one.
- FormBase.FromJson adds nothing for a `data` that is a string or a list. The source's `Object.assign` would add its indexed entries (`"0"`, `"1"`, ...).
- Eml.AttachmentOf measures an attachment's size in Unicode scalar values. The source's `part.body.length` counts UTF-16 code units.
- Router.LocationHash takes the hash from the raw URL text. A browser's `location.hash` would percent-encode characters such as spaces.
- Storage.List puts forms with the same `updatedAt` in the reverse of their stored order. The source's stable sort keeps the stored order, and that order is the browser's key order, so neither promises a particular order.
- Mandates.AddKkvResultaat fails when `kkv` is a list. The source adds `resultaten` as a property of that array and pushes onto it.
- Mandates.AddToProject fails when `project` is a list. The source adds the named list as a property of that array and pushes onto it.
- Workflow.StatusInfo answers (status, "") for a status that names an inherited property, such as `toString`. In the source, `INTAKE_STATUS_LABELS[status]` then finds the inherited function, which is truthy, so `getStatusInfo` returns that function and not the fallback object.
- Workflow.GroupedByStatus drops an intake whose legacy status names an inherited property, such as `toString` or `__proto__`. In the source, `grouped[status]` is then the inherited value, which is truthy, and calling `.push` on it throws a `TypeError`, so `getGroupedByStatus` rejects.
- Workflow.CountByStatus leaves such an intake uncounted. The source's `countByStatus` awaits `getGroupedByStatus`, so it rejects in that case.
- Comments.GroupBySectionIsPartition groups a comment whose section names an inherited property, such as `toString` or `__proto__`, like any other. In the source's `groupBySection`, `grouped[section]` is then the inherited value, which is truthy, so no list is made and `.push` throws a `TypeError`.
- ImpactAnalysis.AddRequirement adds a `__proto__` key to every solution's scores when the requirement is named `__proto__`. In the source, `opl.scores['__proto__'] = ''` only tries to set the prototype, which ignores a string, so no key is added.
- ImpactAnalysis.AddOplossing likewise gives the new solution a `__proto__` score when a requirement has that name. The source adds no such key.
- **The display label tables of `config.js`.** These are `USER_ROLE_LABELS`, `COMMENT_STATUS_LABELS` and the person lists. They are only shown on screen.

## Findings

| source | as written | input that shows it | evidently intended | confidence | as-written member | corrected member |
|---|---|---|---|---|---|---|
| js/router.js:39-65 | `parseRoute` compiles every registered pattern, including `*`, into `^*$`, which is not a valid regular expression and throws | any hash that matches none of `/`, `/formulieren`, `/new/:formType` and `/form/:formType/:formId`, e.g. `/xyz` | an unmatched hash reaches the `*` fallback handler | high, not executed | Router.UnknownHashThrows | Router.UnknownHashFallsBack |
| js/utils/emailParser.js:41-47 | the optional display-name group is greedy and not tied to `<`, so a bare address is split | `From: john@x.com` gives name `joh` and address `n@x.com` | a bare address is all address, with no name | high, not executed | FromAddress.BareAddressSplit | FromAddress.BareAddressWhole |
| js/utils/emailParser.js:224-235 | signature lines are removed after runs of line feeds are collapsed, so the removal can recreate a run of three | body `a\n\n--\nb` cleans to `a\n\n\nb` | the cleaned body has no run of three line feeds | medium, not executed | EmailBody.SignatureLeavesTriple | EmailBody.CleanBody |

=== FILE: app.dfy ===
/** The form logic of the application shell (`app.js`): the name a form is
    shown under, writing a value along a dotted field path, creating a form
    of a chosen type, the file name of an export, and the comments each
    section panel receives. Rendering, navigation and the autosave timer
    are not modelled; the generated id and the clock are parameters. */
module App {
  import opened Wrappers
  import opened Seqs
  import opened Strings
  import opened Json
  import opened FormBase
  import opened Storage
  import opened DataService
  import IntakeForm
  import Mandates
  import Helpers
  import Router

  // ---------------------------------------------------------------------
  // Form names

  /** `form.formType` when it is a string. */
  function TypeOf(form: Form): Option<string> {
    if "formType" in form && form["formType"].Str? then Some(form["formType"].s) else None
  }

  /** Where each form type keeps its name, and the name shown while that
      field is empty. */
  function NameField(formType: Option<string>): Option<(seq<string>, string)> {
    match formType
    case Some("intakeformulier") => Some((["basisinfo", "onderwerp"], "Naamloos intakeformulier"))
    case Some("klein-project-mandaat") => Some((["documentgegevens", "kkvNaam"], "Naamloos KKV"))
    case Some("ict-projectmandaat") => Some((["documentgegevens", "projectnaam"], "Naamloos project"))
    case Some("impactanalyse") => Some((["header", "omschrijving"], "Naamloze impactanalyse"))
    case _ => None
  }

  const UnnamedForm: string := "Naamloos formulier"

  /** `getFormName(form)`: the type's name field when it is truthy (it is
      returned as it is, string or not), else the type's placeholder name;
      a form of an unknown type is `Naamloos formulier`. A name is never
      empty. */
  function GetFormName(form: Form): (r: Value)
    ensures Truthy(r)
    ensures NameField(TypeOf(form)).None? ==> r == Str(UnnamedForm)
    ensures NameField(TypeOf(form)).Some? ==>
      var (path, placeholder) := NameField(TypeOf(form)).value;
      (Filled(form, path) ==> Some(r) == GetPath(Obj(form), path))
      && (!Filled(form, path) ==> r == Str(placeholder))
  {
    match NameField(TypeOf(form))
    case None => Str(UnnamedForm)
    case Some((path, placeholder)) =>
      if Filled(form, path) then GetPath(Obj(form), path).value else Str(placeholder)
  }

  // ---------------------------------------------------------------------
  // Writing along a path

  /** A value on a path that no field can be written to or through: a
      truthy value that is not an object. */
  predicate Blocks(w: Option<Value>) {
    w.Some? && Truthy(w.value) && !w.value.Obj?
  }

  /** The value reached after the first `i` keys of the path blocks it. */
  predicate BlockedAt(v: Value, parts: seq<string>, i: nat)
    requires i <= |parts|
  {
    Blocks(GetPath(v, parts[..i]))
  }

  /** The loop of `updateFormValue` on the object `v`: each key but the
      last steps into its field, first replacing a missing or falsy field
      by `{}`; the last key takes the value. Writing a field of a value that
      is not an object is a `TypeError` (the application runs in strict
      mode). */
  function SetPath(v: Value, parts: seq<string>, value: Value): (r: Result<Value, string>)
    requires |parts| > 0
    ensures r.Ok? ==> v.Obj? && r.value.Obj?
    ensures r.Ok? ==> GetPath(r.value, parts) == Some(value)
    ensures r.Ok? ==> forall k :: k in v.fields && k != parts[0] ==> k in r.value.fields && r.value.fields[k] == v.fields[k]
    ensures r.Ok? ==> r.value.fields.Keys == v.fields.Keys + {parts[0]}
    decreases |parts|
  {
    if !v.Obj? then Err("TypeError: Cannot create property '" + parts[0] + "'")
    else if |parts| == 1 then
      var r := Obj(v.fields[parts[0] := value]);
      assert GetPath(r, parts) == GetPath(value, parts[1..]);
      Ok(r)
    else
      var child := if parts[0] in v.fields && Truthy(v.fields[parts[0]]) then v.fields[parts[0]] else Obj(map[]);
      var inner :- SetPath(child, parts[1..], value);
      var r := Obj(v.fields[parts[0] := inner]);
      assert GetPath(r, parts) == GetPath(inner, parts[1..]);
      Ok(r)
  }

  /** Writing into a fresh `{}` never fails. */
  lemma {:induction false} SetPathIntoEmpty(parts: seq<string>, value: Value)
    requires |parts| > 0
    ensures SetPath(Obj(map[]), parts, value).Ok?
    decreases |parts|
  {
    if |parts| > 1 {
      SetPathIntoEmpty(parts[1..], value);
    }
  }

  /** A path that goes on past a missing or falsy value reads nothing. */
  lemma PastFalsy(v: Value, parts: seq<string>, i: nat, j: nat)
    requires 0 < i < j <= |parts|
    requires GetPath(v, parts[..i]).None? || !Truthy(GetPath(v, parts[..i]).value)
    ensures GetPath(v, parts[..j]).None?
    decreases i
  {
    assert parts[..j][..i] == parts[..i];
    GetPathPrefix(v, parts[..j], i);
  }

  /** Following a path in two steps. */
  lemma {:induction false} GetPathPrefix(v: Value, path: seq<string>, i: nat)
    requires i <= |path|
    ensures GetPath(v, path) == (match GetPath(v, path[..i]) case None => None case Some(w) => GetPath(w, path[i..]))
    decreases i
  {
    if i > 0 {
      assert path[..i][1..] == path[1..][..i - 1];
      assert path[i..] == path[1..][i - 1..];
      match Get(v, path[0])
      case None =>
      case Some(w) => GetPathPrefix(w, path[1..], i - 1);
    }
  }

  /** `updateFormValue` fails exactly when a truthy value that is not an
      object stands on the path before its last key. */
  lemma {:induction false} SetPathFailsIffBlocked(v: Value, parts: seq<string>, value: Value)
    requires |parts| > 0 && v.Obj?
    ensures SetPath(v, parts, value).Err? <==> exists i :: 0 < i < |parts| && BlockedAt(v, parts, i)
    decreases |parts|
  {
    if |parts| > 1 {
      var rest := parts[1..];
      var field := Get(v, parts[0]);
      assert GetPath(v, parts[..1]) == field by {
        assert parts[..1][1..] == [];
      }
      forall j | 0 < j < |rest| ensures BlockedAt(v, parts, j + 1) == (field.Some? && BlockedAt(field.value, rest, j)) {
        assert parts[..j + 1][0] == parts[0] && parts[..j + 1][1..] == rest[..j];
      }
      if field.Some? && Truthy(field.value) {
        var child := field.value;
        if child.Obj? {
          SetPathFailsIffBlocked(child, rest, value);
          if SetPath(v, parts, value).Err? {
            var j :| 0 < j < |rest| && BlockedAt(child, rest, j);
            assert BlockedAt(v, parts, j + 1);
          } else {
            forall i | 0 < i < |parts| ensures !BlockedAt(v, parts, i) {
              if i > 1 {
                assert !BlockedAt(child, rest, i - 1);
              }
            }
          }
        } else {
          assert BlockedAt(v, parts, 1);
        }
      } else {
        SetPathIntoEmpty(rest, value);
        forall i | 0 < i < |parts| ensures !BlockedAt(v, parts, i) {
          if i > 1 {
            PastFalsy(v, parts, 1, i);
          }
        }
      }
    }
  }

  /** Writing along a path leaves every path that leaves it where it
      stood: `q` agrees with the written path on its first `i` keys and
      then takes another key. */
  lemma {:induction false} SetPathKeepsOthers(v: Value, parts: seq<string>, value: Value, q: seq<string>, i: nat)
    requires |parts| > 0 && SetPath(v, parts, value).Ok?
    requires i < |q| && i < |parts| && q[..i] == parts[..i] && q[i] != parts[i]
    ensures GetPath(SetPath(v, parts, value).value, q) == GetPath(v, q)
    decreases i
  {
    var r := SetPath(v, parts, value).value;
    if i > 0 {
      assert q[0] == q[..i][0] == parts[..i][0] == parts[0];
      var child := if parts[0] in v.fields && Truthy(v.fields[parts[0]]) then v.fields[parts[0]] else Obj(map[]);
      var inner := SetPath(child, parts[1..], value).value;
      assert q[1..][..i - 1] == q[..i][1..] == parts[..i][1..] == parts[1..][..i - 1];
      SetPathKeepsOthers(child, parts[1..], value, q[1..], i - 1);
      assert GetPath(r, q) == GetPath(inner, q[1..]);
      if !(parts[0] in v.fields && Truthy(v.fields[parts[0]])) {
        assert GetPath(Obj(map[]), q[1..]) == None;
      }
    }
  }

  /** `updateFormValue(path, value)` on the current form: the path text is
      split on `.`. Afterwards the path leads to the value, and the form's
      other fields are as they were. */
  function UpdateFormValue(form: Form, path: string, value: Value): (r: Result<Form, string>)
    ensures r.Ok? ==> GetPath(Obj(r.value), Split(path, ".")) == Some(value)
    ensures r.Ok? ==> forall k :: k in form && k != FirstPiece(path, ".") ==> k in r.value && r.value[k] == form[k]
    ensures r.Err? <==> exists i :: 0 < i < |Split(path, ".")| && BlockedAt(Obj(form), Split(path, "."), i)
  {
    var parts := Split(path, ".");
    SetPathFailsIffBlocked(Obj(form), parts, value);
    match SetPath(Obj(form), parts, value)
    case Ok(written) => Ok(written.fields)
    case Err(e) => Err(e)
  }

  /** Writing a non-empty name into a form's name field renames it. */
  lemma NameReadsBack(form: Form, name: string)
    requires NameField(TypeOf(form)).Some? && name != ""
    requires SetPath(Obj(form), NameField(TypeOf(form)).value.0, Str(name)).Ok?
    ensures GetFormName(SetPath(Obj(form), NameField(TypeOf(form)).value.0, Str(name)).value.fields) == Str(name)
  {
    var path := NameField(TypeOf(form)).value.0;
    var r := SetPath(Obj(form), path, Str(name)).value;
    assert path[0] != "formType";
    assert TypeOf(r.fields) == TypeOf(form);
    assert Filled(r.fields, path);
  }

  // ---------------------------------------------------------------------
  // Creating a form

  /** The constructor `createNewForm` calls for a form type. The
      intake is built in full; the two mandates carry the base defaults and
      the lists their models here follow, and the impact analysis the base
      defaults. */
  function NewFormOfType(formType: string, id: string, now: string): (r: Option<Form>)
    ensures r.Some? <==> formType in Helpers.FormTypes
    ensures r.Some? ==> "formType" in r.value && r.value["formType"] == Str(formType)
    ensures r.Some? ==> "id" in r.value && r.value["id"] == Str(id)
    ensures r.Some? ==> "status" in r.value && r.value["status"] == Str("draft")
  {
    if formType == "intakeformulier" then Some(IntakeForm.NewIntake(id, now))
    else if formType == "klein-project-mandaat" then
      Some(NewForm(formType, id, now)["historie" := Arr(Mandates.InitialHistorie)])
    else if formType == "ict-projectmandaat" then
      Some(NewForm(formType, id, now)["stakeholdersAkkoord" := Arr(Mandates.InitialAkkoord)])
    else if formType == "impactanalyse" then Some(NewForm(formType, id, now))
    else None
  }

  /** What `createNewForm` leaves behind: the stored form and the hash it
      navigates to. */
  datatype Created = Created(form: Form, hash: string)

  /** `createNewForm(formType)`: an unknown type stores nothing; a known
      one builds the form, stores it through `createForm` and navigates to
      `/form/<type>/<id>`. */
  function CreateNewForm(store: Store, prefix: string, formType: string, id: string, now: string, freshId: string)
    : (r: (Store, Option<Created>))
    requires DistinctKeys(store)
    ensures DistinctKeys(r.0)
    ensures r.1.None? <==> formType !in Helpers.FormTypes
    ensures r.1.None? ==> r.0 == store
  {
    match NewFormOfType(formType, id, now)
    case None => (store, None)
    case Some(form) =>
      var (s, c) := StoreNewForm(store, prefix, form, now, freshId);
      (s, Some(c))
  }

  /** A known type's form is stored as a draft of that type under its id,
      the id given when there is one, and the page navigated to is
      `/form/<type>/<id>`. */
  lemma CreateNewFormStores(store: Store, prefix: string, formType: string, id: string, now: string, freshId: string)
    requires DistinctKeys(store) && formType in Helpers.FormTypes
    ensures var r := CreateNewForm(store, prefix, formType, id, now, freshId);
      var saved := r.1.value.form;
      "id" in saved && GetItem(r.0, KeyOf(prefix, saved["id"])) == Some(Record(saved))
      && "formType" in saved && saved["formType"] == Str(formType)
      && "status" in saved && saved["status"] == Str("draft")
      && r.1.value.hash == "/form/" + formType + "/" + ToText(saved["id"])
      && (id != "" ==> saved["id"] == Str(id))
  {
    var form := NewFormOfType(formType, id, now).value;
    var (s, c) := StoreNewForm(store, prefix, form, now, freshId);
    assert CreateNewForm(store, prefix, formType, id, now, freshId) == (s, Some(c));
  }

  /** Storing a freshly built form and the hash of its page. */
  function StoreNewForm(store: Store, prefix: string, form: Form, now: string, freshId: string)
    : (r: (Store, Created))
    requires DistinctKeys(store)
    requires "formType" in form && form["formType"].Str? && "id" in form && "status" in form
    ensures DistinctKeys(r.0)
    ensures var saved := r.1.form;
      "id" in saved && GetItem(r.0, KeyOf(prefix, saved["id"])) == Some(Record(saved))
      && "formType" in saved && saved["formType"] == form["formType"]
      && "status" in saved && saved["status"] == form["status"]
      && r.1.hash == "/form/" + form["formType"].s + "/" + ToText(saved["id"])
    ensures Truthy(form["id"]) ==> r.1.form["id"] == form["id"]
  {
    var (s, saved) := CreateForm(store, prefix, ToJson(form).fields, now, freshId);
    (s, Created(saved, "/form/" + form["formType"].s + "/" + ToText(saved["id"])))
  }

  /** The form types that have a label are the ones a form can be created
      of. */
  lemma FormTypesBuildable(formType: string, id: string, now: string)
    ensures formType in Helpers.FormTypes <==> NewFormOfType(formType, id, now).Some?
    ensures formType in Helpers.FormTypes <==> NameField(Some(formType)).Some?
  {
  }

  /** A new form is shown under its type's placeholder name. */
  lemma NewFormUnnamed(formType: string, id: string, now: string)
    requires formType in Helpers.FormTypes
    ensures GetFormName(NewFormOfType(formType, id, now).value) == Str(NameField(Some(formType)).value.1)
  {
    var f := NewFormOfType(formType, id, now).value;
    var path := NameField(Some(formType)).value.0;
    if formType == "intakeformulier" {
      IntakeNameEmpty(id, now);
    } else {
      NoNameSection(formType, id, now, path[0]);
      MissingSectionUnfilled(f, path);
    }
    UnnamedWhenEmpty(f, formType);
  }

  /** A form whose name field is empty shows its type's placeholder. */
  lemma UnnamedWhenEmpty(f: Form, formType: string)
    requires "formType" in f && f["formType"] == Str(formType)
    requires NameField(Some(formType)).Some? && !Filled(f, NameField(Some(formType)).value.0)
    ensures GetFormName(f) == Str(NameField(Some(formType)).value.1)
  {
    assert TypeOf(f) == Some(formType);
  }

  /** A path whose first key is missing is not filled in. */
  lemma MissingSectionUnfilled(f: Form, path: seq<string>)
    requires |path| > 0 && path[0] !in f
    ensures !Filled(f, path)
  {
  }

  lemma IntakeNameEmpty(id: string, now: string)
    ensures !Filled(IntakeForm.NewIntake(id, now), ["basisinfo", "onderwerp"])
  {
    IntakeForm.ShapeEmptyAt(IntakeForm.NewIntake(id, now), 0);
    assert IntakeForm.IntakeChecks[0].path == ["basisinfo", "onderwerp"];
  }

  /** The two mandates and the impact analysis start without the section
      their name lives in. */
  lemma NoNameSection(formType: string, id: string, now: string, section: string)
    requires formType in Helpers.FormTypes && formType != "intakeformulier"
    requires section == "documentgegevens" || section == "header"
    ensures section !in NewFormOfType(formType, id, now).value
  {
    MandateKeys(formType, id, now);
    NotAMandateKey(section);
  }

  lemma NotAMandateKey(section: string)
    requires section == "documentgegevens" || section == "header"
    ensures section !in BaseKeys + {"historie", "stakeholdersAkkoord"}
  {
    assert section[0] == 'd' || section[0] == 'h';
    assert section != "historie";
  }

  /** The fields a new form of a type other than the intake starts with. */
  lemma MandateKeys(formType: string, id: string, now: string)
    requires formType in Helpers.FormTypes && formType != "intakeformulier"
    ensures NewFormOfType(formType, id, now).value.Keys <= BaseKeys + {"historie", "stakeholdersAkkoord"}
  {
  }

  /** The hash a new form navigates to is the one the router reads its
      type and id back from. */
  lemma CreatedHashParses(store: Store, prefix: string, formType: string, id: string, now: string, freshId: string)
    requires DistinctKeys(store) && formType in Helpers.FormTypes
    requires id != "" && forall i :: 0 <= i < |id| ==> id[i] != '/'
    ensures var c := CreateNewForm(store, prefix, formType, id, now, freshId).1.value;
      Router.ParseFormUrl("#" + c.hash) == Some((formType, id))
  {
    CreateNewFormStores(store, prefix, formType, id, now, freshId);
    var c := CreateNewForm(store, prefix, formType, id, now, freshId).1.value;
    KnownTypeSlashFree(formType);
    PrependHash(formType, id, c.hash);
    Router.ParseFilledFormUrl("#" + c.hash, formType, id);
  }

  /** No form type holds a `/`. */
  lemma KnownTypeSlashFree(formType: string)
    requires formType in Helpers.FormTypes
    ensures formType != "" && forall i :: 0 <= i < |formType| ==> formType[i] != '/'
  {
    assert formType in {"intakeformulier", "klein-project-mandaat", "ict-projectmandaat", "impactanalyse"};
  }

  lemma PrependHash(formType: string, id: string, hash: string)
    requires hash == "/form/" + formType + "/" + id
    ensures "#" + hash == "#/form/" + formType + "/" + id
  {
    assert "#" + "/form/" == "#/form/";
  }

  // ---------------------------------------------------------------------
  // Export file names

  predicate IsAsciiAlnum(c: char) {
    'a' <= c <= 'z' || 'A' <= c <= 'Z' || '0' <= c <= '9'
  }

  /** A character a file name may keep. */
  predicate IsSafe(c: char) {
    IsAsciiAlnum(c) || c == '_'
  }

  /** `s.replace(/[^a-z0-9]/gi, '_')`: letters and digits of ASCII stay
      where they are and every other character becomes `_`. */
  function Sanitize(s: string): (r: string)
    ensures |r| == |s|
    ensures forall i :: 0 <= i < |r| ==> IsSafe(r[i])
    ensures forall i :: 0 <= i < |s| ==> (IsAsciiAlnum(s[i]) <==> IsAsciiAlnum(r[i]))
    ensures forall i :: 0 <= i < |s| ==> r[i] == s[i] || r[i] == '_'
  {
    seq(|s|, i requires 0 <= i < |s| => if IsAsciiAlnum(s[i]) then s[i] else '_')
  }

  /** A name made only of safe characters is kept as it is, so sanitizing
      twice changes nothing more. */
  lemma SanitizeKeepsSafe(s: string)
    requires forall i :: 0 <= i < |s| ==> IsSafe(s[i])
    ensures Sanitize(s) == s
  {
  }

  lemma SanitizeIdempotent(s: string)
    ensures Sanitize(Sanitize(s)) == Sanitize(s)
  {
    SanitizeKeepsSafe(Sanitize(s));
  }

  /** `${form.formType}`: the type as text, `undefined` when missing. */
  function TypeText(form: Form): string {
    if "formType" in form then ToText(form["formType"]) else "undefined"
  }

  /** The export file name `<type>-<name>.json`, the name sanitized. A
      name that is not a string has no `replace`: a `TypeError`. */
  function ExportFileName(form: Form): (r: Result<string, string>)
    ensures r.Ok? <==> GetFormName(form).Str?
    ensures r.Ok? ==> var name := GetFormName(form).s;
      exists safe :: r.value == TypeText(form) + "-" + safe + ".json"
        && |safe| == |name|
        && (forall i :: 0 <= i < |safe| ==> IsSafe(safe[i]) && safe[i] == (if IsAsciiAlnum(name[i]) then name[i] else '_'))
  {
    match GetFormName(form)
    case Str(name) => Ok(TypeText(form) + "-" + Sanitize(name) + ".json")
    case _ => Err("TypeError: replace is not a function")
  }

  /** The file name of a form of a known type whose name is safe holds
      that name unchanged. */
  lemma ExportKeepsSafeName(form: Form, name: string)
    requires GetFormName(form) == Str(name)
    requires forall i :: 0 <= i < |name| ==> IsSafe(name[i])
    ensures ExportFileName(form) == Ok(TypeText(form) + "-" + name + ".json")
  {
    SanitizeKeepsSafe(name);
  }

  // ---------------------------------------------------------------------
  // Section comments

  /** `(form.comments || []).filter(c => c.sectionId === sectionId)`: a
      comment list that is not an array has no `filter`, and a `null`
      comment has no `sectionId`; both are `TypeError`s. */
  function PanelComments(form: Form, sectionId: string): (r: Result<seq<Value>, string>)
    ensures r.Ok? <==> CommentsOf(form).Ok? && forall i :: 0 <= i < |CommentsOf(form).value| ==> CommentsOf(form).value[i] != Null
    ensures r.Ok? ==> forall c :: c in r.value <==> c in CommentsOf(form).value && Get(c, "sectionId") == Some(Str(sectionId))
    ensures r.Ok? ==> |r.value| <= |CommentsOf(form).value|
    ensures r.Ok? ==> forall c :: multiset(r.value)[c] == if InSection(c, sectionId) then multiset(CommentsOf(form).value)[c] else 0
  {
    var comments :- CommentsOf(form);
    if exists i :: 0 <= i < |comments| && comments[i] == Null then Err("TypeError: Cannot read properties of null")
    else Ok(OfSection(comments, sectionId))
  }

  /** A panel lists its section's comments in stored order: split the
      stored list anywhere and the panel's list splits with it. */
  lemma PanelCommentsInOrder(form: Form, sectionId: string, a: seq<Value>, b: seq<Value>)
    requires CommentsOf(form) == Ok(a + b)
    requires PanelComments(form, sectionId).Ok?
    ensures PanelComments(form, sectionId).value == OfSection(a, sectionId) + OfSection(b, sectionId)
  {
    OfSectionConcat(a, b, sectionId);
  }

  /** A panel shows what `getComments` returns for its section. */
  lemma PanelMatchesGetComments(store: Store, prefix: string, formId: string, form: Form, sectionId: string)
    requires Read(store, prefix, formId) == Ok(Some(form)) && sectionId != ""
    requires PanelComments(form, sectionId).Ok?
    ensures GetComments(store, prefix, formId, sectionId) == PanelComments(form, sectionId)
  {
  }
}

=== FILE: checklist.dfy ===
/** The mandate checklist (`wl-checklist`): items with a yes / no / unset
    `waarde` and the progress figure shown above them. */
module Checklist {
  import opened Wrappers
  import opened Seqs
  import opened Json
  import opened TriState

  /** One checklist item, as the object it is stored as. */
  type Item = map<string, Value>

  function Waarde(item: Item): Option<Value> {
    if "waarde" in item then Some(item["waarde"]) else None
  }

  predicate IsDone(item: Item) {
    Waarde(item) == Some(Bool(true))
  }

  /** A click on the button of item `index`. */
  function ToggleWaarde(items: seq<Item>, index: nat): (r: seq<Item>)
    requires index < |items|
    ensures |r| == |items| && r[index] == items[index]["waarde" := Cycle(Waarde(items[index]))]
    ensures forall j :: 0 <= j < |items| && j != index ==> r[j] == items[j]
  {
    items[index := items[index]["waarde" := Cycle(Waarde(items[index]))]]
  }

  /** The text shown for an item. */
  function ItemText(item: Item): (t: string)
    ensures t == "Ja" <==> IsDone(item)
    ensures t == "Nee" <==> Waarde(item) == Some(Bool(false))
  {
    DisplayText(Waarde(item))
  }

  /** `getProgress()`. */
  datatype Progress = Progress(total: nat, completed: nat, percentage: nat)

  /** `Math.round(x)` for a non-negative fraction `num / den`: the nearest
      integer, halves rounded up. */
  function RoundDiv(num: nat, den: nat): (r: nat)
    requires den > 0
    ensures 2 * r * den <= 2 * num + den < 2 * r * den + 2 * den
  {
    (2 * num + den) / (2 * den)
  }

  /** The number of items marked yes, the total, and the rounded
      percentage (0 for an empty list). */
  function GetProgress(items: seq<Item>): (p: Progress)
    ensures p.total == |items|
    ensures p.completed == Count(items, IsDone) && p.completed <= p.total
    ensures p.total == 0 ==> p.percentage == 0
    ensures p.total > 0 ==>
      2 * p.percentage * p.total <= 200 * p.completed + p.total < 2 * p.percentage * p.total + 2 * p.total
  {
    var total := |items|;
    var completed := Count(items, IsDone);
    Progress(total, completed, if total > 0 then RoundDiv(100 * completed, total) else 0)
  }

  /** The percentage stays within 0..100 and is 100 when every item is done.
      It can also be 100 with one item open (199 of 200 rounds up). */
  lemma PercentageBounds(items: seq<Item>)
    ensures GetProgress(items).percentage <= 100
    ensures |items| > 0 && GetProgress(items).completed == |items| ==> GetProgress(items).percentage == 100
    ensures GetProgress(items).completed == 0 ==> GetProgress(items).percentage == 0
  {
    var p := GetProgress(items);
    if p.total > 0 {
      RoundedPercentBounds(p.completed, p.total, p.percentage);
    }
  }

  lemma RoundedPercentBounds(c: nat, t: nat, p: nat)
    requires 0 < t && c <= t
    requires 2 * p * t <= 200 * c + t < 2 * p * t + 2 * t
    ensures p <= 100
    ensures c == t ==> p == 100
    ensures c == 0 ==> p == 0
  {
    CancelFactor(2 * p, 201, t);
    if c == t {
      CancelFactorStrict(201, 2 * p + 2, t);
    }
    if c == 0 {
      CancelFactor(2 * p, 1, t);
    }
  }

  lemma CancelFactor(x: int, y: int, t: int)
    requires t > 0 && x * t <= y * t
    ensures x <= y
  {
  }

  lemma CancelFactorStrict(x: int, y: int, t: int)
    requires t > 0 && x * t < y * t
    ensures x < y
  {
  }
}

=== FILE: comments.dfy ===
/** Comments on form sections and fields, with the open / verwerkt /
    afgewezen lifecycle and one level of replies: the logic shared by the
    comment panel (`wl-comment-panel`), the margin comments of one field
    (`wl-field-comment`) and the overview sidebar (`wl-comment-sidebar`). */
module Comments {
  import opened Wrappers
  import opened Seqs
  import opened Strings
  import opened Config
  import TrackChanges

  /** A reply under a comment. */
  datatype Reply = Reply(id: string, text: string, author: string, authorRole: string,
                         createdAt: int, parentCommentId: string)

  /** A comment. `status` is the raw text, empty when missing; `kind` is
      `section` or `field`. */
  datatype Comment = Comment(
    id: string,
    kind: string,
    sectionId: string,
    fieldPath: Option<string>,
    text: string,
    status: string,
    statusChangedAt: Option<int>,
    statusChangedBy: Option<string>,
    statusReason: Option<string>,
    author: string,
    authorRole: string,
    createdAt: int,
    updatedAt: int,
    parentCommentId: Option<string>,
    replies: seq<Reply>)

  /** The user working in the component. */
  datatype CurrentUser = CurrentUser(name: string, role: string)

  /** The flags of the component's `user-role` attribute. */
  function CommentPermissions(roleAttribute: string): (p: Permissions)
    ensures PermissionsFor(roleAttribute).None? ==> p == StakeholderPermissions
    ensures PermissionsFor(roleAttribute).Some? ==> p == PermissionsFor(roleAttribute).value
  {
    EffectivePermissions(FeedbackRole(roleAttribute))
  }

  /** Whether the filter `filter` shows comment `c`. */
  predicate Passes(c: Comment, filter: string) {
    filter == "all" || c.status == filter
  }

  /** `getFilteredComments` of the panel and the sidebar: all comments for
      the filter `all`, otherwise those whose status is the filter, each as
      often as stored and in stored order (`FilteredCommentsConcat`). */
  function FilteredComments(comments: seq<Comment>, filter: string): (r: seq<Comment>)
    ensures filter == "all" ==> r == comments
    ensures filter != "all" ==> |r| == CountByStatus(comments, filter)
    ensures filter != "all" ==> forall i :: 0 <= i < |r| ==> r[i] in comments && r[i].status == filter
    ensures filter != "all" ==> forall i :: 0 <= i < |comments| && comments[i].status == filter ==> comments[i] in r
    ensures forall c :: multiset(r)[c] == if Passes(c, filter) then multiset(comments)[c] else 0
  {
    if filter == "all" then comments
    else
      FilterMultiset(comments, (c: Comment) => c.status == filter);
      Filter(comments, (c: Comment) => c.status == filter)
  }

  lemma FilteredCommentsConcat(a: seq<Comment>, b: seq<Comment>, filter: string)
    ensures FilteredComments(a + b, filter) == FilteredComments(a, filter) + FilteredComments(b, filter)
  {
    if filter != "all" {
      FilterConcat(a, b, (c: Comment) => c.status == filter);
    }
  }

  /** `countByStatus(status)`: the number of comments carrying `status`. */
  function CountByStatus(comments: seq<Comment>, status: string): (n: nat)
    ensures n <= |comments|
    ensures n == |set i | 0 <= i < |comments| && comments[i].status == status|
  {
    var p := (c: Comment) => c.status == status;
    CountIndices(comments, p);
    assert IndicesWhere(comments, p) == set i | 0 <= i < |comments| && comments[i].status == status;
    Count(comments, p)
  }

  /** When every comment carries one of the three statuses, the three
      counts add up to the number of comments. */
  lemma {:induction false} CountsCoverAll(comments: seq<Comment>)
    requires forall i :: 0 <= i < |comments| ==>
      comments[i].status in {CommentOpen, CommentVerwerkt, CommentAfgewezen}
    ensures CountByStatus(comments, CommentOpen) + CountByStatus(comments, CommentVerwerkt)
            + CountByStatus(comments, CommentAfgewezen) == |comments|
  {
    if |comments| > 0 {
      assert comments[0].status in {CommentOpen, CommentVerwerkt, CommentAfgewezen};
      CountsCoverAll(comments[1..]);
    }
  }

  /** The status a comment is shown with: `open` when it has none. */
  function ShownStatus(c: Comment): (s: string)
    ensures s != ""
  {
    if c.status != "" then c.status else CommentOpen
  }

  /** The status buttons the panel and the field comment offer. */
  function StatusActions(c: Comment, p: Permissions): (r: seq<string>)
    ensures CommentVerwerkt in r <==> ShownStatus(c) == CommentOpen && p.canResolve
    ensures CommentAfgewezen in r <==> ShownStatus(c) == CommentOpen && p.canReject
    ensures CommentOpen in r <==> ShownStatus(c) != CommentOpen && p.canReopen
  {
    if ShownStatus(c) == CommentOpen then
      (if p.canResolve then [CommentVerwerkt] else []) + (if p.canReject then [CommentAfgewezen] else [])
    else if p.canReopen then [CommentOpen]
    else []
  }

  /** The delete button is offered for an own comment or reply when the role
      may delete its own, and for any when it may delete all. */
  predicate CanDelete(author: string, user: CurrentUser, p: Permissions) {
    (author == user.name && p.canDeleteOwnComments) || p.canDeleteAllComments
  }

  /** A stakeholder or client sees no status buttons and may delete only
      their own comments; the information manager may delete everything. */
  lemma RoleGating(c: Comment, user: CurrentUser, role: string)
    ensures role == "stakeholder" || role == "klant" ==>
      StatusActions(c, CommentPermissions(role)) == []
      && (CanDelete(c.author, user, CommentPermissions(role)) <==> c.author == user.name)
    ensures role == "informatiemanager" ==> CanDelete(c.author, user, CommentPermissions(role))
  {
    PermissionShape(role);
  }

  /** A new comment: open, with no status history and no replies. */
  function NewComment(id: string, kind: string, sectionId: string, fieldPath: Option<string>, text: string,
                      author: string, authorRole: string, now: int): (c: Comment)
    ensures c.status == CommentOpen && c.replies == [] && c.parentCommentId.None?
    ensures c.statusChangedAt.None? && c.statusChangedBy.None? && c.statusReason.None?
    ensures c.id == id && c.kind == kind && c.sectionId == sectionId && c.fieldPath == fieldPath
    ensures c.text == text && c.author == author && c.authorRole == authorRole
    ensures c.createdAt == now && c.updatedAt == now
  {
    Comment(id, kind, sectionId, fieldPath, text, CommentOpen, None, None, None, author, authorRole,
            now, now, None, [])
  }

  /** The panel's `addComment(text, author, authorRole)`: appends one
      section comment; empty author and role fall back to the current user. */
  function AddComment(comments: seq<Comment>, sectionId: string, text: string, author: string,
                      authorRole: string, user: CurrentUser, id: string, now: int): (r: seq<Comment>)
    ensures |r| == |comments| + 1 && r[..|comments|] == comments
    ensures var c := r[|comments|];
      c.kind == "section" && c.sectionId == sectionId && c.fieldPath.None? && c.text == text
      && c.status == CommentOpen && c.replies == [] && c.statusReason.None? && c.statusChangedBy.None?
      && c.author == (if author != "" then author else user.name)
      && c.authorRole == (if authorRole != "" then authorRole else user.role)
    ensures var c := r[|comments|];
      c.id == id && c.createdAt == now && c.updatedAt == now
      && c.statusChangedAt.None? && c.parentCommentId.None?
  {
    comments + [NewComment(id, "section", sectionId, None, text,
                           if author != "" then author else user.name,
                           if authorRole != "" then authorRole else user.role, now)]
  }

  /** The section a field path belongs to: its text before the first `.`. */
  function SectionOf(fieldPath: string): (r: string)
    ensures StartsWith(fieldPath, r) && '.' !in r
    ensures r == fieldPath || (|r| < |fieldPath| && fieldPath[|r|] == '.')
  {
    var r := FirstPiece(fieldPath, ".");
    assert "." == ['.'];
    ContainsChar(r, '.');
    r
  }

  /** The field comment's `addComment(text)`: appends one field comment in
      the section its path starts with. */
  function AddFieldComment(comments: seq<Comment>, fieldPath: string, text: string, user: CurrentUser,
                           id: string, now: int): (r: seq<Comment>)
    ensures |r| == |comments| + 1 && r[..|comments|] == comments
    ensures var c := r[|comments|];
      c.kind == "field" && c.fieldPath == Some(fieldPath) && c.sectionId == SectionOf(fieldPath)
      && c.status == CommentOpen && c.replies == [] && c.author == user.name && c.authorRole == user.role
    ensures var c := r[|comments|];
      c.text == text && c.id == id && c.createdAt == now && c.updatedAt == now
      && c.statusChangedAt.None? && c.statusChangedBy.None? && c.statusReason.None? && c.parentCommentId.None?
  {
    comments + [NewComment(id, "field", SectionOf(fieldPath), Some(fieldPath), text, user.name, user.role, now)]
  }

  /** `getOpenComments`: the comments whose status is `open`. */
  function OpenComments(comments: seq<Comment>): (r: seq<Comment>)
    ensures forall i :: 0 <= i < |r| ==> r[i] in comments && r[i].status == CommentOpen
    ensures forall i :: 0 <= i < |comments| && comments[i].status == CommentOpen ==> comments[i] in r
    ensures forall c :: multiset(r)[c] == if c.status == CommentOpen then multiset(comments)[c] else 0
  {
    FilterMultiset(comments, (c: Comment) => c.status == CommentOpen);
    Filter(comments, (c: Comment) => c.status == CommentOpen)
  }

  /** `getOpenComments` keeps the stored order. */
  lemma OpenCommentsConcat(a: seq<Comment>, b: seq<Comment>)
    ensures OpenComments(a + b) == OpenComments(a) + OpenComments(b)
  {
    FilterConcat(a, b, (c: Comment) => c.status == CommentOpen);
  }

  /** The position of the first comment with `id`. */
  function IndexOfId(comments: seq<Comment>, id: string): (r: Option<nat>)
    ensures r.Some? ==> r.value < |comments| && comments[r.value].id == id
    ensures r.Some? ==> forall j :: 0 <= j < r.value ==> comments[j].id != id
    ensures r.None? <==> forall j :: 0 <= j < |comments| ==> comments[j].id != id
  {
    FindIndex(comments, (c: Comment) => c.id == id)
  }

  /** `addReply(parentId, text)`: nothing happens without the parent;
      otherwise one reply is appended to the first comment with that id. */
  function AddReply(comments: seq<Comment>, parentId: string, text: string, user: CurrentUser,
                    id: string, now: int): (r: seq<Comment>)
    ensures IndexOfId(comments, parentId).None? ==> r == comments
    ensures IndexOfId(comments, parentId).Some? ==>
      var i := IndexOfId(comments, parentId).value;
      |r| == |comments|
      && (forall j :: 0 <= j < |comments| && j != i ==> r[j] == comments[j])
      && r[i].replies == comments[i].replies + [Reply(id, text, user.name, user.role, now, parentId)]
      && r[i] == comments[i].(replies := r[i].replies, updatedAt := now)
  {
    match IndexOfId(comments, parentId)
    case None => comments
    case Some(i) =>
      var c := comments[i];
      comments[i := c.(replies := c.replies + [Reply(id, text, user.name, user.role, now, parentId)],
                       updatedAt := now)]
  }

  /** `updateCommentStatus(id, status, reason)` of the panel and the field
      comment: nothing happens for an unknown id; otherwise the first comment
      with the id takes the status, the reason, the current user and the
      time; its other fields are kept. */
  function UpdateCommentStatus(comments: seq<Comment>, id: string, newStatus: string, reason: Option<string>,
                               user: CurrentUser, now: int): (r: seq<Comment>)
    ensures IndexOfId(comments, id).None? ==> r == comments
    ensures IndexOfId(comments, id).Some? ==>
      var i := IndexOfId(comments, id).value;
      |r| == |comments|
      && (forall j :: 0 <= j < |comments| && j != i ==> r[j] == comments[j])
      && r[i].status == newStatus && r[i].statusReason == reason
      && r[i].statusChangedBy == Some(user.name) && r[i].statusChangedAt == Some(now) && r[i].updatedAt == now
      && r[i].id == id && r[i].kind == comments[i].kind && r[i].sectionId == comments[i].sectionId
      && r[i].fieldPath == comments[i].fieldPath && r[i].text == comments[i].text
      && r[i].author == comments[i].author && r[i].authorRole == comments[i].authorRole
      && r[i].createdAt == comments[i].createdAt && r[i].parentCommentId == comments[i].parentCommentId
      && r[i].replies == comments[i].replies
  {
    match IndexOfId(comments, id)
    case None => comments
    case Some(i) =>
      comments[i := comments[i].(status := newStatus, statusChangedAt := Some(now),
                                 statusChangedBy := Some(user.name), statusReason := reason, updatedAt := now)]
  }

  /** `deleteComment(id)` of the panel and the field comment, and
      `removeComment(id)` of the sidebar: drops the first comment with the
      id, nothing else. */
  function DeleteComment(comments: seq<Comment>, id: string): (r: seq<Comment>)
    ensures IndexOfId(comments, id).None? ==> r == comments
    ensures IndexOfId(comments, id).Some? ==>
      var i := IndexOfId(comments, id).value;
      r == comments[..i] + comments[i + 1..]
  {
    RemoveFirst(comments, (c: Comment) => c.id == id)
  }

  /** Deleting removes exactly one occurrence of the comment. */
  lemma DeleteCommentMultiset(comments: seq<Comment>, id: string)
    ensures IndexOfId(comments, id).Some? ==>
      multiset(DeleteComment(comments, id)) + multiset{comments[IndexOfId(comments, id).value]} == multiset(comments)
    ensures IndexOfId(comments, id).None? ==> DeleteComment(comments, id) == comments
  {
    if IndexOfId(comments, id).Some? {
      var i := IndexOfId(comments, id).value;
      assert comments == comments[..i] + [comments[i]] + comments[i + 1..];
    }
  }

  /** `deleteReply(parentId, replyId)`: removes the first reply with the id
      under the first comment with the parent id; nothing happens when either
      is missing. */
  function DeleteReply(comments: seq<Comment>, parentId: string, replyId: string, now: int): (r: seq<Comment>)
    ensures IndexOfId(comments, parentId).None? ==> r == comments
    ensures IndexOfId(comments, parentId).Some? ==>
      var i := IndexOfId(comments, parentId).value;
      var rs := comments[i].replies;
      |r| == |comments|
      && (forall j :: 0 <= j < |comments| && j != i ==> r[j] == comments[j])
      && (match FindIndex(rs, (x: Reply) => x.id == replyId)
          case None => r[i] == comments[i]
          case Some(k) => r[i] == comments[i].(replies := rs[..k] + rs[k + 1..], updatedAt := now))
  {
    match IndexOfId(comments, parentId)
    case None => comments
    case Some(i) =>
      var c := comments[i];
      match FindIndex(c.replies, (x: Reply) => x.id == replyId)
      case None => comments
      case Some(k) => comments[i := c.(replies := RemoveAt(c.replies, k), updatedAt := now)]
  }

  /** The fields `updateComment(id, updates)` may merge into a comment;
      `None` leaves a field as it is. */
  datatype CommentPatch = CommentPatch(
    text: Option<string>,
    status: Option<string>,
    statusReason: Option<Option<string>>,
    statusChangedBy: Option<Option<string>>,
    statusChangedAt: Option<Option<int>>,
    replies: Option<seq<Reply>>,
    updatedAt: Option<int>)

  /** `Object.assign(comment, updates)`. */
  function Merge(c: Comment, u: CommentPatch): (r: Comment)
    ensures r.id == c.id && r.kind == c.kind && r.sectionId == c.sectionId && r.fieldPath == c.fieldPath
    ensures r.author == c.author && r.authorRole == c.authorRole && r.createdAt == c.createdAt
    ensures r.parentCommentId == c.parentCommentId
    ensures r.text == u.text.OrElse(c.text) && r.status == u.status.OrElse(c.status)
    ensures r.replies == u.replies.OrElse(c.replies)
    ensures r.statusReason == u.statusReason.OrElse(c.statusReason)
    ensures r.statusChangedBy == u.statusChangedBy.OrElse(c.statusChangedBy)
    ensures r.statusChangedAt == u.statusChangedAt.OrElse(c.statusChangedAt)
    ensures r.updatedAt == u.updatedAt.OrElse(c.updatedAt)
  {
    c.(text := u.text.OrElse(c.text),
       status := u.status.OrElse(c.status),
       statusReason := u.statusReason.OrElse(c.statusReason),
       statusChangedBy := u.statusChangedBy.OrElse(c.statusChangedBy),
       statusChangedAt := u.statusChangedAt.OrElse(c.statusChangedAt),
       replies := u.replies.OrElse(c.replies),
       updatedAt := u.updatedAt.OrElse(c.updatedAt))
  }

  /** The sidebar's `updateComment(id, updates)`: merges into the first
      comment with the id; a no-op when there is none. */
  function UpdateComment(comments: seq<Comment>, id: string, u: CommentPatch): (r: seq<Comment>)
    ensures IndexOfId(comments, id).None? ==> r == comments
    ensures IndexOfId(comments, id).Some? ==>
      var i := IndexOfId(comments, id).value;
      |r| == |comments| && r[i] == Merge(comments[i], u)
      && forall j :: 0 <= j < |comments| && j != i ==> r[j] == comments[j]
  {
    match IndexOfId(comments, id)
    case None => comments
    case Some(i) => comments[i := Merge(comments[i], u)]
  }

  /** An empty patch changes nothing. */
  lemma EmptyPatchIsNoOp(comments: seq<Comment>, id: string)
    ensures UpdateComment(comments, id, CommentPatch(None, None, None, None, None, None, None)) == comments
  {
  }

  /** The group a comment is listed under in the sidebar. */
  function SectionKey(c: Comment): (k: string)
    ensures k != ""
    ensures c.sectionId != "" ==> k == c.sectionId
  {
    if c.sectionId != "" then c.sectionId else "algemeen"
  }

  /** `groupBySection` as the loop builds it: each comment is pushed onto the
      list of its section key, creating the list on first use. */
  function GroupBySection(comments: seq<Comment>): (g: map<string, seq<Comment>>)
    decreases |comments|
  {
    if |comments| == 0 then map[]
    else
      var init, c := comments[..|comments| - 1], comments[|comments| - 1];
      var g := GroupBySection(init);
      var k := SectionKey(c);
      g[k := (if k in g then g[k] else []) + [c]]
  }

  /** The section keys that occur in a comment list. */
  function SectionKeys(comments: seq<Comment>): set<string> {
    set i | 0 <= i < |comments| :: SectionKey(comments[i])
  }

  /** The groups, defined directly: one per occurring key, holding the
      comments with that key in list order. */
  function GroupsOf(comments: seq<Comment>): map<string, seq<Comment>> {
    map k | k in SectionKeys(comments) :: Filter(comments, (c: Comment) => SectionKey(c) == k)
  }

  lemma SectionKeysAppend(init: seq<Comment>, c: Comment)
    ensures SectionKeys(init + [c]) == SectionKeys(init) + {SectionKey(c)}
  {
    var all := init + [c];
    forall k | k in SectionKeys(all) ensures k in SectionKeys(init) + {SectionKey(c)} {
      var i :| 0 <= i < |all| && SectionKey(all[i]) == k;
      if i < |init| {
        assert init[i] == all[i];
      }
    }
    forall k | k in SectionKeys(init) ensures k in SectionKeys(all) {
      var i :| 0 <= i < |init| && SectionKey(init[i]) == k;
      assert all[i] == init[i];
    }
    assert SectionKey(all[|init|]) == SectionKey(c);
  }

  lemma GroupOfAppend(init: seq<Comment>, c: Comment, k: string)
    ensures Filter(init + [c], (x: Comment) => SectionKey(x) == k)
         == (if k in GroupsOf(init) then GroupsOf(init)[k] else []) + (if SectionKey(c) == k then [c] else [])
  {
    FilterConcat(init, [c], (x: Comment) => SectionKey(x) == k);
    if k !in SectionKeys(init) {
      FilterDropsAll(init, (x: Comment) => SectionKey(x) == k);
    }
  }

  /** The loop builds exactly the direct groups, so grouping partitions its
      input: every comment lands in the group of its key, in order, and in no
      other. */
  lemma {:induction false} GroupBySectionIsPartition(comments: seq<Comment>)
    ensures GroupBySection(comments) == GroupsOf(comments)
    decreases |comments|
  {
    if |comments| > 0 {
      var init, c := comments[..|comments| - 1], comments[|comments| - 1];
      GroupBySectionIsPartition(init);
      assert comments == init + [c];
      PartitionStep(init, c);
    }
  }

  lemma PartitionStep(init: seq<Comment>, c: Comment)
    requires GroupBySection(init) == GroupsOf(init)
    ensures GroupBySection(init + [c]) == GroupsOf(init + [c])
  {
    var g, h := GroupBySection(init + [c]), GroupsOf(init + [c]);
    KeysStep(init, c);
    forall k | k in h ensures g[k] == h[k] {
      GroupStep(init, c, k);
    }
  }

  lemma KeysStep(init: seq<Comment>, c: Comment)
    requires GroupBySection(init) == GroupsOf(init)
    ensures GroupBySection(init + [c]).Keys == GroupsOf(init + [c]).Keys
  {
    var all := init + [c];
    assert all[..|all| - 1] == init && all[|all| - 1] == c;
    SectionKeysAppend(init, c);
  }

  lemma GroupStep(init: seq<Comment>, c: Comment, k: string)
    requires GroupBySection(init) == GroupsOf(init)
    requires k in GroupsOf(init + [c])
    ensures k in GroupBySection(init + [c])
    ensures GroupBySection(init + [c])[k] == GroupsOf(init + [c])[k]
  {
    var all := init + [c];
    assert all[..|all| - 1] == init && all[|all| - 1] == c;
    SectionKeysAppend(init, c);
    GroupOfAppend(init, c, k);
  }

  /** `getFieldLabel(path)`: the last `.`-separated segment of the path, or
      the empty string for an empty path. */
  function FieldLabel(fieldPath: string): (r: string)
    ensures fieldPath == "" ==> r == ""
    ensures |r| <= |fieldPath| && r == fieldPath[|fieldPath| - |r|..]
    ensures '.' !in r
    ensures '.' !in fieldPath ==> r == fieldPath
  {
    var r := LastPiece(fieldPath, ".");
    assert "." == ['.'];
    ContainsChar(r, '.');
    ContainsChar(fieldPath, '.');
    r
  }

  /** `countPendingChanges`: the number of pending track changes. */
  function CountPendingChanges(changes: seq<TrackChanges.TrackChange>): (n: nat)
    ensures n == |TrackChanges.PendingChanges(changes)|
    ensures n <= |changes|
  {
    Count(changes, TrackChanges.IsPending)
  }
}

=== FILE: config.dfy ===
/** The constant tables of the intake workflow: user roles, the nine intake
    statuses with their allowed transitions and role-gated actions, the
    per-role work queues, the per-role feedback permissions, the field split
    between client and information manager, and the notification types. */
module Config {
  import opened Wrappers

  /** The user roles (`USER_ROLES`). */
  datatype Role = Im | Ba | Fb | Pmo | Klant | Stakeholder

  function RoleName(r: Role): string {
    match r
    case Im => "informatiemanager"
    case Ba => "business_analist"
    case Fb => "functioneel_beheerder"
    case Pmo => "pmo"
    case Klant => "klant"
    case Stakeholder => "stakeholder"
  }

  /** The role a role name denotes, if any. */
  function ParseRole(s: string): (r: Option<Role>)
    ensures r.Some? ==> RoleName(r.value) == s
  {
    if s == "informatiemanager" then Some(Im)
    else if s == "business_analist" then Some(Ba)
    else if s == "functioneel_beheerder" then Some(Fb)
    else if s == "pmo" then Some(Pmo)
    else if s == "klant" then Some(Klant)
    else if s == "stakeholder" then Some(Stakeholder)
    else None
  }

  /** Role names are distinct, and each parses back to its role. */
  lemma RoleNameRoundTrip(r: Role)
    ensures ParseRole(RoleName(r)) == Some(r)
  {
  }

  /** The intake statuses (`INTAKE_STATUS`), in the order of the flow. */
  datatype Status =
    | Draft | KlantInvoer | ImAanvullen | KlantAkkoord | StakeholderReview
    | ImRoutering | BijBa | FbBacklog | Gearchiveerd

  /** Every status, in the declaration order of `INTAKE_STATUS`. */
  const AllStatuses: seq<Status> :=
    [Draft, KlantInvoer, ImAanvullen, KlantAkkoord, StakeholderReview,
     ImRoutering, BijBa, FbBacklog, Gearchiveerd]

  function StatusName(s: Status): string {
    match s
    case Draft => "draft"
    case KlantInvoer => "klant_invoer"
    case ImAanvullen => "im_aanvullen"
    case KlantAkkoord => "klant_akkoord"
    case StakeholderReview => "stakeholder_review"
    case ImRoutering => "im_routering"
    case BijBa => "bij_ba"
    case FbBacklog => "fb_backlog"
    case Gearchiveerd => "gearchiveerd"
  }

  /** The status a status text denotes, if any: the key lookup of the
      status tables. */
  function ParseStatus(s: string): (r: Option<Status>)
    ensures r.Some? ==> StatusName(r.value) == s
  {
    if s == "draft" then Some(Draft)
    else if s == "klant_invoer" then Some(KlantInvoer)
    else if s == "im_aanvullen" then Some(ImAanvullen)
    else if s == "klant_akkoord" then Some(KlantAkkoord)
    else if s == "stakeholder_review" then Some(StakeholderReview)
    else if s == "im_routering" then Some(ImRoutering)
    else if s == "bij_ba" then Some(BijBa)
    else if s == "fb_backlog" then Some(FbBacklog)
    else if s == "gearchiveerd" then Some(Gearchiveerd)
    else None
  }

  /** The nine status names are distinct strings, each parsing back to its
      status, and the status list holds each status exactly once. */
  lemma StatusNameRoundTrip(s: Status)
    ensures ParseStatus(StatusName(s)) == Some(s)
    ensures s in AllStatuses
    ensures forall i, j :: 0 <= i < j < |AllStatuses| ==> AllStatuses[i] != AllStatuses[j]
  {
  }

  /** Display label and description of a status (`INTAKE_STATUS_LABELS`). */
  function StatusLabel(s: Status): (r: (string, string)) {
    match s
    case Draft => ("Concept", "Intake is nog in concept")
    case KlantInvoer => ("Wacht op klant", "Klant vult gegevens in")
    case ImAanvullen => ("IM aanvullen", "Klant is gereed, IM vult aan")
    case KlantAkkoord => ("Wacht op akkoord", "Wacht op formeel akkoord klant")
    case StakeholderReview => ("Stakeholder review", "Stakeholders reviewen de intake")
    case ImRoutering => ("Routering", "IM verwerkt feedback en bepaalt route")
    case BijBa => ("Bij BA", "In werkvoorraad Business Analist")
    case FbBacklog => ("FB Backlog", "Op backlog Functioneel Beheer")
    case Gearchiveerd => ("Gearchiveerd", "Intake is afgerond en gearchiveerd")
  }

  /** The routing decision taken at `im_routering` (`ROUTE_TYPES`). */
  datatype RouteType = Project | Change

  function RouteName(t: RouteType): string {
    match t
    case Project => "project"
    case Change => "change"
  }

  /** One button of the workflow: move to `to`, offered to `role`. */
  datatype Action = Action(to: Status, caption: string, role: Role, routeType: Option<RouteType>)

  /** The entry of `INTAKE_STATUS_TRANSITIONS` for one status. */
  datatype Transitions = Transitions(next: seq<Status>, actions: seq<Action>)

  function TransitionsOf(s: Status): Transitions {
    match s
    case Draft =>
      Transitions([KlantInvoer], [Action(KlantInvoer, "Delen met klant", Im, None)])
    case KlantInvoer =>
      Transitions([ImAanvullen], [Action(ImAanvullen, "Indienen", Klant, None)])
    case ImAanvullen =>
      Transitions([KlantAkkoord], [Action(KlantAkkoord, "Vraag akkoord klant", Im, None)])
    case KlantAkkoord =>
      Transitions([StakeholderReview, ImAanvullen],
        [Action(StakeholderReview, "Akkoord gegeven", Klant, None),
         Action(ImAanvullen, "Wijzigingen nodig", Klant, None)])
    case StakeholderReview =>
      Transitions([ImRoutering], [Action(ImRoutering, "Review afronden", Im, None)])
    case ImRoutering =>
      Transitions([BijBa, FbBacklog, StakeholderReview],
        [Action(BijBa, "Doorzetten naar BA (Project)", Im, Some(Project)),
         Action(FbBacklog, "Doorzetten naar FB (Change)", Im, Some(Change)),
         Action(StakeholderReview, "Terug naar stakeholders", Im, None)])
    case BijBa =>
      Transitions([Gearchiveerd], [])
    case FbBacklog =>
      Transitions([Gearchiveerd], [Action(Gearchiveerd, "Archiveren", Im, None)])
    case Gearchiveerd =>
      Transitions([], [])
  }

  /** The table entry for a status text; only the nine status names have one. */
  function TransitionsFor(status: string): (r: Option<Transitions>)
    ensures r.Some? <==> ParseStatus(status).Some?
  {
    match ParseStatus(status)
    case None => None
    case Some(s) => Some(TransitionsOf(s))
  }

  /** Every action leads to a status listed in the `next` of its own entry. */
  lemma ActionsWithinNext(s: Status)
    ensures forall a :: a in TransitionsOf(s).actions ==> a.to in TransitionsOf(s).next
  {
  }

  /** `gearchiveerd` is terminal: nothing follows it and nothing can be done. */
  lemma ArchivedIsTerminal()
    ensures TransitionsOf(Gearchiveerd).next == [] && TransitionsOf(Gearchiveerd).actions == []
  {
  }

  /** `bij_ba` lists `gearchiveerd` as a next status but offers no action. */
  lemma BijBaHasNoActions()
    ensures TransitionsOf(BijBa).next == [Gearchiveerd]
    ensures TransitionsOf(BijBa).actions == []
  {
  }

  /** Position of a status in the forward flow. */
  function Stage(s: Status): nat {
    match s
    case Draft => 0
    case KlantInvoer => 1
    case ImAanvullen => 2
    case KlantAkkoord => 3
    case StakeholderReview => 4
    case ImRoutering => 5
    case BijBa => 6
    case FbBacklog => 6
    case Gearchiveerd => 7
  }

  /** No status lists itself as a next status, and the only edges that do not
      move forward in the flow are `klant_akkoord` to `im_aanvullen` and
      `im_routering` to `stakeholder_review`. */
  lemma EdgesMoveForward(s: Status, t: Status)
    requires t in TransitionsOf(s).next
    ensures s != t
    ensures Stage(t) <= Stage(s) <==>
      (s, t) == (KlantAkkoord, ImAanvullen) || (s, t) == (ImRoutering, StakeholderReview)
  {
  }

  /** Only the two routing actions of `im_routering` carry a route type:
      `project` towards `bij_ba` and `change` towards `fb_backlog`. */
  lemma RouteTypesOnlyWhenRouting(s: Status, a: Action)
    requires a in TransitionsOf(s).actions
    ensures a.routeType.Some? <==> s == ImRoutering && (a.to == BijBa || a.to == FbBacklog)
    ensures a.routeType == Some(Project) <==> s == ImRoutering && a.to == BijBa
    ensures a.routeType == Some(Change) <==> s == ImRoutering && a.to == FbBacklog
  {
  }

  /** A work queue (`WORKQUEUE_CONFIG`): the statuses it shows, and whether
      the role sees every form in those statuses or only its own. */
  datatype QueueConfig = QueueConfig(title: string, statuses: seq<Status>, canSeeAll: bool)

  function QueueConfigOf(r: Role): Option<QueueConfig> {
    match r
    case Im => Some(QueueConfig("Mijn werkvoorraad", [ImAanvullen, ImRoutering], true))
    case Ba => Some(QueueConfig("BA Werkvoorraad", [BijBa], false))
    case Fb => Some(QueueConfig("FB Backlog", [FbBacklog], false))
    case Pmo => Some(QueueConfig("PMO Overzicht", [Gearchiveerd], true))
    case Klant => Some(QueueConfig("Mijn intakes", [KlantInvoer, KlantAkkoord], false))
    case Stakeholder => None
  }

  /** The work queue configured for a role name, if any. */
  function QueueConfigFor(role: string): (r: Option<QueueConfig>)
    ensures r.Some? ==> ParseRole(role).Some? && ParseRole(role).value != Stakeholder
  {
    match ParseRole(role)
    case None => None
    case Some(r) => QueueConfigOf(r)
  }

  /** The feedback permission flags (`FEEDBACK_PERMISSIONS`). */
  datatype Permissions = Permissions(
    canCreateComment: bool,
    canReply: bool,
    canResolve: bool,
    canReject: bool,
    canReopen: bool,
    canAcceptChanges: bool,
    canRejectChanges: bool,
    canMakeChanges: bool,
    canDeleteOwnComments: bool,
    canDeleteAllComments: bool)

  const StakeholderPermissions: Permissions :=
    Permissions(true, true, false, false, false, false, false, false, true, false)

  /** The permission entry for a role name; only the four feedback roles
      have one. */
  function PermissionsFor(role: string): Option<Permissions> {
    if role == "informatiemanager" then
      Some(Permissions(true, true, true, true, true, true, true, true, true, true))
    else if role == "business_analist" then
      Some(Permissions(true, true, true, true, true, true, true, true, true, false))
    else if role == "stakeholder" then
      Some(StakeholderPermissions)
    else if role == "klant" then
      Some(Permissions(true, true, false, false, false, false, false, true, true, false))
    else None
  }

  /** `FEEDBACK_PERMISSIONS[role] || FEEDBACK_PERMISSIONS.stakeholder`, the
      lookup every feedback component uses. */
  function EffectivePermissions(role: string): (p: Permissions)
    ensures PermissionsFor(role).None? ==> p == StakeholderPermissions
    ensures PermissionsFor(role).Some? ==> p == PermissionsFor(role).value
  {
    PermissionsFor(role).OrElse(StakeholderPermissions)
  }

  /** The role attribute of a feedback component, `stakeholder` when it is
      missing or empty. */
  function FeedbackRole(attribute: string): (r: string)
    ensures r != ""
    ensures attribute != "" ==> r == attribute
  {
    if attribute == "" then "stakeholder" else attribute
  }

  /** Only the information manager may delete every comment, and neither a
      stakeholder nor a client may resolve, reject, reopen or review changes. */
  lemma PermissionShape(role: string)
    ensures EffectivePermissions(role).canDeleteAllComments <==> role == "informatiemanager"
    ensures role == "stakeholder" || role == "klant" ==>
      var p := EffectivePermissions(role);
      !p.canResolve && !p.canReject && !p.canReopen && !p.canAcceptChanges && !p.canRejectChanges
  {
  }

  /** Every role without an entry of its own gets exactly the stakeholder
      flags. */
  lemma UnknownRoleIsStakeholder(role: string)
    requires role !in {"informatiemanager", "business_analist", "stakeholder", "klant"}
    ensures EffectivePermissions(role) == EffectivePermissions("stakeholder")
  {
  }

  /** The fields of one form section a role may edit. */
  datatype SectionFields = SectionFields(basisinfo: seq<string>, vragen: seq<string>)

  /** The fields the client sees (`KLANT_VELDEN`). */
  const KlantVelden: SectionFields := SectionFields(
    ["onderwerp", "korteOmschrijving", "doel", "aanvrager", "opdrachtgever", "domeinTeam", "datumIntake"],
    ["inleiding", "huidigeSituatie", "gewensteSituatie", "scope", "deadlineNoodzakelijk", "deadline",
     "contactpersoon", "teamsOfDoelgroepen", "opmerkingen"])

  /** The fields only the information manager sees (`IM_ONLY_VELDEN`). */
  const ImOnlyVelden: SectionFields := SectionFields(
    ["thinkingPortfolioNummer"],
    ["prioriteitCategorie", "verkenningGedaan", "impactGeenRealisatie", "baten", "informatieverwerking",
     "beleidWijziging", "kostenInschatting", "aiToepassing"])

  /** Within each section no field is both client-visible and IM-only. */
  lemma FieldSplitDisjoint()
    ensures forall f :: f in KlantVelden.basisinfo ==> f !in ImOnlyVelden.basisinfo
    ensures forall f :: f in KlantVelden.vragen ==> f !in ImOnlyVelden.vragen
  {
  }

  /** The notification types (`NOTIFICATION_TYPES`). */
  datatype NotificationType =
    | IntakeShared | IntakeSubmitted | AkkoordRequested | AkkoordGiven | StakeholderReviewStart
    | CommentAdded | CommentResolved | RoutedToBa | RoutedToFb | IntakeArchived

  function NotificationTypeName(t: NotificationType): string {
    match t
    case IntakeShared => "intake_shared"
    case IntakeSubmitted => "intake_submitted"
    case AkkoordRequested => "akkoord_requested"
    case AkkoordGiven => "akkoord_given"
    case StakeholderReviewStart => "stakeholder_review_start"
    case CommentAdded => "comment_added"
    case CommentResolved => "comment_resolved"
    case RoutedToBa => "routed_to_ba"
    case RoutedToFb => "routed_to_fb"
    case IntakeArchived => "intake_archived"
  }

  /** Title, message, icon and colour shown for a notification type. */
  datatype Label = Label(title: string, message: string, icon: string, color: string)

  function NotificationLabelOf(t: NotificationType): Label {
    match t
    case IntakeShared => Label("Nieuwe intake gedeeld", "Er is een intake met je gedeeld voor invoer", "share", "info")
    case IntakeSubmitted => Label("Intake ingediend", "De klant heeft de intake ingediend", "inbox", "success")
    case AkkoordRequested => Label("Akkoord gevraagd", "Je akkoord wordt gevraagd op een intake", "thumbs-up", "warning")
    case AkkoordGiven => Label("Akkoord gegeven", "De klant heeft akkoord gegeven", "check", "success")
    case StakeholderReviewStart => Label("Review gestart", "Een intake is gedeeld voor stakeholder review", "users", "info")
    case CommentAdded => Label("Nieuwe opmerking", "Er is een opmerking geplaatst", "message-circle", "info")
    case CommentResolved => Label("Opmerking verwerkt", "Een opmerking is verwerkt", "check-circle", "success")
    case RoutedToBa => Label("Intake ontvangen", "Een nieuwe intake staat in je werkvoorraad", "arrow-right", "primary")
    case RoutedToFb => Label("Change ontvangen", "Een nieuwe change staat op de backlog", "list", "primary")
    case IntakeArchived => Label("Intake gearchiveerd", "Een intake is gearchiveerd", "archive", "secondary")
  }

  /** The notification type a type name denotes, if any. */
  function ParseNotificationType(name: string): (r: Option<NotificationType>)
    ensures r.Some? ==> NotificationTypeName(r.value) == name
  {
    if name == "intake_shared" then Some(IntakeShared)
    else if name == "intake_submitted" then Some(IntakeSubmitted)
    else if name == "akkoord_requested" then Some(AkkoordRequested)
    else if name == "akkoord_given" then Some(AkkoordGiven)
    else if name == "stakeholder_review_start" then Some(StakeholderReviewStart)
    else if name == "comment_added" then Some(CommentAdded)
    else if name == "comment_resolved" then Some(CommentResolved)
    else if name == "routed_to_ba" then Some(RoutedToBa)
    else if name == "routed_to_fb" then Some(RoutedToFb)
    else if name == "intake_archived" then Some(IntakeArchived)
    else None
  }

  /** Notification type names are distinct and parse back to their type. */
  lemma NotificationTypeRoundTrip(t: NotificationType)
    ensures ParseNotificationType(NotificationTypeName(t)) == Some(t)
  {
  }

  /** `NOTIFICATION_LABELS[type]` for a type name. */
  function NotificationLabelFor(typeName: string): (r: Option<Label>)
    ensures r.Some? <==> ParseNotificationType(typeName).Some?
  {
    match ParseNotificationType(typeName)
    case None => None
    case Some(t) => Some(NotificationLabelOf(t))
  }

  /** Every type name finds its own label, and a name that is not a type
      name finds none. */
  lemma NotificationLabelLookup(t: NotificationType, name: string)
    ensures NotificationLabelFor(NotificationTypeName(t)) == Some(NotificationLabelOf(t))
    ensures NotificationLabelFor(name).None? ==> NotificationTypeName(t) != name
  {
    NotificationTypeRoundTrip(t);
  }

  /** Comment statuses (`COMMENT_STATUS`). */
  const CommentOpen: string := "open"
  const CommentVerwerkt: string := "verwerkt"
  const CommentAfgewezen: string := "afgewezen"

  /** Track-change statuses (`TRACK_CHANGE_STATUS`). */
  const ChangePending: string := "pending"
  const ChangeAccepted: string := "accepted"
  const ChangeRejected: string := "rejected"
}

=== FILE: data_service.dfy ===
/** The data layer the application talks to (`DataService`): it stamps
    timestamps on the forms it stores, keeps the simple section comments of
    a stored form, and imports a form from JSON text under a new id. The
    clock reading, generated ids and `JSON.parse` are parameters. */
module DataService {
  import opened Wrappers
  import opened Seqs
  import opened Json
  import opened Storage

  type FormData = map<string, Value>

  /** `createForm(data)`: sets `createdAt` and `updatedAt` to the same
      moment, then stores the form. */
  function CreateForm(store: Store, prefix: string, data: FormData, now: string, freshId: string)
    : (r: (Store, FormData))
    requires DistinctKeys(store)
    ensures DistinctKeys(r.0)
    ensures "createdAt" in r.1 && "updatedAt" in r.1 && r.1["createdAt"] == r.1["updatedAt"] == Str(now)
    ensures "id" in r.1 && GetItem(r.0, KeyOf(prefix, r.1["id"])) == Some(Record(r.1))
    ensures forall k :: k in data && k !in {"id", "createdAt", "updatedAt"} ==> k in r.1 && r.1[k] == data[k]
    ensures "id" in data && Truthy(data["id"]) ==> r.1["id"] == data["id"]
    ensures !("id" in data && Truthy(data["id"])) ==> r.1["id"] == Str(freshId)
  {
    Create(store, prefix, data["createdAt" := Str(now)]["updatedAt" := Str(now)], freshId)
  }

  /** `updateForm(id, data)`: refreshes `updatedAt` and stores the form
      under `id`. */
  function UpdateForm(store: Store, prefix: string, id: string, data: FormData, now: string, freshId: string)
    : (r: (Store, FormData))
    requires DistinctKeys(store)
    ensures DistinctKeys(r.0)
    ensures "updatedAt" in r.1 && r.1["updatedAt"] == Str(now)
    ensures id != "" ==> "id" in r.1 && r.1["id"] == Str(id) && GetItem(r.0, prefix + id) == Some(Record(r.1))
    ensures id != "" ==> forall k :: k != prefix + id ==> GetItem(r.0, k) == GetItem(store, k)
  {
    Storage.Update(store, prefix, id, data["updatedAt" := Str(now)], freshId)
  }

  /** A section comment as `addComment` creates it. */
  function NewSectionComment(id: string, sectionId: string, text: string, author: string, now: string): Value {
    Obj(map[
      "id" := Str(id),
      "sectionId" := Str(sectionId),
      "text" := Str(text),
      "author" := Str(author),
      "createdAt" := Str(now),
      "resolved" := Bool(false)])
  }

  /** The `comments` list of a stored form: absent or falsy reads as empty;
      any other non-array value has no `push` or `filter`. */
  function CommentsOf(form: FormData): Result<seq<Value>, string> {
    if "comments" !in form || !Truthy(form["comments"]) then Ok([])
    else if form["comments"].Arr? then Ok(form["comments"].items)
    else Err("comments is not an array")
  }

  /** `addComment(formId, sectionId, text, author)`: fails for a form that
      is not stored; otherwise appends one unresolved comment and stores the
      form again. `author` defaults to `Anoniem`. */
  function AddComment(store: Store, prefix: string, formId: string, sectionId: string, text: string,
                      author: Option<string>, now: string, commentId: string, freshId: string)
    : (r: Result<(Store, Value), string>)
    requires DistinctKeys(store)
    ensures Read(store, prefix, formId) == Ok(None) ==> r == Err("Formulier niet gevonden")
    ensures r.Ok? ==> DistinctKeys(r.value.0)
    ensures r.Ok? ==> r.value.1 == NewSectionComment(commentId, sectionId, text, author.OrElse("Anoniem"), now)
  {
    var found :- Read(store, prefix, formId);
    if found.None? then Err("Formulier niet gevonden")
    else
      var form := found.value;
      var comments :- CommentsOf(form);
      var comment := NewSectionComment(commentId, sectionId, text, author.OrElse("Anoniem"), now);
      var (s, _) := UpdateForm(store, prefix, formId, form["comments" := Arr(comments + [comment])], now, freshId);
      Ok((s, comment))
  }

  /** A stored form with a comment list gets exactly the new comment
      appended, and keeps it when read back. */
  lemma AddCommentAppends(store: Store, prefix: string, formId: string, sectionId: string, text: string,
                          author: Option<string>, now: string, commentId: string, freshId: string, form: FormData)
    requires DistinctKeys(store) && formId != ""
    requires Read(store, prefix, formId) == Ok(Some(form)) && CommentsOf(form).Ok?
    ensures var r := AddComment(store, prefix, formId, sectionId, text, author, now, commentId, freshId);
      r.Ok?
      && exists after :: (Read(r.value.0, prefix, formId) == Ok(Some(after))
                          && CommentsOf(after) == Ok(CommentsOf(form).value + [r.value.1])
                          && "updatedAt" in after && after["updatedAt"] == Str(now))
  {
    var comment := NewSectionComment(commentId, sectionId, text, author.OrElse("Anoniem"), now);
    var updated := form["comments" := Arr(CommentsOf(form).value + [comment])];
    var (s, after) := UpdateForm(store, prefix, formId, updated, now, freshId);
    assert Read(s, prefix, formId) == Ok(Some(after));
    assert after["comments"] == updated["comments"];
  }

  /** Whether comment `c` carries `sectionId` (`c.sectionId === sectionId`). */
  predicate InSection(c: Value, sectionId: string) {
    Get(c, "sectionId") == Some(Str(sectionId))
  }

  /** The comments carrying `sectionId`, each as often as stored and in
      stored order (`OfSectionConcat`). */
  function OfSection(comments: seq<Value>, sectionId: string): (r: seq<Value>)
    ensures forall i :: 0 <= i < |r| ==> InSection(r[i], sectionId)
    ensures forall c :: multiset(r)[c] == if InSection(c, sectionId) then multiset(comments)[c] else 0
  {
    FilterMultiset(comments, (c: Value) => InSection(c, sectionId));
    Filter(comments, (c: Value) => InSection(c, sectionId))
  }

  lemma OfSectionConcat(a: seq<Value>, b: seq<Value>, sectionId: string)
    ensures OfSection(a + b, sectionId) == OfSection(a, sectionId) + OfSection(b, sectionId)
  {
    FilterConcat(a, b, (c: Value) => InSection(c, sectionId));
  }

  /** Only the comments of the given section, in their stored order; with
      no section, the whole list. */
  function SectionFilter(comments: seq<Value>, sectionId: string): (r: seq<Value>)
    ensures sectionId == "" ==> r == comments
    ensures sectionId != "" ==> forall i :: 0 <= i < |r| ==> InSection(r[i], sectionId)
    ensures forall c :: multiset(r)[c] == if sectionId == "" || InSection(c, sectionId) then multiset(comments)[c] else 0
  {
    if sectionId != "" then OfSection(comments, sectionId)
    else comments
  }

  /** Filtering by section keeps the stored order. */
  lemma SectionFilterConcat(a: seq<Value>, b: seq<Value>, sectionId: string)
    ensures SectionFilter(a + b, sectionId) == SectionFilter(a, sectionId) + SectionFilter(b, sectionId)
  {
    OfSectionConcat(a, b, sectionId);
  }

  /** `getComments(formId, sectionId)`: the empty list for a missing form
      or comment list; with a section id, only that section's comments, in
      order. */
  function GetComments(store: Store, prefix: string, formId: string, sectionId: string)
    : (r: Result<seq<Value>, string>)
    ensures Read(store, prefix, formId) == Ok(None) ==> r == Ok([])
    ensures r.Ok? && sectionId != "" ==>
      forall i :: 0 <= i < |r.value| ==> Get(r.value[i], "sectionId") == Some(Str(sectionId))
    ensures forall form :: Read(store, prefix, formId) == Ok(Some(form)) && CommentsOf(form).Ok? ==>
      r == Ok(SectionFilter(CommentsOf(form).value, sectionId))
  {
    var found :- Read(store, prefix, formId);
    if found.None? then Ok([])
    else
      var comments :- CommentsOf(found.value);
      Ok(SectionFilter(comments, sectionId))
  }

  /** Every comment of the section is returned. */
  lemma GetCommentsComplete(store: Store, prefix: string, formId: string, sectionId: string, form: FormData)
    requires Read(store, prefix, formId) == Ok(Some(form)) && CommentsOf(form).Ok? && sectionId != ""
    ensures forall c :: c in CommentsOf(form).value && Get(c, "sectionId") == Some(Str(sectionId)) ==>
      c in GetComments(store, prefix, formId, sectionId).value
  {
    var all := CommentsOf(form).value;
    forall c | c in all && Get(c, "sectionId") == Some(Str(sectionId))
      ensures c in GetComments(store, prefix, formId, sectionId).value
    {
      var i :| 0 <= i < |all| && all[i] == c;
    }
  }

  function HasId(commentId: string): Value -> bool {
    (c: Value) => Get(c, "id") == Some(Str(commentId))
  }

  /** The comment list with the first comment of the id marked resolved. */
  function MarkResolved(comments: seq<Value>, commentId: string): (r: seq<Value>)
    ensures FindIndex(comments, HasId(commentId)).None? ==> r == comments
    ensures FindIndex(comments, HasId(commentId)).Some? ==>
      var i := FindIndex(comments, HasId(commentId)).value;
      |r| == |comments| && Get(r[i], "resolved") == Some(Bool(true))
      && Get(r[i], "id") == Some(Str(commentId))
      && forall j :: 0 <= j < |comments| && j != i ==> r[j] == comments[j]
  {
    match FindIndex(comments, HasId(commentId))
    case None => comments
    case Some(i) => comments[i := Obj(comments[i].fields["resolved" := Bool(true)])]
  }

  /** `resolveComment(formId, commentId)`: marks the first comment with the
      id as resolved and stores the form; nothing happens when the form, its
      comment list or the comment is missing. */
  function ResolveComment(store: Store, prefix: string, formId: string, commentId: string, now: string, freshId: string)
    : (r: Result<Store, string>)
    requires DistinctKeys(store)
    ensures Read(store, prefix, formId) == Ok(None) ==> r == Ok(store)
    ensures r.Ok? ==> DistinctKeys(r.value)
  {
    var found :- Read(store, prefix, formId);
    if found.None? then Ok(store)
    else
      var form := found.value;
      var comments :- CommentsOf(form);
      if FindIndex(comments, HasId(commentId)).None? then Ok(store)
      else
        var (s, _) := UpdateForm(store, prefix, formId, form["comments" := Arr(MarkResolved(comments, commentId))],
                                 now, freshId);
        Ok(s)
  }

  /** Resolving changes the stored comment list in that one comment, and
      only the form's own entry. */
  lemma ResolveCommentMarksOne(store: Store, prefix: string, formId: string, commentId: string, now: string,
                               freshId: string, form: FormData)
    requires DistinctKeys(store) && formId != ""
    requires Read(store, prefix, formId) == Ok(Some(form)) && CommentsOf(form).Ok?
    ensures var r := ResolveComment(store, prefix, formId, commentId, now, freshId);
      var comments := CommentsOf(form).value;
      r.Ok?
      && (FindIndex(comments, HasId(commentId)).None? ==> r.value == store)
      && (FindIndex(comments, HasId(commentId)).Some? ==>
            (exists after :: Read(r.value, prefix, formId) == Ok(Some(after))
              && CommentsOf(after) == Ok(MarkResolved(comments, commentId)))
            && forall k :: k != prefix + formId ==> GetItem(r.value, k) == GetItem(store, k))
  {
    if FindIndex(CommentsOf(form).value, HasId(commentId)).Some? {
      ResolveFound(store, prefix, formId, commentId, now, freshId, form);
    }
  }

  lemma ResolveFound(store: Store, prefix: string, formId: string, commentId: string, now: string,
                     freshId: string, form: FormData)
    requires DistinctKeys(store) && formId != ""
    requires Read(store, prefix, formId) == Ok(Some(form)) && CommentsOf(form).Ok?
    requires FindIndex(CommentsOf(form).value, HasId(commentId)).Some?
    ensures var r := ResolveComment(store, prefix, formId, commentId, now, freshId);
      r.Ok?
      && (exists after :: Read(r.value, prefix, formId) == Ok(Some(after))
            && CommentsOf(after) == Ok(MarkResolved(CommentsOf(form).value, commentId)))
      && forall k :: k != prefix + formId ==> GetItem(r.value, k) == GetItem(store, k)
  {
    var comments := CommentsOf(form).value;
    var updated := form["comments" := Arr(MarkResolved(comments, commentId))];
    var (s, after) := UpdateForm(store, prefix, formId, updated, now, freshId);
    assert ResolveComment(store, prefix, formId, commentId, now, freshId) == Ok(s);
    assert after["comments"] == updated["comments"];
    CommentsOfArray(after, MarkResolved(comments, commentId));
    assert Read(s, prefix, formId) == Ok(Some(after));
  }

  lemma CommentsOfArray(form: FormData, items: seq<Value>)
    requires "comments" in form && form["comments"] == Arr(items)
    ensures CommentsOf(form) == Ok(items)
  {
  }

  /** `importFromJSON(text)`: the parsed object under a new id, with
      `importedAt` set and every other field kept. A text that does not
      parse to an object is rejected with `Ongeldig JSON formaat`. */
  function ImportFromJson(text: string, parse: string -> Option<Value>, freshId: string, now: string)
    : (r: Result<FormData, string>)
    ensures r.Err? <==> parse(text).None? || !parse(text).value.Obj?
    ensures r.Err? ==> r.error == "Ongeldig JSON formaat"
    ensures r.Ok? ==>
      "id" in r.value && r.value["id"] == Str(freshId)
      && "importedAt" in r.value && r.value["importedAt"] == Str(now)
      && r.value.Keys == parse(text).value.fields.Keys + {"id", "importedAt"}
      && forall k :: k in parse(text).value.fields && k !in {"id", "importedAt"} ==>
           r.value[k] == parse(text).value.fields[k]
  {
    match parse(text)
    case Some(Obj(fields)) => Ok(fields["id" := Str(freshId)]["importedAt" := Str(now)])
    case _ => Err("Ongeldig JSON formaat")
  }
}

=== FILE: email_body.dfy ===
/** Clean-up of a message body (`cleanBody`) and the summary taken from it
    (`extractSummary`). */
module EmailBody {
  import opened Wrappers
  import opened Seqs
  import opened Strings

  predicate NotNewline(c: char) {
    c != '\n'
  }

  /** No run of three line feeds. */
  predicate NoTriple(s: string) {
    forall i :: 0 <= i < |s| - 2 ==> !(s[i] == '\n' && s[i + 1] == '\n' && s[i + 2] == '\n')
  }

  /** The number of line feeds `s` starts with. */
  function LeadingNewlines(s: string): (n: nat)
    ensures n <= |s|
    ensures forall i :: 0 <= i < n ==> s[i] == '\n'
    ensures n < |s| ==> s[n] != '\n'
  {
    RunBefore(s, NotNewline)
  }

  /** `s.replace(/\n{3,}/g, '\n\n')`: every run of three or more line feeds
      becomes two. */
  function Collapse(s: string): (r: string)
    ensures |r| <= |s|
    decreases |s|
  {
    if |s| == 0 then ""
    else
      var n := LeadingNewlines(s);
      if n >= 3 then "\n\n" + Collapse(s[n..]) else [s[0]] + Collapse(s[1..])
  }

  /** The collapsed text has no run of three line feeds, and starts with as
      many line feeds as the text, but at most two. */
  lemma {:induction false} CollapseNoTriple(s: string)
    ensures NoTriple(Collapse(s))
    ensures LeadingNewlines(Collapse(s)) == if LeadingNewlines(s) >= 3 then 2 else LeadingNewlines(s)
    decreases |s|
  {
    if |s| > 0 {
      var n := LeadingNewlines(s);
      if n >= 3 {
        var rest := Collapse(s[n..]);
        CollapseNoTriple(s[n..]);
        assert LeadingNewlines(s[n..]) == 0;
        PrependNewlines("\n\n", rest);
      } else {
        var rest := Collapse(s[1..]);
        CollapseNoTriple(s[1..]);
        if s[0] == '\n' {
          assert LeadingNewlines(s[1..]) == n - 1 by {
            LeadingNewlinesTail(s);
          }
          PrependNewlines("\n", rest);
        } else {
          assert NoTriple([s[0]] + rest) by {
            forall i | 0 <= i < |[s[0]] + rest| - 2
              ensures !(([s[0]] + rest)[i] == '\n' && ([s[0]] + rest)[i + 1] == '\n' && ([s[0]] + rest)[i + 2] == '\n')
            {
              if i > 0 {
                assert ([s[0]] + rest)[i..i + 3] == rest[i - 1..i + 2];
              }
            }
          }
        }
      }
    }
  }

  lemma LeadingNewlinesTail(s: string)
    requires |s| > 0 && s[0] == '\n'
    ensures LeadingNewlines(s[1..]) == LeadingNewlines(s) - 1
  {
  }

  /** One or two line feeds in front of a text that starts with at most
      two less. */
  lemma PrependNewlines(nl: string, rest: string)
    requires nl == "\n" || nl == "\n\n"
    requires NoTriple(rest) && LeadingNewlines(rest) + |nl| <= 2
    ensures NoTriple(nl + rest)
    ensures LeadingNewlines(nl + rest) == |nl| + LeadingNewlines(rest)
  {
    var s := nl + rest;
    forall i | 0 <= i < |s| - 2 ensures !(s[i] == '\n' && s[i + 1] == '\n' && s[i + 2] == '\n') {
      if i >= |nl| {
        assert s[i] == rest[i - |nl|] && s[i + 1] == rest[i - |nl| + 1] && s[i + 2] == rest[i - |nl| + 2];
      } else {
        var k := LeadingNewlines(rest);
        assert s[|nl| + k] == rest[k];
      }
    }
    if |nl| == 1 {
      assert s[1..] == rest;
    } else {
      assert s[2..] == rest;
      assert s[1..][1..] == rest;
    }
  }

  // ---------------------------------------------------------------------
  // Signature lines: `replace(/^[-_]{2,}\s*$/gm, '')`

  predicate NotDash(c: char) {
    c != '-' && c != '_'
  }

  predicate NotSpace(c: char) {
    !IsSpace(c)
  }

  /** `\s*$` after `r` dashes: the longest white space of at most `l`
      characters that ends at a line end. */
  function LineEndBack(t: string, r: nat, l: nat): (p: Option<nat>)
    requires r + l <= |t|
    ensures p.Some? ==> r <= p.value <= r + l
    ensures p.Some? ==> p.value == |t| || IsLineTerminator(t[p.value])
    decreases l
  {
    if r + l == |t| || IsLineTerminator(t[r + l]) then Some(r + l)
    else if l == 0 then None
    else LineEndBack(t, r, l - 1)
  }

  /** Where a signature line that starts `t` ends: two or more of `-` and
      `_`, then white space up to a line end. */
  function SignatureAt(t: string): (p: Option<nat>)
    ensures p.Some? ==> 2 <= p.value <= |t|
    ensures p.Some? ==> t[0] == '-' || t[0] == '_'
  {
    var r := RunBefore(t, NotDash);
    if r < 2 then None
    else LineEndBack(t, r, RunBefore(t[r..], NotSpace))
  }

  /** The scan of the multiline pattern: `start` says whether the text
      begins a line of the original string. */
  function RemoveSignatures(t: string, start: bool): (r: string)
    ensures |r| <= |t|
    decreases |t|
  {
    if |t| == 0 then ""
    else match (if start then SignatureAt(t) else None)
      case Some(p) => RemoveSignatures(t[p..], IsLineTerminator(t[p - 1]))
      case None => [t[0]] + RemoveSignatures(t[1..], IsLineTerminator(t[0]))
  }

  /** `cleanBody(body)` as written: carriage-return line feeds become line
      feeds, runs of line feeds collapse, then signature lines go and the
      result is trimmed. */
  function CleanBodyAsWritten(body: string): (r: string)
    ensures body == "" ==> r == ""
    ensures |r| > 0 ==> !IsSpace(r[0]) && !IsSpace(r[|r| - 1])
  {
    if body == "" then ""
    else Trim(RemoveSignatures(Collapse(ReplaceAll(body, "\r\n", "\n")), true))
  }

  /** `cleanBody` with the signature lines removed before the line feeds
      are collapsed, so that no removal leaves a run of three behind. */
  function CleanBody(body: string): (r: string)
    ensures body == "" ==> r == ""
    ensures |r| > 0 ==> !IsSpace(r[0]) && !IsSpace(r[|r| - 1])
    ensures NoTriple(r)
  {
    if body == "" then ""
    else
      var removed := RemoveSignatures(ReplaceAll(body, "\r\n", "\n"), true);
      CollapsedTrimmed(removed);
      Trim(Collapse(removed))
  }

  lemma CollapsedTrimmed(s: string)
    ensures NoTriple(Trim(Collapse(s)))
  {
    CollapseNoTriple(s);
    TrimKeepsNoTriple(Collapse(s));
  }

  lemma TrimKeepsNoTriple(s: string)
    requires NoTriple(s)
    ensures NoTriple(Trim(s))
  {
    var r := Trim(s);
    var k: nat :| InfixAt(s, r, k);
    InfixKeepsNoTriple(s, r, k);
  }

  lemma InfixKeepsNoTriple(s: string, r: string, k: nat)
    requires NoTriple(s) && InfixAt(s, r, k)
    ensures NoTriple(r)
  {
    forall i | 0 <= i < |r| - 2 ensures !(r[i] == '\n' && r[i + 1] == '\n' && r[i + 2] == '\n') {
      assert r[i] == s[k + i] && r[i + 1] == s[k + i + 1] && r[i + 2] == s[k + i + 2];
    }
  }

  /** A text without `-` or `_` has no signature line. */
  lemma {:induction false} NoDashUnchanged(t: string, start: bool)
    requires forall i :: 0 <= i < |t| ==> NotDash(t[i])
    ensures RemoveSignatures(t, start) == t
    decreases |t|
  {
    if |t| > 0 {
      NoDashUnchanged(t[1..], IsLineTerminator(t[0]));
    }
  }

  /** A `--` line before a line with text is removed, its line feed kept. */
  lemma SignatureLineRemoved(rest: string)
    requires |rest| > 0 && NotDash(rest[0]) && !IsSpace(rest[0])
    ensures RemoveSignatures("--\n" + rest, true) == "\n" + RemoveSignatures(rest, true)
  {
    var t := "--\n" + rest;
    var u := t[2..];
    assert u == "\n" + rest && u[1..] == rest;
    assert RunBefore(u, NotDash) == 0;
    RunBeforeConcat("--", u, NotDash);
    assert t == "--" + u;
    assert RunBefore(u, NotSpace) == 1;
    assert !IsLineTerminator(t[3]);
    assert LineEndBack(t, 2, 1) == Some(2);
    assert SignatureAt(t) == Some(2);
    assert RemoveSignatures(t, true) == RemoveSignatures(u, false);
    assert RemoveSignatures(u, false) == [u[0]] + RemoveSignatures(u[1..], true);
  }

  /** A text with no run of three line feeds is left as it is. */
  lemma {:induction false} CollapseUnchanged(s: string)
    requires NoTriple(s)
    ensures Collapse(s) == s
    decreases |s|
  {
    if |s| > 0 {
      CollapseUnchanged(s[1..]);
    }
  }

  /** As written, `a\n\n--\nb` cleans to `a\n\n\nb`: the signature goes
      after the collapse, and its line feeds meet. */
  lemma SignatureLeavesTriple(body: string)
    requires body == "a\n\n--\nb"
    ensures CleanBodyAsWritten(body) == "a\n\n\nb"
    ensures !NoTriple(CleanBodyAsWritten(body))
  {
    LiteralShape(body);
    AsWrittenJoinsFeeds(body);
    TripleAtOne(body[..3] + body[5..]);
  }

  lemma LiteralShape(body: string)
    requires body == "a\n\n--\nb"
    ensures |body| == 7 && NotDash(body[0]) && NotDash(body[6]) && !IsSpace(body[0]) && !IsSpace(body[6])
    ensures body[1] == '\n' && body[2] == '\n' && body[3] == '-' && body[4] == '-' && body[5] == '\n'
    ensures body[..3] + body[5..] == "a\n\n\nb"
  {
  }

  lemma TripleAtOne(r: string)
    requires r == "a\n\n\nb"
    ensures !NoTriple(r)
  {
    assert r[1] == '\n' && r[2] == '\n' && r[3] == '\n';
  }

  /** As written, `x\n\n--\ny` cleans to `x\n\n\ny` for any characters
      `x` and `y` that are neither dashes nor white space. */
  lemma AsWrittenJoinsFeeds(body: string)
    requires |body| == 7 && NotDash(body[0]) && NotDash(body[6]) && !IsSpace(body[0]) && !IsSpace(body[6])
    requires body[1] == '\n' && body[2] == '\n' && body[3] == '-' && body[4] == '-' && body[5] == '\n'
    ensures CleanBodyAsWritten(body) == body[..3] + body[5..]
  {
    AbsentHead(body, "\r\n");
    ReplaceAbsent(body, "\r\n", "\n");
    CollapseUnchanged(body);
    SignatureExample(body);
    TrimFixed(body[..3] + body[5..]);
  }

  /** `x\n\n--\ny` loses its `--`, both line feeds around it staying. */
  lemma SignatureExample(body: string)
    requires |body| == 7 && NotDash(body[0]) && NotDash(body[6]) && !IsSpace(body[6])
    requires body[1] == '\n' && body[2] == '\n' && body[3] == '-' && body[4] == '-' && body[5] == '\n'
    ensures RemoveSignatures(body, true) == body[..3] + body[5..]
  {
    var p := body[..3];
    var rest := body[6..];
    assert body == p + ("--\n" + rest);
    SignatureBetween(p, rest);
    assert body[..3] + body[5..] == p + ("\n" + rest);
  }

  /** A `--` line between two lines of text without dashes goes, its line
      feed staying. */
  lemma SignatureBetween(p: string, rest: string)
    requires |p| > 0 && p[|p| - 1] == '\n' && forall i :: 0 <= i < |p| ==> NotDash(p[i])
    requires |rest| > 0 && !IsSpace(rest[0]) && forall i :: 0 <= i < |rest| ==> NotDash(rest[i])
    ensures RemoveSignatures(p + ("--\n" + rest), true) == p + ("\n" + rest)
  {
    KeepsPrefix(p, "--\n" + rest, true);
    SignatureLineRemoved(rest);
    NoDashUnchanged(rest, true);
  }

  /** A text of line content without `-` or `_` is kept in front of
      whatever follows it. */
  lemma {:induction false} KeepsPrefix(p: string, t: string, start: bool)
    requires |p| > 0 && forall i :: 0 <= i < |p| ==> NotDash(p[i])
    ensures RemoveSignatures(p + t, start) == p + RemoveSignatures(t, IsLineTerminator(p[|p| - 1]))
    decreases |p|
  {
    var s := p + t;
    assert s[0] == p[0] && s[1..] == p[1..] + t;
    if |p| > 1 {
      KeepsPrefix(p[1..], t, IsLineTerminator(p[0]));
      assert p == [p[0]] + p[1..];
    }
  }

  /** A carriage return before a carriage-return line feed survives: the
      replacement takes the second pair, so `a\r\r\nb` keeps a `\r\n`. */
  lemma CarriageReturnKept(body: string)
    requires body == "a\r\r\nb"
    ensures CleanBody(body) == CleanBodyAsWritten(body) == "a\r\nb"
  {
    var r := ReplaceCarriageReturn(body);
    assert r == "a\r\nb";
    assert NoTriple(r);
    CollapseUnchanged(r);
    NoDashUnchanged(r, true);
    TrimFixed(r);
  }

  lemma ReplaceCarriageReturn(body: string) returns (r: string)
    requires body == "a\r\r\nb"
    ensures r == body[..2] + "\n" + body[4..]
    ensures ReplaceAll(body, "\r\n", "\n") == r
  {
    var d := "\r\n";
    assert OccursAt(body, d, 2);
    assert body[0..2][0] == 'a' && body[1..3][1] == '\r';
    assert IndexOf(body, d) == Some(2);
    var rest := body[4..];
    assert rest == "b";
    AbsentHead(rest, d);
    var parts := Split(body, d);
    assert Split(rest, d) == [rest];
    assert parts == [body[..2]] + Split(body[2 + |d|..], d);
    assert parts == [body[..2], rest];
    assert parts[1..] == [rest];
    r := body[..2] + "\n" + rest;
    assert Join(parts, "\n") == r;
  }

  // ---------------------------------------------------------------------
  // The summary

  /** A quoted reply line: it starts with `>` once trimmed. */
  predicate Quoted(line: string) {
    StartsWith(Trim(line), ">")
  }

  predicate Unquoted(line: string) {
    !Quoted(line)
  }

  /** The body without its quoted reply lines. */
  function WithoutQuotes(body: string): (r: string)
  {
    Join(Filter(Split(body, "\n"), Unquoted), "\n")
  }

  /** `text.split('\n\n')[0] || text`. */
  function FirstParagraph(text: string): (r: string)
    ensures StartsWith(text, r)
  {
    var p := FirstPiece(text, "\n\n");
    if p == "" then text else p
  }

  /** `extractSummary(body, maxLength)`: the first paragraph of the
      quote-free body, shortened. */
  function ExtractSummary(body: string, max: nat): (r: string)
    ensures body == "" ==> r == ""
    ensures |r| <= max + 3
  {
    if body == "" then "" else Shorten(FirstParagraph(WithoutQuotes(body)), max)
  }

  /** A paragraph of at most `max` characters, trimmed; a longer one cut to
      its first `max` characters, trimmed and marked with `...`. */
  function Shorten(para: string, max: nat): (r: string)
    ensures |r| <= max + 3
    ensures |para| <= max ==> (r == "" || (!IsSpace(r[0]) && !IsSpace(r[|r| - 1]))) && IsInfix(para, r)
    ensures |para| > max ==>
      |r| >= 3 && r[|r| - 3..] == "..." && IsInfix(para[..max], r[..|r| - 3])
  {
    if |para| <= max then
      Trim(para)
    else
      var cut := Trim(para[..max]);
      assert (cut + "...")[..|cut|] == cut;
      cut + "..."
  }

  /** A body that is a single quoted line has no summary. */
  lemma QuoteOnlySummary(body: string, max: nat)
    requires Quoted(body) && forall i :: 0 <= i < |body| ==> body[i] != '\n'
    ensures ExtractSummary(body, max) == ""
  {
    AbsentHead(body, "\n");
    assert Split(body, "\n") == [body];
    assert Filter([body], Unquoted) == [];
    assert FirstPiece("", "\n\n") == "";
  }

  /** A single unquoted line is its own paragraph: trimmed, and cut with
      `...` beyond `max` characters. */
  lemma SingleLineSummary(body: string, max: nat)
    requires body != "" && !Quoted(body) && forall i :: 0 <= i < |body| ==> body[i] != '\n'
    ensures ExtractSummary(body, max) == if |body| <= max then Trim(body) else Trim(body[..max]) + "..."
  {
    AbsentHead(body, "\n");
    assert Split(body, "\n") == [body];
    assert Filter([body], Unquoted) == [body];
    AbsentHead(body, "\n\n");
    assert Split(body, "\n\n") == [body];
  }

  /** A quoted line after the text changes nothing. */
  lemma QuotedLineSkipped(line: string, quote: string, max: nat)
    requires !Quoted(line) && forall i :: 0 <= i < |line| ==> line[i] != '\n'
    requires Quoted(quote) && forall i :: 0 <= i < |quote| ==> quote[i] != '\n'
    ensures ExtractSummary(line + "\n" + quote, max) == ExtractSummary(line, max)
  {
    var s := line + "\n" + quote;
    AbsentHead(line, "\n");
    AbsentHead(quote, "\n");
    LinePair(line, quote);
    assert Filter([line, quote], Unquoted) == [line] + Filter([quote], Unquoted);
    assert Filter([quote], Unquoted) == [];
    assert Split(line, "\n") == [line];
    assert Filter([line], Unquoted) == [line];
    if line == "" {
      assert s != "";
      assert WithoutQuotes(s) == "";
      assert FirstPiece("", "\n\n") == "";
    }
  }

  predicate OneLine(line: string) {
    forall i :: 0 <= i < |line| ==> line[i] != '\n'
  }

  /** A quoted reply line anywhere in the body does not affect the summary:
      dropping it leaves `extractSummary` unchanged. */
  lemma QuotedLineIgnored(lines: seq<string>, i: nat, max: nat)
    requires i < |lines| && Quoted(lines[i])
    requires forall j :: 0 <= j < |lines| ==> OneLine(lines[j])
    ensures ExtractSummary(Join(RemoveAt(lines, i), "\n"), max) == ExtractSummary(Join(lines, "\n"), max)
  {
    var rest := RemoveAt(lines, i);
    FilterRemoveAt(lines, i, Unquoted);
    assert forall j :: 0 <= j < |rest| ==> OneLine(rest[j]) by {
      forall j | 0 <= j < |rest| ensures OneLine(rest[j]) {
        if j >= i { assert rest[j] == lines[j + 1]; }
      }
    }
    WithoutQuotesOfLines(lines);
    WithoutQuotesOfLines(rest);
    SummaryOfQuoteFree(Join(lines, "\n"), max);
    SummaryOfQuoteFree(Join(rest, "\n"), max);
  }

  /** The quote-free body of joined lines joins the unquoted lines. */
  lemma WithoutQuotesOfLines(lines: seq<string>)
    requires forall j :: 0 <= j < |lines| ==> OneLine(lines[j])
    ensures WithoutQuotes(Join(lines, "\n")) == Join(Filter(lines, Unquoted), "\n")
  {
    if |lines| == 0 {
      EmptyWithoutQuotes();
    } else {
      SplitJoinLines(lines);
    }
  }

  /** The summary is read from the quote-free body alone. */
  lemma SummaryOfQuoteFree(body: string, max: nat)
    ensures ExtractSummary(body, max) == Shorten(FirstParagraph(WithoutQuotes(body)), max)
  {
    if body == "" {
      EmptyWithoutQuotes();
      assert FirstPiece("", "\n\n") == "";
    }
  }

  lemma EmptyWithoutQuotes()
    ensures WithoutQuotes("") == ""
  {
    assert Split("", "\n") == [""];
    assert Trim("") == "";
    assert Filter([""], Unquoted) == [""];
  }

  /** Lines free of line feeds, joined with line feeds, split back apart. */
  lemma {:induction false} SplitJoinLines(lines: seq<string>)
    requires |lines| > 0 && forall j :: 0 <= j < |lines| ==> OneLine(lines[j])
    ensures Split(Join(lines, "\n"), "\n") == lines
    decreases |lines|
  {
    if |lines| == 1 {
      AbsentHead(lines[0], "\n");
      assert Split(lines[0], "\n") == [lines[0]];
    } else {
      var a := lines[0];
      var tail := Join(lines[1..], "\n");
      var s := a + "\n" + tail;
      assert Join(lines, "\n") == s;
      FirstNewline(a, tail);
      assert s[..|a|] == a;
      assert s[|a| + 1..] == tail;
      SplitJoinLines(lines[1..]);
      assert lines == [a] + lines[1..];
    }
  }

  /** Two lines split into two pieces. */
  lemma LinePair(a: string, b: string)
    requires forall i :: 0 <= i < |a| ==> a[i] != '\n'
    requires forall i :: 0 <= i < |b| ==> b[i] != '\n'
    ensures Split(a + "\n" + b, "\n") == [a, b]
  {
    var s := a + "\n" + b;
    FirstNewline(a, b);
    assert s[..|a|] == a;
    assert s[|a| + 1..] == b;
    AbsentHead(b, "\n");
    assert Split(b, "\n") == [b];
  }

  lemma FirstNewline(a: string, b: string)
    requires forall i :: 0 <= i < |a| ==> a[i] != '\n'
    ensures IndexOf(a + "\n" + b, "\n") == Some(|a|)
  {
    var s := a + "\n" + b;
    var d := "\n";
    assert s[|a|..|a| + 1] == d;
    assert OccursAt(s, d, |a|);
    forall j | 0 <= j < |a| ensures !OccursAt(s, d, j) {
      assert s[j..j + 1][0] == a[j];
    }
    assert IndexOf(s, d).Some?;
  }
}

=== FILE: email_headers.dfy ===
/** Header parsing of the `.eml` reader (`parseHeaders`): the header block
    is split into lines, a line that starts with white space continues the
    header before it (header unfolding, section 2.2.3 of RFC 5322), and
    every other line with a colon after its first character starts a new
    header. Names are lower-cased; a repeated name keeps its last value. */
module EmailHeaders {
  import opened Wrappers
  import opened Seqs
  import opened Strings

  /** The line without one trailing carriage return. */
  function DropCR(line: string): (r: string)
    ensures |line| > 0 && line[|line| - 1] == '\r' ==> r + "\r" == line
    ensures !(|line| > 0 && line[|line| - 1] == '\r') ==> r == line
  {
    if |line| > 0 && line[|line| - 1] == '\r' then line[..|line| - 1] else line
  }

  /** `s.split(/\r?\n/)`: split at every line feed, dropping the carriage
      return that precedes it. */
  function SplitLines(s: string): (r: seq<string>)
    ensures |r| == |Split(s, "\n")| && |r| >= 1
    ensures r[|r| - 1] == Split(s, "\n")[|r| - 1]
    ensures forall i :: 0 <= i < |r| - 1 ==> r[i] == DropCR(Split(s, "\n")[i])
  {
    var p := Split(s, "\n");
    Map(p[..|p| - 1], DropCR) + [p[|p| - 1]]
  }

  /** The parser's state: the headers saved so far and the header being
      read (an empty name when there is none). */
  datatype HeaderState = HeaderState(headers: map<string, string>, name: string, value: string)

  const Start := HeaderState(map[], "", "")

  /** `line.match(/^\s+/)`. */
  predicate SpaceLed(line: string) {
    |line| > 0 && IsSpace(line[0])
  }

  /** The headers with the one being read saved under its lower-cased name. */
  function Saved(st: HeaderState): (m: map<string, string>)
    ensures st.name != "" ==> m == st.headers[ToLower(st.name) := st.value]
    ensures st.name == "" ==> m == st.headers
  {
    if st.name != "" then st.headers[ToLower(st.name) := st.value] else st.headers
  }

  /** Where the colon of a header line is, when it is after the first
      character. */
  function ColonAt(line: string): (r: Option<nat>)
    ensures r.Some? ==> 0 < r.value < |line| && line[r.value] == ':'
    ensures r.Some? ==> forall j :: 0 <= j < r.value ==> line[j] != ':'
  {
    match IndexOf(line, ":")
    case Some(c) =>
      assert OccursAt(line, ":", c);
      assert forall j :: 0 <= j < c ==> line[j] != ':' by {
        forall j | 0 <= j < c ensures line[j] != ':' {
          assert !OccursAt(line, ":", j);
          assert line[j..j + 1] == [line[j]];
        }
      }
      if c > 0 then Some(c) else None
    case None => None
  }

  /** One line of the loop in `parseHeaders`. */
  function Step(st: HeaderState, line: string): (r: HeaderState)
  {
    if SpaceLed(line) && st.name != "" then st.(value := st.value + " " + Trim(line))
    else match ColonAt(line)
      case Some(c) => HeaderState(Saved(st), Trim(line[..c]), Trim(line[c + 1..]))
      case None => HeaderState(Saved(st), st.name, st.value)
  }

  function Run(st: HeaderState, lines: seq<string>): HeaderState
    decreases |lines|
  {
    if |lines| == 0 then st else Run(Step(st, lines[0]), lines[1..])
  }

  /** Every header name is stored lower-cased. */
  predicate Lowered(m: map<string, string>) {
    forall k {:trigger ToLower(k)} :: k in m ==> ToLower(k) == k
  }

  lemma {:induction false} RunKeepsLowered(st: HeaderState, lines: seq<string>)
    requires Lowered(st.headers)
    ensures Lowered(Saved(Run(st, lines)))
    decreases |lines|
  {
    ToLowerIdempotent(st.name);
    if |lines| > 0 {
      RunKeepsLowered(Step(st, lines[0]), lines[1..]);
    }
  }

  /** `parseHeaders(headerSection)`. */
  function ParseHeaders(section: string): (m: map<string, string>)
    ensures Lowered(m)
  {
    RunKeepsLowered(Start, SplitLines(section));
    Saved(Run(Start, SplitLines(section)))
  }

  /** `headers[name] || ''`. */
  function HeaderOr(headers: map<string, string>, name: string, fallback: string): (v: string)
    ensures name in headers && headers[name] != "" ==> v == headers[name]
    ensures !(name in headers && headers[name] != "") ==> v == fallback
  {
    if name in headers && headers[name] != "" then headers[name] else fallback
  }

  // ---------------------------------------------------------------------
  // What the loop does, line by line

  /** A line that starts a header: no leading white space, a colon after
      the first character and a name that is not blank. */
  predicate HeaderLine(line: string) {
    !SpaceLed(line) && ColonAt(line).Some? && Trim(line[..ColonAt(line).value]) != ""
  }

  function NameOf(line: string): string
    requires HeaderLine(line)
  {
    ToLower(Trim(line[..ColonAt(line).value]))
  }

  function ValueOf(line: string): string
    requires HeaderLine(line)
  {
    Trim(line[ColonAt(line).value + 1..])
  }

  /** The reference reading of a block of header lines: each header line
      sets its name to its value, later lines overwriting earlier ones;
      other lines are passed over. */
  function Assign(m: map<string, string>, lines: seq<string>): map<string, string>
    decreases |lines|
  {
    if |lines| == 0 then m
    else if HeaderLine(lines[0]) then Assign(m[NameOf(lines[0]) := ValueOf(lines[0])], lines[1..])
    else Assign(m, lines[1..])
  }

  /** On header lines alone the parser computes the reference reading. */
  lemma {:induction false} RunIsAssign(st: HeaderState, lines: seq<string>)
    requires forall i :: 0 <= i < |lines| ==> HeaderLine(lines[i])
    ensures Saved(Run(st, lines)) == Assign(Saved(st), lines)
    decreases |lines|
  {
    if |lines| > 0 {
      var next := Step(st, lines[0]);
      assert Saved(next) == Saved(st)[NameOf(lines[0]) := ValueOf(lines[0])];
      RunIsAssign(next, lines[1..]);
    }
  }

  /** Lines of other names leave a name's value alone. */
  lemma {:induction false} AssignKeeps(m: map<string, string>, lines: seq<string>, k: string)
    requires forall i :: 0 <= i < |lines| ==> HeaderLine(lines[i])
    requires forall i :: 0 <= i < |lines| ==> NameOf(lines[i]) != k
    requires k in m
    ensures k in Assign(m, lines) && Assign(m, lines)[k] == m[k]
    decreases |lines|
  {
    if |lines| > 0 {
      AssignKeeps(m[NameOf(lines[0]) := ValueOf(lines[0])], lines[1..], k);
    }
  }

  /** A header repeated in a block of header lines keeps the value of its
      last occurrence. */
  lemma RepeatedHeaderKeepsLast(st: HeaderState, before: seq<string>, line: string, after: seq<string>)
    requires forall i :: 0 <= i < |before| ==> HeaderLine(before[i])
    requires forall i :: 0 <= i < |after| ==> HeaderLine(after[i])
    requires HeaderLine(line)
    requires forall i :: 0 <= i < |after| ==> NameOf(after[i]) != NameOf(line)
    ensures var m := Saved(Run(st, before + ([line] + after)));
      NameOf(line) in m && m[NameOf(line)] == ValueOf(line)
  {
    var rest := [line] + after;
    var all := before + rest;
    assert forall i :: 0 <= i < |all| ==> HeaderLine(all[i]) by {
      forall i | 0 <= i < |all| ensures HeaderLine(all[i]) {
        if i < |before| {
          assert all[i] == before[i];
        } else if i > |before| {
          assert all[i] == after[i - |before| - 1];
        }
      }
    }
    AssignSplit(Saved(st), before, rest);
    RunIsAssign(st, before + rest);
    assert rest[1..] == after;
    AssignKeeps(Assign(Saved(st), before)[NameOf(line) := ValueOf(line)], after, NameOf(line));
  }

  /** Assigning two blocks in one go is assigning one after the other. */
  lemma {:induction false} AssignSplit(m: map<string, string>, a: seq<string>, b: seq<string>)
    ensures Assign(m, a + b) == Assign(Assign(m, a), b)
    decreases |a|
  {
    if |a| > 0 {
      assert (a + b)[1..] == a[1..] + b;
      assert (a + b)[0] == a[0];
      if HeaderLine(a[0]) {
        AssignSplit(m[NameOf(a[0]) := ValueOf(a[0])], a[1..], b);
      } else {
        AssignSplit(m, a[1..], b);
      }
    } else {
      assert a + b == b;
    }
  }

  /** A folded header is unfolded: each continuation line is appended to the
      value with one space. */
  lemma UnfoldContinuation(st: HeaderState, line: string, cont: string)
    requires HeaderLine(line) && SpaceLed(cont)
    ensures var m := Saved(Run(st, [line, cont]));
      NameOf(line) in m && m[NameOf(line)] == ValueOf(line) + " " + Trim(cont)
  {
    var s1 := Step(st, line);
    assert s1.name == Trim(line[..ColonAt(line).value]) && s1.value == ValueOf(line);
    var s2 := Step(s1, cont);
    assert s2.name == s1.name && s2.value == ValueOf(line) + " " + Trim(cont);
    assert [line, cont][1..] == [cont];
    assert Run(st, [line, cont]) == Run(s1, [cont]) == s2;
  }

  /** A line that neither continues nor starts a header changes nothing. */
  lemma IgnoredLine(st: HeaderState, line: string)
    requires !(SpaceLed(line) && st.name != "") && ColonAt(line).None?
    ensures Saved(Step(st, line)) == Saved(st)
  {
  }
}

=== FILE: eml.dfy ===
/** Reading a whole `.eml` message (`parseEml`) and turning it into the
    fields of a new intake (`emailToIntakeData`). `atob`, the date parsing
    and the clock are parameters. */
module Eml {
  import opened Wrappers
  import opened Seqs
  import opened Strings
  import opened EmailHeaders
  import opened MimeText
  import opened Multipart
  import opened FromAddress
  import opened EmailBody

  datatype Attachment = Attachment(filename: string, contentType: string, size: nat)

  /** A parsed message. `date` is the raw `Date` header, when there is one. */
  datatype Email = Email(
    subject: string,
    from: string,
    fromName: string,
    fromEmail: string,
    to: string,
    date: Option<string>,
    body: string,
    bodyHtml: string,
    attachments: seq<Attachment>)

  /** The header text and the body text: the split is at the first
      `\r\n\r\n`, else at the first `\n\n`. Without either, the index is
      -1: the header text is empty and the body loses its first
      character. */
  function SplitMessage(content: string): (r: (string, string))
    ensures |r.0| + |r.1| <= |content|
    ensures Contains(content, "\r\n\r\n") ==> r.0 + "\r\n\r\n" + r.1 == content
    ensures !Contains(content, "\r\n\r\n") && Contains(content, "\n\n") ==> r.0 + "\n\n" + r.1 == content
  {
    match IndexOf(content, "\r\n\r\n")
    case Some(k) =>
      assert content == content[..k] + content[k..k + 4] + content[k + 4..];
      (content[..k], content[k + 4..])
    case None =>
      match IndexOf(content, "\n\n")
      case Some(k) =>
        assert content == content[..k] + content[k..k + 2] + content[k + 2..];
        (content[..k], content[k + 2..])
      case None => ("", if |content| > 0 then content[1..] else "")
  }

  /** A message without a blank line has no headers, and its body is the
      content without its first character. */
  lemma NoBlankLine(content: string)
    requires !Contains(content, "\r\n\r\n") && !Contains(content, "\n\n") && |content| > 0
    ensures SplitMessage(content) == ("", content[1..])
  {
  }

  predicate IsPlain(p: Part) {
    Contains(p.contentType, "text/plain")
  }

  predicate IsHtml(p: Part) {
    Contains(p.contentType, "text/html")
  }

  /** What `parseEml` collects from the parts of a multipart body. */
  datatype Collected = Collected(body: string, bodyHtml: string, attachments: seq<Attachment>)

  function AttachmentOf(p: Part): Attachment {
    Attachment(p.filename.OrElse(""), p.contentType, |p.body|)
  }

  /** One part: the first non-empty text part becomes the body, the first
      non-empty HTML part the HTML body, and any other part with a file
      name an attachment of its body's length. */
  function Collect(c: Collected, p: Part, atob: string -> Option<string>): Collected {
    if IsPlain(p) && c.body == "" then c.(body := DecodeBody(p.body, p.encoding, atob))
    else if IsHtml(p) && c.bodyHtml == "" then c.(bodyHtml := DecodeBody(p.body, p.encoding, atob))
    else if p.filename.Some? && p.filename.value != "" then c.(attachments := c.attachments + [AttachmentOf(p)])
    else c
  }

  function CollectAll(c: Collected, parts: seq<Part>, atob: string -> Option<string>): (r: Collected)
    ensures forall a :: a in c.attachments ==> a in r.attachments
    ensures forall a :: a in r.attachments ==>
      a in c.attachments || exists j :: 0 <= j < |parts| && a == AttachmentOf(parts[j]) && a.filename != ""
    decreases |parts|
  {
    if |parts| == 0 then c
    else
      var next := Collect(c, parts[0], atob);
      var r := CollectAll(next, parts[1..], atob);
      assert forall a :: a in r.attachments ==>
        a in c.attachments || (exists j :: 0 <= j < |parts| && a == AttachmentOf(parts[j]) && a.filename != "") by {
        forall a | a in r.attachments && a !in c.attachments
          ensures exists j :: 0 <= j < |parts| && a == AttachmentOf(parts[j]) && a.filename != ""
        {
          if a in next.attachments {
            assert a == AttachmentOf(parts[0]);
          } else {
            var j :| 0 <= j < |parts[1..]| && a == AttachmentOf(parts[1..][j]) && a.filename != "";
            assert parts[1..][j] == parts[j + 1];
          }
        }
      }
      r
  }

  /** The reference reading of the body: the decoded text of the first
      text part that decodes to something. */
  function PlainBody(parts: seq<Part>, atob: string -> Option<string>): string
    decreases |parts|
  {
    if |parts| == 0 then ""
    else if IsPlain(parts[0]) && DecodeBody(parts[0].body, parts[0].encoding, atob) != "" then
      DecodeBody(parts[0].body, parts[0].encoding, atob)
    else PlainBody(parts[1..], atob)
  }

  /** Once found, the body is kept. */
  lemma {:induction false} BodyKept(c: Collected, parts: seq<Part>, atob: string -> Option<string>)
    requires c.body != ""
    ensures CollectAll(c, parts, atob).body == c.body
    decreases |parts|
  {
    if |parts| > 0 {
      BodyKept(Collect(c, parts[0], atob), parts[1..], atob);
    }
  }

  /** The fold finds the reference body. */
  lemma {:induction false} CollectFindsPlainBody(c: Collected, parts: seq<Part>, atob: string -> Option<string>)
    requires c.body == ""
    ensures CollectAll(c, parts, atob).body == PlainBody(parts, atob)
    decreases |parts|
  {
    if |parts| > 0 {
      var next := Collect(c, parts[0], atob);
      if next.body != "" {
        BodyKept(next, parts[1..], atob);
      } else {
        CollectFindsPlainBody(next, parts[1..], atob);
      }
    }
  }

  /** The reference body of a list with one more part. */
  lemma {:induction false} PlainBodySnoc(s: seq<Part>, p: Part, atob: string -> Option<string>)
    ensures PlainBody(s + [p], atob) ==
      if PlainBody(s, atob) != "" then PlainBody(s, atob)
      else if IsPlain(p) && DecodeBody(p.body, p.encoding, atob) != "" then DecodeBody(p.body, p.encoding, atob)
      else ""
    decreases |s|
  {
    if |s| == 0 {
      assert s + [p] == [p];
    } else {
      assert (s + [p])[0] == s[0] && (s + [p])[1..] == s[1..] + [p];
      PlainBodySnoc(s[1..], p, atob);
    }
  }

  /** The reference reading of the HTML body: the decoded text of the first
      HTML part that decodes to something, skipping a part that is taken
      as the body because it is also plain text and no body was found
      before it. */
  function HtmlBody(parts: seq<Part>, atob: string -> Option<string>): string {
    HtmlFrom(parts, 0, atob)
  }

  function HtmlFrom(parts: seq<Part>, i: nat, atob: string -> Option<string>): string
    requires i <= |parts|
    decreases |parts| - i
  {
    if i == |parts| then ""
    else if IsHtml(parts[i]) && !(IsPlain(parts[i]) && PlainBody(parts[..i], atob) == "")
         && DecodeBody(parts[i].body, parts[i].encoding, atob) != "" then
      DecodeBody(parts[i].body, parts[i].encoding, atob)
    else HtmlFrom(parts, i + 1, atob)
  }

  /** Once found, the HTML body is kept. */
  lemma {:induction false} HtmlKept(c: Collected, parts: seq<Part>, atob: string -> Option<string>)
    requires c.bodyHtml != ""
    ensures CollectAll(c, parts, atob).bodyHtml == c.bodyHtml
    decreases |parts|
  {
    if |parts| > 0 {
      HtmlKept(Collect(c, parts[0], atob), parts[1..], atob);
    }
  }

  /** From any position, with the body found so far in `c`, the fold finds
      the reference HTML body of the rest. */
  lemma {:induction false} HtmlFromPosition(c: Collected, all: seq<Part>, i: nat, atob: string -> Option<string>)
    requires i <= |all| && c.bodyHtml == "" && c.body == PlainBody(all[..i], atob)
    ensures CollectAll(c, all[i..], atob).bodyHtml == HtmlFrom(all, i, atob)
    decreases |all| - i
  {
    if i < |all| {
      var p := all[i];
      var next := Collect(c, p, atob);
      assert all[i..][0] == p && all[i..][1..] == all[i + 1..];
      assert all[..i + 1] == all[..i] + [p];
      PlainBodySnoc(all[..i], p, atob);
      if next.bodyHtml != "" {
        HtmlKept(next, all[i + 1..], atob);
      } else {
        HtmlFromPosition(next, all, i + 1, atob);
      }
    }
  }

  /** The fold finds the reference HTML body. */
  lemma CollectFindsHtmlBody(c: Collected, parts: seq<Part>, atob: string -> Option<string>)
    requires c.body == "" && c.bodyHtml == ""
    ensures CollectAll(c, parts, atob).bodyHtml == HtmlBody(parts, atob)
  {
    assert parts[..0] == [] && parts[0..] == parts;
    HtmlFromPosition(c, parts, 0, atob);
  }

  /** A part with a file name is listed as an attachment unless it is taken
      as the body or the HTML body: it is not plain text while no body has
      been found, and not HTML while no HTML body has been found. */
  lemma {:induction false} NamedPartsAttached(c: Collected, parts: seq<Part>, atob: string -> Option<string>, j: nat)
    requires j < |parts| && parts[j].filename.Some? && parts[j].filename.value != ""
    requires var s := CollectAll(c, parts[..j], atob);
      (IsPlain(parts[j]) ==> s.body != "") && (IsHtml(parts[j]) ==> s.bodyHtml != "")
    ensures AttachmentOf(parts[j]) in CollectAll(c, parts, atob).attachments
    decreases |parts|
  {
    var next := Collect(c, parts[0], atob);
    if j > 0 {
      assert parts[..j][0] == parts[0] && parts[..j][1..] == parts[1..][..j - 1];
      assert parts[1..][j - 1] == parts[j];
      NamedPartsAttached(next, parts[1..], atob, j - 1);
    } else {
      assert parts[..0] == [];
      assert AttachmentOf(parts[0]) in next.attachments;
    }
  }

  /** The same, stated with the reference readings: a named part becomes an
      attachment when it is not plain text before the body is found and not
      HTML before the HTML body is found. */
  lemma NamedPartsAttachedFromStart(parts: seq<Part>, atob: string -> Option<string>, j: nat)
    requires j < |parts| && parts[j].filename.Some? && parts[j].filename.value != ""
    requires IsPlain(parts[j]) ==> PlainBody(parts[..j], atob) != ""
    requires IsHtml(parts[j]) ==> HtmlBody(parts[..j], atob) != ""
    ensures AttachmentOf(parts[j]) in CollectAll(Collected("", "", []), parts, atob).attachments
  {
    CollectFindsPlainBody(Collected("", "", []), parts[..j], atob);
    CollectFindsHtmlBody(Collected("", "", []), parts[..j], atob);
    NamedPartsAttached(Collected("", "", []), parts, atob, j);
  }

  /** The body, HTML body and attachments of a message: from its parts
      when the content type names a boundary, else the decoded body. */
  function Contents(headers: map<string, string>, bodyText: string, atob: string -> Option<string>): (c: Collected)
    ensures forall a :: a in c.attachments ==> a.filename != ""
    ensures ExtractBoundary(HeaderOr(headers, "content-type", "text/plain")).None? ==> c.bodyHtml == "" && c.attachments == []
  {
    match ExtractBoundary(HeaderOr(headers, "content-type", "text/plain"))
    case Some(boundary) => CollectAll(Collected("", "", []), ParseMultipart(bodyText, boundary, atob), atob)
    case None => Collected(DecodeBody(bodyText, HeaderOr(headers, "content-transfer-encoding", "7bit"), atob), "", [])
  }

  /** `parseEml(content)`, with the sender and the body clean-up in their
      corrected form. */
  function ParseEml(content: string, atob: string -> Option<string>): (r: Email)
    ensures NoTriple(r.body)
    ensures |r.body| > 0 ==> !IsSpace(r.body[0]) && !IsSpace(r.body[|r.body| - 1])
    ensures forall a :: a in r.attachments ==> a.filename != ""
    ensures r.fromName != "" ==> exists j :: 0 <= j < |r.from| && r.from[j] == '<'
    ensures ExtractBoundary(HeaderOr(ParseHeaders(SplitMessage(content).0), "content-type", "text/plain")).None? ==>
      r.bodyHtml == "" && r.attachments == []
  {
    var (headerText, bodyText) := SplitMessage(content);
    var headers := ParseHeaders(headerText);
    var from := HeaderOr(headers, "from", "");
    var sender := ParseFrom(from, atob);
    var date := if HeaderOr(headers, "date", "") != "" then Some(headers["date"]) else None;
    var c := Contents(headers, bodyText, atob);
    Email(DecodeHeader(HeaderOr(headers, "subject", ""), atob), from, sender.name, sender.email,
          HeaderOr(headers, "to", ""), date, CleanBody(c.body), c.bodyHtml, c.attachments)
  }

  /** `parseEml(content)` as written: the sender split by the pattern not
      tied to `<` and the body cleaned in the order the source uses. It
      differs from `ParseEml` only in the sender and the body. */
  function ParseEmlAsWritten(content: string, atob: string -> Option<string>): (r: Email)
    ensures |r.body| > 0 ==> !IsSpace(r.body[0]) && !IsSpace(r.body[|r.body| - 1])
    ensures forall a :: a in r.attachments ==> a.filename != ""
    ensures var e := ParseEml(content, atob);
      r.subject == e.subject && r.from == e.from && r.to == e.to && r.date == e.date
      && r.bodyHtml == e.bodyHtml && r.attachments == e.attachments
    ensures r.fromName == ParseFromAsWritten(r.from, atob).name
    ensures r.fromEmail == ParseFromAsWritten(r.from, atob).email
  {
    var (headerText, bodyText) := SplitMessage(content);
    var headers := ParseHeaders(headerText);
    var from := HeaderOr(headers, "from", "");
    var sender := ParseFromAsWritten(from, atob);
    var date := if HeaderOr(headers, "date", "") != "" then Some(headers["date"]) else None;
    var c := Contents(headers, bodyText, atob);
    Email(DecodeHeader(HeaderOr(headers, "subject", ""), atob), from, sender.name, sender.email,
          HeaderOr(headers, "to", ""), date, CleanBodyAsWritten(c.body), c.bodyHtml, c.attachments)
  }

  /** As written, the body of a multipart message is the first text part's,
      cleaned in the source's order. */
  lemma MultipartBodyAsWritten(content: string, atob: string -> Option<string>, boundary: string)
    requires ExtractBoundary(HeaderOr(ParseHeaders(SplitMessage(content).0), "content-type", "text/plain")) == Some(boundary)
    ensures ParseEmlAsWritten(content, atob).body
              == CleanBodyAsWritten(PlainBody(ParseMultipart(SplitMessage(content).1, boundary, atob), atob))
  {
    CollectFindsPlainBody(Collected("", "", []), ParseMultipart(SplitMessage(content).1, boundary, atob), atob);
  }

  /** The body of a multipart message is the first text part's, cleaned. */
  lemma MultipartBody(content: string, atob: string -> Option<string>, boundary: string)
    requires ExtractBoundary(HeaderOr(ParseHeaders(SplitMessage(content).0), "content-type", "text/plain")) == Some(boundary)
    ensures ParseEml(content, atob).body == CleanBody(PlainBody(ParseMultipart(SplitMessage(content).1, boundary, atob), atob))
  {
    CollectFindsPlainBody(Collected("", "", []), ParseMultipart(SplitMessage(content).1, boundary, atob), atob);
  }

  /** The HTML body of a multipart message is its first HTML part's. */
  lemma MultipartHtmlBody(content: string, atob: string -> Option<string>, boundary: string)
    requires ExtractBoundary(HeaderOr(ParseHeaders(SplitMessage(content).0), "content-type", "text/plain")) == Some(boundary)
    ensures ParseEml(content, atob).bodyHtml == HtmlBody(ParseMultipart(SplitMessage(content).1, boundary, atob), atob)
    ensures ParseEmlAsWritten(content, atob).bodyHtml == ParseEml(content, atob).bodyHtml
  {
    CollectFindsHtmlBody(Collected("", "", []), ParseMultipart(SplitMessage(content).1, boundary, atob), atob);
  }

  // ---------------------------------------------------------------------
  // Intake data

  /** The intake fields an e-mail fills in. */
  datatype IntakeData = IntakeData(
    onderwerp: string,
    aanvrager: string,
    aanvragerEmail: string,
    korteOmschrijving: string,
    volledigeEmail: string,
    emailDatum: string,
    emailBijlagen: seq<string>)

  function FileNameOf(a: Attachment): string {
    a.filename
  }

  /** `emailToIntakeData(parsed)`: the subject defaults to `Intake vanuit
      email`, the requester is the sender's name, else the address; the
      summary is at most 500 characters and `...`. A date that does not
      parse makes `toISOString` throw; without a date the clock reading
      `now` is used. */
  function EmailToIntakeData(e: Email, toIso: string -> Option<string>, now: string): (r: Result<IntakeData, string>)
    ensures r.Err? <==> e.date.Some? && toIso(e.date.value).None?
    ensures r.Ok? ==> r.value.onderwerp == (if e.subject != "" then e.subject else "Intake vanuit email")
    ensures r.Ok? ==> r.value.aanvrager == (if e.fromName != "" then e.fromName else e.fromEmail)
    ensures r.Ok? ==> r.value.aanvragerEmail == e.fromEmail && r.value.volledigeEmail == e.body
    ensures r.Ok? ==> |r.value.korteOmschrijving| <= 503
    ensures r.Ok? ==> e.date.None? ==> r.value.emailDatum == now
    ensures r.Ok? ==> (|r.value.emailBijlagen| == |e.attachments|
      && forall i :: 0 <= i < |e.attachments| ==> r.value.emailBijlagen[i] == e.attachments[i].filename)
  {
    var datum :- match e.date
      case None => Ok(now)
      case Some(d) => (match toIso(d) case Some(iso) => Ok(iso) case None => Err("RangeError: Invalid time value"));
    Ok(IntakeData(
      if e.subject != "" then e.subject else "Intake vanuit email",
      if e.fromName != "" then e.fromName else e.fromEmail,
      e.fromEmail,
      ExtractSummary(e.body, 500),
      e.body,
      datum,
      Map(e.attachments, FileNameOf)))
  }
}

=== FILE: form_base.dfy ===
/** The behaviour every form model shares (`FormBase`): the constructor
    defaults, the status a form may be put in, validation of required fields,
    and copying a form to and from its JSON object. A form is the object the
    application stores: a map from field names to JSON values. */
module FormBase {
  import opened Wrappers
  import opened Seqs
  import opened Json

  type Form = map<string, Value>

  /** One entry of a `validate()` result. */
  datatype FormError = FormError(field: string, message: string)

  /** The three statuses `setStatus` accepts. */
  const FormStatuses: seq<string> := ["draft", "in_review", "approved"]

  /** The fields every new form starts with. */
  const BaseKeys: set<string> := {
    "id", "formType", "version", "status", "archived", "archivedAt",
    "createdAt", "updatedAt", "createdBy", "comments", "trackChanges"
  }

  /** The constructor of a form of the given type. The generated id and the
      clock reading are parameters. */
  function NewForm(formType: string, id: string, now: string): (f: Form)
    ensures "status" in f && f["status"] == Str("draft")
    ensures "archived" in f && f["archived"] == Bool(false)
    ensures "comments" in f && f["comments"] == Arr([])
    ensures "trackChanges" in f && f["trackChanges"] == Arr([])
    ensures "updatedAt" in f && "createdAt" in f && f["updatedAt"] == f["createdAt"] == Str(now)
    ensures "formType" in f && f["formType"] == Str(formType)
    ensures "id" in f && f["id"] == Str(id)
    ensures f.Keys == BaseKeys
  {
    map[
      "id" := Str(id),
      "formType" := Str(formType),
      "version" := Str("1.0"),
      "status" := Str("draft"),
      "archived" := Bool(false),
      "archivedAt" := Null,
      "createdAt" := Str(now),
      "updatedAt" := Str(now),
      "createdBy" := Str(""),
      "comments" := Arr([]),
      "trackChanges" := Arr([])
    ]
  }

  /** `form.a.b…` is present and truthy. */
  predicate Filled(form: Form, path: seq<string>) {
    var v := GetPath(Obj(form), path);
    v.Some? && Truthy(v.value)
  }

  /** The base `validate()`: one error when `formType` is falsy. */
  function BaseErrors(form: Form): (r: seq<FormError>)
    ensures |r| <= 1
    ensures |r| == 1 <==> !Filled(form, ["formType"])
    ensures |r| == 1 ==> r[0].field == "formType"
  {
    if Filled(form, ["formType"]) then []
    else [FormError("formType", "Formuliertype is verplicht")]
  }

  /** A required field: where it is, and the error reported when it is empty. */
  datatype Required = Required(path: seq<string>, field: string, message: string)

  function ErrorOf(c: Required): FormError {
    FormError(c.field, c.message)
  }

  /** The check's field is empty in `form`. */
  function EmptyIn(form: Form): Required -> bool {
    (c: Required) => !Filled(form, c.path)
  }

  /** The errors of the required fields that are empty, in the order the
      checks are listed. */
  function MissingErrors(form: Form, checks: seq<Required>): (r: seq<FormError>)
    ensures |r| == Count(checks, EmptyIn(form))
    ensures forall c :: c in checks && !Filled(form, c.path) ==> ErrorOf(c) in r
    ensures forall e :: e in r ==> exists c :: c in checks && !Filled(form, c.path) && e == ErrorOf(c)
  {
    var missing := Filter(checks, EmptyIn(form));
    var r := Map(missing, ErrorOf);
    assert forall c :: c in checks && !Filled(form, c.path) ==> ErrorOf(c) in r by {
      forall c | c in checks && !Filled(form, c.path) ensures ErrorOf(c) in r {
        var i :| 0 <= i < |checks| && checks[i] == c;
        assert EmptyIn(form)(checks[i]);
        var k :| 0 <= k < |missing| && missing[k] == c;
        assert r[k] == ErrorOf(c);
      }
    }
    assert forall e :: e in r ==> exists c :: c in checks && !Filled(form, c.path) && e == ErrorOf(c) by {
      forall e | e in r ensures exists c :: c in checks && !Filled(form, c.path) && e == ErrorOf(c) {
        var k :| 0 <= k < |r| && r[k] == e;
        assert missing[k] in checks && EmptyIn(form)(missing[k]);
      }
    }
    r
  }

  /** When every required field is empty, each check reports its error, in
      order. */
  lemma AllMissing(form: Form, checks: seq<Required>)
    requires forall i :: 0 <= i < |checks| ==> !Filled(form, checks[i].path)
    ensures MissingErrors(form, checks) == Map(checks, ErrorOf)
  {
    FilterKeepsAll(checks, EmptyIn(form));
  }

  /** The `validate()` of a form type: the base errors, then one error per
      empty required field. */
  function ValidateWith(form: Form, checks: seq<Required>): (r: seq<FormError>)
    ensures |r| == |BaseErrors(form)| + Count(checks, EmptyIn(form))
    ensures r[..|BaseErrors(form)|] == BaseErrors(form)
    ensures forall c :: c in checks && !Filled(form, c.path) ==> ErrorOf(c) in r[|BaseErrors(form)|..]
    ensures forall e :: e in r[|BaseErrors(form)|..] ==>
      exists c :: c in checks && !Filled(form, c.path) && e == ErrorOf(c)
  {
    var b := BaseErrors(form);
    var m := MissingErrors(form, checks);
    assert (b + m)[|b|..] == m;
    b + m
  }

  /** No two checks report the same field. */
  predicate DistinctFields(checks: seq<Required>) {
    forall i, j :: 0 <= i < j < |checks| ==> checks[i].field != checks[j].field
  }

  /** With distinct fields, each check's error is reported exactly when its
      field is empty. */
  lemma ValidateExact(form: Form, checks: seq<Required>)
    requires DistinctFields(checks)
    ensures forall c :: c in checks ==>
      (ErrorOf(c) in ValidateWith(form, checks)[|BaseErrors(form)|..] <==> !Filled(form, c.path))
  {
    var r := ValidateWith(form, checks)[|BaseErrors(form)|..];
    forall c | c in checks && ErrorOf(c) in r ensures !Filled(form, c.path) {
      var d :| d in checks && !Filled(form, d.path) && ErrorOf(c) == ErrorOf(d);
      var i :| 0 <= i < |checks| && checks[i] == c;
      var k :| 0 <= k < |checks| && checks[k] == d;
      assert i == k;
    }
  }

  /** `isValid()`: no errors. */
  predicate IsValid(errors: seq<FormError>) {
    |errors| == 0
  }

  /** `toJSON()`: a shallow copy of the form's own fields. */
  function ToJson(form: Form): (r: Value)
    ensures r.Obj? && r.fields.Keys == form.Keys
    ensures forall k :: k in form ==> r.fields[k] == form[k]
  {
    Obj(form)
  }

  /** `fromJSON(data)`: `Object.assign(this, data)`, so the fields of `data`
      overwrite the form's and the form keeps the fields `data` lacks. A
      `data` that is not an object adds nothing here; in the source a string
      or an array would add its indexed entries (`"0"`, `"1"`, ...). */
  function FromJson(form: Form, data: Value): (r: Form)
    ensures r.Keys == form.Keys + FieldsOf(data).Keys
    ensures forall k :: k in FieldsOf(data) ==> r[k] == FieldsOf(data)[k]
    ensures forall k :: k in form && k !in FieldsOf(data) ==> r[k] == form[k]
  {
    form + FieldsOf(data)
  }

  /** Loading a form's own JSON into a form of the same type restores it:
      every field the copied form has is taken over, and a target whose
      fields are among those ends up equal to it. */
  lemma FromJsonToJson(target: Form, form: Form)
    ensures forall k :: k in form ==> FromJson(target, ToJson(form))[k] == form[k]
    ensures target.Keys <= form.Keys ==> FromJson(target, ToJson(form)) == form
  {
  }

  /** `setStatus(status)`: only `draft`, `in_review` and `approved` are
      accepted; they also refresh `updatedAt`. Any other value changes
      nothing. */
  function SetStatus(form: Form, status: string, now: string): (r: Form)
    ensures status in FormStatuses ==> r == form["status" := Str(status)]["updatedAt" := Str(now)]
    ensures status !in FormStatuses ==> r == form
  {
    if status in FormStatuses then form["status" := Str(status)]["updatedAt" := Str(now)] else form
  }

  /** After `setStatus`, a form whose status was one of the three still
      has one of the three. */
  lemma SetStatusKeepsClosedSet(form: Form, status: string, now: string)
    requires "status" in form && form["status"].Str? && form["status"].s in FormStatuses
    ensures var r := SetStatus(form, status, now);
      "status" in r && r["status"].Str? && r["status"].s in FormStatuses
  {
  }

  /** The `if (!list) list = []; list.push(item)` idiom of the `add…`
      methods: a missing or falsy list becomes a one-element list, an array
      gets the item appended, and any other value has no `push` (a
      `TypeError` in the source). */
  function AppendItem(list: Option<Value>, item: Value): (r: Result<Value, string>)
    ensures r.Ok? <==> list.None? || !Truthy(list.value) || list.value.Arr?
    ensures r.Ok? && list.Some? && list.value.Arr? ==> r.value == Arr(list.value.items + [item])
    ensures r.Ok? && !(list.Some? && list.value.Arr?) ==> r.value == Arr([item])
  {
    match list
    case None => Ok(Arr([item]))
    case Some(Arr(items)) => Ok(Arr(items + [item]))
    case Some(v) => if Truthy(v) then Err("push is not a function") else Ok(Arr([item]))
  }

  /** `this.<section>.<key>.push(item)` behind the `if (!list) list = []`
      guard: reading a field of a section that is not an object, or writing
      to one, is a `TypeError`. */
  function PushInSection(form: Form, section: string, key: string, item: Value): (r: Result<Form, string>)
    ensures r.Ok? <==> section in form && form[section].Obj? && AppendItem(Get(form[section], key), item).Ok?
    ensures r.Ok? ==>
      var list := AppendItem(Get(form[section], key), item).value;
      r.value == form[section := Obj(form[section].fields[key := list])]
      && GetPath(Obj(r.value), [section, key]) == Some(list)
  {
    if section in form && form[section].Obj? then
      var list :- AppendItem(Get(form[section], key), item);
      var r := form[section := Obj(form[section].fields[key := list])];
      assert GetPath(Obj(r), [section, key]) == GetPath(Obj(r[section].fields), [key]);
      Ok(r)
    else Err("Cannot read properties of " + section)
  }
}

=== FILE: from_address.dfy ===
/** The sender of a message: `parseEml` matches the `From` header against
    `^(?:"?([^"<]*)"?\s*)?<?([^>]+@[^>]+)>?$` and takes the first group as
    the display name and the second as the address.

    The functions below follow the regular-expression engine's backtracking
    order choice by choice: a greedy optional part is first tried present,
    a greedy repetition is first tried at its longest. The `angle` switch
    adds what the pattern evidently means: the display-name group only
    counts when a `<` follows it. */
module FromAddress {
  import opened Wrappers
  import opened Strings
  import opened MimeText

  /** `[^"<]` excludes these. */
  predicate NameStop(c: char) {
    c == '"' || c == '<'
  }

  predicate CloseAngle(c: char) {
    c == '>'
  }

  predicate NotSpace(c: char) {
    !IsSpace(c)
  }

  /** `[^>]+@[^>]+`: an `@` with at least one character on either side. */
  predicate InnerAt(w: string) {
    exists p :: 1 <= p < |w| - 1 && w[p] == '@'
  }

  predicate NoClose(w: string) {
    forall i :: 0 <= i < |w| ==> w[i] != '>'
  }

  /** `([^>]+@[^>]+)>?$` at the start of `u`: the group takes every
      character up to the first `>`, which may only be the last one. */
  function AddressFrom(u: string): (r: Option<string>)
    ensures r.Some? ==> InnerAt(r.value) && NoClose(r.value)
    ensures r.Some? ==> u == r.value || u == r.value + ">"
  {
    var n := RunBefore(u, CloseAngle);
    if (n == |u| || u[n..] == ">") && InnerAt(u[..n]) then
      assert u == u[..n] + u[n..];
      Some(u[..n])
    else None
  }

  /** `<?([^>]+@[^>]+)>?$`: the opening `<` is taken when the rest then
      matches, otherwise the group starts at the `<`. */
  function Address(t: string): (r: Option<string>)
    ensures r.Some? ==> InnerAt(r.value) && NoClose(r.value)
    ensures r.Some? ==> t == r.value || t == r.value + ">" || t == "<" + r.value || t == "<" + r.value + ">"
  {
    if |t| > 0 && t[0] == '<' && AddressFrom(t[1..]).Some? then
      assert t == "<" + t[1..];
      AddressFrom(t[1..])
    else AddressFrom(t)
  }

  /** `\s*` after the name, tried with `m` spaces, then fewer. */
  function AfterSpaces(s: string, pos: nat, m: nat, angle: bool): (r: Option<string>)
    requires pos + m <= |s|
    ensures r.Some? ==> InnerAt(r.value) && NoClose(r.value)
    ensures r.Some? && angle ==> exists j :: pos <= j < |s| && s[j] == '<'
    decreases m
  {
    var here := if angle && !(pos + m < |s| && s[pos + m] == '<') then None else Address(s[pos + m..]);
    if here.Some? then here
    else if m == 0 then None
    else AfterSpaces(s, pos, m - 1, angle)
  }

  function Spaces(s: string, pos: nat, angle: bool): (r: Option<string>)
    requires pos <= |s|
    ensures r.Some? ==> InnerAt(r.value) && NoClose(r.value)
    ensures r.Some? && angle ==> exists j :: pos <= j < |s| && s[j] == '<'
  {
    AfterSpaces(s, pos, RunBefore(s[pos..], NotSpace), angle)
  }

  /** `"?\s*` and the rest after a name that ends at `a`. */
  function AfterName(s: string, a: nat, angle: bool): (r: Option<string>)
    requires a <= |s|
    ensures r.Some? ==> InnerAt(r.value) && NoClose(r.value)
    ensures r.Some? && angle ==> exists j :: a <= j < |s| && s[j] == '<'
  {
    if a < |s| && s[a] == '"' && Spaces(s, a + 1, angle).Some? then Spaces(s, a + 1, angle)
    else Spaces(s, a, angle)
  }

  /** `[^"<]*` from `q`, tried with `n` characters, then fewer. */
  function NameTry(s: string, q: nat, n: nat, angle: bool): (r: Option<(string, string)>)
    requires q + n <= |s|
    ensures r.Some? ==> InnerAt(r.value.1) && NoClose(r.value.1)
    ensures r.Some? ==> exists k :: q <= k <= q + n && r.value.0 == s[q..k]
    ensures r.Some? && angle ==> exists j :: q <= j < |s| && s[j] == '<'
    decreases n
  {
    match AfterName(s, q + n, angle)
    case Some(w) => Some((s[q..q + n], w))
    case None => if n == 0 then None else NameTry(s, q, n - 1, angle)
  }

  function NameFrom(s: string, q: nat, angle: bool): (r: Option<(string, string)>)
    requires q <= |s|
    ensures r.Some? ==> InnerAt(r.value.1) && NoClose(r.value.1)
    ensures r.Some? && angle ==> exists j :: q <= j < |s| && s[j] == '<'
  {
    NameTry(s, q, RunBefore(s[q..], NameStop), angle)
  }

  /** The optional group `"?([^"<]*)"?\s*`, entered. */
  function Group(s: string, angle: bool): (r: Option<(string, string)>)
    ensures r.Some? ==> InnerAt(r.value.1) && NoClose(r.value.1)
    ensures r.Some? && angle ==> exists j :: 0 <= j < |s| && s[j] == '<'
  {
    if |s| > 0 && s[0] == '"' && NameFrom(s, 1, angle).Some? then NameFrom(s, 1, angle)
    else NameFrom(s, 0, angle)
  }

  /** The match: the display-name group (`None` when the optional group is
      skipped) and the address group. */
  function FromMatch(s: string, angle: bool): (r: Option<(Option<string>, string)>)
    ensures r.Some? ==> InnerAt(r.value.1) && NoClose(r.value.1)
    ensures r.Some? && r.value.0.Some? && angle ==> exists j :: 0 <= j < |s| && s[j] == '<'
  {
    match Group(s, angle)
    case Some((name, address)) => Some((Some(name), address))
    case None =>
      match Address(s)
      case Some(address) => Some((None, address))
      case None => None
  }

  /** The `fromName` and `fromEmail` of a parsed message. */
  datatype Sender = Sender(name: string, email: string)

  /** Without a match the whole header is the address and there is no
      name; otherwise the trimmed groups, the name header-decoded. */
  function SenderOf(from: string, m: Option<(Option<string>, string)>, atob: string -> Option<string>)
    : (r: Sender)
    ensures m.None? ==> r == Sender("", from)
    ensures m.Some? ==> r.email == Trim(m.value.1)
    ensures m.Some? && m.value.0.None? ==> r.name == ""
  {
    match m
    case None => Sender("", from)
    case Some((name, address)) => Sender(DecodeHeader(Trim(name.OrElse("")), atob), Trim(address))
  }

  /** The sender as `parseEml` computes it. */
  function ParseFromAsWritten(from: string, atob: string -> Option<string>): (r: Sender)
    ensures FromMatch(from, false).None? ==> r == Sender("", from)
    ensures FromMatch(from, false).Some? ==> r.email == Trim(FromMatch(from, false).value.1)
  {
    SenderOf(from, FromMatch(from, false), atob)
  }

  /** The sender with a display name only in front of a `<`. */
  function ParseFrom(from: string, atob: string -> Option<string>): (r: Sender)
    ensures FromMatch(from, true).None? ==> r == Sender("", from)
    ensures FromMatch(from, true).Some? ==> r.email == Trim(FromMatch(from, true).value.1)
    ensures (forall j :: 0 <= j < |from| ==> from[j] != '<') ==> r.name == ""
  {
    SenderOf(from, FromMatch(from, true), atob)
  }

  // ---------------------------------------------------------------------
  // A bare address

  /** A bare address: one `@` with something on either side, and none of
      the characters the pattern treats specially. */
  predicate BareAddress(s: string, a: nat) {
    1 <= a < |s| - 1 && s[a] == '@'
    && (forall i :: 0 <= i < |s| && i != a ==> s[i] != '@')
    && forall i :: 0 <= i < |s| ==> !NameStop(s[i]) && s[i] != '>' && !IsSpace(s[i])
  }

  /** As written, the greedy name group swallows all of a bare address but
      the one character the address group needs before its `@`. */
  lemma BareAddressAsWritten(s: string, a: nat, atob: string -> Option<string>)
    requires BareAddress(s, a)
    ensures ParseFromAsWritten(s, atob) == Sender(DecodeHeader(Trim(s[..a - 1]), atob), Trim(s[a - 1..]))
  {
    BareNameTry(s, a);
    assert RunBefore(s[0..], NameStop) == |s| by {
      assert s[0..] == s;
    }
  }

  /** Of all name lengths, only `a - 1` leaves an address behind. */
  lemma BareNameTry(s: string, a: nat)
    requires BareAddress(s, a)
    ensures NameTry(s, 0, |s|, false) == Some((s[..a - 1], s[a - 1..]))
  {
    forall m | a - 1 < m <= |s| ensures AfterName(s, m, false).None? {
      AddressAt(s, a, m);
    }
    AddressAt(s, a, a - 1);
    NameTryDown(s, a - 1, |s|, s[a - 1..], false);
  }

  /** Trying names from `n` characters down, the first length `k` the rest
      of the pattern accepts is the one kept. */
  lemma {:induction false} NameTryDown(s: string, k: nat, n: nat, w: string, angle: bool)
    requires k <= n <= |s|
    requires AfterName(s, k, angle) == Some(w)
    requires forall m :: k < m <= n ==> AfterName(s, m, angle).None?
    ensures NameTry(s, 0, n, angle) == Some((s[..k], w))
    decreases n
  {
    if n > k {
      NameTrySkip(s, n, angle);
      NameTryDown(s, k, n - 1, w, angle);
    } else {
      NameTryHit(s, k, w, angle);
    }
  }

  lemma NameTrySkip(s: string, n: nat, angle: bool)
    requires 0 < n <= |s| && AfterName(s, n, angle).None?
    ensures NameTry(s, 0, n, angle) == NameTry(s, 0, n - 1, angle)
  {
  }

  lemma NameTryHit(s: string, k: nat, w: string, angle: bool)
    requires k <= |s| && AfterName(s, k, angle) == Some(w)
    ensures NameTry(s, 0, k, angle) == Some((s[..k], w))
  {
    assert s[0..k] == s[..k];
  }

  /** What the rest of the pattern makes of a bare address's tail. */
  lemma AddressAt(s: string, a: nat, n: nat)
    requires BareAddress(s, a) && n <= |s|
    ensures n < a ==> AfterName(s, n, false) == Some(s[n..])
    ensures n >= a ==> AfterName(s, n, false).None?
  {
    var t := s[n..];
    assert RunBefore(t, NotSpace) == 0;
    assert RunBefore(t, CloseAngle) == |t|;
    assert t[..|t|] == t;
    if n < a {
      assert t[a - n] == '@';
    } else {
      assert !InnerAt(t) by {
        forall p | 1 <= p < |t| - 1 ensures t[p] != '@' {
          assert t[p] == s[n + p];
        }
      }
    }
  }

  /** `john@x.com` comes out as the name `joh` and the address
      `n@x.com`. */
  lemma BareAddressSplit(s: string, atob: string -> Option<string>)
    requires s == "john@x.com"
    ensures ParseFromAsWritten(s, atob) == Sender("joh", "n@x.com")
  {
    JohnIsBare(s);
    BareAddressAsWritten(s, 4, atob);
    JohnPieces(s, atob);
  }

  lemma JohnIsBare(s: string)
    requires s == "john@x.com"
    ensures BareAddress(s, 4)
  {
  }

  lemma JohnPieces(s: string, atob: string -> Option<string>)
    requires s == "john@x.com"
    ensures DecodeHeader(Trim(s[..3]), atob) == "joh" && Trim(s[3..]) == "n@x.com"
  {
    assert s[..3] == "joh" && s[3..] == "n@x.com";
    JohName("joh", atob);
    JohAddress("n@x.com");
  }

  lemma JohName(name: string, atob: string -> Option<string>)
    requires name == "joh"
    ensures DecodeHeader(Trim(name), atob) == name
  {
    assert forall i :: 0 <= i < |name| ==> name[i] in "john";
    TrimUnspaced(name);
    PlainHeaderUnchanged(name, atob);
  }

  lemma JohAddress(address: string)
    requires address == "n@x.com"
    ensures Trim(address) == address
  {
    assert forall i :: 0 <= i < |address| ==> address[i] in "n@x.com";
    TrimUnspaced(address);
  }

  /** With the name group tied to a `<`, a bare address is all address and
      no name. */
  lemma BareAddressWhole(s: string, atob: string -> Option<string>)
    requires InnerAt(s) && NoClose(s)
    requires forall i :: 0 <= i < |s| ==> s[i] != '<'
    ensures ParseFrom(s, atob) == Sender("", Trim(s))
  {
    assert Group(s, true).None?;
    assert RunBefore(s, CloseAngle) == |s|;
    assert s[..|s|] == s;
  }

  // ---------------------------------------------------------------------
  // Display names

  /** `Name <address>`: the trimmed name and the address, on either
      reading. */
  lemma NamedAddress(name: string, address: string, atob: string -> Option<string>)
    requires forall i :: 0 <= i < |name| ==> !NameStop(name[i])
    requires InnerAt(address) && NoClose(address)
    ensures var s := name + " <" + address + ">";
      ParseFrom(s, atob) == ParseFromAsWritten(s, atob) == Sender(DecodeHeader(Trim(name), atob), Trim(address))
  {
    var s := name + " <" + address + ">";
    var a := |name| + 1;
    assert s[..a] == name + " ";
    assert s[a..] == "<" + address + ">";
    RunBeforeConcat(name + " ", s[a..], NameStop);
    assert s == (name + " ") + s[a..];
    assert s[0..a] == name + " ";
    AddressAfterAngle(s, a, address);
    TrimTrailingSpace(name, " ");
  }

  lemma AddressAfterAngle(s: string, a: nat, address: string)
    requires a < |s| && s[a..] == "<" + address + ">"
    requires InnerAt(address) && NoClose(address)
    ensures AfterName(s, a, true) == AfterName(s, a, false) == Some(address)
  {
    var t := "<" + address + ">";
    assert t[1..] == address + ">";
    RunBeforeConcat(address, ">", CloseAngle);
    assert (address + ">")[..|address|] == address;
    assert (address + ">")[|address|..] == ">";
    assert RunBefore(t, NotSpace) == 0;
  }

  /** `"Name" <address>`: the name between the quotes. */
  lemma QuotedNamedAddress(name: string, address: string, atob: string -> Option<string>)
    requires forall i :: 0 <= i < |name| ==> !NameStop(name[i])
    requires InnerAt(address) && NoClose(address)
    ensures var s := "\"" + name + "\" <" + address + ">";
      ParseFrom(s, atob) == ParseFromAsWritten(s, atob) == Sender(DecodeHeader(Trim(name), atob), Trim(address))
  {
    var s := "\"" + name + "\" <" + address + ">";
    QuotedName(s, name, address, true);
    QuotedName(s, name, address, false);
  }

  /** The name group of `"Name" <address>` starts after the quote and takes
      the whole name. */
  lemma QuotedName(s: string, name: string, address: string, angle: bool)
    requires s == "\"" + name + "\" <" + address + ">"
    requires forall i :: 0 <= i < |name| ==> !NameStop(name[i])
    requires InnerAt(address) && NoClose(address)
    ensures s[0] == '"' && NameFrom(s, 1, angle) == Some((name, address))
  {
    var a := |name| + 1;
    assert s[1..] == name + ("\" <" + address + ">");
    RunBeforeConcat(name, "\" <" + address + ">", NameStop);
    assert s[1..1 + |name|] == name;
    assert s[a..] == "\" <" + address + ">";
    QuotedTail(s, a, address, angle);
  }

  /** After a quoted name: the closing quote, one space and `<address>`. */
  lemma QuotedTail(s: string, a: nat, address: string, angle: bool)
    requires a < |s| && s[a..] == "\" <" + address + ">"
    requires InnerAt(address) && NoClose(address)
    ensures AfterName(s, a, angle) == Some(address)
  {
    assert s[a] == '"';
    assert s[a + 1..] == " <" + address + ">";
    assert RunBefore(s[a + 1..], NotSpace) == 1 by {
      assert s[a + 1..][1..] == "<" + address + ">";
    }
    assert s[a + 2..] == "<" + address + ">";
    AddressAfterAngle(s, a + 2, address);
    assert AfterSpaces(s, a + 1, 1, angle) == Some(address);
  }
}

=== FILE: helpers.dfy ===
/** The small helpers of the application: the relative-time text of a
    timestamp, the fallback generator of version-4 UUIDs (section 4.4 of
    RFC 4122) and the label tables of form types and form statuses. The
    clock and `Math.random` are parameters. */
module Helpers {
  import opened Strings
  import opened Json
  import opened FormBase

  // ---------------------------------------------------------------------
  // Relative time

  const MinuteMs: nat := 60000
  const HourMs: nat := 3600000
  const DayMs: nat := 86400000

  /** `formatRelativeTime(date)`, given the milliseconds elapsed since
      `date` (`now - date`, negative for a date in the future) and the text
      `formatDate(date)` it falls back to. Each count is rounded down, so
      the text names the whole minutes, hours or days that have passed. */
  function FormatRelativeTime(elapsed: int, absolute: string): (r: string)
    ensures elapsed < MinuteMs ==> r == "Zojuist"
    ensures MinuteMs <= elapsed < HourMs ==>
      exists n: nat :: 1 <= n < 60 && n * MinuteMs <= elapsed < (n + 1) * MinuteMs
        && r == NatToString(n) + " minuten geleden"
    ensures HourMs <= elapsed < DayMs ==>
      exists n: nat :: 1 <= n < 24 && n * HourMs <= elapsed < (n + 1) * HourMs
        && r == NatToString(n) + " uur geleden"
    ensures DayMs <= elapsed < 7 * DayMs ==>
      exists n: nat :: 1 <= n < 7 && n * DayMs <= elapsed < (n + 1) * DayMs
        && r == NatToString(n) + " dagen geleden"
    ensures 7 * DayMs <= elapsed ==> r == absolute
  {
    var minutes := elapsed / MinuteMs;
    var hours := elapsed / HourMs;
    var days := elapsed / DayMs;
    if minutes < 1 then "Zojuist"
    else if minutes < 60 then NatToString(minutes) + " minuten geleden"
    else if hours < 24 then NatToString(hours) + " uur geleden"
    else if days < 7 then NatToString(days) + " dagen geleden"
    else absolute
  }

  /** The number in a relative-time text reads back as the count of whole
      units elapsed. */
  lemma RelativeMinutesReadBack(elapsed: int, absolute: string)
    requires MinuteMs <= elapsed < HourMs
    ensures var r := FormatRelativeTime(elapsed, absolute);
      var digits := r[..|r| - |" minuten geleden"|];
      (forall i :: 0 <= i < |digits| ==> IsDigit(digits[i]))
      && DigitsValue(digits) * MinuteMs <= elapsed < (DigitsValue(digits) + 1) * MinuteMs
  {
    var n: nat := elapsed / MinuteMs;
    var r := FormatRelativeTime(elapsed, absolute);
    assert r == NatToString(n) + " minuten geleden";
    assert r[..|r| - |" minuten geleden"|] == NatToString(n);
    NatToStringValue(n);
  }

  // ---------------------------------------------------------------------
  // Fallback UUIDs

  /** One draw of `Math.random() * 16 | 0`. */
  type Nibble = n: int | 0 <= n < 16

  /** The template `generateUUID` fills when `crypto.randomUUID` is
      missing: `x` is a random hex digit, `y` the variant digit. */
  const UuidTemplate: string := "xxxxxxxx-xxxx-4xxx-yxxx-xxxxxxxxxxxx"

  predicate IsHexDigit(c: char) {
    '0' <= c <= '9' || 'a' <= c <= 'f'
  }

  /** `v.toString(16)` for one nibble: a lower-case hex digit. */
  function HexDigit(v: Nibble): (c: char)
    ensures IsHexDigit(c)
  {
    if v < 10 then ('0' as int + v) as char else ('a' as int + v - 10) as char
  }

  function HexValue(c: char): (v: Nibble)
    requires IsHexDigit(c)
    ensures HexDigit(v) == c
  {
    if c <= '9' then c as int - '0' as int else c as int - 'a' as int + 10
  }

  /** `r & 0x3 | 0x8`: the two low bits of the draw under the variant bits
      `10`. */
  function VariantNibble(r: Nibble): (v: Nibble)
    ensures 8 <= v < 12 && v % 4 == r % 4
  {
    (((r as bv8) & 3) | 8) as int
  }

  predicate IsPlaceholder(c: char) {
    c == 'x' || c == 'y'
  }

  /** What may stand at a position of the filled template. */
  predicate Fits(tc: char, uc: char) {
    if tc == 'x' then IsHexDigit(uc)
    else if tc == 'y' then uc == '8' || uc == '9' || uc == 'a' || uc == 'b'
    else uc == tc
  }

  /** `u` has the shape of the template `t`. */
  predicate Shaped(t: string, u: string) {
    |u| == |t| && forall i :: 0 <= i < |t| ==> Fits(t[i], u[i])
  }

  /** `t.replace(/[xy]/g, …)`: every placeholder, left to right, takes the
      next draw (`draw(k)` is the result of the k-th call of the random
      source); other characters stay. */
  function Fill(t: string, draw: nat -> Nibble, k: nat): (u: string)
    ensures Shaped(t, u)
    decreases |t|
  {
    if |t| == 0 then ""
    else if t[0] == 'x' then [HexDigit(draw(k))] + Fill(t[1..], draw, k + 1)
    else if t[0] == 'y' then [HexDigit(VariantNibble(draw(k)))] + Fill(t[1..], draw, k + 1)
    else [t[0]] + Fill(t[1..], draw, k)
  }

  lemma ShapedTail(t: string, u: string)
    requires Shaped(t, u) && |t| > 0
    ensures Shaped(t[1..], u[1..]) && Fits(t[0], u[0])
  {
    forall i | 0 <= i < |t| - 1 ensures Fits(t[1..][i], u[1..][i]) {
      assert Fits(t[i + 1], u[i + 1]);
    }
  }

  /** The draws that fill `t` to give `u`, in the order they are taken. */
  function DrawsOf(t: string, u: string): (d: seq<Nibble>)
    requires Shaped(t, u)
    decreases |t|
  {
    if |t| == 0 then []
    else
      ShapedTail(t, u);
      if t[0] == 'x' then [HexValue(u[0])] + DrawsOf(t[1..], u[1..])
      else if t[0] == 'y' then [HexValue(u[0]) - 8] + DrawsOf(t[1..], u[1..])
      else DrawsOf(t[1..], u[1..])
  }

  /** A random source that yields the draws `d` from call `k` on fills the
      template to `u`. */
  lemma {:induction false} FillFromDraws(t: string, u: string, draw: nat -> Nibble, k: nat)
    requires Shaped(t, u)
    requires forall j :: 0 <= j < |DrawsOf(t, u)| ==> draw(k + j) == DrawsOf(t, u)[j]
    ensures Fill(t, draw, k) == u
    decreases |t|
  {
    if |t| > 0 {
      ShapedTail(t, u);
      var d := DrawsOf(t, u);
      var rest := DrawsOf(t[1..], u[1..]);
      if IsPlaceholder(t[0]) {
        assert d[1..] == rest;
        assert draw(k) == d[0] by {
          assert draw(k + 0) == d[0];
        }
        forall j | 0 <= j < |rest| ensures draw(k + 1 + j) == rest[j] {
          assert draw(k + (j + 1)) == d[j + 1];
        }
        if t[0] == 'y' {
          var r: Nibble := HexValue(u[0]) - 8;
          assert d[0] == r;
          assert VariantNibble(r) == HexValue(u[0]);
        }
        FillFromDraws(t[1..], u[1..], draw, k + 1);
      } else {
        assert d == rest;
        FillFromDraws(t[1..], u[1..], draw, k);
      }
    }
  }

  /** The random source that returns `d` in order, then zeros. */
  function Replay(d: seq<Nibble>): nat -> Nibble {
    (j: nat) => if j < |d| then d[j] else 0
  }

  /** Every string of the template's shape is produced by some random
      source, so the shape is exactly the set of possible results. */
  lemma FillOnto(t: string, u: string)
    requires Shaped(t, u)
    ensures Fill(t, Replay(DrawsOf(t, u)), 0) == u
  {
    FillFromDraws(t, u, Replay(DrawsOf(t, u)), 0);
  }

  /** Where the template has its fixed characters. */
  lemma TemplateLayout(t: string)
    requires t == UuidTemplate
    ensures |t| == 36
    ensures t[8] == '-' && t[13] == '-' && t[18] == '-' && t[23] == '-' && t[14] == '4' && t[19] == 'y'
    ensures forall i :: 0 <= i < 36 && i !in {8, 13, 14, 18, 19, 23} ==> t[i] == 'x'
  {
  }

  /** `generateUUID()` without `crypto.randomUUID`: 36 characters, dashes
      at 8, 13, 18 and 23, the version digit `4` at 14, the variant digit
      at 19 one of `8`, `9`, `a`, `b`, and lower-case hex digits everywhere
      else. */
  function FallbackUuid(draw: nat -> Nibble): (u: string)
    ensures |u| == 36
    ensures u[8] == '-' && u[13] == '-' && u[18] == '-' && u[23] == '-'
    ensures u[14] == '4'
    ensures u[19] == '8' || u[19] == '9' || u[19] == 'a' || u[19] == 'b'
    ensures forall i :: 0 <= i < 36 && i !in {8, 13, 14, 18, 19, 23} ==> IsHexDigit(u[i])
  {
    var u := Fill(UuidTemplate, draw, 0);
    TemplateLayout(UuidTemplate);
    assert Fits(UuidTemplate[8], u[8]) && Fits(UuidTemplate[13], u[13]) && Fits(UuidTemplate[18], u[18]);
    assert Fits(UuidTemplate[23], u[23]) && Fits(UuidTemplate[14], u[14]) && Fits(UuidTemplate[19], u[19]);
    u
  }

  /** Conversely, every such string is a possible fallback UUID. */
  lemma FallbackUuidOnto(u: string)
    requires Shaped(UuidTemplate, u)
    ensures FallbackUuid(Replay(DrawsOf(UuidTemplate, u))) == u
  {
    FillOnto(UuidTemplate, u);
  }

  // ---------------------------------------------------------------------
  // Label tables

  datatype Label = Label(text: string, cssClass: string)

  /** `STATUS_LABELS`: the badge of each form status. */
  const StatusLabels: map<string, Label> := map[
    "draft" := Label("Concept", "badge-draft"),
    "in_review" := Label("In review", "badge-review"),
    "approved" := Label("Goedgekeurd", "badge-approved")
  ]

  /** A status has a label exactly when `setStatus` accepts it: a labelled
      status is written, any other leaves the form as it was. */
  lemma StatusLabelsMatchStatuses(form: Form, now: string)
    ensures forall s :: s in StatusLabels <==> s in FormStatuses
    ensures forall s :: s in StatusLabels ==> SetStatus(form, s, now)["status"] == Str(s)
    ensures forall s :: s !in StatusLabels ==> SetStatus(form, s, now) == form
  {
  }

  datatype FormTypeInfo = FormTypeInfo(title: string, description: string)

  /** `FORM_TYPES`: the four form types with their labels. */
  const FormTypes: map<string, FormTypeInfo> := map[
    "intakeformulier" := FormTypeInfo("Intakeformulier", "Intake voor nieuwe projectaanvragen"),
    "klein-project-mandaat" := FormTypeInfo("Klein Project Mandaat", "Mandaat voor kleine klantverzoeken (KKV)"),
    "ict-projectmandaat" := FormTypeInfo("ICT-Projectmandaat", "Formeel mandaat voor ICT-projecten"),
    "impactanalyse" := FormTypeInfo("Impactanalyse", "Uitgebreide analyse van projectimpact")
  ]
}

=== FILE: impact_analysis.dfy ===
/** The impact analysis model (`Impactanalyse`): its required fields and
    the lists it edits in place — scenarios and risks, which never become
    empty, and the assessment matrix, in which every solution keeps a score
    for every requirement. The lists are modelled as typed records. */
module ImpactAnalysis {
  import opened Wrappers
  import opened Seqs
  import opened Strings
  import opened FormBase

  datatype Scenario = Scenario(naam: string, voordelen: string, nadelen: string, isVoorkeur: bool)

  datatype Risico = Risico(id: string, beschrijving: string, kans: string, impact: string, gevolg: string,
                           tegenmaatregel: string)

  /** A solution of the assessment matrix with its score per requirement. */
  datatype Oplossing = Oplossing(naam: string, scores: map<string, string>)

  datatype Matrix = Matrix(requirements: seq<string>, oplossingen: seq<Oplossing>)

  const InitialScenarios: seq<Scenario> := [
    Scenario("Niets doen", "", "", false),
    Scenario("Contract verlengen", "", "", false),
    Scenario("Vervangen", "", "", false)
  ]

  function EmptyRisico(id: string): Risico {
    Risico(id, "", "", "", "", "")
  }

  const InitialRisicos: seq<Risico> := [EmptyRisico("1")]

  const InitialMatrix: Matrix := Matrix([], [
    Oplossing("Oplossing 1", map[]),
    Oplossing("Oplossing 2", map[]),
    Oplossing("Oplossing 3", map[])
  ])

  /** The name of a scenario added without one. */
  const DefaultScenarioName := "Nieuw scenario"

  /** `addScenario(naam)`: appends an empty scenario that is not preferred,
      named `Nieuw scenario` when no name is given. */
  function AddScenario(scenarios: seq<Scenario>, naam: Option<string>): (r: seq<Scenario>)
    ensures |r| == |scenarios| + 1 && r[..|scenarios|] == scenarios
    ensures naam.Some? ==> r[|scenarios|] == Scenario(naam.value, "", "", false)
    ensures naam.None? ==> r[|scenarios|] == Scenario("Nieuw scenario", "", "", false)
  {
    scenarios + [Scenario(naam.OrElse(DefaultScenarioName), "", "", false)]
  }

  /** `removeScenario(index)`: no-op while one scenario is left. */
  function RemoveScenario(scenarios: seq<Scenario>, index: int): (r: seq<Scenario>)
    ensures |scenarios| <= 1 ==> r == scenarios
    ensures |scenarios| > 1 && 0 <= index < |scenarios| ==> r == RemoveAt(scenarios, index)
    ensures |scenarios| > 0 ==> |r| > 0
    ensures |scenarios| > 1 ==> r == SpliceOne(scenarios, index)
  {
    SpliceKeepingOne(scenarios, index)
  }

  /** `addRisico()`: appends an empty risk numbered one past the length. */
  function AddRisico(risicos: seq<Risico>): (r: seq<Risico>)
    ensures |r| == |risicos| + 1 && r[..|risicos|] == risicos
    ensures r[|risicos|] == EmptyRisico(NatToString(|risicos| + 1))
  {
    risicos + [EmptyRisico(NatToString(|risicos| + 1))]
  }

  /** `removeRisico(index)`: no-op while one risk is left. */
  function RemoveRisico(risicos: seq<Risico>, index: int): (r: seq<Risico>)
    ensures |risicos| <= 1 ==> r == risicos
    ensures |risicos| > 1 && 0 <= index < |risicos| ==> r == RemoveAt(risicos, index)
    ensures |risicos| > 0 ==> |r| > 0
    ensures |risicos| > 1 ==> r == SpliceOne(risicos, index)
  {
    SpliceKeepingOne(risicos, index)
  }

  /** The risks are numbered 1, 2, … in order. */
  predicate Numbered(risicos: seq<Risico>) {
    forall i :: 0 <= i < |risicos| ==> risicos[i].id == NatToString(i + 1)
  }

  /** While risks are only added, their ids stay numbered, hence distinct.
      (After a removal the next id can repeat one already in the list.) */
  lemma AddRisicoKeepsNumbering(risicos: seq<Risico>)
    requires Numbered(risicos)
    ensures Numbered(AddRisico(risicos))
  {
  }

  lemma NumberedIdsDistinct(risicos: seq<Risico>, i: nat, j: nat)
    requires Numbered(risicos) && i < j < |risicos|
    ensures risicos[i].id != risicos[j].id
  {
    if risicos[i].id == risicos[j].id {
      NatToStringInjective(i + 1, j + 1);
    }
  }

  lemma InitialRisicosNumbered()
    ensures Numbered(InitialRisicos)
  {
    assert NatToString(1) == "1";
  }

  /** Neither list can be emptied by the remove buttons. */
  lemma ListsStayNonEmpty(scenarios: seq<Scenario>, risicos: seq<Risico>, i: int, j: int)
    requires |scenarios| > 0 && |risicos| > 0
    ensures |RemoveScenario(scenarios, i)| > 0 && |RemoveRisico(risicos, j)| > 0
  {
  }

  /** Every solution has a score for every requirement. */
  predicate Consistent(m: Matrix) {
    forall o, q :: o in m.oplossingen && q in m.requirements ==> q in o.scores
  }

  function WithEmptyScore(o: Oplossing, naam: string): Oplossing {
    Oplossing(o.naam, o.scores[naam := ""])
  }

  /** `addRequirement(naam)`: appends the requirement and gives every
      solution an empty score for it; other scores are kept. */
  function AddRequirement(m: Matrix, naam: string): (r: Matrix)
    ensures r.requirements == m.requirements + [naam]
    ensures |r.oplossingen| == |m.oplossingen|
    ensures forall i :: 0 <= i < |m.oplossingen| ==>
      r.oplossingen[i].naam == m.oplossingen[i].naam
      && r.oplossingen[i].scores.Keys == m.oplossingen[i].scores.Keys + {naam}
      && r.oplossingen[i].scores[naam] == ""
      && forall q :: q in m.oplossingen[i].scores && q != naam ==>
           r.oplossingen[i].scores[q] == m.oplossingen[i].scores[q]
  {
    Matrix(m.requirements + [naam], Map(m.oplossingen, (o: Oplossing) => WithEmptyScore(o, naam)))
  }

  /** The name of a solution added without one. */
  const DefaultOplossingName := "Nieuwe oplossing"

  /** `addOplossing(naam)`: a new solution with an empty score for exactly
      the current requirements, named `Nieuwe oplossing` when no name is
      given. */
  function AddOplossing(m: Matrix, naam: Option<string>): (r: Matrix)
    ensures r.requirements == m.requirements
    ensures |r.oplossingen| == |m.oplossingen| + 1 && r.oplossingen[..|m.oplossingen|] == m.oplossingen
    ensures naam.Some? ==> r.oplossingen[|m.oplossingen|].naam == naam.value
    ensures naam.None? ==> r.oplossingen[|m.oplossingen|].naam == "Nieuwe oplossing"
    ensures var o := r.oplossingen[|m.oplossingen|];
      (forall q :: q in o.scores <==> q in m.requirements)
      && forall q :: q in o.scores ==> o.scores[q] == ""
  {
    var scores := map q | q in m.requirements :: "";
    Matrix(m.requirements, m.oplossingen + [Oplossing(naam.OrElse(DefaultOplossingName), scores)])
  }

  lemma InitialMatrixConsistent()
    ensures Consistent(InitialMatrix)
  {
  }

  /** Both matrix operations keep every score in place. */
  lemma AddRequirementKeepsConsistent(m: Matrix, naam: string)
    requires Consistent(m)
    ensures Consistent(AddRequirement(m, naam))
  {
    var r := AddRequirement(m, naam);
    forall o, q | o in r.oplossingen && q in r.requirements ensures q in o.scores {
      var i :| 0 <= i < |r.oplossingen| && r.oplossingen[i] == o;
      assert m.oplossingen[i] in m.oplossingen;
    }
  }

  lemma AddOplossingKeepsConsistent(m: Matrix, naam: Option<string>)
    requires Consistent(m)
    ensures Consistent(AddOplossing(m, naam))
  {
    var r := AddOplossing(m, naam);
    forall o, q | o in r.oplossingen && q in r.requirements ensures q in o.scores {
      var i :| 0 <= i < |r.oplossingen| && r.oplossingen[i] == o;
      if i < |m.oplossingen| {
        assert m.oplossingen[i] in m.oplossingen;
      }
    }
  }

  const ImpactChecks: seq<Required> := [
    Required(["header", "tpNummer"], "header.tpNummer", "TP-nummer is verplicht"),
    Required(["header", "omschrijving"], "header.omschrijving", "Omschrijving is verplicht"),
    Required(["inleidingScope", "inleiding"], "inleidingScope.inleiding", "Inleiding is verplicht"),
    Required(["conclusie"], "conclusie", "Conclusie is verplicht"),
    Required(["advies"], "advies", "Advies is verplicht")
  ]

  /** `validate()` of the impact analysis. */
  function ValidateImpact(form: Form): (r: seq<FormError>)
    ensures |r| == |BaseErrors(form)| + Count(ImpactChecks, EmptyIn(form))
    ensures forall c :: c in ImpactChecks ==> (ErrorOf(c) in r[|BaseErrors(form)|..] <==> !Filled(form, c.path))
  {
    assert DistinctFields(ImpactChecks);
    ValidateExact(form, ImpactChecks);
    ValidateWith(form, ImpactChecks)
  }
}

=== FILE: intake_form.dfy ===
/** The intake form model (`Intakeformulier`): its defaults, its required
    fields and the question table the form screen is built from. */
module IntakeForm {
  import opened Wrappers
  import opened Seqs
  import opened Json
  import opened FormBase

  /** A stakeholder row of a fresh intake. */
  function StakeholderRow(team: string, naam: string): Value {
    Obj(map["team" := Str(team), "naam" := Str(naam), "geinformeerd" := Null])
  }

  const InitialStakeholders: seq<Value> := [
    StakeholderRow("Opdrachtgever", ""),
    StakeholderRow("Architectuur", ""),
    StakeholderRow("ISO", ""),
    StakeholderRow("InformatieBeheer", ""),
    StakeholderRow("Strategische Informatiemanager", "Mervyn Wiskerke"),
    StakeholderRow("Business Analist", ""),
    StakeholderRow("BICC (productowner)", "")
  ]

  const InitialBasisinfo: map<string, Value> := map[
    "onderwerp" := Str(""),
    "korteOmschrijving" := Str(""),
    "thinkingPortfolioNummer" := Str(""),
    "domeinTeam" := Str(""),
    "datumIntake" := Null,
    "aanvrager" := Str(""),
    "opdrachtgever" := Str(""),
    "resultaatProjectclassificatie" := Str("")
  ]

  const InitialVragen: map<string, Value> := map[
    "inleiding" := Str(""),
    "scope" := Str(""),
    "huidigeSituatie" := Str(""),
    "gewensteSituatie" := Str(""),
    "verkenningGedaan" := Null,
    "prioriteitCategorie" := Str(""),
    "deadlineNoodzakelijk" := Null,
    "deadline" := Str(""),
    "impactGeenRealisatie" := Str(""),
    "opgaveProductVerbeteropdracht" := Str(""),
    "doel" := Str(""),
    "baten" := Str(""),
    "werkprocessen" := Str(""),
    "procesbeschrijvingBeschikbaar" := Null,
    "informatieverwerking" := Str(""),
    "nieuwOfBestaand" := Str(""),
    "contactpersoon" := Str(""),
    "aantalEindgebruikers" := Str(""),
    "teamsOfDoelgroepen" := Str(""),
    "behoeftesWensenEisen" := Str(""),
    "beleidWijziging" := Null,
    "kostenInschatting" := Str(""),
    "aiToepassing" := Null,
    "opdrachtImpactAnalyse" := Str(""),
    "opmerkingen" := Str("")
  ]

  /** What a fresh intake's validation reads: its type and its two empty
      sections. */
  predicate FreshShape(f: Form) {
    "formType" in f && f["formType"] == Str("intakeformulier")
    && "basisinfo" in f && f["basisinfo"] == Obj(InitialBasisinfo)
    && "vragen" in f && f["vragen"] == Obj(InitialVragen)
  }

  /** The constructor: the base defaults plus empty basic information,
      empty answers and the seven stakeholder rows. */
  function NewIntake(id: string, now: string): (f: Form)
    ensures FreshShape(f)
    ensures "id" in f && f["id"] == Str(id)
    ensures "status" in f && f["status"] == Str("draft")
    ensures "stakeholders" in f && f["stakeholders"] == Arr(InitialStakeholders)
  {
    var base := NewForm("intakeformulier", id, now);
    var f := base["basisinfo" := Obj(InitialBasisinfo)][
      "vragen" := Obj(InitialVragen)][
      "stakeholders" := Arr(InitialStakeholders)];
    assert f["formType"] == base["formType"] && f["id"] == base["id"] && f["status"] == base["status"];
    f
  }

  /** The fields `validate()` requires, in the order it checks them. */
  const IntakeChecks: seq<Required> := [
    Required(["basisinfo", "onderwerp"], "basisinfo.onderwerp", "Onderwerp is verplicht"),
    Required(["basisinfo", "aanvrager"], "basisinfo.aanvrager", "Aanvrager is verplicht"),
    Required(["vragen", "inleiding"], "vragen.inleiding", "Inleiding is verplicht"),
    Required(["vragen", "doel"], "vragen.doel", "Doel van de aanvraag is verplicht")
  ]

  function ValidateIntake(form: Form): (r: seq<FormError>)
    ensures |r| == |BaseErrors(form)| + Count(IntakeChecks, EmptyIn(form))
    ensures r[..|BaseErrors(form)|] == BaseErrors(form)
  {
    ValidateWith(form, IntakeChecks)
  }

  /** Each required field is reported exactly when it is empty. */
  lemma IntakeErrorsExact(form: Form)
    ensures var r := ValidateIntake(form)[|BaseErrors(form)|..];
      forall c :: c in IntakeChecks ==> (ErrorOf(c) in r <==> !Filled(form, c.path))
  {
    assert DistinctFields(IntakeChecks);
    ValidateExact(form, IntakeChecks);
  }

  /** A fresh intake has exactly the four errors of its empty required
      fields, in order. */
  lemma FreshIntakeErrors(id: string, now: string)
    ensures ValidateIntake(NewIntake(id, now)) == Map(IntakeChecks, ErrorOf)
    ensures !IsValid(ValidateIntake(NewIntake(id, now)))
  {
    ShapeErrors(NewIntake(id, now));
  }

  lemma ShapeErrors(f: Form)
    requires FreshShape(f)
    ensures ValidateIntake(f) == Map(IntakeChecks, ErrorOf)
    ensures !IsValid(ValidateIntake(f))
  {
    ShapeIsEmpty(f);
    assert BaseErrors(f) == [];
    AllMissing(f, IntakeChecks);
  }

  lemma FreshIntakeIsEmpty(id: string, now: string)
    ensures Filled(NewIntake(id, now), ["formType"])
    ensures forall i :: 0 <= i < |IntakeChecks| ==> !Filled(NewIntake(id, now), IntakeChecks[i].path)
  {
    ShapeIsEmpty(NewIntake(id, now));
  }

  lemma ShapeIsEmpty(f: Form)
    requires FreshShape(f)
    ensures Filled(f, ["formType"])
    ensures forall i :: 0 <= i < |IntakeChecks| ==> !Filled(f, IntakeChecks[i].path)
  {
    assert GetPath(Obj(f), ["formType"]) == Some(Str("intakeformulier"));
    forall i | 0 <= i < |IntakeChecks| ensures !Filled(f, IntakeChecks[i].path) {
      ShapeEmptyAt(f, i);
    }
  }

  lemma ShapeEmptyAt(f: Form, i: nat)
    requires FreshShape(f) && i < |IntakeChecks|
    ensures !Filled(f, IntakeChecks[i].path)
  {
    var c := IntakeChecks[i];
    if i < 2 {
      assert c.path[0] == "basisinfo";
      assert c.path == ["basisinfo", c.path[1]] && c.path[1] in InitialBasisinfo;
      EmptyField(f, "basisinfo", InitialBasisinfo, c.path[1]);
    } else {
      assert c.path[0] == "vragen";
      assert c.path == ["vragen", c.path[1]] && c.path[1] in InitialVragen;
      EmptyField(f, "vragen", InitialVragen, c.path[1]);
    }
  }

  /** A falsy field of a section object is not filled in. */
  lemma EmptyField(f: Form, section: string, fields: map<string, Value>, key: string)
    requires section in f && f[section] == Obj(fields) && key in fields && !Truthy(fields[key])
    ensures !Filled(f, [section, key])
  {
    GetPathTwo(f, [section, key]);
  }

  /** A fresh intake lists seven stakeholders, none of them informed yet. */
  lemma FreshStakeholders(id: string, now: string)
    ensures var rows := NewIntake(id, now)["stakeholders"].items;
      |rows| == 7
      && forall i :: 0 <= i < 7 ==> Get(rows[i], "geinformeerd") == Some(Null)
  {
    InitialRowsUninformed();
  }

  lemma InitialRowsUninformed()
    ensures |InitialStakeholders| == 7
    ensures forall i :: 0 <= i < 7 ==> Get(InitialStakeholders[i], "geinformeerd") == Some(Null)
  {
    forall i | 0 <= i < 7 ensures Get(InitialStakeholders[i], "geinformeerd") == Some(Null) {
      var row := InitialStakeholders[i];
      assert row == StakeholderRow(row.fields["team"].s, row.fields["naam"].s);
    }
  }

  /** The ids of the questions the form shows (`INTAKE_VRAGEN`). */
  const IntakeVragenIds: seq<string> := [
    "inleiding", "scope", "huidigeSituatie", "gewensteSituatie", "verkenningGedaan",
    "prioriteitCategorie", "deadlineNoodzakelijk", "deadline", "impactGeenRealisatie",
    "doel", "baten", "informatieverwerking", "contactpersoon", "teamsOfDoelgroepen",
    "beleidWijziging", "kostenInschatting", "aiToepassing", "opmerkingen"
  ]

  /** Every question answers into a field of the constructor's `vragen`. */
  lemma QuestionsHaveFields()
    ensures forall i :: 0 <= i < |IntakeVragenIds| ==> IntakeVragenIds[i] in InitialVragen
  {
  }
}

=== FILE: json.dfy ===
/** JSON-like values: the shape of the form objects the application stores,
    edits along dotted paths and exchanges as text. Numbers are integers;
    no code modelled here computes with fractions. */
module Json {
  import opened Wrappers
  import opened Strings

  datatype Value =
    | Null
    | Bool(b: bool)
    | Num(n: int)
    | Str(s: string)
    | Arr(items: seq<Value>)
    | Obj(fields: map<string, Value>)

  /** JavaScript truthiness: `null`, `false`, `0` and `''` are falsy; every
      array and object is truthy. */
  predicate Truthy(v: Value) {
    match v
    case Null => false
    case Bool(b) => b
    case Num(n) => n != 0
    case Str(s) => s != ""
    case Arr(_) => true
    case Obj(_) => true
  }

  /** `v[key]`: the field of an object, `undefined` (None) for a missing key
      or a value that is not an object. */
  function Get(v: Value, key: string): (r: Option<Value>)
    ensures r.Some? <==> v.Obj? && key in v.fields
  {
    if v.Obj? && key in v.fields then Some(v.fields[key]) else None
  }

  /** `v[key]` read as a string, the empty string when it is absent, falsy or
      not a string (the code reads such fields with `|| ''`). */
  function GetText(v: Value, key: string): (r: string)
    ensures r != "" <==> Get(v, key).Some? && Get(v, key).value.Str? && Get(v, key).value.s != ""
  {
    match Get(v, key)
    case Some(Str(s)) => s
    case _ => ""
  }

  /** `v.a.b.c`: following a path of keys, `undefined` as soon as a step is
      missing. */
  function GetPath(v: Value, path: seq<string>): Option<Value>
    decreases |path|
  {
    if |path| == 0 then Some(v)
    else match Get(v, path[0])
      case None => None
      case Some(w) => GetPath(w, path[1..])
  }

  /** A two-step path into an object reads the field of the field. */
  lemma GetPathTwo(fields: map<string, Value>, path: seq<string>)
    requires |path| == 2 && path[0] in fields
    ensures GetPath(Obj(fields), path) == Get(fields[path[0]], path[1])
  {
    var w := fields[path[0]];
    var rest := path[1..];
    assert GetPath(Obj(fields), path) == GetPath(w, rest);
    assert rest[1..] == [];
    match Get(w, rest[0])
    case None =>
    case Some(u) => assert GetPath(w, rest) == GetPath(u, []);
  }

  /** The fields of an object, the empty map for any other value. */
  function FieldsOf(v: Value): (m: map<string, Value>)
    ensures v.Obj? ==> m == v.fields
    ensures !v.Obj? ==> m == map[]
  {
    if v.Obj? then v.fields else map[]
  }

  /** `String(v)`: the text JavaScript makes of a value when it is
      concatenated to a string. An array joins its elements with commas,
      `null` elements giving the empty text; every object reads
      `[object Object]`. */
  function ToText(v: Value): (t: string)
    ensures v.Str? ==> t == v.s
    ensures v.Num? && v.n >= 0 ==> t == NatToString(v.n)
  {
    match v
    case Null => "null"
    case Bool(b) => if b then "true" else "false"
    case Num(n) => if n >= 0 then NatToString(n) else "-" + NatToString(-n)
    case Str(s) => s
    case Arr(items) => JoinTexts(items)
    case Obj(_) => "[object Object]"
  }

  function JoinTexts(items: seq<Value>): string
    decreases items
  {
    if |items| == 0 then ""
    else
      var first := if items[0].Null? then "" else ToText(items[0]);
      if |items| == 1 then first else first + "," + JoinTexts(items[1..])
  }
}

=== FILE: mandates.dfy ===
/** The two mandate models: the small-project mandate
    (`KleinProjectMandaat`), with its numbered version history, and the ICT
    project mandate (`ICTProjectMandaat`), which may only be approved once a
    stakeholder has agreed. */
module Mandates {
  import opened Wrappers
  import opened Seqs
  import opened Strings
  import opened Json
  import opened FormBase

  // ---------------------------------------------------------------------
  // Small-project mandate

  /** A history entry. */
  function HistoryEntry(versie: string, datum: Value, status: string, auteur: string, aanpassingen: string): Value {
    Obj(map[
      "versie" := Str(versie),
      "datum" := datum,
      "status" := Str(status),
      "auteur" := Str(auteur),
      "aanpassingen" := Str(aanpassingen)])
  }

  /** The history of a fresh mandate: version 0.1. */
  const InitialHistorie: seq<Value> := [HistoryEntry("0.1", Null, "Initieel", "", "Eerste versie")]

  /** The version of the entry added to a history of `n` entries: `0.(n+1)`
      for the first ten, `1.(n-9)` after that. */
  function VersionFor(n: nat): (v: string)
    ensures n < 10 ==> v == "0." + NatToString(n + 1)
    ensures n >= 10 ==> v == "1." + NatToString(n - 9)
  {
    if n < 10 then "0." + NatToString(n + 1) else "1." + NatToString(n - 9)
  }

  /** Different history lengths give different versions, so no version is
      handed out twice while entries are only added. */
  lemma VersionInjective(m: nat, n: nat)
    requires VersionFor(m) == VersionFor(n)
    ensures m == n
  {
    var v := VersionFor(m);
    assert v[0] == (if m < 10 then '0' else '1');
    assert v[0] == (if n < 10 then '0' else '1');
    if m < 10 {
      assert v[2..] == NatToString(m + 1) == NatToString(n + 1);
      NatToStringInjective(m + 1, n + 1);
    } else {
      assert v[2..] == NatToString(m - 9) == NatToString(n - 9);
      NatToStringInjective(m - 9, n - 9);
    }
  }

  /** The status of a history entry added without one. */
  const DefaultHistorieStatus := "In bewerking"

  /** `addHistorieEntry(auteur, aanpassingen, status)`: appends one entry
      whose version follows from the number of entries before it, dated
      `now`; a missing status is `In bewerking`. */
  function AddHistorieEntry(historie: seq<Value>, auteur: string, aanpassingen: string, status: Option<string>, now: string)
    : (r: seq<Value>)
    ensures |r| == |historie| + 1 && r[..|historie|] == historie
    ensures r[|historie|].Obj? && r[|historie|].fields.Keys == {"versie", "datum", "status", "auteur", "aanpassingen"}
    ensures Get(r[|historie|], "versie") == Some(Str(VersionFor(|historie|)))
    ensures Get(r[|historie|], "datum") == Some(Str(now))
    ensures Get(r[|historie|], "auteur") == Some(Str(auteur))
    ensures Get(r[|historie|], "aanpassingen") == Some(Str(aanpassingen))
    ensures status.Some? ==> Get(r[|historie|], "status") == Some(Str(status.value))
    ensures status.None? ==> Get(r[|historie|], "status") == Some(Str("In bewerking"))
  {
    historie + [HistoryEntry(VersionFor(|historie|), Str(now), status.OrElse(DefaultHistorieStatus), auteur, aanpassingen)]
  }

  /** The first entry added to a fresh mandate is version 0.2. */
  lemma FirstAddedVersion(auteur: string, aanpassingen: string, status: Option<string>, now: string)
    ensures Get(AddHistorieEntry(InitialHistorie, auteur, aanpassingen, status, now)[1], "versie") == Some(Str("0.2"))
  {
    assert NatToString(2) == "2";
    assert VersionFor(1) == "0.2";
  }

  /** Entries added one by one keep their versions pairwise different. */
  predicate VersionsNumbered(historie: seq<Value>) {
    forall i :: 0 <= i < |historie| ==> Get(historie[i], "versie") == Some(Str(VersionFor(i)))
  }

  lemma AddKeepsNumbering(historie: seq<Value>, auteur: string, aanpassingen: string, status: Option<string>, now: string)
    requires VersionsNumbered(historie)
    ensures VersionsNumbered(AddHistorieEntry(historie, auteur, aanpassingen, status, now))
  {
  }

  lemma NumberedVersionsDistinct(historie: seq<Value>, i: nat, j: nat)
    requires VersionsNumbered(historie)
    requires i < j < |historie|
    ensures Get(historie[i], "versie") != Get(historie[j], "versie")
  {
    if Get(historie[i], "versie") == Get(historie[j], "versie") {
      VersionInjective(i, j);
    }
  }

  /** The fresh history is numbered. */
  lemma InitialHistorieNumbered()
    ensures VersionsNumbered(InitialHistorie)
  {
    assert NatToString(1) == "1";
    assert VersionFor(0) == "0.1";
  }

  const KkvChecks: seq<Required> := [
    Required(["documentgegevens", "kkvNaam"], "documentgegevens.kkvNaam", "KKV naam is verplicht"),
    Required(["kkv", "achtergrond"], "kkv.achtergrond", "Achtergrond en aanleiding is verplicht"),
    Required(["kkv", "doelstelling"], "kkv.doelstelling", "Doelstelling is verplicht"),
    Required(["kkv", "scope"], "kkv.scope", "KKV scope is verplicht")
  ]

  /** `validate()` of the small-project mandate. */
  function ValidateKleinProject(form: Form): (r: seq<FormError>)
    ensures |r| == |BaseErrors(form)| + Count(KkvChecks, EmptyIn(form))
    ensures forall c :: c in KkvChecks ==> (ErrorOf(c) in r[|BaseErrors(form)|..] <==> !Filled(form, c.path))
  {
    assert DistinctFields(KkvChecks);
    ValidateExact(form, KkvChecks);
    ValidateWith(form, KkvChecks)
  }

  /** `addResultaat(resultaat)`: appends to `kkv.resultaten`, creating the
      list when it is missing. */
  function AddKkvResultaat(form: Form, resultaat: Value): (r: Result<Form, string>)
    ensures "kkv" in form && form["kkv"].Obj? && Get(form["kkv"], "resultaten") == Some(Arr([])) ==>
      r.Ok? && GetPath(Obj(r.value), ["kkv", "resultaten"]) == Some(Arr([resultaat]))
    ensures ("kkv" in form && form["kkv"].Obj? && Get(form["kkv"], "resultaten").Some?
             && Get(form["kkv"], "resultaten").value.Arr?) ==>
      r.Ok? && GetPath(Obj(r.value), ["kkv", "resultaten"])
        == Some(Arr(Get(form["kkv"], "resultaten").value.items + [resultaat]))
    ensures "kkv" in form && form["kkv"].Obj? && Get(form["kkv"], "resultaten") == None ==>
      r.Ok? && GetPath(Obj(r.value), ["kkv", "resultaten"]) == Some(Arr([resultaat]))
    ensures !("kkv" in form && form["kkv"].Obj?) ==> r.Err?
    ensures ("kkv" in form && form["kkv"].Obj? && Get(form["kkv"], "resultaten").Some?
             && Truthy(Get(form["kkv"], "resultaten").value) && !Get(form["kkv"], "resultaten").value.Arr?) ==> r.Err?
    ensures r.Ok? ==> r.value.Keys == form.Keys
    ensures r.Ok? ==> forall k :: k in form && k != "kkv" ==> r.value[k] == form[k]
    ensures r.Ok? ==> r.value["kkv"].Obj? && "resultaten" in r.value["kkv"].fields
                      && r.value["kkv"].fields.Keys == form["kkv"].fields.Keys + {"resultaten"}
    ensures r.Ok? ==> forall k :: k in form["kkv"].fields && k != "resultaten" ==>
                        r.value["kkv"].fields[k] == form["kkv"].fields[k]
  {
    assert [] + [resultaat] == [resultaat];
    PushInSection(form, "kkv", "resultaten", resultaat)
  }

  // ---------------------------------------------------------------------
  // ICT project mandate

  /** An approval row of a fresh ICT mandate. */
  function AkkoordRow(team: string, naam: string): Value {
    Obj(map["team" := Str(team), "naam" := Str(naam), "akkoord" := Null])
  }

  const InitialAkkoord: seq<Value> := [
    AkkoordRow("Servicemanagement", ""),
    AkkoordRow("Functioneel Beheer", ""),
    AkkoordRow("ITB", ""),
    AkkoordRow("Architectuur", ""),
    AkkoordRow("ISO", ""),
    AkkoordRow("Informatiebeheer", ""),
    AkkoordRow("Strategische Informatiemanager", "Mervyn Wiskerke")
  ]

  /** A fresh ICT mandate has seven approval rows, none approved. */
  lemma FreshAkkoordRows()
    ensures |InitialAkkoord| == 7
    ensures forall i :: 0 <= i < |InitialAkkoord| ==> Get(InitialAkkoord[i], "akkoord") == Some(Null)
  {
  }

  const IctChecks: seq<Required> := [
    Required(["documentgegevens", "projectnaam"], "documentgegevens.projectnaam", "Projectnaam is verplicht"),
    Required(["project", "achtergrond"], "project.achtergrond", "Achtergrond en aanleiding is verplicht"),
    Required(["project", "doelstelling"], "project.doelstelling", "Doelstelling is verplicht"),
    Required(["project", "scope"], "project.scope", "Projectscope is verplicht")
  ]

  const AkkoordError: FormError :=
    FormError("stakeholdersAkkoord", "Minimaal één stakeholder moet akkoord geven")

  /** The rows of `stakeholdersAkkoord`. */
  function AkkoordRows(form: Form): seq<Value> {
    if "stakeholdersAkkoord" in form && form["stakeholdersAkkoord"].Arr? then form["stakeholdersAkkoord"].items else []
  }

  /** Some approval row has `akkoord === true`. */
  predicate HasAkkoord(form: Form) {
    exists i :: 0 <= i < |AkkoordRows(form)| && Get(AkkoordRows(form)[i], "akkoord") == Some(Bool(true))
  }

  predicate IsApproved(form: Form) {
    "status" in form && form["status"] == Str("approved")
  }

  /** The errors of the required fields of the ICT mandate. */
  function IctFieldErrors(form: Form): (r: seq<FormError>)
    ensures |r| == |BaseErrors(form)| + Count(IctChecks, EmptyIn(form))
    ensures forall c :: c in IctChecks ==> (ErrorOf(c) in r[|BaseErrors(form)|..] <==> !Filled(form, c.path))
    ensures AkkoordError !in r
  {
    assert DistinctFields(IctChecks);
    ValidateExact(form, IctChecks);
    NoAkkoordErrorAmongFields(form);
    ValidateWith(form, IctChecks)
  }

  lemma NoAkkoordErrorAmongFields(form: Form)
    ensures AkkoordError !in ValidateWith(form, IctChecks)
  {
    var base := ValidateWith(form, IctChecks);
    var b := |BaseErrors(form)|;
    assert base == base[..b] + base[b..];
    forall e | e in base[b..] ensures e != AkkoordError {
      var c :| c in IctChecks && !Filled(form, c.path) && e == ErrorOf(c);
      ChecksAreNotAkkoord(c);
    }
  }

  /** No required-field check reports on the approval rows. */
  lemma ChecksAreNotAkkoord(c: Required)
    requires c in IctChecks
    ensures ErrorOf(c) != AkkoordError
  {
    assert c.field[0] == 'd' || c.field[0] == 'p';
    assert AkkoordError.field[0] == 's';
  }

  /** `validate()` of the ICT mandate: the required fields, then the
      approval rule. */
  function ValidateIct(form: Form): (r: seq<FormError>)
    ensures |r| == |BaseErrors(form)| + Count(IctChecks, EmptyIn(form))
               + (if IsApproved(form) && !HasAkkoord(form) then 1 else 0)
    ensures r[..|IctFieldErrors(form)|] == IctFieldErrors(form)
    ensures AkkoordError in r <==> IsApproved(form) && !HasAkkoord(form)
  {
    var fields := IctFieldErrors(form);
    var r := fields + (if IsApproved(form) && !HasAkkoord(form) then [AkkoordError] else []);
    assert r[..|fields|] == fields;
    r
  }

  /** A valid approved mandate has at least one approval. */
  lemma ApprovalNeedsAkkoord(form: Form)
    requires IsApproved(form) && IsValid(ValidateIct(form))
    ensures HasAkkoord(form)
  {
  }

  /** The four `add…` methods of the ICT mandate (`addResultaat`,
      `addUitsluiting`, `addUitgangspunt`, `addRandvoorwaarde`): append to
      the list of that name in the `project` section, creating it when
      missing. */
  function AddToProject(form: Form, list: string, item: Value): (r: Result<Form, string>)
    ensures ("project" in form && form["project"].Obj? && Get(form["project"], list).Some?
             && Get(form["project"], list).value.Arr?) ==>
      r.Ok? && GetPath(Obj(r.value), ["project", list])
        == Some(Arr(Get(form["project"], list).value.items + [item]))
    ensures "project" in form && form["project"].Obj? && Get(form["project"], list).None? ==>
      r.Ok? && GetPath(Obj(r.value), ["project", list]) == Some(Arr([item]))
    ensures r.Ok? ==> forall k :: k in form && k != "project" ==> k in r.value && r.value[k] == form[k]
    ensures !("project" in form && form["project"].Obj?) ==> r.Err?
  {
    PushInSection(form, "project", list, item)
  }
}

=== FILE: mime_text.dfy ===
/** Decoding of header and body text in the `.eml` reader: encoded words in
    headers (`decodeHeader`, section 4 of RFC 2047) and the transfer
    encodings of a body (`decodeBody`, sections 6.7 and 6.8 of RFC 2045).
    `atob` is a parameter that fails (`None`) where the browser's throws. */
module MimeText {
  import opened Wrappers
  import opened Seqs
  import opened Strings

  /** The value of a hexadecimal digit, either case. */
  function HexValue(c: char): (r: Option<nat>)
    ensures r.Some? ==> r.value < 16
  {
    if '0' <= c <= '9' then Some(c as int - '0' as int)
    else if 'A' <= c <= 'F' then Some(c as int - 'A' as int + 10)
    else if 'a' <= c <= 'f' then Some(c as int - 'a' as int + 10)
    else None
  }

  /** The upper-case hexadecimal digit of a value below 16. */
  function HexDigit(d: nat): (c: char)
    requires d < 16
    ensures HexValue(c) == Some(d)
  {
    if d < 10 then ('0' as int + d) as char else ('A' as int + d - 10) as char
  }

  /** `=` followed by two hexadecimal digits at the start of `s`. */
  predicate EscapeAt(s: string) {
    |s| >= 3 && s[0] == '=' && HexValue(s[1]).Some? && HexValue(s[2]).Some?
  }

  /** `s.replace(/=([0-9A-F]{2})/gi, …)`: every `=XX` becomes the character
      with that code, scanning left to right. */
  function DecodeEscapes(s: string): (r: string)
    ensures |r| <= |s|
    decreases |s|
  {
    if |s| == 0 then ""
    else if EscapeAt(s) then
      [(16 * HexValue(s[1]).value + HexValue(s[2]).value) as char] + DecodeEscapes(s[3..])
    else [s[0]] + DecodeEscapes(s[1..])
  }

  /** Text without `=` has no escapes. */
  lemma {:induction false} NoEscapes(s: string)
    requires forall i :: 0 <= i < |s| ==> s[i] != '='
    ensures DecodeEscapes(s) == s
    decreases |s|
  {
    if |s| > 0 {
      NoEscapes(s[1..]);
    }
  }

  function UnderscoreToSpace(c: char): char {
    if c == '_' then ' ' else c
  }

  /** The `Q` encoding of an encoded word: `_` is a space, `=XX` a byte. */
  function QDecode(text: string): (r: string)
    ensures |r| <= |text|
  {
    DecodeEscapes(Map(text, UnderscoreToSpace))
  }

  // ---------------------------------------------------------------------
  // Encoded words

  /** The length of the longest prefix of `s` without a `?`. */
  function QuestionFree(s: string): (n: nat)
    ensures n <= |s|
    ensures forall i :: 0 <= i < n ==> s[i] != '?'
    ensures n < |s| ==> s[n] == '?'
  {
    if |s| == 0 || s[0] == '?' then 0 else 1 + QuestionFree(s[1..])
  }

  /** An encoded word `=?charset?B|Q?text?=` at the start of a text. */
  datatype Word = Word(charset: string, encoding: char, text: string, length: nat)

  /** The encodings an encoded word names, in either case. */
  predicate Base64Letter(c: char) {
    c == 'B' || c == 'b'
  }

  predicate EncodingLetter(c: char) {
    Base64Letter(c) || c == 'Q' || c == 'q'
  }

  /** The encoded word at the start of `s`, if any. The charset and the text
      cannot contain `?`, so each ends at the next `?` and at most one word
      starts at any position. */
  function WordAt(s: string): (r: Option<Word>)
    ensures r.Some? ==> 0 < r.value.length <= |s|
    ensures r.Some? ==> r.value.charset != "" && EncodingLetter(r.value.encoding)
  {
    if |s| < 2 || s[0] != '=' || s[1] != '?' then None
    else
      var n1 := QuestionFree(s[2..]);
      var p := 2 + n1 + 1;
      if n1 == 0 || p + 1 >= |s| || !EncodingLetter(s[p]) || s[p + 1] != '?' then None
      else
        var n3 := QuestionFree(s[p + 2..]);
        var q := p + 2 + n3;
        if q + 1 >= |s| || s[q + 1] != '=' then None
        else
          Some(Word(s[2..2 + n1], s[p], s[p + 2..q], q + 2))
  }

  /** What `WordAt` recognises is spelled `=?charset?X?text?=`. */
  lemma WordAtSpelled(s: string)
    requires WordAt(s).Some?
    ensures var w := WordAt(s).value;
      s[..w.length] == "=?" + w.charset + "?" + [w.encoding] + "?" + w.text + "?="
  {
    var n1 := QuestionFree(s[2..]);
    var n3 := QuestionFree(s[2 + n1 + 3..]);
    WordSpelled(s, n1, n3);
  }

  /** The pieces of an encoded word put back together give its text. */
  lemma WordSpelled(s: string, n1: nat, n3: nat)
    requires 2 + n1 + 1 + 2 + n3 + 1 < |s|
    requires s[0] == '=' && s[1] == '?' && s[2 + n1] == '?' && s[2 + n1 + 2] == '?'
    requires s[2 + n1 + 3 + n3] == '?' && s[2 + n1 + 3 + n3 + 1] == '='
    ensures var p := 2 + n1 + 1; var q := p + 2 + n3;
      s[..q + 2] == "=?" + s[2..2 + n1] + "?" + [s[p]] + "?" + s[p + 2..q] + "?="
  {
    var p := 2 + n1 + 1;
    var q := p + 2 + n3;
    var w := "=?" + s[2..2 + n1] + "?" + [s[p]] + "?" + s[p + 2..q] + "?=";
    assert |w| == q + 2;
    forall i | 0 <= i < q + 2 ensures w[i] == s[i] {
      if i < 2 {
      } else if i < 2 + n1 {
        assert w[i] == s[2..2 + n1][i - 2];
      } else if i < p + 2 {
      } else if i < q {
        assert w[i] == s[p + 2..q][i - p - 2];
      }
    }
  }

  /** The conditions under which `WordAt` recognises a word, and the word it
      gives. */
  lemma WordAtIs(s: string, n1: nat, n3: nat)
    requires n1 > 0 && 2 + n1 + 1 + 2 + n3 + 1 < |s|
    requires s[0] == '=' && s[1] == '?' && QuestionFree(s[2..]) == n1
    requires EncodingLetter(s[2 + n1 + 1]) && s[2 + n1 + 2] == '?'
    requires QuestionFree(s[2 + n1 + 3..]) == n3 && s[2 + n1 + 3 + n3 + 1] == '='
    ensures var p := 2 + n1 + 1; var q := p + 2 + n3;
      WordAt(s) == Some(Word(s[2..2 + n1], s[p], s[p + 2..q], q + 2))
  {
  }

  /** The replacement of one encoded word: `B` through `atob`, falling back to
      the raw text when it fails; `Q` through `QDecode`. */
  function DecodeWord(w: Word, atob: string -> Option<string>): (r: string)
    ensures (w.encoding == 'Q' || w.encoding == 'q') ==> r == QDecode(w.text)
    ensures Base64Letter(w.encoding) && atob(w.text).Some? ==> r == atob(w.text).value
    ensures Base64Letter(w.encoding) && atob(w.text).None? ==> r == w.text
  {
    if Base64Letter(w.encoding) then
      match atob(w.text)
      case Some(t) => t
      case None => w.text
    else QDecode(w.text)
  }

  function ReplaceWords(s: string, atob: string -> Option<string>): string
    decreases |s|
  {
    if |s| == 0 then ""
    else match WordAt(s)
      case Some(w) => DecodeWord(w, atob) + ReplaceWords(s[w.length..], atob)
      case None => [s[0]] + ReplaceWords(s[1..], atob)
  }

  /** `decodeHeader(value)`: every encoded word replaced by its text. */
  function DecodeHeader(value: string, atob: string -> Option<string>): string {
    if value == "" then "" else ReplaceWords(value, atob)
  }

  /** A header without `=?` is left as it is. */
  lemma PlainHeaderUnchanged(value: string, atob: string -> Option<string>)
    requires forall i :: 0 <= i < |value| - 1 ==> !(value[i] == '=' && value[i + 1] == '?')
    ensures DecodeHeader(value, atob) == value
  {
    PlainTextUnchanged(value, atob);
  }

  lemma {:induction false} PlainTextUnchanged(value: string, atob: string -> Option<string>)
    requires forall i :: 0 <= i < |value| - 1 ==> !(value[i] == '=' && value[i + 1] == '?')
    ensures ReplaceWords(value, atob) == value
    decreases |value|
  {
    if |value| > 0 {
      assert WordAt(value).None?;
      PlainTextUnchanged(value[1..], atob);
    }
  }

  /** A character `Q` can carry as itself: printable ASCII other than `=`,
      `?` and `_`. */
  predicate QSafe(c: char) {
    '!' <= c <= '~' && c != '=' && c != '?' && c != '_'
  }

  /** The `Q` form of one Latin-1 character: a space is `_`, safe characters
      stand for themselves, anything else is `=XX`. */
  function QChunk(c: char): (r: string)
    requires c as int < 256
  {
    if c == ' ' then "_"
    else if QSafe(c) then [c]
    else "=" + [HexDigit(c as int / 16), HexDigit(c as int % 16)]
  }

  predicate Latin1(s: string) {
    forall i :: 0 <= i < |s| ==> s[i] as int < 256
  }

  /** The `Q` encoding of a Latin-1 text. */
  function QEncode(s: string): (r: string)
    requires Latin1(s)
    ensures forall i :: 0 <= i < |r| ==> r[i] != '?'
    decreases |s|
  {
    if |s| == 0 then "" else QChunk(s[0]) + QEncode(s[1..])
  }

  lemma MapConcat(a: string, b: string)
    ensures Map(a + b, UnderscoreToSpace) == Map(a, UnderscoreToSpace) + Map(b, UnderscoreToSpace)
  {
  }

  /** Decoding one chunk in front of more text decodes to its character. */
  lemma QChunkDecodes(c: char, rest: string)
    requires c as int < 256
    ensures DecodeEscapes(Map(QChunk(c), UnderscoreToSpace) + rest) == [c] + DecodeEscapes(rest)
  {
    var u := Map(QChunk(c), UnderscoreToSpace);
    if c == ' ' {
      assert u == " ";
      assert (u + rest)[1..] == rest;
    } else if QSafe(c) {
      assert u == [c];
      assert (u + rest)[1..] == rest;
    } else {
      var h := HexDigit(c as int / 16);
      var l := HexDigit(c as int % 16);
      assert u == ['=', h, l];
      assert EscapeAt(u + rest);
      assert (u + rest)[3..] == rest;
    }
  }

  /** `Q` decoding undoes `Q` encoding. */
  lemma {:induction false} QRoundTrip(s: string)
    requires Latin1(s)
    ensures QDecode(QEncode(s)) == s
    decreases |s|
  {
    if |s| > 0 {
      var chunk := QChunk(s[0]);
      var tail := QEncode(s[1..]);
      calc {
        QDecode(QEncode(s));
        { assert QEncode(s) == chunk + tail; }
        DecodeEscapes(Map(chunk + tail, UnderscoreToSpace));
        { MapConcat(chunk, tail); }
        DecodeEscapes(Map(chunk, UnderscoreToSpace) + Map(tail, UnderscoreToSpace));
        { QChunkDecodes(s[0], Map(tail, UnderscoreToSpace)); }
        [s[0]] + QDecode(tail);
        { QRoundTrip(s[1..]); }
        [s[0]] + s[1..];
      }
    }
  }

  /** A header that is one `Q` encoded word decodes to the encoded text. */
  lemma EncodedWordRoundTrip(charset: string, s: string, atob: string -> Option<string>)
    requires charset != "" && forall i :: 0 <= i < |charset| ==> charset[i] != '?'
    requires Latin1(s)
    ensures DecodeHeader("=?" + charset + "?Q?" + QEncode(s) + "?=", atob) == s
  {
    var e := QEncode(s);
    var v := "=?" + charset + "?Q?" + e + "?=";
    var w := Word(charset, 'Q', e, |v|);
    WordOfEncoded(charset, e);
    assert v[w.length..] == "";
    assert ReplaceWords(v, atob) == DecodeWord(w, atob) + ReplaceWords("", atob);
    assert DecodeWord(w, atob) == QDecode(e);
    QRoundTrip(s);
  }

  /** The `Q` word around a text without `?` is recognised whole. */
  lemma WordOfEncoded(charset: string, e: string)
    requires charset != "" && forall i :: 0 <= i < |charset| ==> charset[i] != '?'
    requires forall i :: 0 <= i < |e| ==> e[i] != '?'
    ensures var v := "=?" + charset + "?Q?" + e + "?=";
      WordAt(v) == Some(Word(charset, 'Q', e, |v|))
  {
    var v := "=?" + charset + "?Q?" + e + "?=";
    WordParts(charset, e);
    var p := 2 + |charset| + 1;
    assert EncodingLetter(v[p]);
    WordAtIs(v, |charset|, |e|);
  }

  lemma WordParts(charset: string, e: string)
    requires charset != "" && forall i :: 0 <= i < |charset| ==> charset[i] != '?'
    requires forall i :: 0 <= i < |e| ==> e[i] != '?'
    ensures var v := "=?" + charset + "?Q?" + e + "?=";
      var p := 2 + |charset| + 1;
      var q := p + 2 + |e|;
      |v| == q + 2 && v[0] == '=' && v[1] == '?'
      && QuestionFree(v[2..]) == |charset| && v[2..2 + |charset|] == charset
      && v[p] == 'Q' && v[p + 1] == '?'
      && QuestionFree(v[p + 2..]) == |e| && v[p + 2..q] == e
      && v[q + 1] == '='
  {
    var v := "=?" + charset + "?Q?" + e + "?=";
    assert v[2..] == charset + ("?Q?" + e + "?=");
    QuestionFreePrefix(charset, "?Q?" + e + "?=");
    var p := 2 + |charset| + 1;
    assert v[p + 2..] == e + "?=";
    QuestionFreePrefix(e, "?=");
  }

  lemma {:induction false} QuestionFreePrefix(a: string, b: string)
    requires forall i :: 0 <= i < |a| ==> a[i] != '?'
    requires |b| > 0 && b[0] == '?'
    ensures QuestionFree(a + b) == |a|
    decreases |a|
  {
    if |a| > 0 {
      assert (a + b)[1..] == a[1..] + b;
      QuestionFreePrefix(a[1..], b);
    } else {
      assert a + b == b;
    }
  }

  // ---------------------------------------------------------------------
  // Body transfer encodings

  /** `s.replace(/=\r?\n/g, '')`: soft line breaks removed. */
  function RemoveSoftBreaks(s: string): (r: string)
    ensures |r| <= |s|
    decreases |s|
  {
    if |s| == 0 then ""
    else if |s| >= 3 && s[0] == '=' && s[1] == '\r' && s[2] == '\n' then RemoveSoftBreaks(s[3..])
    else if |s| >= 2 && s[0] == '=' && s[1] == '\n' then RemoveSoftBreaks(s[2..])
    else [s[0]] + RemoveSoftBreaks(s[1..])
  }

  /** Quoted-printable decoding as the reader does it. */
  function DecodeQuotedPrintable(s: string): (r: string)
    ensures |r| <= |s|
  {
    DecodeEscapes(RemoveSoftBreaks(s))
  }

  /** `s.replace(/\s/g, '')`. */
  function RemoveSpace(s: string): (r: string)
    ensures forall i :: 0 <= i < |r| ==> !IsSpace(r[i])
  {
    Filter(s, (c: char) => !IsSpace(c))
  }

  /** `decodeBody(body, encoding)`: empty stays empty; `base64` goes through
      `atob` with white space removed, falling back to the body; quoted-
      printable is decoded; any other encoding leaves the body as it is.
      The encoding name is compared lower-cased and defaults to `7bit`. */
  function DecodeBody(body: string, encoding: string, atob: string -> Option<string>): (r: string)
    ensures body == "" ==> r == ""
    ensures body != "" && ToLower(encoding) == "base64" ==>
      r == (match atob(RemoveSpace(body)) case Some(t) => t case None => body)
    ensures body != "" && ToLower(encoding) == "quoted-printable" ==> r == DecodeQuotedPrintable(body)
    ensures ToLower(encoding) !in {"base64", "quoted-printable"} ==> r == body
  {
    var enc := ToLower(if encoding == "" then "7bit" else encoding);
    assert encoding == "" ==> enc == "7bit";
    if body == "" then ""
    else if enc == "base64" then
      match atob(RemoveSpace(body))
      case Some(t) => t
      case None => body
    else if enc == "quoted-printable" then DecodeQuotedPrintable(body)
    else body
  }

  /** The quoted-printable form of a text: `=` written as `=3D`, everything
      else as itself. */
  function QpEncode(s: string): (r: string)
    ensures |r| >= |s|
    decreases |s|
  {
    if |s| == 0 then "" else QpChunk(s[0]) + QpEncode(s[1..])
  }

  /** One character in quoted-printable form. */
  function QpChunk(c: char): (r: string)
    ensures |r| > 0
  {
    if c == '=' then "=3D" else [c]
  }

  /** A chunk has no soft line break of its own. */
  lemma ChunkKept(c: char, t: string)
    ensures RemoveSoftBreaks(QpChunk(c) + t) == QpChunk(c) + RemoveSoftBreaks(t)
  {
    if c == '=' {
      assert QpChunk(c) + t == ['='] + (['3'] + (['D'] + t));
      KeepsHead('D', t);
      KeepsHead('3', ['D'] + t);
      KeepsHead('=', ['3'] + (['D'] + t));
    } else {
      KeepsHead(c, t);
    }
  }

  lemma {:induction false} QpEncodeConcat(a: string, b: string)
    ensures QpEncode(a + b) == QpEncode(a) + QpEncode(b)
    decreases |a|
  {
    if |a| > 0 {
      assert (a + b)[1..] == a[1..] + b;
      QpEncodeConcat(a[1..], b);
    } else {
      assert a + b == b;
    }
  }

  /** A character that does not start a soft line break is kept. */
  lemma KeepsHead(c: char, t: string)
    requires !(c == '=' && |t| > 0 && (t[0] == '\n' || t[0] == '\r'))
    ensures RemoveSoftBreaks([c] + t) == [c] + RemoveSoftBreaks(t)
  {
    assert ([c] + t)[1..] == t;
  }

  /** An encoded text has no soft line breaks of its own. */
  lemma {:induction false} SoftBreaksOfEncoded(a: string, rest: string)
    ensures RemoveSoftBreaks(QpEncode(a) + rest) == QpEncode(a) + RemoveSoftBreaks(rest)
    decreases |a|
  {
    if |a| > 0 {
      var chunk := QpChunk(a[0]);
      var tail := QpEncode(a[1..]) + rest;
      calc {
        RemoveSoftBreaks(QpEncode(a) + rest);
        { assert QpEncode(a) + rest == chunk + tail; }
        RemoveSoftBreaks(chunk + tail);
        { ChunkKept(a[0], tail); }
        chunk + RemoveSoftBreaks(tail);
        { SoftBreaksOfEncoded(a[1..], rest); }
        chunk + (QpEncode(a[1..]) + RemoveSoftBreaks(rest));
        { assert QpEncode(a) == chunk + QpEncode(a[1..]); }
        QpEncode(a) + RemoveSoftBreaks(rest);
      }
    } else {
      assert QpEncode(a) + rest == rest;
    }
  }

  /** Escape decoding undoes the `=3D` of an encoded text. */
  lemma {:induction false} EscapesOfEncoded(a: string)
    ensures DecodeEscapes(QpEncode(a)) == a
    decreases |a|
  {
    if |a| > 0 {
      EscapesOfEncoded(a[1..]);
      if a[0] == '=' {
        var t := "=3D" + QpEncode(a[1..]);
        assert QpEncode(a) == t;
        assert EscapeAt(t);
        assert t[3..] == QpEncode(a[1..]);
      } else {
        assert QpEncode(a) == [a[0]] + QpEncode(a[1..]);
      }
    }
  }

  /** Quoted-printable decoding undoes the encoding. */
  lemma QuotedPrintableRoundTrip(a: string)
    ensures DecodeQuotedPrintable(QpEncode(a)) == a
  {
    SoftBreaksOfEncoded(a, "");
    assert QpEncode(a) + "" == QpEncode(a);
    EscapesOfEncoded(a);
  }

  /** A soft line break between two encoded texts disappears. */
  lemma SoftBreakJoins(a: string, b: string, softBreak: string)
    requires softBreak == "=\n" || softBreak == "=\r\n"
    ensures DecodeQuotedPrintable(QpEncode(a) + softBreak + QpEncode(b)) == a + b
  {
    var ea, eb := QpEncode(a), QpEncode(b);
    calc {
      RemoveSoftBreaks(ea + softBreak + eb);
      { assert ea + softBreak + eb == ea + (softBreak + eb); }
      RemoveSoftBreaks(ea + (softBreak + eb));
      { SoftBreaksOfEncoded(a, softBreak + eb); }
      ea + RemoveSoftBreaks(softBreak + eb);
      { SoftBreakDropped(softBreak, eb); }
      ea + RemoveSoftBreaks(eb);
      { SoftBreaksOfEncoded(b, ""); assert eb + "" == eb; }
      ea + eb;
      { QpEncodeConcat(a, b); }
      QpEncode(a + b);
    }
    EscapesOfEncoded(a + b);
  }

  lemma SoftBreakDropped(softBreak: string, t: string)
    requires softBreak == "=\n" || softBreak == "=\r\n"
    ensures RemoveSoftBreaks(softBreak + t) == RemoveSoftBreaks(t)
  {
    assert (softBreak + t)[|softBreak|..] == t;
  }
}

=== FILE: multipart.dfy ===
/** Header parameters and multipart bodies in the `.eml` reader:
    `extractBoundary`, the `filename`/`name` lookup and `parseMultipart`
    (section 5.1.1 of RFC 2046). Nested multiparts are flattened into one
    list of leaf parts. */
module Multipart {
  import opened Wrappers
  import opened Seqs
  import opened Strings
  import opened EmailHeaders
  import opened MimeText

  // ---------------------------------------------------------------------
  // Parameters such as `boundary="…"`

  /** `s` starts with `key`, ignoring the case of ASCII letters (`key` is
      lower-case). */
  predicate StartsWithFolded(s: string, key: string) {
    |key| <= |s| && ToLower(s[..|key|]) == key
  }

  /** The characters that end a boundary: `"`, `;` and white space. */
  predicate BoundaryStop(c: char) {
    c == '"' || c == ';' || IsSpace(c)
  }

  /** The characters that end a file name: `"`, `;` and a line feed. */
  predicate NameStop(c: char) {
    c == '"' || c == ';' || c == '\n'
  }

  /** `name="?([^stop]+)"?` matched at the start of `s`: the value runs to
      the first stop character after an optional quote. A quote is itself a
      stop character, so without a value after the quote there is no
      match here. */
  function ParamAt(s: string, name: string, stop: char -> bool): (r: Option<string>)
    requires stop('"')
    ensures r.Some? ==> r.value != "" && forall i :: 0 <= i < |r.value| ==> !stop(r.value[i])
  {
    var key := name + "=";
    if !StartsWithFolded(s, key) then None
    else
      var j := |key|;
      var k := if j < |s| && s[j] == '"' then j + 1 else j;
      var n := RunBefore(s[k..], stop);
      if n == 0 then None else Some(s[k..k + n])
  }

  /** `s.match(/name="?([^stop]+)"?/i)[1]`: the first position where the
      parameter matches. */
  function FindParam(s: string, name: string, stop: char -> bool): (r: Option<string>)
    requires stop('"')
    ensures r.Some? ==> r.value != "" && forall i :: 0 <= i < |r.value| ==> !stop(r.value[i])
    decreases |s|
  {
    match ParamAt(s, name, stop)
    case Some(v) => Some(v)
    case None => if |s| == 0 then None else FindParam(s[1..], name, stop)
  }

  /** `extractBoundary(contentType)`. */
  function ExtractBoundary(contentType: string): (r: Option<string>)
    ensures r.Some? ==> r.value != "" && forall i :: 0 <= i < |r.value| ==> !BoundaryStop(r.value[i])
  {
    FindParam(contentType, "boundary", BoundaryStop)
  }

  /** A parameter written at the start of a header value, quoted or not,
      is read back. */
  lemma ParamRoundTrip(name: string, v: string, quoted: bool, stop: char -> bool)
    requires stop('"')
    requires ToLower(name) == name
    requires v != "" && forall i :: 0 <= i < |v| ==> !stop(v[i])
    ensures FindParam(name + "=" + (if quoted then "\"" else "") + v + (if quoted then "\"" else ""), name, stop)
      == Some(v)
  {
    KeyIsLower(name);
    ParamAtStart(name, v, quoted, stop);
  }

  lemma KeyIsLower(name: string)
    requires ToLower(name) == name
    ensures ToLower(name + "=") == name + "="
  {
    var key := name + "=";
    forall i | 0 <= i < |key| ensures ToLower(key)[i] == key[i] {
      if i < |name| {
        assert LowerChar(name[i]) == ToLower(name)[i];
      }
    }
  }

  lemma ParamAtStart(name: string, v: string, quoted: bool, stop: char -> bool)
    requires stop('"')
    requires ToLower(name + "=") == name + "="
    requires v != "" && forall i :: 0 <= i < |v| ==> !stop(v[i])
    ensures ParamAt(name + "=" + (if quoted then "\"" else "") + v + (if quoted then "\"" else ""), name, stop)
      == Some(v)
  {
    var key := name + "=";
    var q := if quoted then "\"" else "";
    var s := key + q + v + q;
    assert s[..|key|] == key;
    var k := |key| + |q|;
    assert |key| < |s| && (s[|key|] == '"' <==> quoted) by {
      if quoted {
        assert s[|key|] == '"';
      } else {
        assert s[|key|] == v[0];
      }
    }
    assert s[k..] == v + q;
    RunBeforeConcat(v, q, stop);
    assert s[k..k + |v|] == v;
  }

  // ---------------------------------------------------------------------
  // Multipart bodies

  /** A leaf part of a multipart body. */
  datatype Part = Part(contentType: string, encoding: string, filename: Option<string>, body: string)

  /** A part that `parseMultipart` returns: not itself multipart, with a
      trimmed body. */
  predicate Leaf(p: Part) {
    ExtractBoundary(p.contentType).None? && Trim(p.body) == p.body
  }

  /** Where the headers of a section end and how long the blank line is:
      `\r\n\r\n` when there is one, otherwise `\n\n`. */
  function BlankLine(section: string): (r: Option<(nat, nat)>)
    ensures r.Some? ==> r.value.0 + r.value.1 <= |section|
    ensures r.Some? ==> r.value.1 == 4 || r.value.1 == 2
  {
    match IndexOf(section, "\r\n\r\n")
    case Some(k) => Some((k, 4))
    case None =>
      match IndexOf(section, "\n\n")
      case Some(k) => Some((k, 2))
      case None => None
  }

  /** The file name of a part: the `filename` parameter of its disposition,
      else the `name` parameter of its content type, header-decoded. */
  function FileName(disposition: string, contentType: string, atob: string -> Option<string>): Option<string> {
    match FindParam(disposition, "filename", NameStop)
    case Some(f) => Some(DecodeHeader(f, atob))
    case None =>
      match FindParam(contentType, "name", NameStop)
      case Some(f) => Some(DecodeHeader(f, atob))
      case None => None
  }

  /** `parseMultipart(body, boundary)`: the sections after each delimiter
      line, the preamble before the first one left out. */
  function ParseMultipart(body: string, boundary: string, atob: string -> Option<string>): (r: seq<Part>)
    ensures forall i :: 0 <= i < |r| ==> Leaf(r[i])
    decreases |body|, 2
  {
    var delimiter := "--" + boundary;
    var sections := Split(body, delimiter);
    SplitLength(body, delimiter);
    PartsOf(sections[1..], |body|, atob)
  }

  function PartsOf(sections: seq<string>, bound: nat, atob: string -> Option<string>): (r: seq<Part>)
    requires forall i :: 0 <= i < |sections| ==> |sections[i]| < bound
    ensures forall i :: 0 <= i < |r| ==> Leaf(r[i])
    decreases bound, 1, |sections|
  {
    if |sections| == 0 then []
    else SectionParts(sections[0], atob) + PartsOf(sections[1..], bound, atob)
  }

  /** One section: the closing `--` section and a section without a blank
      line give nothing; a nested multipart gives its own parts; any other
      section gives one part. */
  function SectionParts(section: string, atob: string -> Option<string>): (r: seq<Part>)
    ensures forall i :: 0 <= i < |r| ==> Leaf(r[i])
    decreases |section|, 3
  {
    if StartsWith(section, "--") then []
    else match HeadAndBody(section)
      case None => []
      case Some((headerText, bodyText)) =>
        var headers := ParseHeaders(headerText);
        var body := Trim(bodyText);
        var contentType := HeaderOr(headers, "content-type", "text/plain");
        var disposition := HeaderOr(headers, "content-disposition", "");
        var encoding := HeaderOr(headers, "content-transfer-encoding", "7bit");
        match ExtractBoundary(contentType)
        case Some(nested) => ParseMultipart(body, nested, atob)
        case None =>
          TrimIdempotent(bodyText);
          [Part(contentType, encoding, FileName(disposition, contentType, atob), body)]
  }

  /** The header text and the body text of a section, either side of its
      first blank line. */
  function HeadAndBody(section: string): (r: Option<(string, string)>)
    ensures r.Some? ==> |r.value.1| < |section|
    ensures r.Some? <==> Contains(section, "\r\n\r\n") || Contains(section, "\n\n")
  {
    match BlankLine(section)
    case None => None
    case Some((k, len)) => Some((section[..k], section[k + len..]))
  }

  /** The closing delimiter's section and a section without a blank line
      add no part. */
  lemma SkippedSections(section: string, atob: string -> Option<string>)
    requires StartsWith(section, "--") || (!Contains(section, "\r\n\r\n") && !Contains(section, "\n\n"))
    ensures SectionParts(section, atob) == []
  {
  }

  /** A section that is not multipart gives one part holding its trimmed
      body and the type, encoding and file name from its headers. */
  lemma LeafSection(section: string, headerText: string, bodyText: string, atob: string -> Option<string>)
    requires !StartsWith(section, "--")
    requires !Contains(headerText, "\r\n\r\n") && !Contains(headerText + "\r\n\r", "\r\n\r\n")
    requires section == headerText + "\r\n\r\n" + bodyText
    requires ExtractBoundary(HeaderOr(ParseHeaders(headerText), "content-type", "text/plain")).None?
    ensures var h := ParseHeaders(headerText);
      var ct := HeaderOr(h, "content-type", "text/plain");
      SectionParts(section, atob) == [Part(ct, HeaderOr(h, "content-transfer-encoding", "7bit"),
                                           FileName(HeaderOr(h, "content-disposition", ""), ct, atob),
                                           Trim(bodyText))]
  {
    SplitAtFirstBlankLine(headerText, bodyText);
  }

  /** A section split at its first blank line. */
  lemma SplitAtFirstBlankLine(headerText: string, bodyText: string)
    requires !Contains(headerText, "\r\n\r\n") && !Contains(headerText + "\r\n\r", "\r\n\r\n")
    ensures HeadAndBody(headerText + "\r\n\r\n" + bodyText) == Some((headerText, bodyText))
  {
    FirstBlankLine(headerText, bodyText);
  }

  /** The blank line found is the first one, when the header text has none
      of its own. */
  lemma FirstBlankLine(headerText: string, bodyText: string)
    requires !Contains(headerText, "\r\n\r\n") && !Contains(headerText + "\r\n\r", "\r\n\r\n")
    ensures var s := headerText + "\r\n\r\n" + bodyText;
      IndexOf(s, "\r\n\r\n") == Some(|headerText|)
      && s[..|headerText|] == headerText && s[|headerText| + 4..] == bodyText
  {
    var d := "\r\n\r\n";
    var s := headerText + d + bodyText;
    assert OccursAt(s, d, |headerText|);
    var i := IndexOf(s, d);
    assert i.Some? && i.value <= |headerText|;
    if i.value < |headerText| {
      var j := i.value;
      assert s[j..j + 4] == d;
      assert (headerText + "\r\n\r")[j..j + 4] == s[j..j + 4];
      assert OccursAt(headerText + "\r\n\r", d, j);
      assert false;
    }
  }
}

=== FILE: notifications.dfy ===
/** The in-app notification store (`NotificationService`): a list of
    notifications, newest first, each addressed to one user or to everyone
    (`targetUserId` null). Identifiers and timestamps are parameters. */
module Notifications {
  import opened Wrappers
  import opened Seqs
  import opened Config
  import Strings

  datatype Notification = Notification(
    id: string,
    ntype: string,
    title: string,
    message: string,
    icon: string,
    color: string,
    target: Option<string>,
    relatedFormId: Option<string>,
    relatedFormType: Option<string>,
    relatedFormTitle: Option<string>,
    senderName: Option<string>,
    senderId: Option<string>,
    isRead: bool,
    createdAt: int,
    readAt: Option<int>)

  /** The optional `data` argument of `create`; an empty string stands for a
      missing or empty property. */
  datatype NotifyData = NotifyData(
    title: string, message: string, formId: string, formType: string,
    formTitle: string, senderName: string, senderId: string)

  /** A request to create one notification of a type for a target. */
  datatype Request = Request(ntype: NotificationType, data: NotifyData, target: Option<string>)

  /** `value || null` for a string. */
  function OrNull(s: string): (r: Option<string>)
    ensures r.None? <==> s == ""
    ensures r.Some? ==> r.value == s
  {
    if s == "" then None else Some(s)
  }

  /** The label used for a type name, with the generic fallback for
      unknown types. */
  function LabelOrDefault(ntype: string): Label {
    NotificationLabelFor(ntype).OrElse(Label("Notificatie", "", "bell", "info"))
  }

  /** The notification `create` builds. */
  function NewNotification(ntype: string, data: NotifyData, target: Option<string>, id: string, now: int): (n: Notification)
    ensures n.id == id && n.ntype == ntype && n.target == target
    ensures !n.isRead && n.readAt == None && n.createdAt == now
    ensures data.title != "" ==> n.title == data.title
    ensures data.message != "" ==> n.message == data.message
    ensures forall t :: NotificationTypeName(t) == ntype && data.title == "" ==> n.title == NotificationLabelOf(t).title
    ensures forall t :: NotificationTypeName(t) == ntype && data.message == "" ==> n.message == NotificationLabelOf(t).message
    ensures ParseNotificationType(ntype).None? && data.title == "" ==> n.title == "Notificatie"
    ensures ParseNotificationType(ntype).None? && data.message == "" ==> n.message == ""
  {
    var info := LabelOrDefault(ntype);
    NotificationLabelLookupAll();
    Notification(
      id, ntype,
      if data.title != "" then data.title else info.title,
      if data.message != "" then data.message else info.message,
      info.icon, info.color, target,
      OrNull(data.formId), OrNull(data.formType), OrNull(data.formTitle),
      OrNull(data.senderName), OrNull(data.senderId),
      false, now, None)
  }

  lemma NotificationLabelLookupAll()
    ensures forall t :: NotificationLabelFor(NotificationTypeName(t)) == Some(NotificationLabelOf(t))
  {
    forall t: NotificationType
      ensures NotificationLabelFor(NotificationTypeName(t)) == Some(NotificationLabelOf(t))
    {
      NotificationLabelLookup(t, "");
    }
  }

  /** `create`: the new notification is put in front; the others keep
      their order. */
  function Create(list: seq<Notification>, ntype: string, data: NotifyData, target: Option<string>,
                  id: string, now: int): (r: seq<Notification>)
    ensures |r| == |list| + 1 && r[1..] == list
    ensures r[0].id == id && r[0].target == target && !r[0].isRead && r[0].readAt.None?
  {
    [NewNotification(ntype, data, target, id, now)] + list
  }

  /** Carry out a creation request. */
  function Send(list: seq<Notification>, req: Request, id: string, now: int): (r: seq<Notification>)
    ensures |r| == |list| + 1 && r[1..] == list && r[0].target == req.target
  {
    Create(list, NotificationTypeName(req.ntype), req.data, req.target, id, now)
  }

  /** A notification is shown to `userId` when it is addressed to that user
      or to everyone. */
  predicate VisibleTo(n: Notification, userId: string) {
    n.target == Some(userId) || n.target == None
  }

  /** Whether `getAll(userId)` lists `n`: everything when there is no user. */
  predicate Shown(n: Notification, userId: string) {
    userId == "" || VisibleTo(n, userId)
  }

  /** Whether `getUnread(userId)` lists `n`. */
  predicate UnreadFor(n: Notification, userId: string) {
    Shown(n, userId) && !n.isRead
  }

  /** `getAll(userId)`: with a user, the notifications visible to that user,
      in stored order (`GetAllConcat`); without one (`userId` empty), all of
      them. */
  function GetAll(list: seq<Notification>, userId: string): (r: seq<Notification>)
    ensures userId == "" ==> r == list
    ensures userId != "" ==> forall i :: 0 <= i < |r| ==> r[i] in list && VisibleTo(r[i], userId)
    ensures userId != "" ==> forall i :: 0 <= i < |list| && VisibleTo(list[i], userId) ==> list[i] in r
    ensures forall n :: multiset(r)[n] == if Shown(n, userId) then multiset(list)[n] else 0
  {
    if userId == "" then list
    else
      FilterMultiset(list, (n: Notification) => VisibleTo(n, userId));
      Filter(list, (n: Notification) => VisibleTo(n, userId))
  }

  /** `getAll` keeps the stored order: the list of a concatenation is the
      concatenation of the lists. */
  lemma GetAllConcat(a: seq<Notification>, b: seq<Notification>, userId: string)
    ensures GetAll(a + b, userId) == GetAll(a, userId) + GetAll(b, userId)
  {
    if userId != "" {
      FilterConcat(a, b, (n: Notification) => VisibleTo(n, userId));
    }
  }

  /** A created notification is the first one its target sees, and users it
      is not addressed to see the same list as before. */
  lemma GetAllAfterCreate(list: seq<Notification>, ntype: string, data: NotifyData,
                          target: Option<string>, id: string, now: int, userId: string)
    ensures var r := Create(list, ntype, data, target, id, now);
      (target == Some(userId) || target == None || userId == "") ==>
        GetAll(r, userId) == [r[0]] + GetAll(list, userId)
    ensures var r := Create(list, ntype, data, target, id, now);
      (target != Some(userId) && target != None && userId != "") ==>
        GetAll(r, userId) == GetAll(list, userId)
  {
    var r := Create(list, ntype, data, target, id, now);
    assert r == [r[0]] + list;
    if userId != "" {
      FilterConcat([r[0]], list, (n: Notification) => VisibleTo(n, userId));
    }
  }

  /** `getUnread(userId)`: the unread notifications `getAll(userId)` lists,
      each as often as stored and in stored order (`GetUnreadConcat`). */
  function GetUnread(list: seq<Notification>, userId: string): (r: seq<Notification>)
    ensures |r| <= |GetAll(list, userId)|
    ensures forall i :: 0 <= i < |r| ==> !r[i].isRead && r[i] in GetAll(list, userId)
    ensures forall i :: 0 <= i < |list| && UnreadFor(list[i], userId) ==> list[i] in r
    ensures forall n :: multiset(r)[n] == if UnreadFor(n, userId) then multiset(list)[n] else 0
  {
    var all := GetAll(list, userId);
    var r := Filter(all, (n: Notification) => !n.isRead);
    FilterMultiset(all, (n: Notification) => !n.isRead);
    ExactlyKept(r, list, (n: Notification) => UnreadFor(n, userId));
    r
  }

  lemma GetUnreadConcat(a: seq<Notification>, b: seq<Notification>, userId: string)
    ensures GetUnread(a + b, userId) == GetUnread(a, userId) + GetUnread(b, userId)
  {
    GetAllConcat(a, b, userId);
    FilterConcat(GetAll(a, userId), GetAll(b, userId), (n: Notification) => !n.isRead);
  }

  /** `countUnread(userId)`: the number of stored notifications that are
      unread and shown to `userId`. */
  function CountUnread(list: seq<Notification>, userId: string): (c: nat)
    ensures c == |IndicesWhere(list, (n: Notification) => UnreadFor(n, userId))|
    ensures c <= |GetAll(list, userId)|
  {
    var r := GetUnread(list, userId);
    CountFromMultiset(r, list, (n: Notification) => UnreadFor(n, userId));
    |r|
  }

  /** The notification read at time `now`. */
  function Read(n: Notification, now: int): Notification {
    n.(isRead := true, readAt := Some(now))
  }

  /** `markAsRead(id)`: marks the first notification with that id, and only
      when it is still unread. */
  function MarkAsRead(list: seq<Notification>, id: string, now: int): (r: seq<Notification>)
    ensures |r| == |list|
    ensures FindIndex(list, (n: Notification) => n.id == id).None? ==> r == list
    ensures forall i :: (0 <= i < |list| && list[i].id == id && list[i].isRead
              && (forall j :: 0 <= j < i ==> list[j].id != id)) ==> r == list
    ensures forall i :: (0 <= i < |list| && list[i].id == id && !list[i].isRead
              && (forall j :: 0 <= j < i ==> list[j].id != id)) ==>
              r[i].isRead && r[i].readAt == Some(now) && r[i].id == id
              && forall j :: 0 <= j < |list| && j != i ==> r[j] == list[j]
  {
    match FindIndex(list, (n: Notification) => n.id == id)
    case None => list
    case Some(i) => if list[i].isRead then list else list[i := Read(list[i], now)]
  }

  /** A second `markAsRead` of the same id changes nothing. */
  lemma MarkAsReadIdempotent(list: seq<Notification>, id: string, now: int, later: int)
    ensures MarkAsRead(MarkAsRead(list, id, now), id, later) == MarkAsRead(list, id, now)
  {
    var r := MarkAsRead(list, id, now);
    match FindIndex(list, (n: Notification) => n.id == id)
    case None =>
    case Some(i) =>
      assert forall j :: 0 <= j < |list| ==> r[j].id == list[j].id;
      assert FindIndex(r, (n: Notification) => n.id == id) == Some(i);
  }

  /** No two notifications share an id. */
  predicate UniqueIds(list: seq<Notification>) {
    forall i, j :: 0 <= i < j < |list| ==> list[i].id != list[j].id
  }

  /** `markAllAsRead(userId)`. The notifications visible to the user are
      taken first; then each of them that is still unread makes the first
      stored notification with its id read. */
  method MarkAllAsRead(list: seq<Notification>, userId: string, now: int) returns (r: seq<Notification>)
    ensures |r| == |list|
    ensures forall i :: 0 <= i < |list| ==> r[i].id == list[i].id && r[i].target == list[i].target
    ensures UniqueIds(list) ==> forall i :: 0 <= i < |list| ==>
              (if userId == "" || VisibleTo(list[i], userId) then r[i].isRead else r[i] == list[i])
    ensures UniqueIds(list) ==> CountUnread(r, userId) == 0
  {
    r := list;
    var k := 0;
    while k < |list|
      invariant 0 <= k <= |list| && |r| == |list|
      invariant forall i :: 0 <= i < |list| ==> r[i].id == list[i].id && r[i].target == list[i].target
      invariant UniqueIds(list) ==> forall i :: 0 <= i < |list| ==>
                  (if (userId == "" || VisibleTo(list[i], userId)) && i < k then r[i].isRead else r[i] == list[i])
    {
      if (userId == "" || VisibleTo(list[k], userId)) && !r[k].isRead {
        var j := FindIndex(r, (n: Notification) => n.id == r[k].id);
        if j.Some? {
          r := r[j.value := Read(r[j.value], now)];
        }
      }
      k := k + 1;
    }
    if UniqueIds(list) {
      MarkAllLeavesNoneUnread(list, r, userId);
    }
  }

  /** After `markAllAsRead(userId)` the user has no unread notification left. */
  lemma MarkAllLeavesNoneUnread(list: seq<Notification>, r: seq<Notification>, userId: string)
    requires |r| == |list|
    requires forall i :: 0 <= i < |list| ==> r[i].target == list[i].target
    requires forall i :: 0 <= i < |list| ==> (userId == "" || VisibleTo(list[i], userId)) ==> r[i].isRead
    ensures CountUnread(r, userId) == 0
  {
    var all := GetAll(r, userId);
    assert forall i :: 0 <= i < |all| ==> all[i].isRead by {
      forall i | 0 <= i < |all| ensures all[i].isRead {
        var n := all[i];
        var j :| 0 <= j < |r| && r[j] == n;
      }
    }
    FilterDropsAll(all, (n: Notification) => !n.isRead);
  }

  /** `delete(id)`: removes the first notification with that id. */
  function Delete(list: seq<Notification>, id: string): (r: seq<Notification>)
    ensures FindIndex(list, (n: Notification) => n.id == id).None? ==> r == list
    ensures forall i :: 0 <= i < |list| && list[i].id == id && (forall j :: 0 <= j < i ==> list[j].id != id)
              ==> r == list[..i] + list[i + 1..]
  {
    RemoveFirst(list, (n: Notification) => n.id == id)
  }

  /** `deleteAll(userId)`: with a user, keeps exactly the notifications
      addressed to other, named users, in stored order
      (`DeleteAllConcat`); without one, removes everything. */
  function DeleteAll(list: seq<Notification>, userId: string): (r: seq<Notification>)
    ensures userId == "" ==> r == []
    ensures userId != "" ==> forall i :: 0 <= i < |r| ==> r[i] in list && !VisibleTo(r[i], userId)
    ensures userId != "" ==> forall i :: 0 <= i < |list| && !VisibleTo(list[i], userId) ==> list[i] in r
    ensures forall n :: multiset(r)[n] == if !Shown(n, userId) then multiset(list)[n] else 0
  {
    if userId == "" then []
    else
      FilterMultiset(list, (n: Notification) => n.target != Some(userId) && n.target != None);
      Filter(list, (n: Notification) => n.target != Some(userId) && n.target != None)
  }

  lemma DeleteAllConcat(a: seq<Notification>, b: seq<Notification>, userId: string)
    ensures DeleteAll(a + b, userId) == DeleteAll(a, userId) + DeleteAll(b, userId)
  {
    if userId != "" {
      FilterConcat(a, b, (n: Notification) => n.target != Some(userId) && n.target != None);
    }
  }

  /** After `deleteAll(userId)` the user sees no notification at all. */
  lemma DeleteAllHidesEverything(list: seq<Notification>, userId: string)
    ensures GetAll(DeleteAll(list, userId), userId) == []
  {
    var r := DeleteAll(list, userId);
    if userId != "" {
      FilterDropsAll(r, (n: Notification) => VisibleTo(n, userId));
    }
  }

  /** The message texts of the typed helpers (`notifyIntakeShared` and the
      others); every helper records the form as an intake form. */
  function IntakeData(formId: string, formTitle: string, sender: string, message: string): NotifyData {
    NotifyData("", message, formId, "intakeformulier", formTitle, sender, "")
  }

  function NotifyIntakeShared(formId: string, formTitle: string, target: Option<string>, sender: string): Request {
    Request(IntakeShared, IntakeData(formId, formTitle, sender,
      sender + " heeft de intake \"" + formTitle + "\" met je gedeeld"), target)
  }

  function NotifyIntakeSubmitted(formId: string, formTitle: string, target: Option<string>, client: string): Request {
    Request(IntakeSubmitted, IntakeData(formId, formTitle, client,
      client + " heeft de intake \"" + formTitle + "\" ingediend"), target)
  }

  function NotifyAkkoordRequested(formId: string, formTitle: string, target: Option<string>, sender: string): Request {
    Request(AkkoordRequested, IntakeData(formId, formTitle, sender,
      sender + " vraagt je akkoord op de intake \"" + formTitle + "\""), target)
  }

  function NotifyAkkoordGiven(formId: string, formTitle: string, target: Option<string>, client: string): Request {
    Request(AkkoordGiven, IntakeData(formId, formTitle, client,
      client + " heeft akkoord gegeven op de intake \"" + formTitle + "\""), target)
  }

  function NotifyStakeholderReviewStart(formId: string, formTitle: string, target: Option<string>, sender: string): Request {
    Request(StakeholderReviewStart, IntakeData(formId, formTitle, sender,
      sender + " vraagt je review op de intake \"" + formTitle + "\""), target)
  }

  /** `notifyCommentAdded`: the message quotes at most the first 50
      characters of the comment, marked with `...` when it was longer. */
  function NotifyCommentAdded(formId: string, formTitle: string, target: Option<string>, commenter: string,
                              commentText: string): (r: Request)
    ensures r.ntype == CommentAdded && r.target == target && r.data.senderName == commenter
    ensures var prefix := commenter + " heeft een opmerking geplaatst: \"";
      |r.data.message| > |prefix| && Strings.StartsWith(r.data.message, prefix)
      && r.data.message[|r.data.message| - 1] == '"'
      && var quoted := r.data.message[|prefix|..|r.data.message| - 1];
      (|commentText| <= 50 ==> quoted == commentText)
      && (|commentText| > 50 ==> |quoted| == 53 && quoted[..50] == commentText[..50] && quoted[50..] == "...")
  {
    var quoted := Strings.Truncate(commentText, 50);
    var prefix := commenter + " heeft een opmerking geplaatst: \"";
    var message := prefix + quoted + "\"";
    assert message[|prefix|..|message| - 1] == quoted;
    assert message[..|prefix|] == prefix;
    Request(CommentAdded, IntakeData(formId, formTitle, commenter, message), target)
  }

  function NotifyCommentResolved(formId: string, formTitle: string, target: Option<string>, resolver: string): Request {
    Request(CommentResolved, IntakeData(formId, formTitle, resolver,
      resolver + " heeft je opmerking verwerkt"), target)
  }

  function NotifyRoutedToBa(formId: string, formTitle: string, target: Option<string>, sender: string): Request {
    Request(RoutedToBa, IntakeData(formId, formTitle, sender,
      sender + " heeft de intake \"" + formTitle + "\" naar je werkvoorraad gezet"), target)
  }

  function NotifyRoutedToFb(formId: string, formTitle: string, target: Option<string>, sender: string): Request {
    Request(RoutedToFb, IntakeData(formId, formTitle, sender,
      sender + " heeft de change \"" + formTitle + "\" op de backlog gezet"), target)
  }

  function NotifyIntakeArchived(formId: string, formTitle: string, target: Option<string>, archiver: string): Request {
    Request(IntakeArchived, IntakeData(formId, formTitle, archiver,
      "De intake \"" + formTitle + "\" is gearchiveerd"), target)
  }

  /** Every typed helper supplies its own message, so the stored title is
      the type's label title and the stored message is the helper's text. */
  lemma HelperTitleIsLabel(req: Request, list: seq<Notification>, id: string, now: int)
    requires req.data.title == "" && req.data.message != ""
    ensures Send(list, req, id, now)[0].title == NotificationLabelOf(req.ntype).title
    ensures Send(list, req, id, now)[0].message == req.data.message
  {
  }
}

=== FILE: router.dfy ===
/** The hash router (`Router`) and the share-link helpers (`UrlHelpers`).
    A route pattern is text in which `:name` stands for one path segment;
    the router compiles each pattern to the regular expression
    `^…$` with `([^/]+)` for every parameter and tries the patterns in
    registration order. Literal pattern text is matched character by
    character: the patterns the application registers contain no regular
    expression operators other than the lone `*` of the fallback route. */
module Router {
  import opened Wrappers
  import opened Seqs
  import opened Strings

  /** One element of a compiled pattern: a literal character, or a
      parameter matching a non-empty run of characters other than `/`. */
  datatype Token = Lit(c: char) | Param(name: string)

  /** The length of the longest prefix of `s` without a `/`. */
  function RunLength(s: string): (n: nat)
    ensures n <= |s|
    ensures forall i :: 0 <= i < n ==> s[i] != '/'
    ensures n < |s| ==> s[n] == '/'
  {
    if |s| == 0 || s[0] == '/' then 0 else 1 + RunLength(s[1..])
  }

  /** The slash-free run of a text that is followed by a slash or nothing is
      the text itself. */
  lemma {:induction false} RunLengthConcat(v: string, rest: string)
    requires forall i :: 0 <= i < |v| ==> v[i] != '/'
    requires |rest| == 0 || rest[0] == '/'
    ensures RunLength(v + rest) == |v|
    decreases |v|
  {
    if |v| == 0 {
      assert v + rest == rest;
    } else {
      assert (v + rest)[0] == v[0];
      assert (v + rest)[1..] == v[1..] + rest;
      RunLengthConcat(v[1..], rest);
    }
  }

  /** `pattern.replace(/:([^\/]+)/g, '([^/]+)')`: a `:` followed by at
      least one character other than `/` starts a parameter whose name is
      the longest such run; every other character is literal. */
  function Tokenize(p: string): (r: seq<Token>)
    ensures WellFormed(r)
    ensures |p| > 0 && p[0] != ':' ==> |r| > 0 && r[0] == Lit(p[0])
    decreases |p|
  {
    if |p| == 0 then []
    else if p[0] == ':' && |p| > 1 && p[1] != '/' then
      var n := RunLength(p[1..]);
      assert |p[1 + n..]| > 0 ==> p[1 + n..][0] == '/';
      var rest := Tokenize(p[1 + n..]);
      WellFormedPrepend(Param(p[1..1 + n]), rest);
      [Param(p[1..1 + n])] + rest
    else
      var rest := Tokenize(p[1..]);
      WellFormedPrepend(Lit(p[0]), rest);
      [Lit(p[0])] + rest
  }

  lemma WellFormedPrepend(t: Token, rest: seq<Token>)
    requires WellFormed(rest)
    requires t.Param? ==> t.name != "" && (|rest| == 0 || rest[0] == Lit('/'))
    ensures WellFormed([t] + rest)
  {
    var r := [t] + rest;
    forall i | 0 < i < |r| ensures r[i] == rest[i - 1] {}
  }

  /** Every parameter has a name and is followed by a `/` or ends the
      pattern, so `[^/]+` can only match the longest slash-free run. */
  predicate WellFormed(tokens: seq<Token>) {
    forall i :: 0 <= i < |tokens| && tokens[i].Param? ==>
      tokens[i].name != "" && (i + 1 == |tokens| || tokens[i + 1] == Lit('/'))
  }

  /** The parameter names of a pattern. */
  function ParamNames(tokens: seq<Token>): set<string> {
    if |tokens| == 0 then {}
    else (if tokens[0].Param? then {tokens[0].name} else {}) + ParamNames(tokens[1..])
  }

  /** No parameter value contains a `/` or is empty. */
  predicate SegmentValues(m: map<string, string>) {
    forall k :: k in m ==> m[k] != "" && forall i :: 0 <= i < |m[k]| ==> m[k][i] != '/'
  }

  /** `hash.match(regex)` for a compiled pattern, with the parameters bound so
      far in `acc`; a later parameter of the same name overwrites an earlier
      one, as `params[name] = match[index + 1]` does. */
  function Match(tokens: seq<Token>, hash: string, acc: map<string, string>): (r: Option<map<string, string>>)
    ensures r.Some? ==> r.value.Keys == acc.Keys + ParamNames(tokens)
    ensures r.Some? ==> forall k :: k in acc && k !in ParamNames(tokens) ==> r.value[k] == acc[k]
    ensures r.Some? && SegmentValues(acc) ==> SegmentValues(r.value)
    decreases |tokens|
  {
    if |tokens| == 0 then (if |hash| == 0 then Some(acc) else None)
    else match tokens[0]
      case Lit(c) => if |hash| > 0 && hash[0] == c then Match(tokens[1..], hash[1..], acc) else None
      case Param(name) =>
        var n := RunLength(hash);
        if n == 0 then None else Match(tokens[1..], hash[n..], acc[name := hash[..n]])
  }

  /** The text a pattern stands for once each parameter is given a value. */
  function Fill(tokens: seq<Token>, values: map<string, string>): string
    requires ParamNames(tokens) <= values.Keys
  {
    if |tokens| == 0 then ""
    else match tokens[0]
      case Lit(c) => [c] + Fill(tokens[1..], values)
      case Param(name) => values[name] + Fill(tokens[1..], values)
  }

  lemma FillStartsWithSlash(tokens: seq<Token>, values: map<string, string>)
    requires ParamNames(tokens) <= values.Keys
    requires |tokens| > 0 && tokens[0] == Lit('/')
    ensures |Fill(tokens, values)| > 0 && Fill(tokens, values)[0] == '/'
  {
  }

  /** Matching a filled-in pattern binds every parameter to the value it was
      filled with. */
  lemma {:induction false} MatchFill(tokens: seq<Token>, values: map<string, string>, acc: map<string, string>)
    requires WellFormed(tokens) && ParamNames(tokens) <= values.Keys && SegmentValues(values)
    ensures var r := Match(tokens, Fill(tokens, values), acc);
      r.Some? && forall k :: k in ParamNames(tokens) ==> r.value[k] == values[k]
    decreases |tokens|
  {
    if |tokens| > 0 {
      var rest := tokens[1..];
      assert WellFormed(rest);
      match tokens[0]
      case Lit(c) =>
        assert Fill(tokens, values)[1..] == Fill(rest, values);
        MatchFill(rest, values, acc);
      case Param(name) =>
        var v := values[name];
        var tail := Fill(rest, values);
        if |rest| > 0 {
          FillStartsWithSlash(rest, values);
        }
        RunLengthConcat(v, tail);
        assert (v + tail)[..|v|] == v && (v + tail)[|v|..] == tail;
        MatchFill(rest, values, acc[name := v]);
    }
  }

  /** No two parameters of a pattern share a name. */
  predicate DistinctParams(tokens: seq<Token>) {
    forall i, j :: 0 <= i < j < |tokens| && tokens[i].Param? && tokens[j].Param? ==> tokens[i].name != tokens[j].name
  }

  /** A name of a pattern's parameters is the name of one of its tokens. */
  lemma {:induction false} InParamNames(tokens: seq<Token>, x: string)
    requires x in ParamNames(tokens)
    ensures exists j :: 0 <= j < |tokens| && tokens[j] == Param(x)
    decreases |tokens|
  {
    if tokens[0] != Param(x) {
      InParamNames(tokens[1..], x);
      var j :| 0 <= j < |tokens[1..]| && tokens[1..][j] == Param(x);
      assert tokens[j + 1] == Param(x);
    }
  }

  /** A match is sound: when the parameter names are distinct, the text
      matched is the pattern filled with the values it bound. */
  lemma {:induction false} MatchSound(tokens: seq<Token>, hash: string, acc: map<string, string>)
    requires DistinctParams(tokens)
    requires Match(tokens, hash, acc).Some?
    ensures ParamNames(tokens) <= Match(tokens, hash, acc).value.Keys
    ensures hash == Fill(tokens, Match(tokens, hash, acc).value)
    decreases |tokens|
  {
    if |tokens| > 0 {
      var rest := tokens[1..];
      assert DistinctParams(rest) by {
        forall i, j | 0 <= i < j < |rest| && rest[i].Param? && rest[j].Param?
          ensures rest[i].name != rest[j].name
        {
          assert rest[i] == tokens[i + 1] && rest[j] == tokens[j + 1];
        }
      }
      var m := Match(tokens, hash, acc).value;
      match tokens[0]
      case Lit(c) =>
        MatchSound(rest, hash[1..], acc);
        assert hash == [c] + hash[1..];
      case Param(name) =>
        var n := RunLength(hash);
        var acc' := acc[name := hash[..n]];
        MatchSound(rest, hash[n..], acc');
        if name in ParamNames(rest) {
          InParamNames(rest, name);
          assert false;
        }
        assert m[name] == hash[..n];
        assert hash == hash[..n] + hash[n..];
    }
  }

  /** The route table: patterns with their handlers, in registration order. */
  datatype Route<H> = Route(pattern: string, handler: H)

  /** `register(pattern, handler)`: a pattern registered again keeps its
      place and gets the new handler, as an object key does. */
  function Register<H>(routes: seq<Route<H>>, pattern: string, handler: H): (r: seq<Route<H>>)
    ensures FindIndex(routes, (x: Route<H>) => x.pattern == pattern).None? ==> r == routes + [Route(pattern, handler)]
    ensures FindIndex(routes, (x: Route<H>) => x.pattern == pattern).Some? ==>
      var i := FindIndex(routes, (x: Route<H>) => x.pattern == pattern).value;
      r == routes[i := Route(pattern, handler)]
  {
    match FindIndex(routes, (x: Route<H>) => x.pattern == pattern)
    case None => routes + [Route(pattern, handler)]
    case Some(i) => routes[i := Route(pattern, handler)]
  }

  /** A matched route: its pattern, handler and parameters. */
  datatype Matched<H> = Matched(pattern: string, handler: H, params: map<string, string>)

  function MatchRoute(pattern: string, hash: string): Option<map<string, string>> {
    Match(Tokenize(pattern), hash, map[])
  }

  /** `new RegExp('^' + pattern + '$')` throws for the fallback pattern `*`:
      a quantifier directly after `^` has nothing to repeat. */
  predicate CompileFails(pattern: string) {
    |pattern| > 0 && pattern[0] == '*'
  }

  /** `parseRoute(hash)` as written: every pattern is compiled in turn, so
      reaching the fallback pattern `*` throws. */
  function ParseRouteAsWritten<H>(routes: seq<Route<H>>, hash: string): (r: Result<Option<Matched<H>>, string>)
    decreases |routes|
  {
    if |routes| == 0 then Ok(None)
    else if CompileFails(routes[0].pattern) then Err("SyntaxError: Nothing to repeat")
    else match MatchRoute(routes[0].pattern, hash)
      case Some(params) => Ok(Some(Matched(routes[0].pattern, routes[0].handler, params)))
      case None => ParseRouteAsWritten(routes[1..], hash)
  }

  /** `parseRoute(hash)` as intended: patterns in registration order, the
      first that matches wins, and the fallback pattern `*` is left to
      `handleRoute`. */
  function ParseRoute<H>(routes: seq<Route<H>>, hash: string): (r: Option<Matched<H>>)
    ensures r.Some? ==> r.value.pattern != "*" && MatchRoute(r.value.pattern, hash) == Some(r.value.params)
    decreases |routes|
  {
    if |routes| == 0 then None
    else if routes[0].pattern != "*" && MatchRoute(routes[0].pattern, hash).Some? then
      Some(Matched(routes[0].pattern, routes[0].handler, MatchRoute(routes[0].pattern, hash).value))
    else ParseRoute(routes[1..], hash)
  }

  /** A route other than `*` that the hash matches. */
  predicate Hits<H>(route: Route<H>, hash: string) {
    route.pattern != "*" && MatchRoute(route.pattern, hash).Some?
  }

  /** Route `i` is the first route the hash matches. */
  predicate FirstHit<H>(routes: seq<Route<H>>, hash: string, i: int) {
    0 <= i < |routes| && Hits(routes[i], hash) && forall j :: 0 <= j < i ==> !Hits(routes[j], hash)
  }

  /** The route found is the first registered route the hash matches, and
      nothing is found exactly when no route matches. */
  lemma {:induction false} ParseRouteFirstMatch<H>(routes: seq<Route<H>>, hash: string)
    ensures var r := ParseRoute(routes, hash);
      r.None? <==> forall i :: 0 <= i < |routes| ==> !Hits(routes[i], hash)
    ensures var r := ParseRoute(routes, hash);
      r.Some? ==> exists i :: (FirstHit(routes, hash, i)
        && r.value == Matched(routes[i].pattern, routes[i].handler, MatchRoute(routes[i].pattern, hash).value))
    decreases |routes|
  {
    if |routes| > 0 && !Hits(routes[0], hash) {
      var tail := routes[1..];
      ParseRouteFirstMatch(tail, hash);
      assert forall i :: 0 < i < |routes| ==> routes[i] == tail[i - 1];
      var r := ParseRoute(tail, hash);
      if r.Some? {
        var i :| FirstHit(tail, hash, i)
          && r.value == Matched(tail[i].pattern, tail[i].handler, MatchRoute(tail[i].pattern, hash).value);
        assert routes[i + 1] == tail[i];
        assert FirstHit(routes, hash, i + 1);
      }
    }
  }

  /** What `handleRoute()` does with a hash. */
  datatype Dispatch<H> =
    | Call(handler: H, params: map<string, string>)
    | Fallback(handler: H, path: string)
    | Nothing

  /** The handler registered for a pattern. */
  function HandlerOf<H>(routes: seq<Route<H>>, pattern: string): Option<H> {
    match FindIndex(routes, (x: Route<H>) => x.pattern == pattern)
    case None => None
    case Some(i) => Some(routes[i].handler)
  }

  /** `handleRoute()` as written, on top of `ParseRouteAsWritten`. */
  function HandleRouteAsWritten<H>(routes: seq<Route<H>>, hash: string): Result<Dispatch<H>, string> {
    var route :- ParseRouteAsWritten(routes, hash);
    Ok(match route
      case Some(m) => Call(m.handler, m.params)
      case None => match HandlerOf(routes, "*")
        case Some(h) => Fallback(h, hash)
        case None => Nothing)
  }

  /** `handleRoute()`: the first matching route's handler gets its
      parameters; with no match the `*` handler, if any, gets the path. */
  function HandleRoute<H>(routes: seq<Route<H>>, hash: string): (d: Dispatch<H>)
    ensures ParseRoute(routes, hash).Some? ==>
      d == Call(ParseRoute(routes, hash).value.handler, ParseRoute(routes, hash).value.params)
    ensures ParseRoute(routes, hash).None? && HandlerOf(routes, "*").Some? ==>
      d == Fallback(HandlerOf(routes, "*").value, hash)
    ensures ParseRoute(routes, hash).None? && HandlerOf(routes, "*").None? ==> d == Nothing
  {
    match ParseRoute(routes, hash)
    case Some(m) => Call(m.handler, m.params)
    case None => match HandlerOf(routes, "*")
      case Some(h) => Fallback(h, hash)
      case None => Nothing
  }

  /** The handlers the application registers, in order. */
  datatype Page = Home | FormsList | NewForm | LoadForm | GoHome

  const AppRoutes: seq<Route<Page>> := [
    Route("/", Home),
    Route("/formulieren", FormsList),
    Route("/new/:formType", NewForm),
    Route("/form/:formType/:formId", LoadForm),
    Route("*", GoHome)
  ]

  /** `parseRoute` as written throws once it reaches a pattern it cannot
      compile, unless an earlier route matched. */
  lemma {:induction false} AsWrittenThrows<H>(routes: seq<Route<H>>, hash: string, k: nat)
    requires k < |routes| && CompileFails(routes[k].pattern)
    requires forall j :: 0 <= j < k ==> !CompileFails(routes[j].pattern) && MatchRoute(routes[j].pattern, hash).None?
    ensures ParseRouteAsWritten(routes, hash).Err?
    decreases k
  {
    if k > 0 {
      AsWrittenThrows(routes[1..], hash, k - 1);
    }
  }

  /** A hash `/c…` whose second character differs from a pattern's second,
      literal character does not match it. */
  lemma SecondCharMismatch(c: char, rest: string, hash: string)
    requires c != ':' && |hash| >= 2 && hash[0] == '/' && c != hash[1]
    ensures MatchRoute(['/', c] + rest, hash).None?
  {
    var p := ['/', c] + rest;
    var t := Tokenize(p);
    assert p[1..] == [c] + rest;
    assert t == [Lit('/')] + Tokenize(p[1..]);
    assert t[1..] == Tokenize(p[1..]);
    assert hash[1..][0] == hash[1];
    assert Match(t, hash, map[]) == Match(t[1..], hash[1..], map[]);
  }

  /** With the application's routes, a hash `/c…` that no route matches
      makes the router as written throw when it compiles `*` instead of
      reaching the fallback; the corrected router sends it home. */
  lemma UnknownHashThrows(hash: string)
    requires |hash| >= 2 && hash[0] == '/' && hash[1] != 'f' && hash[1] != 'n'
    ensures HandleRouteAsWritten(AppRoutes, hash).Err?
    ensures HandleRoute(AppRoutes, hash) == Fallback(GoHome, hash)
  {
    RoutesBeforeFallbackMiss(hash);
    AsWrittenThrows(AppRoutes, hash, 4);
    UnknownHashFallsBack(hash);
  }

  lemma UnknownHashFallsBack(hash: string)
    requires forall j :: 0 <= j < 4 ==> !CompileFails(AppRoutes[j].pattern) && MatchRoute(AppRoutes[j].pattern, hash).None?
    ensures HandleRoute(AppRoutes, hash) == Fallback(GoHome, hash)
  {
    AppRoutesMissed(hash);
    AppFallback();
  }

  lemma AppRoutesMissed(hash: string)
    requires forall j :: 0 <= j < 4 ==> MatchRoute(AppRoutes[j].pattern, hash).None?
    ensures ParseRoute(AppRoutes, hash).None?
  {
    ParseRouteFirstMatch(AppRoutes, hash);
    assert AppRoutes[4].pattern == "*";
  }

  lemma AppFallback()
    ensures HandlerOf(AppRoutes, "*") == Some(GoHome)
  {
    assert AppRoutes[4].pattern == "*";
  }

  lemma RoutesBeforeFallbackMiss(hash: string)
    requires |hash| >= 2 && hash[0] == '/' && hash[1] != 'f' && hash[1] != 'n'
    ensures forall j :: 0 <= j < 4 ==> !CompileFails(AppRoutes[j].pattern) && MatchRoute(AppRoutes[j].pattern, hash).None?
  {
    forall j | 0 <= j < 4
      ensures !CompileFails(AppRoutes[j].pattern) && MatchRoute(AppRoutes[j].pattern, hash).None?
    {
      RouteMissAt(hash, j);
    }
  }

  lemma RouteMissAt(hash: string, j: nat)
    requires |hash| >= 2 && hash[0] == '/' && hash[1] != 'f' && hash[1] != 'n' && j < 4
    ensures !CompileFails(AppRoutes[j].pattern) && MatchRoute(AppRoutes[j].pattern, hash).None?
  {
    AppPatterns();
    var p := AppRoutes[j].pattern;
    if j == 0 {
      assert p == "/";
      RootMiss(hash);
    } else if j == 1 {
      assert p == "/formulieren";
      LiteralHeadMiss('f', "ormulieren", "/formulieren", hash);
    } else if j == 2 {
      assert p == "/new/:formType";
      NewFormMiss(hash);
    } else {
      assert p == "/form/:formType/:formId";
      LoadFormMiss(hash);
    }
  }

  /** The patterns the application registers before `*`, all starting with `/`. */
  lemma AppPatterns()
    ensures AppRoutes[0].pattern == "/" && AppRoutes[1].pattern == "/formulieren"
    ensures AppRoutes[2].pattern == "/new/:formType" && AppRoutes[3].pattern == "/form/:formType/:formId"
    ensures forall j :: 0 <= j < 4 ==> !CompileFails(AppRoutes[j].pattern)
  {
  }

  /** No application route other than `*` matches such a hash. */
  lemma AppRoutesMiss(hash: string)
    requires |hash| >= 2 && hash[0] == '/' && hash[1] != 'f' && hash[1] != 'n'
    ensures MatchRoute("/", hash).None?
    ensures MatchRoute("/formulieren", hash).None?
    ensures MatchRoute("/new/:formType", hash).None?
    ensures MatchRoute("/form/:formType/:formId", hash).None?
  {
    RootMiss(hash);
    LiteralHeadMiss('f', "ormulieren", "/formulieren", hash);
    NewFormMiss(hash);
    LoadFormMiss(hash);
  }

  lemma NewFormMiss(hash: string)
    requires |hash| >= 2 && hash[0] == '/' && hash[1] != 'n'
    ensures MatchRoute("/new/:formType", hash).None?
  {
    LiteralHeadMiss('n', "ew/:formType", "/new/:formType", hash);
  }

  lemma LoadFormMiss(hash: string)
    requires |hash| >= 2 && hash[0] == '/' && hash[1] != 'f'
    ensures MatchRoute("/form/:formType/:formId", hash).None?
  {
    LiteralHeadMiss('f', "orm/:formType/:formId", "/form/:formType/:formId", hash);
  }

  lemma RootMiss(hash: string)
    requires |hash| >= 2 && hash[0] == '/'
    ensures MatchRoute("/", hash).None?
  {
    assert Tokenize("/") == [Lit('/')];
    assert Match([Lit('/')], hash, map[]) == Match([], hash[1..], map[]);
  }

  lemma LiteralHeadMiss(c: char, rest: string, p: string, hash: string)
    requires p == ['/', c] + rest
    requires c != ':' && |hash| >= 2 && hash[0] == '/' && c != hash[1]
    ensures MatchRoute(p, hash).None?
  {
    SecondCharMismatch(c, rest, hash);
  }

  /** `getHash()`: the location hash without its `#`, or `/` when that is
      empty. */
  function GetHash(locationHash: string): (h: string)
    ensures h != ""
    ensures |locationHash| > 1 ==> h == locationHash[1..]
    ensures |locationHash| <= 1 ==> h == "/"
  {
    if |locationHash| > 1 then locationHash[1..] else "/"
  }

  /** The compiled form of `^/form/([^/]+)/([^/]+)$`, its groups named after
      the fields `parseFormUrl` returns. */
  const FormUrlTokens: seq<Token> :=
    LitTokens("/form/") + [Param("formType"), Lit('/'), Param("formId")]

  /** A text matched literally. */
  function LitTokens(s: string): (r: seq<Token>)
    ensures |r| == |s| && forall i :: 0 <= i < |s| ==> r[i] == Lit(s[i])
  {
    if |s| == 0 then [] else [Lit(s[0])] + LitTokens(s[1..])
  }

  lemma {:induction false} LitTokensNoParams(s: string)
    ensures ParamNames(LitTokens(s)) == {}
    decreases |s|
  {
    if |s| > 0 {
      LitTokensNoParams(s[1..]);
      assert LitTokens(s)[1..] == LitTokens(s[1..]);
    }
  }

  lemma {:induction false} LitTokensFill(s: string, values: map<string, string>)
    ensures ParamNames(LitTokens(s)) == {}
    ensures Fill(LitTokens(s), values) == s
    decreases |s|
  {
    LitTokensNoParams(s);
    if |s| > 0 {
      var t := LitTokens(s);
      LitTokensFill(s[1..], values);
      assert t[1..] == LitTokens(s[1..]);
      assert t[0] == Lit(s[0]);
      assert Fill(t, values) == [s[0]] + Fill(t[1..], values);
      assert s == [s[0]] + s[1..];
    }
  }

  lemma {:induction false} ParamNamesConcat(a: seq<Token>, b: seq<Token>)
    ensures ParamNames(a + b) == ParamNames(a) + ParamNames(b)
    decreases |a|
  {
    if |a| > 0 {
      assert (a + b)[1..] == a[1..] + b;
      ParamNamesConcat(a[1..], b);
    } else {
      assert a + b == b;
    }
  }

  lemma {:induction false} FillConcat(a: seq<Token>, b: seq<Token>, values: map<string, string>)
    requires ParamNames(a) <= values.Keys && ParamNames(b) <= values.Keys && ParamNames(a + b) <= values.Keys
    ensures Fill(a + b, values) == Fill(a, values) + Fill(b, values)
    decreases |a|
  {
    if |a| > 0 {
      assert (a + b)[1..] == a[1..] + b;
      ParamNamesConcat(a[1..], b);
      FillConcat(a[1..], b, values);
    } else {
      assert a + b == b;
    }
  }

  /** `parseFormUrl()` on the location hash: the form type and id of a
      `/form/<type>/<id>` hash. */
  function ParseFormUrl(locationHash: string): (r: Option<(string, string)>)
    ensures r.Some? ==> |locationHash| > 0 && locationHash[1..] == "/form/" + r.value.0 + "/" + r.value.1
    ensures r.Some? ==> r.value.0 != "" && r.value.1 != ""
    ensures r.Some? ==> forall i :: 0 <= i < |r.value.0| ==> r.value.0[i] != '/'
    ensures r.Some? ==> forall i :: 0 <= i < |r.value.1| ==> r.value.1[i] != '/'
  {
    var hash := if |locationHash| > 0 then locationHash[1..] else "";
    match Match(FormUrlTokens, hash, map[])
    case Some(m) =>
      FormUrlMatchSound(hash);
      if "formType" in m && "formId" in m then Some((m["formType"], m["formId"])) else None
    case None => None
  }

  /** The location hash of a URL: from its first `#`, empty without one. */
  function LocationHash(url: string): (h: string)
    ensures !Contains(url, "#") ==> h == ""
    ensures Contains(url, "#") ==> |h| > 0 && h[0] == '#' && url == FirstPiece(url, "#") + h
  {
    var base := FirstPiece(url, "#");
    if base == url then "" else url[|base|..]
  }

  /** `generateShareUrl(formType, formId)`: the current address up to its
      `#`, then `#/form/<type>/<id>`. */
  function GenerateShareUrl(href: string, formType: string, formId: string): string {
    FirstPiece(href, "#") + "#/form/" + formType + "/" + formId
  }

  /** A share link leads back to the form it was made for. */
  lemma ShareUrlRoundTrip(href: string, formType: string, formId: string)
    requires formType != "" && formId != ""
    requires forall i :: 0 <= i < |formType| ==> formType[i] != '/'
    requires forall i :: 0 <= i < |formId| ==> formId[i] != '/'
    ensures ParseFormUrl(LocationHash(GenerateShareUrl(href, formType, formId))) == Some((formType, formId))
  {
    ShareUrlHash(href, formType, formId);
    ParseFilledFormUrl(LocationHash(GenerateShareUrl(href, formType, formId)), formType, formId);
  }

  /** The hash `#/form/<type>/<id>` parses back to its type and id. */
  lemma ParseFilledFormUrl(h: string, formType: string, formId: string)
    requires formType != "" && formId != ""
    requires forall i :: 0 <= i < |formType| ==> formType[i] != '/'
    requires forall i :: 0 <= i < |formId| ==> formId[i] != '/'
    requires h == "#/form/" + formType + "/" + formId
    ensures ParseFormUrl(h) == Some((formType, formId))
  {
    assert h[1..] == "/form/" + formType + "/" + formId;
    MatchFormUrl(formType, formId);
  }

  lemma MatchFormUrl(formType: string, formId: string)
    requires formType != "" && formId != ""
    requires forall i :: 0 <= i < |formType| ==> formType[i] != '/'
    requires forall i :: 0 <= i < |formId| ==> formId[i] != '/'
    ensures var r := Match(FormUrlTokens, "/form/" + formType + "/" + formId, map[]);
      r.Some? && "formType" in r.value && "formId" in r.value
      && r.value["formType"] == formType && r.value["formId"] == formId
  {
    FormUrlFill(formType, formId);
    MatchTwoParams(FormUrlTokens, formType, formId);
  }

  /** A pattern with the two parameters of a form link, matched against
      its filled-in text. */
  lemma MatchTwoParams(tokens: seq<Token>, formType: string, formId: string)
    requires formType != "" && formId != ""
    requires forall i :: 0 <= i < |formType| ==> formType[i] != '/'
    requires forall i :: 0 <= i < |formId| ==> formId[i] != '/'
    requires WellFormed(tokens) && ParamNames(tokens) == {"formType", "formId"}
    ensures var values := map["formType" := formType, "formId" := formId];
      var r := Match(tokens, Fill(tokens, values), map[]);
      r.Some? && "formType" in r.value && "formId" in r.value
      && r.value["formType"] == formType && r.value["formId"] == formId
  {
    var values := map["formType" := formType, "formId" := formId];
    MatchFill(tokens, values, map[]);
  }

  /** The location hash of a share link is the part it added. */
  lemma ShareUrlHash(href: string, formType: string, formId: string)
    ensures LocationHash(GenerateShareUrl(href, formType, formId)) == "#/form/" + formType + "/" + formId
  {
    var base := FirstPiece(href, "#");
    var tail := "#/form/" + formType + "/" + formId;
    assert GenerateShareUrl(href, formType, formId) == base + tail;
    FirstPieceOfConcat(base, tail);
  }

  /** The form URL pattern filled with a type and an id. */
  lemma FormUrlFill(formType: string, formId: string)
    ensures var values := map["formType" := formType, "formId" := formId];
      WellFormed(FormUrlTokens) && ParamNames(FormUrlTokens) == values.Keys
      && Fill(FormUrlTokens, values) == "/form/" + formType + "/" + formId
  {
    var values := map["formType" := formType, "formId" := formId];
    FormUrlWellFormed();
    FormUrlNames();
    FormUrlFills(formType, formId);
    assert values.Keys == {"formType", "formId"};
  }

  /** Only a `/form/<type>/<id>` hash matches the form URL pattern. */
  lemma FormUrlMatchSound(hash: string)
    requires Match(FormUrlTokens, hash, map[]).Some?
    ensures var m := Match(FormUrlTokens, hash, map[]).value;
      "formType" in m && "formId" in m && hash == "/form/" + m["formType"] + "/" + m["formId"]
  {
    var m := Match(FormUrlTokens, hash, map[]).value;
    FormUrlNames();
    FormUrlDistinct();
    MatchSound(FormUrlTokens, hash, map[]);
    assert m.Keys == {"formType", "formId"};
    assert m == map["formType" := m["formType"], "formId" := m["formId"]];
    FormUrlFills(m["formType"], m["formId"]);
  }

  /** The form URL pattern names its two parameters differently. */
  lemma FormUrlDistinct()
    ensures DistinctParams(FormUrlTokens)
  {
    var t := FormUrlTokens;
    assert |t| == 9;
    forall i | 0 <= i < 9 && t[i].Param? ensures i == 6 || i == 8 {
      assert t[7] == Lit('/');
    }
    assert t[6] == Param("formType") && t[8] == Param("formId");
  }

  /** The form URL pattern has the parameters `formType` and `formId`. */
  lemma FormUrlNames()
    ensures ParamNames(FormUrlTokens) == {"formType", "formId"}
  {
    var pre := LitTokens("/form/");
    var post := [Param("formType"), Lit('/'), Param("formId")];
    LitTokensNoParams("/form/");
    ParamNamesConcat(pre, post);
    assert post[1..] == [Lit('/'), Param("formId")] && post[1..][1..] == [Param("formId")];
    assert ParamNames(post) == {"formType", "formId"};
  }

  /** The form URL pattern filled with a type and an id. */
  lemma FormUrlFills(formType: string, formId: string)
    ensures ParamNames(FormUrlTokens) == {"formType", "formId"}
    ensures Fill(FormUrlTokens, map["formType" := formType, "formId" := formId]) == "/form/" + formType + "/" + formId
  {
    var values := map["formType" := formType, "formId" := formId];
    var pre := LitTokens("/form/");
    var post := [Param("formType"), Lit('/'), Param("formId")];
    FormUrlNames();
    FormUrlTail(formType, formId);
    LitTokensFill("/form/", values);
    ParamNamesConcat(pre, post);
    FillConcat(pre, post, values);
    assert "/form/" + (formType + "/" + formId) == "/form/" + formType + "/" + formId;
  }

  /** Each parameter of the form URL pattern is named and followed by a
      `/` or the end. */
  lemma FormUrlWellFormed()
    ensures WellFormed(FormUrlTokens)
  {
    var pre := LitTokens("/form/");
    LitTokensNoParams("/form/");
    var t := FormUrlTokens;
    assert |pre| == 6;
    forall i | 0 <= i < |t| && t[i].Param?
      ensures t[i].name != "" && (i + 1 == |t| || t[i + 1] == Lit('/'))
    {
    }
  }

  /** The part of the form URL pattern after `/form/`. */
  lemma FormUrlTail(formType: string, formId: string)
    ensures var values := map["formType" := formType, "formId" := formId];
      var post := [Param("formType"), Lit('/'), Param("formId")];
      ParamNames(post) == values.Keys && Fill(post, values) == formType + "/" + formId
  {
    var values := map["formType" := formType, "formId" := formId];
    var post := [Param("formType"), Lit('/'), Param("formId")];
    assert post[1..] == [Lit('/'), Param("formId")] && post[1..][1..] == [Param("formId")];
    assert ParamNames(post) == {"formType", "formId"};
    assert Fill(post[1..][1..], values) == formId;
    assert Fill(post[1..], values) == "/" + formId;
  }

  /** The text before the first `#` of `base + tail`, when `base` has no
      `#` and `tail` starts with one, is `base`. */
  lemma FirstPieceOfConcat(base: string, tail: string)
    requires !Contains(base, "#") && |tail| > 0 && tail[0] == '#'
    ensures FirstPiece(base + tail, "#") == base
  {
    var s := base + tail;
    var f := FirstPiece(s, "#");
    assert OccursAt(s, "#", |base|);
    if |f| < |base| {
      assert f == s || OccursAt(s, "#", |f|);
      assert OccursAt(base, "#", |f|);
    }
  }
}

=== FILE: seqs.dfy ===
/** Sequence operations shared by the in-memory collections: the JavaScript
    `filter`, `find`, `findIndex` and `splice` on arrays. */
module Seqs {
  import opened Wrappers

  /** `array.filter(p)`: the elements satisfying `p`; `FilterMultiset`
      states that each is kept as often as in `s`, and `FilterConcat` that
      their order is kept. */
  function Filter<T>(s: seq<T>, p: T -> bool): (r: seq<T>)
    ensures |r| <= |s|
    ensures forall i :: 0 <= i < |r| ==> r[i] in s && p(r[i])
    ensures forall i :: 0 <= i < |s| && p(s[i]) ==> s[i] in r
  {
    if |s| == 0 then []
    else if p(s[0]) then [s[0]] + Filter(s[1..], p)
    else Filter(s[1..], p)
  }

  /** The filtered list holds every element satisfying `p` exactly as often
      as `s` does, and no other element. */
  lemma {:induction false} FilterMultiset<T>(s: seq<T>, p: T -> bool)
    ensures forall x :: multiset(Filter(s, p))[x] == if p(x) then multiset(s)[x] else 0
  {
    if |s| > 0 {
      FilterMultiset(s[1..], p);
      assert s == [s[0]] + s[1..];
    }
  }

  /** Filtering distributes over concatenation, so relative order is kept. */
  lemma {:induction false} FilterConcat<T>(a: seq<T>, b: seq<T>, p: T -> bool)
    ensures Filter(a + b, p) == Filter(a, p) + Filter(b, p)
  {
    if |a| == 0 {
      assert a + b == b;
    } else {
      assert (a + b)[1..] == a[1..] + b;
      FilterConcat(a[1..], b, p);
    }
  }

  /** A filter that keeps everything returns its input unchanged. */
  lemma {:induction false} FilterKeepsAll<T>(s: seq<T>, p: T -> bool)
    requires forall i :: 0 <= i < |s| ==> p(s[i])
    ensures Filter(s, p) == s
  {
    if |s| > 0 {
      FilterKeepsAll(s[1..], p);
    }
  }

  /** Filtering with a predicate that rejects everything gives the empty list. */
  lemma {:induction false} FilterDropsAll<T>(s: seq<T>, p: T -> bool)
    requires forall i :: 0 <= i < |s| ==> !p(s[i])
    ensures Filter(s, p) == []
  {
    if |s| > 0 {
      FilterDropsAll(s[1..], p);
    }
  }

  /** Two filters in a row are one filter with the conjunction. */
  lemma {:induction false} FilterFilter<T>(s: seq<T>, p: T -> bool, q: T -> bool)
    ensures Filter(Filter(s, p), q) == Filter(s, x => p(x) && q(x))
  {
    if |s| > 0 {
      FilterFilter(s[1..], p, q);
    }
  }

  /** The positions of `s` whose element satisfies `p`. */
  function IndicesWhere<T>(s: seq<T>, p: T -> bool): set<int> {
    set i | 0 <= i < |s| && p(s[i])
  }

  /** The number of elements satisfying `p`, counted one by one; it is the
      length of the filtered list, and `CountIndices` relates it to the
      positions that qualify. */
  function Count<T>(s: seq<T>, p: T -> bool): (n: nat)
    ensures n <= |s|
    ensures n == |Filter(s, p)|
  {
    if |s| == 0 then 0
    else (if p(s[0]) then 1 else 0) + Count(s[1..], p)
  }

  /** The count is the number of positions whose element satisfies `p`. */
  lemma {:induction false} CountIndices<T>(s: seq<T>, p: T -> bool)
    ensures Count(s, p) == |IndicesWhere(s, p)|
    decreases |s|
  {
    if |s| == 0 {
      assert IndicesWhere(s, p) == {};
    } else {
      var n := |s| - 1;
      assert s == s[..n] + [s[n]];
      CountIndices(s[..n], p);
      CountSnoc(s[..n], s[n], p);
      IndicesSnoc(s[..n], s[n], p);
    }
  }

  /** A list holding exactly the elements of `s` that satisfy `p`, as
      often as `s` does, is as long as the number of qualifying positions. */
  lemma CountFromMultiset<T>(r: seq<T>, s: seq<T>, p: T -> bool)
    requires forall x :: multiset(r)[x] == if p(x) then multiset(s)[x] else 0
    ensures |r| == |IndicesWhere(s, p)|
  {
    FilterMultiset(s, p);
    assert multiset(r) == multiset(Filter(s, p));
    assert |r| == |multiset(r)|;
    CountIndices(s, p);
  }

  /** A list holding exactly the elements of `s` that satisfy `p`, as
      often as `s` does, has every such element and no other. */
  lemma ExactlyKept<T>(r: seq<T>, s: seq<T>, p: T -> bool)
    requires forall x :: multiset(r)[x] == if p(x) then multiset(s)[x] else 0
    ensures forall i :: 0 <= i < |s| && p(s[i]) ==> s[i] in r
    ensures forall i :: 0 <= i < |r| ==> p(r[i]) && r[i] in s
  {
    forall i | 0 <= i < |s| && p(s[i]) ensures s[i] in r {
      assert s[i] in multiset(s);
    }
    forall i | 0 <= i < |r| ensures p(r[i]) && r[i] in s {
      assert r[i] in multiset(r);
    }
  }

  lemma CountSnoc<T>(front: seq<T>, x: T, p: T -> bool)
    ensures Count(front + [x], p) == Count(front, p) + (if p(x) then 1 else 0)
  {
    FilterConcat(front, [x], p);
    assert [x][1..] == [];
  }

  lemma IndicesSnoc<T>(front: seq<T>, x: T, p: T -> bool)
    ensures |IndicesWhere(front + [x], p)| == |IndicesWhere(front, p)| + (if p(x) then 1 else 0)
  {
    var s := front + [x];
    var n := |front|;
    var last: set<int> := if p(x) then {n} else {};
    forall i | 0 <= i < n ensures s[i] == front[i] { }
    assert IndicesWhere(s, p) == IndicesWhere(front, p) + last;
    assert n !in IndicesWhere(front, p);
  }

  /** `array.findIndex(p)`: the first index whose element satisfies `p`. */
  function FindIndex<T>(s: seq<T>, p: T -> bool): (r: Option<nat>)
    ensures r.Some? ==> r.value < |s| && p(s[r.value])
    ensures r.Some? ==> forall j :: 0 <= j < r.value ==> !p(s[j])
    ensures r.None? <==> forall j :: 0 <= j < |s| ==> !p(s[j])
  {
    if |s| == 0 then None
    else if p(s[0]) then Some(0)
    else match FindIndex(s[1..], p)
      case None => None
      case Some(i) => Some(i + 1)
  }

  /** The list with the element at index `i` taken out. */
  function RemoveAt<T>(s: seq<T>, i: nat): (r: seq<T>)
    requires i < |s|
    ensures |r| == |s| - 1
    ensures forall j :: 0 <= j < i ==> r[j] == s[j]
    ensures forall j :: i <= j < |r| ==> r[j] == s[j + 1]
  {
    s[..i] + s[i + 1..]
  }

  /** Removing an element the filter drops leaves the filtered list as it is. */
  lemma FilterRemoveAt<T>(s: seq<T>, i: nat, p: T -> bool)
    requires i < |s| && !p(s[i])
    ensures Filter(s[..i] + s[i + 1..], p) == Filter(s, p)
  {
    var front, back := s[..i], s[i + 1..];
    Around(s, i);
    FilterConcat(front, [s[i]] + back, p);
    assert ([s[i]] + back)[1..] == back;
    FilterConcat(front, back, p);
  }

  lemma Around<T>(s: seq<T>, i: nat)
    requires i < |s|
    ensures s == s[..i] + ([s[i]] + s[i + 1..])
  {
    assert s[..i + 1] == s[..i] + [s[i]];
    assert s == s[..i + 1] + s[i + 1..];
  }

  /** The `findIndex` / `if (index > -1) splice(index, 1)` idiom: drop the
      first element satisfying `p`, if there is one. */
  function RemoveFirst<T>(s: seq<T>, p: T -> bool): (r: seq<T>)
    ensures FindIndex(s, p).None? ==> r == s
    ensures FindIndex(s, p).Some? ==> r == RemoveAt(s, FindIndex(s, p).value)
  {
    match FindIndex(s, p)
    case None => s
    case Some(i) => RemoveAt(s, i)
  }

  /** `array.splice(index, 1)` for any integer index: a negative index counts
      from the end, and an index past the end removes nothing. */
  function SpliceOne<T>(s: seq<T>, index: int): (r: seq<T>)
    ensures |s| - 1 <= |r| <= |s|
    ensures 0 <= index < |s| ==> r == RemoveAt(s, index)
    ensures index >= |s| ==> r == s
    ensures -|s| <= index < 0 ==> r == RemoveAt(s, |s| + index)
    ensures index < -|s| && |s| > 0 ==> r == s[1..]
  {
    var start := if index < 0 then (if |s| + index < 0 then 0 else |s| + index)
                 else (if index > |s| then |s| else index);
    if start < |s| then RemoveAt(s, start) else s
  }

  /** `if (list.length > 1) list.splice(index, 1)`: a list never loses its
      last element. */
  function SpliceKeepingOne<T>(list: seq<T>, index: int): (r: seq<T>)
    ensures |list| <= 1 ==> r == list
    ensures |list| > 1 ==> r == SpliceOne(list, index)
    ensures |list| > 0 ==> |r| > 0
  {
    if |list| > 1 then SpliceOne(list, index) else list
  }

  /** `array.map(f)`. */
  function Map<T, U>(s: seq<T>, f: T -> U): (r: seq<U>)
    ensures |r| == |s|
    ensures forall i :: 0 <= i < |s| ==> r[i] == f(s[i])
  {
    if |s| == 0 then [] else [f(s[0])] + Map(s[1..], f)
  }

  /** Replace the element at index `i`. */
  function Update<T>(s: seq<T>, i: nat, x: T): (r: seq<T>)
    requires i < |s|
    ensures |r| == |s| && r[i] == x
    ensures forall j :: 0 <= j < |s| && j != i ==> r[j] == s[j]
  {
    s[i := x]
  }
}

=== FILE: sorting.dfy ===
/** Ordering a list by an integer key, as the work queue and the storage
    listing do with `array.sort` on a timestamp. The model fixes one order
    for items with the same key: each item is inserted into the sorted rest
    of the list after its equal items, so equal keys come out in reverse
    input order. It promises only a permutation sorted by key. `array.sort`
    is stable, so the source keeps equal keys in input order; the input
    order itself is the order of the stored entries, which the browser
    decides. */
module Sorting {

  /** `s` is ordered by `key`, largest first when `desc`, else smallest first. */
  predicate SortedBy<T>(s: seq<T>, key: T -> int, desc: bool) {
    forall i, j :: 0 <= i < j < |s| ==> if desc then key(s[i]) >= key(s[j]) else key(s[i]) <= key(s[j])
  }

  /** `x` belongs before `y` in the chosen direction. */
  predicate Before<T>(x: T, y: T, key: T -> int, desc: bool) {
    if desc then key(x) >= key(y) else key(x) <= key(y)
  }

  /** Insert `x` into an ordered list, after every element that belongs
      before it. */
  function Insert<T>(x: T, s: seq<T>, key: T -> int, desc: bool): (r: seq<T>)
    requires SortedBy(s, key, desc)
    ensures multiset(r) == multiset(s) + multiset{x}
    ensures SortedBy(r, key, desc)
  {
    if |s| == 0 then [x]
    else if Before(x, s[0], key, desc) && !Before(s[0], x, key, desc) then
      FirstBeforeAll(x, s, key, desc);
      SortedCons(x, s, key, desc);
      [x] + s
    else
      var t := Insert(x, s[1..], key, desc);
      assert s == [s[0]] + s[1..];
      HeadBeforeAll(x, s, t, key, desc);
      SortedCons(s[0], t, key, desc);
      assert multiset([s[0]] + t) == multiset{s[0]} + multiset(t);
      [s[0]] + t
  }

  /** Putting in front an element that belongs before every element keeps
      a list ordered. */
  lemma SortedCons<T>(h: T, t: seq<T>, key: T -> int, desc: bool)
    requires SortedBy(t, key, desc)
    requires forall j :: 0 <= j < |t| ==> Before(h, t[j], key, desc)
    ensures SortedBy([h] + t, key, desc)
  {
    var r := [h] + t;
    forall i, j | 0 <= i < j < |r|
      ensures if desc then key(r[i]) >= key(r[j]) else key(r[i]) <= key(r[j])
    {
      assert r[j] == t[j - 1];
      if i > 0 {
        assert r[i] == t[i - 1];
      }
    }
  }

  /** An element that goes strictly before the head of an ordered list
      goes before all of it. */
  lemma FirstBeforeAll<T>(x: T, s: seq<T>, key: T -> int, desc: bool)
    requires |s| > 0 && SortedBy(s, key, desc)
    requires Before(x, s[0], key, desc)
    ensures forall j :: 0 <= j < |s| ==> Before(x, s[j], key, desc)
  {
  }

  /** The head of an ordered list that does not go after `x` belongs
      before every element of the tail with `x` inserted. */
  lemma HeadBeforeAll<T>(x: T, s: seq<T>, t: seq<T>, key: T -> int, desc: bool)
    requires |s| > 0 && SortedBy(s, key, desc)
    requires !(Before(x, s[0], key, desc) && !Before(s[0], x, key, desc))
    requires multiset(t) == multiset(s[1..]) + multiset{x}
    ensures forall j :: 0 <= j < |t| ==> Before(s[0], t[j], key, desc)
  {
    forall j | 0 <= j < |t| ensures Before(s[0], t[j], key, desc) {
      assert t[j] in multiset(t);
      if t[j] != x {
        assert t[j] in multiset(s[1..]);
        var k :| 0 <= k < |s[1..]| && s[1..][k] == t[j];
        assert s[k + 1] == t[j];
      }
    }
  }

  /** `array.sort` with a key comparator: the same elements, in key order. */
  function SortBy<T>(s: seq<T>, key: T -> int, desc: bool): (r: seq<T>)
    ensures multiset(r) == multiset(s)
    ensures |r| == |s|
    ensures SortedBy(r, key, desc)
  {
    if |s| == 0 then []
    else
      assert s == [s[0]] + s[1..];
      Insert(s[0], SortBy(s[1..], key, desc), key, desc)
  }
}

=== FILE: stakeholder_table.dfy ===
/** The editable stakeholder table (`wl-stakeholder-table`): rows of team,
    name, e-mail and one approval column, which is `akkoord` for a table of
    type `akkoord` and `geinformeerd` for any other type. */
module StakeholderTable {
  import opened Wrappers
  import opened Seqs
  import opened Json
  import opened TriState

  /** One row of the table, as the object it is stored as. */
  type Row = map<string, Value>

  /** The table type: the `type` attribute, `akkoord` when missing. */
  function TableType(typeAttribute: string): (t: string)
    ensures t != ""
    ensures typeAttribute != "" ==> t == typeAttribute
    ensures typeAttribute == "" ==> StatusKey(t) == "akkoord"
  {
    if typeAttribute != "" then typeAttribute else "akkoord"
  }

  /** The field the approval column reads and writes. */
  function StatusKey(tableType: string): (k: string)
    ensures k == "akkoord" <==> tableType == "akkoord"
    ensures k == "akkoord" || k == "geinformeerd"
  {
    if tableType == "akkoord" then "akkoord" else "geinformeerd"
  }

  /** The approval text of a row. */
  function StatusText(row: Row, tableType: string): (t: string)
    ensures var k := StatusKey(tableType);
      (t == "Ja" <==> k in row && row[k] == Bool(true))
      && (t == "Nee" <==> k in row && row[k] == Bool(false))
  {
    var k := StatusKey(tableType);
    DisplayText(if k in row then Some(row[k]) else None)
  }

  /** `addRow`: appends a row with empty texts and an unset approval. */
  function AddRow(rows: seq<Row>, tableType: string): (r: seq<Row>)
    ensures |r| == |rows| + 1 && r[..|rows|] == rows
    ensures var row := r[|rows|];
      row.Keys == {"team", "naam", "email", StatusKey(tableType)}
      && row["team"] == Str("") && row["naam"] == Str("") && row["email"] == Str("")
      && row[StatusKey(tableType)] == Null
  {
    rows + [map["team" := Str(""), "naam" := Str(""), "email" := Str(""), StatusKey(tableType) := Null]]
  }

  /** `removeRow(index)`: nothing happens while at most one row is left;
      otherwise `splice(index, 1)`. */
  function RemoveRow(rows: seq<Row>, index: int): (r: seq<Row>)
    ensures |rows| <= 1 ==> r == rows
    ensures |rows| > 1 && 0 <= index < |rows| ==> r == rows[..index] + rows[index + 1..]
    ensures |rows| > 1 && index >= |rows| ==> r == rows
    ensures |rows| > 0 ==> |r| > 0
    ensures |rows| > 1 ==> r == SpliceOne(rows, index)
  {
    SpliceKeepingOne(rows, index)
  }

  /** The table never loses its last row. */
  lemma RemoveRowKeepsOne(rows: seq<Row>, index: int)
    requires |rows| > 0
    ensures |RemoveRow(rows, index)| >= 1
    ensures |RemoveRow(rows, index)| >= |rows| - 1
  {
  }

  /** Typing into a cell of a row stores the text in that field only. */
  function EditField(rows: seq<Row>, index: nat, field: string, text: string): (r: seq<Row>)
    requires index < |rows|
    ensures |r| == |rows| && r[index] == rows[index][field := Str(text)]
    ensures forall j :: 0 <= j < |rows| && j != index ==> r[j] == rows[j]
  {
    rows[index := rows[index][field := Str(text)]]
  }

  /** A click on the approval button of a row. */
  function ToggleApproval(rows: seq<Row>, index: nat, tableType: string): (r: seq<Row>)
    requires index < |rows|
    ensures |r| == |rows|
    ensures forall j :: 0 <= j < |rows| && j != index ==> r[j] == rows[j]
    ensures var k := StatusKey(tableType);
      r[index] == rows[index][k := Cycle(if k in rows[index] then Some(rows[index][k]) else None)]
  {
    var k := StatusKey(tableType);
    rows[index := rows[index][k := Cycle(if k in rows[index] then Some(rows[index][k]) else None)]]
  }

  /** Three clicks on a new row's button bring it back to unset. */
  lemma ThreeClicksOnNewRow(rows: seq<Row>, tableType: string)
    ensures var r := AddRow(rows, tableType); var i := |rows|;
      var r3 := ToggleApproval(ToggleApproval(ToggleApproval(r, i, tableType), i, tableType), i, tableType);
      r3 == r && StatusText(r3[i], tableType) == "-"
  {
    var k := StatusKey(tableType);
    var r := AddRow(rows, tableType);
    var i := |rows|;
    var r1 := ToggleApproval(r, i, tableType);
    var r2 := ToggleApproval(r1, i, tableType);
    var r3 := ToggleApproval(r2, i, tableType);
    assert r1[i][k] == Bool(true);
    assert r2[i][k] == Bool(false);
    assert r3[i][k] == Null;
    assert r3[i] == r[i];
  }
}

=== FILE: storage.dfy ===
/** The browser store behind the application (`LocalStorageAdapter`): forms
    are kept as JSON text under the key `prefix + id`, next to whatever else
    other code keeps in the same store. The store is a list of key/value
    entries in insertion order, with distinct keys; a stored text either
    reads back as the object it was written from or does not parse. */
module Storage {
  import opened Wrappers
  import opened Seqs
  import opened Strings
  import opened Json
  import opened Sorting

  /** The default key prefix. */
  const DefaultPrefix: string := "westland_forms_"

  /** A stored text: the JSON of an object, or text that `JSON.parse`
      rejects. */
  datatype Stored = Record(fields: map<string, Value>) | Unparsable(raw: string)

  datatype Entry = Entry(key: string, value: Stored)

  type Store = seq<Entry>

  predicate DistinctKeys(store: Store) {
    forall i, j :: 0 <= i < j < |store| ==> store[i].key != store[j].key
  }

  /** `localStorage.getItem(key)`. */
  function GetItem(store: Store, key: string): (r: Option<Stored>)
    ensures r.None? <==> forall i :: 0 <= i < |store| ==> store[i].key != key
    ensures r.Some? ==> exists i :: 0 <= i < |store| && store[i] == Entry(key, r.value)
  {
    match FindIndex(store, (e: Entry) => e.key == key)
    case None => None
    case Some(i) => Some(store[i].value)
  }

  /** `localStorage.setItem(key, value)`: an existing key keeps its place
      and gets the new value, a new key is added at the end. */
  function SetItem(store: Store, key: string, value: Stored): (r: Store)
    requires DistinctKeys(store)
    ensures DistinctKeys(r)
    ensures GetItem(r, key) == Some(value)
    ensures forall k :: k != key ==> GetItem(r, k) == GetItem(store, k)
  {
    match FindIndex(store, (e: Entry) => e.key == key)
    case None =>
      var r := store + [Entry(key, value)];
      assert r[|store|] == Entry(key, value);
      assert forall k :: k != key ==> GetItem(r, k) == GetItem(store, k) by {
        forall k | k != key ensures GetItem(r, k) == GetItem(store, k) {
          if GetItem(store, k).Some? {
            var j :| 0 <= j < |store| && store[j] == Entry(k, GetItem(store, k).value);
            assert r[j] == store[j];
            KeyLookupUnique(r, k);
          }
        }
      }
      r
    case Some(i) =>
      var r := store[i := Entry(key, value)];
      assert r[i] == Entry(key, value);
      assert DistinctKeys(r);
      KeyLookupUnique(r, key);
      assert GetItem(r, key) == Some(r[i].value);
      assert forall k :: k != key ==> GetItem(r, k) == GetItem(store, k) by {
        forall k | k != key ensures GetItem(r, k) == GetItem(store, k) {
          OtherKeyLookup(store, r, i, key, k);
        }
      }
      r
  }

  /** Replacing the entry of one key leaves the lookup of every other key
      as it was. */
  lemma OtherKeyLookup(store: Store, r: Store, i: nat, key: string, k: string)
    requires DistinctKeys(store) && DistinctKeys(r)
    requires i < |store| && |r| == |store| && r[i].key == key && store[i].key == key
    requires forall j :: 0 <= j < |store| && j != i ==> r[j] == store[j]
    requires k != key
    ensures GetItem(r, k) == GetItem(store, k)
  {
    KeyLookupUnique(store, k);
    KeyLookupUnique(r, k);
    if GetItem(store, k).Some? {
      var j :| 0 <= j < |store| && store[j] == Entry(k, GetItem(store, k).value);
      assert r[j] == store[j];
    }
  }

  /** With distinct keys, the entry found for a key is the only one. */
  lemma KeyLookupUnique(store: Store, k: string)
    ensures forall j :: 0 <= j < |store| && store[j].key == k && DistinctKeys(store) ==>
      GetItem(store, k) == Some(store[j].value)
  {
  }

  /** `localStorage.removeItem(key)`. */
  function RemoveItem(store: Store, key: string): (r: Store)
    requires DistinctKeys(store)
    ensures DistinctKeys(r)
    ensures GetItem(r, key).None?
    ensures forall k :: k != key ==> GetItem(r, k) == GetItem(store, k)
    ensures forall e :: e in r <==> e in store && e.key != key
  {
    var r := Filter(store, (e: Entry) => e.key != key);
    assert DistinctKeys(r) by { FilterKeepsDistinct(store, key); }
    assert forall k :: k != key ==> GetItem(r, k) == GetItem(store, k) by {
      forall k | k != key ensures GetItem(r, k) == GetItem(store, k) {
        if GetItem(store, k).Some? {
          var j :| 0 <= j < |store| && store[j] == Entry(k, GetItem(store, k).value);
          assert store[j] in r;
          var m :| 0 <= m < |r| && r[m] == store[j];
          KeyLookupUnique(r, k);
        }
        if GetItem(r, k).Some? {
          var m :| 0 <= m < |r| && r[m] == Entry(k, GetItem(r, k).value);
          assert r[m] in store;
          KeyLookupUnique(store, k);
        }
      }
    }
    r
  }

  lemma {:induction false} FilterKeepsDistinct(store: Store, key: string)
    requires DistinctKeys(store)
    ensures DistinctKeys(Filter(store, (e: Entry) => e.key != key))
  {
    if |store| > 0 {
      FilterKeepsDistinct(store[1..], key);
      var rest := Filter(store[1..], (e: Entry) => e.key != key);
      assert forall j :: 0 <= j < |rest| ==> rest[j].key != store[0].key;
    }
  }

  /** The key of a form id. */
  function KeyOf(prefix: string, id: Value): string {
    prefix + ToText(id)
  }

  /** `create(data)`: a missing or falsy id is replaced by a fresh one (a
      parameter here), and the object is stored under its key. */
  function Create(store: Store, prefix: string, data: map<string, Value>, freshId: string)
    : (r: (Store, map<string, Value>))
    requires DistinctKeys(store)
    ensures DistinctKeys(r.0)
    ensures "id" in data && Truthy(data["id"]) ==> r.1 == data
    ensures !("id" in data && Truthy(data["id"])) ==> r.1 == data["id" := Str(freshId)]
    ensures "id" in r.1
    ensures GetItem(r.0, KeyOf(prefix, r.1["id"])) == Some(Record(r.1))
    ensures forall k :: k != KeyOf(prefix, r.1["id"]) ==> GetItem(r.0, k) == GetItem(store, k)
  {
    var d := if "id" in data && Truthy(data["id"]) then data else data["id" := Str(freshId)];
    (SetItem(store, KeyOf(prefix, d["id"]), Record(d)), d)
  }

  /** `read(id)`: the stored object, `null` (None) for a missing key or an
      empty text, and a parse error for text that is not JSON. */
  function Read(store: Store, prefix: string, id: string): (r: Result<Option<map<string, Value>>, string>)
    ensures GetItem(store, prefix + id).None? ==> r == Ok(None)
    ensures GetItem(store, prefix + id) == Some(Unparsable("")) ==> r == Ok(None)
    ensures (exists d :: GetItem(store, prefix + id) == Some(Record(d))) ==>
      r == Ok(Some(GetItem(store, prefix + id).value.fields))
    ensures r.Err? <==> exists t :: t != "" && GetItem(store, prefix + id) == Some(Unparsable(t))
  {
    match GetItem(store, prefix + id)
    case None => Ok(None)
    case Some(Record(d)) => Ok(Some(d))
    case Some(Unparsable(t)) => if t == "" then Ok(None) else Err("SyntaxError: " + t)
  }

  /** What `create` stored reads back, under the id it returned. */
  lemma CreateThenRead(store: Store, prefix: string, data: map<string, Value>, freshId: string)
    requires DistinctKeys(store)
    requires var d := Create(store, prefix, data, freshId).1; d["id"].Str?
    ensures var (s, d) := Create(store, prefix, data, freshId);
      Read(s, prefix, d["id"].s) == Ok(Some(d))
  {
  }

  /** `update(id, data)`: forces `data.id = id` and stores it with
      `create`. An empty id is falsy, so `create` then picks a fresh one. */
  function Update(store: Store, prefix: string, id: string, data: map<string, Value>, freshId: string)
    : (r: (Store, map<string, Value>))
    requires DistinctKeys(store)
    ensures DistinctKeys(r.0)
    ensures id != "" ==> r.1 == data["id" := Str(id)] && GetItem(r.0, prefix + id) == Some(Record(r.1))
    ensures id != "" ==> forall k :: k != prefix + id ==> GetItem(r.0, k) == GetItem(store, k)
  {
    Create(store, prefix, data["id" := Str(id)], freshId)
  }

  /** `delete(id)`: afterwards `read(id)` gives `null`; always answers
      true. */
  function Delete(store: Store, prefix: string, id: string): (r: (Store, bool))
    requires DistinctKeys(store)
    ensures DistinctKeys(r.0) && r.1
    ensures Read(r.0, prefix, id) == Ok(None)
    ensures forall k :: k != prefix + id ==> GetItem(r.0, k) == GetItem(store, k)
  {
    (RemoveItem(store, prefix + id), true)
  }

  /** An entry `list` returns: under the prefix, parsed, and of the type
      asked for (any type for an empty filter). */
  predicate Listed(e: Entry, prefix: string, formType: string) {
    StartsWith(e.key, prefix) && e.value.Record?
    && (formType == "" || ("formType" in e.value.fields && e.value.fields["formType"] == Str(formType)))
  }

  function ListedIn(prefix: string, formType: string): Entry -> bool {
    (e: Entry) => Listed(e, prefix, formType)
  }

  function FieldsOfEntry(e: Entry): map<string, Value> {
    if e.value.Record? then e.value.fields else map[]
  }

  /** `list(formType)`: the parsed objects under the prefix, of the given
      type, newest `updatedAt` first. `timeOf` is `new Date(v || 0)` read
      as a number of milliseconds. */
  function List(store: Store, prefix: string, formType: string, timeOf: Value -> int): (r: seq<map<string, Value>>)
    ensures multiset(r) == multiset(Map(Filter(store, ListedIn(prefix, formType)), FieldsOfEntry))
    ensures |r| == Count(store, ListedIn(prefix, formType))
    ensures SortedBy(r, UpdatedTime(timeOf), true)
  {
    SortBy(Map(Filter(store, ListedIn(prefix, formType)), FieldsOfEntry), UpdatedTime(timeOf), true)
  }

  function UpdatedTime(timeOf: Value -> int): map<string, Value> -> int {
    (d: map<string, Value>) => timeOf(if "updatedAt" in d then d["updatedAt"] else Null)
  }

  /** Every listed object comes from an entry under the prefix. */
  lemma ListOnlyPrefixed(store: Store, prefix: string, formType: string, timeOf: Value -> int)
    ensures forall d :: d in List(store, prefix, formType, timeOf) ==>
      exists e :: e in store && StartsWith(e.key, prefix) && e.value == Record(d)
  {
    var listed := Filter(store, ListedIn(prefix, formType));
    var m := Map(listed, FieldsOfEntry);
    forall d | d in List(store, prefix, formType, timeOf)
      ensures exists e :: e in store && StartsWith(e.key, prefix) && e.value == Record(d)
    {
      assert d in multiset(m);
      var k :| 0 <= k < |m| && m[k] == d;
      assert listed[k] in store && Listed(listed[k], prefix, formType);
    }
  }

  /** `count(formType)`: the number of objects `list` returns. */
  function CountForms(store: Store, prefix: string, formType: string): (n: nat)
    ensures forall timeOf: Value -> int :: n == |List(store, prefix, formType, timeOf)|
  {
    Count(store, ListedIn(prefix, formType))
  }

  /** `clear()`: removes every entry under the prefix and reports how many
      it removed; other entries stay, in order. */
  function Clear(store: Store, prefix: string): (r: (Store, nat))
    ensures forall e :: e in r.0 <==> e in store && !StartsWith(e.key, prefix)
    ensures r.1 == Count(store, (e: Entry) => StartsWith(e.key, prefix))
    ensures r.1 + |r.0| == |store|
  {
    var kept := Filter(store, (e: Entry) => !StartsWith(e.key, prefix));
    ClearSplits(store, prefix);
    (kept, Count(store, (e: Entry) => StartsWith(e.key, prefix)))
  }

  lemma {:induction false} ClearSplits(store: Store, prefix: string)
    ensures Count(store, (e: Entry) => StartsWith(e.key, prefix))
          + |Filter(store, (e: Entry) => !StartsWith(e.key, prefix))| == |store|
  {
    if |store| > 0 {
      ClearSplits(store[1..], prefix);
    }
  }
}

=== FILE: strings.dfy ===
/** String operations of the JavaScript runtime that the code relies on:
    `indexOf`, `split`/`join` on a literal separator, `replace` of a literal
    string everywhere, `trim`, `startsWith`, ASCII lower-casing and the
    decimal text of a number. A Dafny string is a sequence of Unicode
    scalar values, where JavaScript counts UTF-16 code units: the two agree
    on text without characters outside the Basic Multilingual Plane. */
module Strings {
  import opened Wrappers

  /** `s` has `d` starting at position `i`. */
  predicate OccursAt(s: string, d: string, i: nat) {
    i + |d| <= |s| && s[i..i + |d|] == d
  }

  /** `s.indexOf(d)` for a non-empty `d`: the first position where `d` occurs. */
  function IndexOf(s: string, d: string): (r: Option<nat>)
    requires |d| > 0
    ensures r.Some? ==> OccursAt(s, d, r.value)
    ensures r.Some? ==> forall j :: 0 <= j < r.value ==> !OccursAt(s, d, j)
    ensures r.None? ==> forall j :: 0 <= j <= |s| ==> !OccursAt(s, d, j)
    decreases |s|
  {
    if |s| < |d| then None
    else if s[..|d|] == d then Some(0)
    else
      assert forall j :: 1 <= j <= |s| ==> (OccursAt(s, d, j) <==> OccursAt(s[1..], d, j - 1));
      match IndexOf(s[1..], d)
      case None => None
      case Some(i) => Some(i + 1)
  }

  /** `s.includes(d)`. */
  predicate Contains(s: string, d: string)
    requires |d| > 0
  {
    IndexOf(s, d).Some?
  }

  /** A one-character text occurs exactly when its character does. */
  lemma ContainsChar(s: string, c: char)
    ensures Contains(s, [c]) <==> c in s
  {
    if c in s {
      var k :| 0 <= k < |s| && s[k] == c;
      assert s[k..k + 1] == [c];
      assert OccursAt(s, [c], k);
    }
    if Contains(s, [c]) {
      var k := IndexOf(s, [c]).value;
      assert s[k..k + 1] == [c];
      assert s[k] == c;
    }
  }

  /** A text without the first character of `d` does not contain `d`. */
  lemma AbsentHead(s: string, d: string)
    requires |d| > 0 && forall i :: 0 <= i < |s| ==> s[i] != d[0]
    ensures !Contains(s, d)
  {
    forall j | 0 <= j <= |s| ensures !OccursAt(s, d, j) {
      if j + |d| <= |s| {
        assert s[j..j + |d|][0] == s[j];
      }
    }
  }

  /** `s.startsWith(p)`. */
  predicate StartsWith(s: string, p: string) {
    |p| <= |s| && s[..|p|] == p
  }

  /** `s.split(d)` for a non-empty literal separator `d`: occurrences are
      found left to right and do not overlap. */
  function Split(s: string, d: string): (r: seq<string>)
    requires |d| > 0
    ensures |r| >= 1
    decreases |s|
  {
    match IndexOf(s, d)
    case None => [s]
    case Some(i) => [s[..i]] + Split(s[i + |d|..], d)
  }

  /** `s.split(d)[0]`: the text before the first occurrence of `d`. */
  function FirstPiece(s: string, d: string): (r: string)
    requires |d| > 0
    ensures StartsWith(s, r)
    ensures !Contains(r, d)
    ensures r == s || OccursAt(s, d, |r|)
  {
    SplitPiecesFree(s, d);
    Split(s, d)[0]
  }

  /** `s.split(d)[last]`: the text after the last occurrence of `d`. */
  function LastPiece(s: string, d: string): (r: string)
    requires |d| > 0
    ensures |r| <= |s| && r == s[|s| - |r|..]
    ensures !Contains(r, d)
    ensures !Contains(s, d) ==> r == s
  {
    SplitPiecesFree(s, d);
    SplitLastIsSuffix(s, d);
    var p := Split(s, d);
    p[|p| - 1]
  }

  /** The last piece of a split is a suffix of the string. */
  lemma {:induction false} SplitLastIsSuffix(s: string, d: string)
    requires |d| > 0
    ensures var p := Split(s, d); var r := p[|p| - 1];
      |r| <= |s| && r == s[|s| - |r|..]
    decreases |s|
  {
    match IndexOf(s, d)
    case None =>
      assert Split(s, d) == [s];
      assert s[|s| - |s|..] == s;
    case Some(i) =>
      var rest := s[i + |d|..];
      SplitLastIsSuffix(rest, d);
      var t := Split(rest, d);
      var p := [s[..i]] + t;
      assert Split(s, d) == p;
      assert p[|p| - 1] == t[|t| - 1];
      SuffixOfSuffix(s, i + |d|, t[|t| - 1]);
  }

  lemma SuffixOfSuffix(s: string, j: nat, r: string)
    requires j <= |s| && |r| <= |s| - j && r == s[j..][|s| - j - |r|..]
    ensures r == s[|s| - |r|..]
  {
  }

  /** `parts.join(d)`. */
  function Join(parts: seq<string>, d: string): (r: string)
  {
    if |parts| == 0 then ""
    else if |parts| == 1 then parts[0]
    else parts[0] + d + Join(parts[1..], d)
  }

  /** Joining the pieces of a split with the same separator gives back the string. */
  lemma {:induction false} JoinSplit(s: string, d: string)
    requires |d| > 0
    ensures Join(Split(s, d), d) == s
    decreases |s|
  {
    match IndexOf(s, d)
    case None =>
    case Some(i) =>
      var rest := s[i + |d|..];
      var tail := Split(rest, d);
      JoinSplit(rest, d);
      assert Split(s, d) == [s[..i]] + tail;
      assert ([s[..i]] + tail)[1..] == tail;
      assert Join(Split(s, d), d) == s[..i] + d + Join(tail, d);
      assert s == s[..i] + s[i..i + |d|] + rest;
  }

  /** No piece of a split contains the separator. */
  lemma {:induction false} SplitPiecesFree(s: string, d: string)
    requires |d| > 0
    ensures forall k :: 0 <= k < |Split(s, d)| ==> !Contains(Split(s, d)[k], d)
    decreases |s|
  {
    match IndexOf(s, d)
    case None =>
    case Some(i) =>
      var rest := s[i + |d|..];
      SplitPiecesFree(rest, d);
      assert forall j :: 0 <= j <= i ==> (OccursAt(s[..i], d, j) ==> OccursAt(s, d, j));
      assert !Contains(s[..i], d);
  }

  /** The pieces and separators of a split add up to the whole string. */
  lemma {:induction false} SplitLength(s: string, d: string)
    requires |d| > 0
    ensures forall k :: 0 <= k < |Split(s, d)| ==> |Split(s, d)[k]| <= |s|
    ensures forall k :: 1 <= k < |Split(s, d)| ==> |Split(s, d)[k]| <= |s| - |d|
    decreases |s|
  {
    match IndexOf(s, d)
    case None =>
    case Some(i) =>
      var rest := s[i + |d|..];
      SplitLength(rest, d);
  }

  /** `s.replace(/from/g, to)` for a literal `from`: every non-overlapping
      occurrence, left to right, is replaced. */
  function ReplaceAll(s: string, from: string, to: string): (r: string)
    requires |from| > 0
  {
    Join(Split(s, from), to)
  }

  /** Replacing a string that does not occur changes nothing. */
  lemma ReplaceAbsent(s: string, from: string, to: string)
    requires |from| > 0 && !Contains(s, from)
    ensures ReplaceAll(s, from, to) == s
  {
  }

  /** The characters JavaScript's `trim` and the regular-expression class
      `\s` treat as white space: the WhiteSpace and LineTerminator code points
      of ECMAScript (section 12.2 and 12.3 of ECMA-262). */
  predicate IsSpace(c: char) {
    c == '\t' || c == '\n' || c == '\U{000B}' || c == '\U{000C}' || c == '\r' || c == ' '
    || c == '\U{00A0}' || c == '\U{1680}' || ('\U{2000}' <= c <= '\U{200A}')
    || c == '\U{2028}' || c == '\U{2029}' || c == '\U{202F}' || c == '\U{205F}'
    || c == '\U{3000}' || c == '\U{FEFF}'
  }

  /** The characters `^` and `$` treat as line ends in multiline mode. */
  predicate IsLineTerminator(c: char) {
    c == '\n' || c == '\r' || c == '\U{2028}' || c == '\U{2029}'
  }

  function TrimStart(s: string): (r: string)
    ensures |r| <= |s| && r == s[|s| - |r|..]
    ensures |r| > 0 ==> !IsSpace(r[0])
    ensures forall i :: 0 <= i < |s| - |r| ==> IsSpace(s[i])
  {
    if |s| > 0 && IsSpace(s[0]) then TrimStart(s[1..]) else s
  }

  function TrimEnd(s: string): (r: string)
    ensures |r| <= |s| && r == s[..|r|]
    ensures |r| > 0 ==> !IsSpace(r[|r| - 1])
    ensures forall i :: |r| <= i < |s| ==> IsSpace(s[i])
  {
    if |s| > 0 && IsSpace(s[|s| - 1]) then TrimEnd(s[..|s| - 1]) else s
  }

  /** `r` occurs in `s` at position `k`. */
  predicate InfixAt(s: string, r: string, k: nat) {
    k + |r| <= |s| && s[k..k + |r|] == r
  }

  /** `r` occurs somewhere in `s`. */
  ghost predicate IsInfix(s: string, r: string) {
    exists k :: InfixAt(s, r, k)
  }

  /** `s.trim()`: the longest infix with no white space at either end. */
  function Trim(s: string): (r: string)
    ensures |r| <= |s|
    ensures |r| > 0 ==> !IsSpace(r[0]) && !IsSpace(r[|r| - 1])
    ensures exists k :: InfixAt(s, r, k)
  {
    var t := TrimStart(s);
    var r := TrimEnd(t);
    assert InfixAt(s, r, |s| - |t|);
    r
  }

  /** `trim` removes white space only, and all of it at both ends: the
      result sits in `s` with nothing but white space before and after. */
  lemma TrimMaximal(s: string)
    ensures exists k :: TrimmedAt(s, Trim(s), k)
  {
    var t := TrimStart(s);
    var r := TrimEnd(t);
    var k := |s| - |t|;
    assert Trim(s) == r;
    assert InfixAt(s, r, k);
    forall i | k + |r| <= i < |s| ensures IsSpace(s[i]) {
      assert s[i] == t[i - k];
    }
    assert TrimmedAt(s, r, k);
  }

  /** `r` occurs in `s` at position `k` with only white space around it. */
  predicate TrimmedAt(s: string, r: string, k: nat) {
    InfixAt(s, r, k) && (forall i :: 0 <= i < k ==> IsSpace(s[i]))
    && (forall i :: k + |r| <= i < |s| ==> IsSpace(s[i]))
  }

  /** Trimming a trimmed string changes nothing. */
  lemma TrimIdempotent(s: string)
    ensures Trim(Trim(s)) == Trim(s)
  {
    var r := Trim(s);
    if |r| > 0 {
      assert TrimStart(r) == r;
      assert TrimEnd(r) == r;
    }
  }

  /** A string consisting only of white space trims to the empty string. */
  lemma {:induction false} TrimAllSpace(s: string)
    requires forall i :: 0 <= i < |s| ==> IsSpace(s[i])
    ensures TrimStart(s) == "" && Trim(s) == ""
  {
    if |s| > 0 {
      TrimAllSpace(s[1..]);
    }
  }

  /** The length of the longest prefix of `s` with no stop character. */
  function RunBefore(s: string, stop: char -> bool): (n: nat)
    ensures n <= |s|
    ensures forall i :: 0 <= i < n ==> !stop(s[i])
    ensures n < |s| ==> stop(s[n])
  {
    if |s| == 0 || stop(s[0]) then 0 else 1 + RunBefore(s[1..], stop)
  }

  /** The run ends where the first stop character is. */
  lemma {:induction false} RunBeforeConcat(v: string, rest: string, stop: char -> bool)
    requires forall i :: 0 <= i < |v| ==> !stop(v[i])
    requires |rest| == 0 || stop(rest[0])
    ensures RunBefore(v + rest, stop) == |v|
    decreases |v|
  {
    if |v| > 0 {
      assert (v + rest)[1..] == v[1..] + rest;
      RunBeforeConcat(v[1..], rest, stop);
    } else {
      assert v + rest == rest;
    }
  }

  /** A text without white space is its own trim. */
  lemma TrimUnspaced(s: string)
    requires forall i :: 0 <= i < |s| ==> !IsSpace(s[i])
    ensures Trim(s) == s
  {
  }

  /** A text with no white space at either end is its own trim. */
  lemma TrimFixed(s: string)
    requires |s| > 0 && !IsSpace(s[0]) && !IsSpace(s[|s| - 1])
    ensures Trim(s) == s
  {
  }

  /** White space appended to a text is trimmed away again. */
  lemma TrimTrailingSpace(s: string, sp: string)
    requires forall i :: 0 <= i < |sp| ==> IsSpace(sp[i])
    ensures Trim(s + sp) == Trim(s)
  {
    TrimStartAppend(s, sp);
    if TrimStart(s) != "" {
      TrimEndSpace(TrimStart(s), sp);
    } else {
      TrimAllSpace(sp);
      TrimAllSpace(s + sp);
    }
  }

  lemma {:induction false} TrimStartAppend(s: string, sp: string)
    requires forall i :: 0 <= i < |sp| ==> IsSpace(sp[i])
    ensures TrimStart(s) != "" ==> TrimStart(s + sp) == TrimStart(s) + sp
    ensures TrimStart(s) == "" ==> forall i :: 0 <= i < |s + sp| ==> IsSpace((s + sp)[i])
    decreases |s|
  {
    if |s| > 0 {
      assert (s + sp)[1..] == s[1..] + sp;
      if IsSpace(s[0]) {
        TrimStartAppend(s[1..], sp);
      }
    }
  }

  lemma {:induction false} TrimEndSpace(t: string, sp: string)
    requires forall i :: 0 <= i < |sp| ==> IsSpace(sp[i])
    ensures TrimEnd(t + sp) == TrimEnd(t)
    decreases |sp|
  {
    if |sp| > 0 {
      assert (t + sp)[..|t + sp| - 1] == t + sp[..|sp| - 1];
      TrimEndSpace(t, sp[..|sp| - 1]);
    } else {
      assert t + sp == t;
    }
  }

  /** `truncate(text, max)`: the text when it has at most `max` characters,
      otherwise its first `max` characters followed by `...`. */
  function Truncate(s: string, max: nat): (r: string)
    ensures |s| <= max ==> r == s
    ensures |s| > max ==> |r| == max + 3 && StartsWith(s, r[..max]) && r[max..] == "..."
  {
    if |s| <= max then s else s[..max] + "..."
  }

  /** ASCII lower-casing of one character. */
  function LowerChar(c: char): (r: char)
    ensures 'A' <= c <= 'Z' ==> r as int == c as int + 32
    ensures !('A' <= c <= 'Z') ==> r == c
  {
    if 'A' <= c <= 'Z' then (c as int + 32) as char else c
  }

  /** `s.toLowerCase()`, restricted to ASCII letters. */
  function ToLower(s: string): (r: string)
    ensures |r| == |s|
    ensures forall i :: 0 <= i < |s| ==> r[i] == LowerChar(s[i])
  {
    if |s| == 0 then "" else [LowerChar(s[0])] + ToLower(s[1..])
  }

  /** Lower-casing is idempotent. */
  lemma ToLowerIdempotent(s: string)
    ensures ToLower(ToLower(s)) == ToLower(s)
  {
    assert forall i :: 0 <= i < |s| ==> LowerChar(LowerChar(s[i])) == LowerChar(s[i]);
  }

  predicate IsDigit(c: char) {
    '0' <= c <= '9'
  }

  function DigitChar(d: nat): (c: char)
    requires d < 10
    ensures IsDigit(c) && c as int - '0' as int == d
  {
    ('0' as int + d) as char
  }

  /** `String(n)` for a natural number: its decimal digits, no leading zero. */
  function NatToString(n: nat): (r: string)
    ensures |r| > 0
    ensures forall i :: 0 <= i < |r| ==> IsDigit(r[i])
    ensures |r| > 1 ==> r[0] != '0'
  {
    if n < 10 then [DigitChar(n)] else NatToString(n / 10) + [DigitChar(n % 10)]
  }

  /** The value of a string of decimal digits. */
  function DigitsValue(s: string): nat
    requires forall i :: 0 <= i < |s| ==> IsDigit(s[i])
  {
    if |s| == 0 then 0
    else
      assert IsDigit(s[|s| - 1]);
      DigitsValue(s[..|s| - 1]) * 10 + (s[|s| - 1] as int - '0' as int)
  }

  /** Reading back the decimal text of `n` gives `n`. */
  lemma {:induction false} NatToStringValue(n: nat)
    ensures DigitsValue(NatToString(n)) == n
  {
    if n >= 10 {
      var r := NatToString(n);
      NatToStringValue(n / 10);
      assert r[..|r| - 1] == NatToString(n / 10);
    }
  }

  /** Different numbers have different decimal texts. */
  lemma NatToStringInjective(m: nat, n: nat)
    requires NatToString(m) == NatToString(n)
    ensures m == n
  {
    NatToStringValue(m);
    NatToStringValue(n);
  }
}

=== FILE: track_changes.dfy ===
/** Suggested edits to one form field (`wl-track-changes`): each change is
    added as pending and is then accepted, which applies its new value, or
    rejected, which restores its original value. */
module TrackChanges {
  import opened Wrappers
  import opened Seqs
  import opened Config

  /** One suggested edit. Missing texts are the empty string. */
  datatype TrackChange = TrackChange(
    id: string,
    fieldPath: string,
    changeType: string,
    originalValue: string,
    newValue: string,
    status: string,
    author: string,
    authorRole: string,
    createdAt: int,
    reviewedAt: Option<int>,
    reviewedBy: Option<string>)

  /** The user working in the component. */
  datatype CurrentUser = CurrentUser(name: string, role: string)

  /** The state of one field editor: its change list and the value shown. */
  datatype Field = Field(changes: seq<TrackChange>, currentValue: string)

  predicate IsPending(c: TrackChange) {
    c.status == ChangePending
  }

  /** `getPendingChanges`: the pending changes in list order. */
  function PendingChanges(changes: seq<TrackChange>): (r: seq<TrackChange>)
    ensures |r| <= |changes|
    ensures forall i :: 0 <= i < |r| ==> r[i] in changes && IsPending(r[i])
    ensures forall i :: 0 <= i < |changes| && IsPending(changes[i]) ==> changes[i] in r
    ensures forall c :: multiset(r)[c] == if IsPending(c) then multiset(changes)[c] else 0
  {
    FilterMultiset(changes, IsPending);
    Filter(changes, IsPending)
  }

  /** `getPendingChanges` keeps the list order. */
  lemma PendingChangesConcat(a: seq<TrackChange>, b: seq<TrackChange>)
    ensures PendingChanges(a + b) == PendingChanges(a) + PendingChanges(b)
  {
    FilterConcat(a, b, IsPending);
  }

  /** The kind of a change, from whether each side is empty. */
  function Classify(originalValue: string, newValue: string): (r: string)
    ensures r == "insert" <==> originalValue == "" && newValue != ""
    ensures r == "delete" <==> originalValue != "" && newValue == ""
    ensures r == "replace" <==> (originalValue == "") == (newValue == "")
  {
    if originalValue == "" && newValue != "" then "insert"
    else if originalValue != "" && newValue == "" then "delete"
    else "replace"
  }

  /** `addChange(originalValue, newValue, author, authorRole)`: appends one
      pending change and returns it; `id` and `now` stand for the clock. */
  function AddChange(f: Field, fieldPath: string, originalValue: string, newValue: string,
                     author: string, authorRole: string, user: CurrentUser,
                     id: string, now: int): (r: (Field, TrackChange))
    ensures r.0.changes == f.changes + [r.1] && r.0.currentValue == f.currentValue
    ensures IsPending(r.1) && r.1.id == id && r.1.fieldPath == fieldPath
    ensures r.1.originalValue == originalValue && r.1.newValue == newValue
    ensures r.1.changeType == Classify(originalValue, newValue)
    ensures r.1.author == (if author != "" then author else user.name)
    ensures r.1.authorRole == (if authorRole != "" then authorRole else user.role)
    ensures r.1.reviewedAt.None? && r.1.reviewedBy.None?
  {
    var c := TrackChange(id, fieldPath, Classify(originalValue, newValue), originalValue, newValue,
                    ChangePending, if author != "" then author else user.name,
                    if authorRole != "" then authorRole else user.role, now, None, None);
    (Field(f.changes + [c], f.currentValue), c)
  }

  /** A change marked reviewed with the given outcome. */
  function Reviewed(c: TrackChange, status: string, user: CurrentUser, now: int): (r: TrackChange)
    ensures r.status == status && r.reviewedAt == Some(now) && r.reviewedBy == Some(user.name)
    ensures r.(status := c.status, reviewedAt := c.reviewedAt, reviewedBy := c.reviewedBy) == c
  {
    c.(status := status, reviewedAt := Some(now), reviewedBy := Some(user.name))
  }

  /** The position of the first change with `id`, if that change is pending. */
  function PendingIndex(changes: seq<TrackChange>, id: string): (r: Option<nat>)
    ensures r.Some? ==> r.value < |changes| && changes[r.value].id == id && IsPending(changes[r.value])
    ensures r.Some? ==> forall j :: 0 <= j < r.value ==> changes[j].id != id
    ensures r.None? ==> forall j :: 0 <= j < |changes| && changes[j].id == id ==>
      exists k :: 0 <= k <= j && changes[k].id == id && !IsPending(changes[k])
  {
    match FindIndex(changes, (c: TrackChange) => c.id == id)
    case None => None
    case Some(i) => if IsPending(changes[i]) then Some(i) else None
  }

  /** `acceptChange(id)`: the first change with `id`, if pending, becomes
      accepted and its new value is applied; otherwise nothing happens. */
  function AcceptChange(f: Field, id: string, user: CurrentUser, now: int): (r: Field)
    ensures PendingIndex(f.changes, id).None? ==> r == f
    ensures PendingIndex(f.changes, id).Some? ==>
      var i := PendingIndex(f.changes, id).value;
      |r.changes| == |f.changes| && r.changes[i] == Reviewed(f.changes[i], ChangeAccepted, user, now)
      && r.currentValue == f.changes[i].newValue
      && (forall j :: 0 <= j < |f.changes| && j != i ==> r.changes[j] == f.changes[j])
  {
    match PendingIndex(f.changes, id)
    case None => f
    case Some(i) =>
      Field(f.changes[i := Reviewed(f.changes[i], ChangeAccepted, user, now)], f.changes[i].newValue)
  }

  /** `rejectChange(id)`: the first change with `id`, if pending, becomes
      rejected and its original value is restored; otherwise nothing happens. */
  function RejectChange(f: Field, id: string, user: CurrentUser, now: int): (r: Field)
    ensures PendingIndex(f.changes, id).None? ==> r == f
    ensures PendingIndex(f.changes, id).Some? ==>
      var i := PendingIndex(f.changes, id).value;
      |r.changes| == |f.changes| && r.changes[i] == Reviewed(f.changes[i], ChangeRejected, user, now)
      && r.currentValue == f.changes[i].originalValue
      && (forall j :: 0 <= j < |f.changes| && j != i ==> r.changes[j] == f.changes[j])
  {
    match PendingIndex(f.changes, id)
    case None => f
    case Some(i) =>
      Field(f.changes[i := Reviewed(f.changes[i], ChangeRejected, user, now)], f.changes[i].originalValue)
  }

  /** A review is final: once a change with `id` has been accepted or
      rejected, accepting or rejecting that id again does nothing. */
  lemma ReviewIsFinal(f: Field, id: string, user: CurrentUser, now: int, later: int)
    ensures var g := AcceptChange(f, id, user, now);
      AcceptChange(g, id, user, later) == g && RejectChange(g, id, user, later) == g
    ensures var g := RejectChange(f, id, user, now);
      AcceptChange(g, id, user, later) == g && RejectChange(g, id, user, later) == g
  {
    var p := (c: TrackChange) => c.id == id;
    match FindIndex(f.changes, p)
    case None =>
    case Some(i) =>
      if IsPending(f.changes[i]) {
        var a := AcceptChange(f, id, user, now).changes;
        var b := RejectChange(f, id, user, now).changes;
        assert FindIndex(a, p) == Some(i) by {
          assert forall j :: 0 <= j < i ==> a[j] == f.changes[j];
        }
        assert FindIndex(b, p) == Some(i) by {
          assert forall j :: 0 <= j < i ==> b[j] == f.changes[j];
        }
      }
  }

  /** Every pending change marked with the same outcome; the rest untouched. */
  function ReviewPending(changes: seq<TrackChange>, status: string, user: CurrentUser, now: int): (r: seq<TrackChange>)
    ensures |r| == |changes|
    ensures forall i :: 0 <= i < |changes| ==>
      r[i] == if IsPending(changes[i]) then Reviewed(changes[i], status, user, now) else changes[i]
  {
    Map(changes, (c: TrackChange) => if IsPending(c) then Reviewed(c, status, user, now) else c)
  }

  /** `acceptAllChanges`: every pending change becomes accepted and the value
      becomes the new value of the last pending one (unchanged if none). */
  function AcceptAllChanges(f: Field, user: CurrentUser, now: int): (r: Field)
    ensures |r.changes| == |f.changes|
    ensures forall i :: 0 <= i < |f.changes| && !IsPending(f.changes[i]) ==> r.changes[i] == f.changes[i]
    ensures forall i :: 0 <= i < |f.changes| && IsPending(f.changes[i]) ==> r.changes[i].status == ChangeAccepted
    ensures forall i :: 0 <= i < |f.changes| && IsPending(f.changes[i]) ==>
      r.changes[i] == Reviewed(f.changes[i], ChangeAccepted, user, now)
  {
    var p := PendingChanges(f.changes);
    Field(ReviewPending(f.changes, ChangeAccepted, user, now),
          if |p| > 0 then p[|p| - 1].newValue else f.currentValue)
  }

  /** `rejectAllChanges`: every pending change becomes rejected and the value
      becomes the original value of the first pending one (unchanged if none). */
  function RejectAllChanges(f: Field, user: CurrentUser, now: int): (r: Field)
    ensures |r.changes| == |f.changes|
    ensures forall i :: 0 <= i < |f.changes| && !IsPending(f.changes[i]) ==> r.changes[i] == f.changes[i]
    ensures forall i :: 0 <= i < |f.changes| && IsPending(f.changes[i]) ==> r.changes[i].status == ChangeRejected
    ensures forall i :: 0 <= i < |f.changes| && IsPending(f.changes[i]) ==>
      r.changes[i] == Reviewed(f.changes[i], ChangeRejected, user, now)
  {
    var p := PendingChanges(f.changes);
    Field(ReviewPending(f.changes, ChangeRejected, user, now),
          if |p| > 0 then p[0].originalValue else f.currentValue)
  }

  /** The last pending change in list order, found from the end. */
  function LastPending(changes: seq<TrackChange>): (r: Option<nat>)
    ensures r.Some? ==> r.value < |changes| && IsPending(changes[r.value])
    ensures r.Some? ==> forall j :: r.value < j < |changes| ==> !IsPending(changes[j])
    ensures r.None? ==> forall j :: 0 <= j < |changes| ==> !IsPending(changes[j])
  {
    if |changes| == 0 then None
    else if IsPending(changes[|changes| - 1]) then Some(|changes| - 1)
    else LastPending(changes[..|changes| - 1])
  }

  /** The last element of the pending list is the last pending change of the
      whole list. */
  lemma {:induction false} PendingLast(changes: seq<TrackChange>)
    ensures var p := PendingChanges(changes);
      (|p| == 0 <==> LastPending(changes).None?)
      && (|p| > 0 ==> p[|p| - 1] == changes[LastPending(changes).value])
  {
    if |changes| > 0 {
      var init, last := changes[..|changes| - 1], changes[|changes| - 1];
      assert changes == init + [last];
      FilterConcat(init, [last], IsPending);
      PendingLast(init);
    }
  }

  /** After accepting everything nothing is pending, and the value is the new
      value of the last change that was pending. */
  lemma AcceptAllLeavesNothingPending(f: Field, user: CurrentUser, now: int)
    ensures var r := AcceptAllChanges(f, user, now);
      PendingChanges(r.changes) == []
      && (match LastPending(f.changes)
          case None => r.currentValue == f.currentValue
          case Some(i) => r.currentValue == f.changes[i].newValue)
  {
    var r := AcceptAllChanges(f, user, now);
    FilterDropsAll(r.changes, IsPending);
    PendingLast(f.changes);
  }

  /** After rejecting everything nothing is pending, and the value is the
      original value of the first change that was pending. */
  lemma RejectAllLeavesNothingPending(f: Field, user: CurrentUser, now: int)
    ensures var r := RejectAllChanges(f, user, now);
      PendingChanges(r.changes) == []
      && (match FindIndex(f.changes, IsPending)
          case None => r.currentValue == f.currentValue
          case Some(i) => r.currentValue == f.changes[i].originalValue)
  {
    var r := RejectAllChanges(f, user, now);
    FilterDropsAll(r.changes, IsPending);
    PendingFirst(f.changes);
  }

  /** The head of the pending list is the first pending change. */
  lemma {:induction false} PendingFirst(changes: seq<TrackChange>)
    ensures var p := PendingChanges(changes);
      (|p| == 0 <==> FindIndex(changes, IsPending).None?)
      && (|p| > 0 ==> p[0] == changes[FindIndex(changes, IsPending).value])
  {
    if |changes| > 0 {
      PendingFirst(changes[1..]);
      var rest := Filter(changes[1..], IsPending);
      assert PendingChanges(changes) == if IsPending(changes[0]) then [changes[0]] + rest else rest;
    }
  }

  /** The accept-all and reject-all buttons are shown exactly to roles that
      may accept or reject changes, which are the information manager and
      the business analyst; a missing role is a stakeholder. */
  function CanReview(roleAttribute: string): (r: bool)
    ensures r <==> FeedbackRole(roleAttribute) in {"informatiemanager", "business_analist"}
  {
    var p := EffectivePermissions(FeedbackRole(roleAttribute));
    p.canAcceptChanges || p.canRejectChanges
  }
}

=== FILE: tri_state.dfy ===
/** The three-way yes / no / unset button of the stakeholder table and the
    checklist: each click moves null (or a missing value) to true, true to
    false, and anything else to null. */
module TriState {
  import opened Wrappers
  import opened Json

  /** One click on the button; `None` is a missing field. */
  function Cycle(v: Option<Value>): (r: Value)
    ensures r in {Null, Bool(true), Bool(false)}
    ensures (v.None? || v == Some(Null)) <==> r == Bool(true)
    ensures v == Some(Bool(true)) <==> r == Bool(false)
    ensures r == Null <==> !(v.None? || v == Some(Null) || v == Some(Bool(true)))
  {
    match v
    case None => Bool(true)
    case Some(Null) => Bool(true)
    case Some(Bool(true)) => Bool(false)
    case Some(_) => Null
  }

  /** Three clicks return to where the first click left the button, and
      from null or a missing value three clicks return to null. */
  lemma CycleHasPeriodThree(v: Option<Value>)
    ensures var w := Cycle(v); Cycle(Some(Cycle(Some(Cycle(Some(w)))))) == w
    ensures v.None? || v == Some(Null) ==> Cycle(Some(Cycle(Some(Cycle(v))))) == Null
  {
  }

  /** The text shown on the button: `Ja`, `Nee`, or `-` for anything else. */
  function DisplayText(v: Option<Value>): (t: string)
    ensures t == "Ja" <==> v == Some(Bool(true))
    ensures t == "Nee" <==> v == Some(Bool(false))
    ensures t == "-" <==> !(v == Some(Bool(true)) || v == Some(Bool(false)))
  {
    match v
    case Some(Bool(true)) => "Ja"
    case Some(Bool(false)) => "Nee"
    case _ => "-"
  }
}

=== FILE: workflow.dfy ===
/** The intake workflow engine (`WorkqueueService`): who may move an intake
    from one status to the next, what a transition writes, which
    notifications it sends, and the work-queue projections over intakes.

    An intake is reduced to the fields the engine reads and writes; an empty
    string stands for a missing or empty field. The store maps form ids to
    intakes; the clock is the parameter `now`. */
module Workflow {
  import opened Wrappers
  import opened Seqs
  import opened Config
  import opened Notifications

  /** One entry of `statusHistory`. */
  datatype HistoryEntry = HistoryEntry(
    from: string, to: string, byName: string, byId: string, role: string,
    at: int, reason: Option<string>, routeType: Option<string>)

  /** A stakeholder row of an intake; only `persoonId` matters here. */
  datatype StakeholderRef = StakeholderRef(persoonId: string)

  datatype IntakeRecord = IntakeRecord(
    id: string,
    status: string,
    intakeStatus: string,
    statusHistory: seq<HistoryEntry>,
    routeType: string,
    assignedTo: Option<string>,
    klantId: string,
    eigenaar: string,
    klantNaam: string,
    onderwerp: string,
    titel: string,
    stakeholders: seq<StakeholderRef>,
    updatedAt: int)

  datatype User = User(id: string, name: string, role: string)

  /** The `options` of `transition`; empty strings stand for absent options. */
  datatype Options = Options(reason: string, routeType: string, assignedTo: string)

  /** `_getFormStatus`: `intakeStatus`, else the legacy `status`, else draft. */
  function EffectiveStatus(f: IntakeRecord): (s: string)
    ensures s != ""
    ensures f.intakeStatus != "" ==> s == f.intakeStatus
    ensures f.intakeStatus == "" && f.status != "" ==> s == f.status
    ensures f.intakeStatus == "" && f.status == "" ==> s == StatusName(Draft)
  {
    if f.intakeStatus != "" then f.intakeStatus
    else if f.status != "" then f.status
    else StatusName(Draft)
  }

  /** The names of the next statuses of a table entry. */
  function NextNames(next: seq<Status>): (r: seq<string>)
    ensures |r| == |next| && forall i :: 0 <= i < |next| ==> r[i] == StatusName(next[i])
  {
    if |next| == 0 then [] else [StatusName(next[0])] + NextNames(next[1..])
  }

  /** `actions.find(a => a.to === name)`. */
  function FirstActionTo(actions: seq<Action>, name: string): (r: Option<Action>)
    ensures r.Some? ==> r.value in actions && StatusName(r.value.to) == name
    ensures r.None? ==> forall a :: a in actions ==> StatusName(a.to) != name
  {
    if |actions| == 0 then None
    else if StatusName(actions[0].to) == name then Some(actions[0])
    else FirstActionTo(actions[1..], name)
  }

  /** `canTransition(current, newStatus, role)`: the current status has a
      table entry, lists `newStatus` as a next status, and the first action
      towards `newStatus` belongs to `role`. Only status names occur in the
      table, so both texts are first read as statuses (see
      `NextNamesByStatus` and `FirstActionToByStatus` for the equivalence
      with the lookups on names). */
  function CanTransition(current: string, newStatus: string, role: string): bool {
    match ParseStatus(current)
    case None => false
    case Some(s) =>
      match ParseStatus(newStatus)
      case None => false
      case Some(n) =>
        var t := TransitionsOf(s);
        if n !in t.next then false
        else match ActionTo(t.actions, n)
          case None => false
          case Some(a) => RoleName(a.role) == role
  }

  /** `canTransition` spelled out on names, as the table lookups read it. */
  lemma CanTransitionOnNames(current: string, newStatus: string, role: string)
    ensures CanTransition(current, newStatus, role) ==
      match TransitionsFor(current)
      case None => false
      case Some(t) =>
        if newStatus !in NextNames(t.next) then false
        else match FirstActionTo(t.actions, newStatus)
          case None => false
          case Some(a) => RoleName(a.role) == role
  {
    match ParseStatus(current)
    case None =>
    case Some(s) =>
      NextNamesByStatus(TransitionsOf(s).next, newStatus);
      FirstActionToByStatus(TransitionsOf(s).actions, newStatus);
  }

  /** The permitted moves, written out as (from, to, role) triples. */
  const LegalMoves: set<(Status, Status, Role)> := {
    (Draft, KlantInvoer, Im),
    (KlantInvoer, ImAanvullen, Klant),
    (ImAanvullen, KlantAkkoord, Im),
    (KlantAkkoord, StakeholderReview, Klant),
    (KlantAkkoord, ImAanvullen, Klant),
    (StakeholderReview, ImRoutering, Im),
    (ImRoutering, BijBa, Im),
    (ImRoutering, FbBacklog, Im),
    (ImRoutering, StakeholderReview, Im),
    (FbBacklog, Gearchiveerd, Im)
  }

  /** The three texts name a status, a status and a role that form one of
      the permitted moves. */
  predicate IsLegalMove(current: string, newStatus: string, role: string) {
    match (ParseStatus(current), ParseStatus(newStatus), ParseRole(role))
    case (Some(s), Some(t), Some(r)) => (s, t, r) in LegalMoves
    case _ => false
  }

  /** The first action of a list that leads to status `t`. */
  function ActionTo(actions: seq<Action>, t: Status): (r: Option<Action>)
    ensures r.Some? ==> r.value in actions && r.value.to == t
    ensures r.None? ==> forall a :: a in actions ==> a.to != t
  {
    if |actions| == 0 then None
    else if actions[0].to == t then Some(actions[0])
    else ActionTo(actions[1..], t)
  }

  lemma StatusNameMatches(t: Status, name: string)
    ensures StatusName(t) == name <==> ParseStatus(name) == Some(t)
  {
    StatusNameRoundTrip(t);
  }

  lemma RoleNameMatches(r: Role, name: string)
    ensures RoleName(r) == name <==> ParseRole(name) == Some(r)
  {
    RoleNameRoundTrip(r);
  }

  /** Looking an action up by status name is looking it up by the status
      that name denotes. */
  lemma {:induction false} FirstActionToByStatus(actions: seq<Action>, name: string)
    ensures FirstActionTo(actions, name) ==
      (match ParseStatus(name) case None => None case Some(t) => ActionTo(actions, t))
  {
    if |actions| > 0 {
      StatusNameMatches(actions[0].to, name);
      FirstActionToByStatus(actions[1..], name);
    }
  }

  lemma {:induction false} NextNamesByStatus(next: seq<Status>, name: string)
    ensures name in NextNames(next) <==> ParseStatus(name).Some? && ParseStatus(name).value in next
  {
    if |next| > 0 {
      StatusNameMatches(next[0], name);
      NextNamesByStatus(next[1..], name);
      assert NextNames(next) == [StatusName(next[0])] + NextNames(next[1..]);
    }
  }

  /** The table lets role `r` move an intake from `s` to `t`: `t` is a next
      status of `s` and the first action towards it is `r`'s. */
  predicate TableAllows(s: Status, t: Status, r: Role) {
    var e := TransitionsOf(s);
    t in e.next && ActionTo(e.actions, t).Some? && ActionTo(e.actions, t).value.role == r
  }

  /** The table, read through its first matching action, gives exactly the
      permitted moves out of `s`. */
  lemma TableIsLegalMoves(s: Status, t: Status, r: Role)
    ensures (t in TransitionsOf(s).next && ActionTo(TransitionsOf(s).actions, t).Some?
             && ActionTo(TransitionsOf(s).actions, t).value.role == r) <==> (s, t, r) in LegalMoves
  {
    if TableAllows(s, t, r) {
      AllowedIsLegal(s, t, r);
    } else if (s, t, r) in LegalMoves {
      LegalIsAllowed(s, t, r);
    }
  }

  lemma AllowedIsLegal(s: Status, t: Status, r: Role)
    requires TableAllows(s, t, r)
    ensures (s, t, r) in LegalMoves
  {
    var a := ActionTo(TransitionsOf(s).actions, t);
    match s
    case Draft => assert t == KlantInvoer;
    case KlantInvoer => assert t == ImAanvullen;
    case ImAanvullen => assert t == KlantAkkoord;
    case KlantAkkoord => assert t == StakeholderReview || t == ImAanvullen;
    case StakeholderReview => assert t == ImRoutering;
    case ImRoutering => assert t == BijBa || t == FbBacklog || t == StakeholderReview;
    case BijBa => assert false;
    case FbBacklog => assert t == Gearchiveerd;
    case Gearchiveerd =>
  }

  lemma LegalIsAllowed(s: Status, t: Status, r: Role)
    requires (s, t, r) in LegalMoves
    ensures TableAllows(s, t, r)
  {
    if s == KlantAkkoord || s == ImRoutering {
      LegalBranchIsAllowed(s, t, r);
    } else {
      LegalSingleIsAllowed(s, t, r);
    }
  }

  /** The statuses with a single way out. */
  lemma LegalSingleIsAllowed(s: Status, t: Status, r: Role)
    requires (s, t, r) in LegalMoves && s != KlantAkkoord && s != ImRoutering
    ensures TableAllows(s, t, r)
  {
    match s
    case Draft => assert t == KlantInvoer && r == Im;
    case KlantInvoer => assert t == ImAanvullen && r == Klant;
    case ImAanvullen => assert t == KlantAkkoord && r == Im;
    case StakeholderReview => assert t == ImRoutering && r == Im;
    case FbBacklog => assert t == Gearchiveerd && r == Im;
  }

  /** The two statuses with a choice of ways out. */
  lemma LegalBranchIsAllowed(s: Status, t: Status, r: Role)
    requires (s, t, r) in LegalMoves && (s == KlantAkkoord || s == ImRoutering)
    ensures TableAllows(s, t, r)
  {
    var acts := TransitionsOf(s).actions;
    if s == KlantAkkoord {
      assert r == Klant;
      if t == StakeholderReview {
        assert ActionTo(acts, t) == Some(acts[0]);
      } else {
        assert t == ImAanvullen;
        assert ActionTo(acts, t) == Some(acts[1]);
      }
    } else {
      assert r == Im;
      if t == BijBa {
        assert ActionTo(acts, t) == Some(acts[0]);
      } else if t == FbBacklog {
        assert ActionTo(acts, t) == Some(acts[1]);
      } else {
        assert t == StakeholderReview;
        assert ActionTo(acts, t) == Some(acts[2]);
      }
    }
  }

  /** `canTransition` holds exactly when the three texts name a status, a
      status and a role the table allows. */
  lemma CanTransitionAllows(current: string, newStatus: string, role: string)
    ensures CanTransition(current, newStatus, role) <==>
      ParseStatus(current).Some? && ParseStatus(newStatus).Some? && ParseRole(role).Some?
      && TableAllows(ParseStatus(current).value, ParseStatus(newStatus).value, ParseRole(role).value)
  {
    match ParseStatus(current)
    case None =>
    case Some(s) =>
      match ParseStatus(newStatus)
      case None =>
      case Some(t) =>
        match ActionTo(TransitionsOf(s).actions, t)
        case None =>
        case Some(a) => RoleNameMatches(a.role, role);
  }

  /** `canTransition` permits exactly the ten listed moves. */
  lemma CanTransitionIsLegalEdge(current: string, newStatus: string, role: string)
    ensures CanTransition(current, newStatus, role) <==> IsLegalMove(current, newStatus, role)
  {
    CanTransitionAllows(current, newStatus, role);
    match (ParseStatus(current), ParseStatus(newStatus), ParseRole(role))
    case (Some(s), Some(t), Some(r)) => TableIsLegalMoves(s, t, r);
    case _ =>
  }

  /** The table has no move from a status to itself, and none out of
      `gearchiveerd` or `bij_ba`. */
  lemma NoSelfOrTerminalEntries(s: Status, t: Status, r: Role)
    ensures !TableAllows(s, s, r)
    ensures s == Gearchiveerd || s == BijBa ==> !TableAllows(s, t, r)
  {
    if TableAllows(s, s, r) {
      AllowedIsLegal(s, s, r);
    }
    if TableAllows(s, t, r) {
      AllowedIsLegal(s, t, r);
    }
  }

  /** No status moves to itself, and nothing leaves `gearchiveerd` or the
      `bij_ba` dead end. */
  lemma NoSelfOrTerminalMoves(current: string, newStatus: string, role: string)
    ensures CanTransition(current, current, role) == false
    ensures current == "gearchiveerd" || current == "bij_ba" ==> !CanTransition(current, newStatus, role)
  {
    NoSelfMove(current, role);
    if current == "gearchiveerd" || current == "bij_ba" {
      assert current == StatusName(Gearchiveerd) || current == StatusName(BijBa);
      NoTerminalMove(current, newStatus, role);
    }
  }

  lemma NoSelfMove(current: string, role: string)
    ensures !CanTransition(current, current, role)
  {
    CanTransitionAllows(current, current, role);
    match (ParseStatus(current), ParseRole(role))
    case (Some(s), Some(r)) => NoSelfOrTerminalEntries(s, s, r);
    case _ =>
  }

  lemma NoTerminalMove(current: string, newStatus: string, role: string)
    requires current == StatusName(Gearchiveerd) || current == StatusName(BijBa)
    ensures !CanTransition(current, newStatus, role)
  {
    StatusNameRoundTrip(Gearchiveerd);
    StatusNameRoundTrip(BijBa);
    var s := ParseStatus(current).value;
    assert s == Gearchiveerd || s == BijBa;
    CanTransitionAllows(current, newStatus, role);
    match (ParseStatus(newStatus), ParseRole(role))
    case (Some(t), Some(r)) => NoSelfOrTerminalEntries(s, t, r);
    case _ =>
  }

  /** `getAvailableActions(form, role)`: the actions of the intake's
      effective status that belong to `role`. */
  function AvailableActions(f: IntakeRecord, role: string): (r: seq<Action>)
    ensures TransitionsFor(EffectiveStatus(f)).None? ==> r == []
    ensures forall i :: 0 <= i < |r| ==> RoleName(r[i].role) == role
  {
    match TransitionsFor(EffectiveStatus(f))
    case None => []
    case Some(t) => Filter(t.actions, (a: Action) => RoleName(a.role) == role)
  }

  /** Within one table entry no two actions lead to the same status, so
      looking up the target of an action finds that action. */
  lemma ActionToFindsEach(s: Status)
    ensures forall a :: a in TransitionsOf(s).actions ==> ActionTo(TransitionsOf(s).actions, a.to) == Some(a)
  {
    match s
    case Draft =>
    case KlantInvoer =>
    case ImAanvullen =>
    case KlantAkkoord =>
    case StakeholderReview =>
    case ImRoutering =>
    case BijBa =>
    case FbBacklog =>
    case Gearchiveerd =>
  }

  /** Every action offered to a role is a move `canTransition` accepts for
      that role, and every accepted move is offered. */
  lemma AvailableActionsAreAllowed(f: IntakeRecord, role: string, to: Status)
    ensures (exists a :: a in AvailableActions(f, role) && a.to == to)
              <==> CanTransition(EffectiveStatus(f), StatusName(to), role)
  {
    var cur := EffectiveStatus(f);
    StatusNameRoundTrip(to);
    match ParseStatus(cur)
    case None =>
    case Some(s) =>
      var t := TransitionsOf(s);
      var r := AvailableActions(f, role);
      assert r == Filter(t.actions, (a: Action) => RoleName(a.role) == role);
      ActionToFindsEach(s);
      ActionsWithinNext(s);
      if exists a :: a in r && a.to == to {
        var a :| a in r && a.to == to;
        assert a in t.actions;
      }
      if CanTransition(cur, StatusName(to), role) {
        var a := ActionTo(t.actions, to).value;
        var i :| 0 <= i < |t.actions| && t.actions[i] == a;
        assert a in r;
      }
  }

  /** Why a transition was refused. */
  datatype TransitionError = NotFound | Denied(from: string, to: string, role: string)

  /** The error text `transition` throws. */
  function ErrorMessage(e: TransitionError): string {
    match e
    case NotFound => "Formulier niet gevonden"
    case Denied(from, to, role) =>
      "Ongeldige transitie van " + from + " naar " + to + " voor rol " + role
  }

  /** What a successful transition produces: the newStatus store, the stored
      intake, and the notifications it sends, in order. */
  datatype Outcome = Outcome(store: map<string, IntakeRecord>, form: IntakeRecord, requests: seq<Request>)

  /** A project sent to the business analyst, or a change sent to
      functional management. */
  predicate RoutedMove(newStatus: string, options: Options) {
    (options.routeType == "project" && newStatus == "bij_ba")
    || (options.routeType == "change" && newStatus == "fb_backlog")
  }

  lemma RouteLiterals()
    ensures RouteName(Project) == "project" && RouteName(Change) == "change"
    ensures StatusName(BijBa) == "bij_ba" && StatusName(FbBacklog) == "fb_backlog"
  {
  }

  /** The route fields after a move: set only for a project sent to the
      business analyst or a change sent to functional management. */
  function Route(f: IntakeRecord, newStatus: string, options: Options): (g: IntakeRecord)
    ensures g == f.(routeType := g.routeType, assignedTo := g.assignedTo)
    ensures RoutedMove(newStatus, options) ==> g.routeType == options.routeType && g.assignedTo == OrNull(options.assignedTo)
    ensures !RoutedMove(newStatus, options) ==> g == f
  {
    RouteLiterals();
    if (options.routeType == RouteName(Project) && newStatus == StatusName(BijBa))
       || (options.routeType == RouteName(Change) && newStatus == StatusName(FbBacklog)) then
      f.(routeType := options.routeType, assignedTo := OrNull(options.assignedTo))
    else f
  }

  /** `transition(formId, newStatus, user, options)`, followed by the save through
      `updateForm` (which stamps `updatedAt` and the id). */
  function Transition(store: map<string, IntakeRecord>, formId: string, newStatus: string, user: User,
                      options: Options, now: int): (r: Result<Outcome, TransitionError>)
    ensures r == Err(NotFound) <==> formId !in store
    ensures r.Err? && formId in store ==>
      r.error == Denied(EffectiveStatus(store[formId]), newStatus, user.role)
    ensures formId in store ==>
      (r.Ok? <==> CanTransition(EffectiveStatus(store[formId]), newStatus, user.role))
    ensures r.Ok? ==> r.value.store == store[formId := r.value.form]
    ensures r.Ok? ==> r.value.form.status == newStatus && r.value.form.intakeStatus == newStatus
    ensures r.Ok? ==> r.value.form.id == formId && r.value.form.updatedAt == now
    ensures r.Ok? ==>
      var old_ := store[formId]; var h := r.value.form.statusHistory;
      |h| == |old_.statusHistory| + 1 && h[..|old_.statusHistory|] == old_.statusHistory
      && h[|h| - 1].from == EffectiveStatus(old_) && h[|h| - 1].to == newStatus
      && h[|h| - 1].role == user.role && h[|h| - 1].at == now
    ensures r.Ok? ==>
      var h := r.value.form.statusHistory;
      h[|h| - 1].byName == user.name && h[|h| - 1].byId == user.id
      && h[|h| - 1].reason == OrNull(options.reason) && h[|h| - 1].routeType == OrNull(options.routeType)
    ensures r.Ok? ==>
      var f := r.value.form;
      f == store[formId].(status := f.status, intakeStatus := f.intakeStatus, statusHistory := f.statusHistory,
                          routeType := f.routeType, assignedTo := f.assignedTo, updatedAt := f.updatedAt, id := f.id)
    ensures r.Ok? ==>
      var old_ := store[formId]; var f := r.value.form;
      f.klantId == old_.klantId && f.eigenaar == old_.eigenaar && f.stakeholders == old_.stakeholders
    ensures r.Ok? ==> r.value.requests == TransitionNotifications(r.value.form, newStatus, user, options)
  {
    if formId !in store then Err(NotFound)
    else
      var f := store[formId];
      var current := EffectiveStatus(f);
      if !CanTransition(current, newStatus, user.role) then Err(Denied(current, newStatus, user.role))
      else
        var entry := HistoryEntry(current, newStatus, user.name, user.id, user.role, now,
                                  OrNull(options.reason), OrNull(options.routeType));
        var moved := f.(status := newStatus, intakeStatus := newStatus, statusHistory := f.statusHistory + [entry]);
        var saved := Route(moved, newStatus, options).(updatedAt := now, id := formId);
        Ok(Outcome(store[formId := saved], saved, TransitionNotifications(saved, newStatus, user, options)))
  }

  /** The route fields change only for (`project`, `bij_ba`) and
      (`change`, `fb_backlog`); otherwise they keep their old values. */
  lemma TransitionRouteFields(store: map<string, IntakeRecord>, formId: string, newStatus: string, user: User,
                              options: Options, now: int)
    requires Transition(store, formId, newStatus, user, options, now).Ok?
    ensures var f := Transition(store, formId, newStatus, user, options, now).value.form;
      if RoutedMove(newStatus, options)
      then f.routeType == options.routeType
           && (options.assignedTo == "" ==> f.assignedTo == None)
           && (options.assignedTo != "" ==> f.assignedTo == Some(options.assignedTo))
      else f.routeType == store[formId].routeType && f.assignedTo == store[formId].assignedTo
  {
    var f := store[formId];
    var current := EffectiveStatus(f);
    var entry := HistoryEntry(current, newStatus, user.name, user.id, user.role, now,
                              OrNull(options.reason), OrNull(options.routeType));
    var moved := f.(status := newStatus, intakeStatus := newStatus, statusHistory := f.statusHistory + [entry]);
    var routed := Route(moved, newStatus, options);
    assert Transition(store, formId, newStatus, user, options, now).value.form == routed.(updatedAt := now, id := formId);
  }

  /** The history of an intake is a chain: each entry starts where the
      previous one ended, the last one ends at the effective status, and each
      entry is a move its recorded role was allowed to make. */
  predicate HistoryChain(f: IntakeRecord) {
    var h := f.statusHistory;
    Linked(h)
    && (|h| > 0 ==> h[|h| - 1].to == EffectiveStatus(f))
    && (forall i :: 0 <= i < |h| ==> Permitted(h[i]))
  }

  /** The move an entry records is one `canTransition` accepts. */
  predicate Permitted(e: HistoryEntry) {
    CanTransition(e.from, e.to, e.role)
  }

  /** Every transition keeps the history a chain. */
  lemma TransitionKeepsHistoryChain(store: map<string, IntakeRecord>, formId: string, newStatus: string,
                                    user: User, options: Options, now: int)
    requires formId in store && HistoryChain(store[formId])
    requires Transition(store, formId, newStatus, user, options, now).Ok?
    ensures HistoryChain(Transition(store, formId, newStatus, user, options, now).value.form)
  {
    var g := store[formId];
    var f := Transition(store, formId, newStatus, user, options, now).value.form;
    var h, n := f.statusHistory, |g.statusHistory|;
    assert h == g.statusHistory + [h[n]];
    ChainAppend(g, f, h[n]);
  }

  /** Appending an entry that leaves the current status by a permitted move
      keeps the history a chain. */
  lemma ChainAppend(g: IntakeRecord, f: IntakeRecord, e: HistoryEntry)
    requires HistoryChain(g) && f.statusHistory == g.statusHistory + [e]
    requires e.from == EffectiveStatus(g) && e.to == EffectiveStatus(f)
    requires CanTransition(e.from, e.to, e.role)
    ensures HistoryChain(f)
  {
    ChainAppendLinks(g.statusHistory, e);
    ChainAppendPermitted(g, f, e);
  }

  /** Each entry leaves the status the one before it arrived in. */
  predicate Linked(h: seq<HistoryEntry>) {
    forall i :: 1 <= i < |h| ==> h[i].from == h[i - 1].to
  }

  lemma ChainAppendLinks(h: seq<HistoryEntry>, e: HistoryEntry)
    requires Linked(h) && (|h| > 0 ==> e.from == h[|h| - 1].to)
    ensures Linked(h + [e])
  {
    var h', n := h + [e], |h|;
    forall i | 1 <= i < |h'|
      ensures h'[i].from == h'[i - 1].to
    {
      if i < n {
        assert h'[i] == h[i] && h'[i - 1] == h[i - 1];
      } else {
        assert h'[i] == e && h'[i - 1] == h[n - 1];
      }
    }
  }

  lemma ChainAppendPermitted(g: IntakeRecord, f: IntakeRecord, e: HistoryEntry)
    requires HistoryChain(g) && f.statusHistory == g.statusHistory + [e]
    requires CanTransition(e.from, e.to, e.role)
    ensures var h := f.statusHistory; forall i :: 0 <= i < |h| ==> Permitted(h[i])
  {
    var h, n := f.statusHistory, |g.statusHistory|;
    forall i | 0 <= i < |h|
      ensures Permitted(h[i])
    {
      if i < n {
        assert h[i] == g.statusHistory[i];
      } else {
        assert h[i] == e;
      }
    }
  }

  /** The title the notifications use (`basisinfo.onderwerp || basisinfo.titel || 'Intake'`). */
  function FormTitle(f: IntakeRecord): (t: string)
    ensures t != ""
  {
    if f.onderwerp != "" then f.onderwerp else if f.titel != "" then f.titel else "Intake"
  }

  /** The notification type sent on arrival in a status, if any. */
  function ArrivalType(status: string): Option<NotificationType> {
    if status == "klant_invoer" then Some(IntakeShared)
    else if status == "im_aanvullen" then Some(IntakeSubmitted)
    else if status == "klant_akkoord" then Some(AkkoordRequested)
    else if status == "stakeholder_review" then Some(StakeholderReviewStart)
    else if status == "bij_ba" then Some(RoutedToBa)
    else if status == "fb_backlog" then Some(RoutedToFb)
    else if status == "gearchiveerd" then Some(IntakeArchived)
    else None
  }

  /** The stakeholders that have a person attached, in table order. */
  function ReviewTargets(stakeholders: seq<StakeholderRef>): seq<Option<string>> {
    Map(Filter(stakeholders, (s: StakeholderRef) => s.persoonId != ""),
        (s: StakeholderRef) => Some(s.persoonId))
  }

  function ReviewRequests(f: IntakeRecord, shs: seq<StakeholderRef>, sender: string): (r: seq<Request>)
    ensures |r| == |ReviewTargets(shs)|
    ensures forall i :: 0 <= i < |r| ==> r[i].ntype == StakeholderReviewStart && r[i].target == ReviewTargets(shs)[i]
  {
    if |shs| == 0 then []
    else
      var rest := ReviewRequests(f, shs[1..], sender);
      assert ReviewTargets(shs) ==
        (if shs[0].persoonId != "" then [Some(shs[0].persoonId)] else []) + ReviewTargets(shs[1..]);
      if shs[0].persoonId != "" then
        [NotifyStakeholderReviewStart(f.id, FormTitle(f), Some(shs[0].persoonId), sender)] + rest
      else rest
  }

  /** `_sendTransitionNotifications`: the notifications sent for arriving in
      status `newStatus`, chosen by the arrival status alone. */
  function TransitionNotifications(f: IntakeRecord, newStatus: string, user: User, options: Options): (r: seq<Request>)
    ensures forall i :: 0 <= i < |r| ==> ArrivalType(newStatus) == Some(r[i].ntype)
    ensures ArrivalType(newStatus).None? ==> r == []
    ensures newStatus == "stakeholder_review" ==>
              |r| == |ReviewTargets(f.stakeholders)|
              && forall i :: 0 <= i < |r| ==> r[i].target == ReviewTargets(f.stakeholders)[i]
    ensures newStatus == "gearchiveerd" ==> |r| == 1 && r[0].target == None
    ensures newStatus != "stakeholder_review" ==> |r| <= 1
    ensures newStatus == "klant_invoer" || newStatus == "klant_akkoord" ==>
              (|r| == 1 <==> f.klantId != "") && forall i :: 0 <= i < |r| ==> r[i].target == Some(f.klantId)
    ensures newStatus == "im_aanvullen" ==>
              (|r| == 1 <==> f.eigenaar != "") && forall i :: 0 <= i < |r| ==> r[i].target == Some(f.eigenaar)
    ensures newStatus == "bij_ba" || newStatus == "fb_backlog" ==>
              (|r| == 1 <==> options.assignedTo != "")
              && forall i :: 0 <= i < |r| ==> r[i].target == Some(options.assignedTo)
  {
    var title := FormTitle(f);
    if newStatus == "klant_invoer" then
      if f.klantId != "" then [NotifyIntakeShared(f.id, title, Some(f.klantId), user.name)] else []
    else if newStatus == "im_aanvullen" then
      if f.eigenaar != "" then
        [NotifyIntakeSubmitted(f.id, title, Some(f.eigenaar), if f.klantNaam != "" then f.klantNaam else "Klant")]
      else []
    else if newStatus == "klant_akkoord" then
      if f.klantId != "" then [NotifyAkkoordRequested(f.id, title, Some(f.klantId), user.name)] else []
    else if newStatus == "stakeholder_review" then
      ReviewRequests(f, f.stakeholders, user.name)
    else if newStatus == "bij_ba" then
      if options.assignedTo != "" then [NotifyRoutedToBa(f.id, title, Some(options.assignedTo), user.name)] else []
    else if newStatus == "fb_backlog" then
      if options.assignedTo != "" then [NotifyRoutedToFb(f.id, title, Some(options.assignedTo), user.name)] else []
    else if newStatus == "gearchiveerd" then
      [NotifyIntakeArchived(f.id, title, None, user.name)]
    else []
  }

  /** `getStatusInfo(status)`: label and description from the status table,
      or the status text itself with no description. */
  function StatusInfo(status: string): (r: (string, string))
    ensures ParseStatus(status).None? ==> r == (status, "")
    ensures forall s :: StatusName(s) == status ==> r == StatusLabel(s)
  {
    match ParseStatus(status)
    case None => (status, "")
    case Some(s) =>
      assert forall u :: ParseStatus(StatusName(u)) == Some(u) by {
        forall u: Status ensures ParseStatus(StatusName(u)) == Some(u) { StatusNameRoundTrip(u); }
      }
      StatusLabel(s)
  }

  /** `getStatusHistory(formId)`: empty for an unknown form. */
  function StatusHistory(store: map<string, IntakeRecord>, formId: string): (h: seq<HistoryEntry>)
    ensures formId !in store ==> h == []
    ensures formId in store ==> h == store[formId].statusHistory
  {
    if formId in store then store[formId].statusHistory else []
  }

  /** `getWorkqueue(role, userId)` over the listed intakes: the intakes whose
      legacy `status` is one the role's queue shows; with a user and a queue
      that does not see everything, a client sees only its own intakes and a
      business analyst or functional manager only the ones assigned to them. */
  predicate InQueue(f: IntakeRecord, role: string, userId: string, config: QueueConfig) {
    var statusMatch := exists i :: 0 <= i < |config.statuses| && StatusName(config.statuses[i]) == f.status;
    if userId != "" && !config.canSeeAll then
      if role == RoleName(Klant) then statusMatch && f.klantId == userId
      else if role == RoleName(Ba) || role == RoleName(Fb) then statusMatch && f.assignedTo == Some(userId)
      else statusMatch
    else statusMatch
  }

  function GetWorkqueue(forms: seq<IntakeRecord>, role: string, userId: string): (r: seq<IntakeRecord>)
    ensures QueueConfigFor(role).None? ==> r == []
    ensures forall i :: 0 <= i < |r| ==> r[i] in forms
    ensures forall i :: 0 <= i < |r| ==>
              exists s :: s in QueueConfigFor(role).value.statuses && StatusName(s) == r[i].status
    ensures userId != "" && role == "klant" ==> forall i :: 0 <= i < |r| ==> r[i].klantId == userId
    ensures userId != "" && (role == "business_analist" || role == "functioneel_beheerder") ==>
              forall i :: 0 <= i < |r| ==> r[i].assignedTo == Some(userId)
    ensures QueueConfigFor(role).Some? ==>
              forall i :: 0 <= i < |forms| && InQueue(forms[i], role, userId, QueueConfigFor(role).value) ==> forms[i] in r
  {
    match QueueConfigFor(role)
    case None => []
    case Some(config) =>
      var r := Filter(forms, (f: IntakeRecord) => InQueue(f, role, userId, config));
      assert forall i :: 0 <= i < |r| ==> InQueue(r[i], role, userId, config);
      r
  }

  /** The queue holds every intake the role's queue takes in, as often as
      it is listed, and nothing else. */
  lemma GetWorkqueueExact(forms: seq<IntakeRecord>, role: string, userId: string)
    requires QueueConfigFor(role).Some?
    ensures forall f :: multiset(GetWorkqueue(forms, role, userId))[f]
              == if InQueue(f, role, userId, QueueConfigFor(role).value) then multiset(forms)[f] else 0
  {
    var config := QueueConfigFor(role).value;
    FilterMultiset(forms, (f: IntakeRecord) => InQueue(f, role, userId, config));
  }

  /** `getWorkqueue` keeps the listed order. */
  lemma GetWorkqueueConcat(a: seq<IntakeRecord>, b: seq<IntakeRecord>, role: string, userId: string)
    ensures GetWorkqueue(a + b, role, userId) == GetWorkqueue(a, role, userId) + GetWorkqueue(b, role, userId)
  {
    if QueueConfigFor(role).Some? {
      var config := QueueConfigFor(role).value;
      FilterConcat(a, b, (f: IntakeRecord) => InQueue(f, role, userId, config));
    }
  }

  /** The group an intake falls in for `getGroupedByStatus`: its legacy
      status, or draft when it has none. */
  function GroupKey(f: IntakeRecord): string {
    if f.status != "" then f.status else StatusName(Draft)
  }

  /** The intakes of one group, in listed order. */
  function Group(forms: seq<IntakeRecord>, status: string): (r: seq<IntakeRecord>)
    ensures forall i :: 0 <= i < |r| ==> GroupKey(r[i]) == status && r[i] in forms
    ensures forall f :: multiset(r)[f] == if GroupKey(f) == status then multiset(forms)[f] else 0
  {
    FilterMultiset(forms, (f: IntakeRecord) => GroupKey(f) == status);
    Filter(forms, (f: IntakeRecord) => GroupKey(f) == status)
  }

  /** `getGroupedByStatus()`: one group per status name, intakes with any
      other status dropped. */
  function GroupedByStatus(forms: seq<IntakeRecord>): (r: map<string, seq<IntakeRecord>>)
    ensures forall k :: k in r <==> ParseStatus(k).Some?
    ensures forall k :: k in r ==> forall i :: 0 <= i < |r[k]| ==> GroupKey(r[k][i]) == k && r[k][i] in forms
    ensures forall i :: 0 <= i < |forms| && ParseStatus(GroupKey(forms[i])).Some? ==> forms[i] in r[GroupKey(forms[i])]
    ensures forall k :: k in r ==>
              forall f :: multiset(r[k])[f] == if GroupKey(f) == k then multiset(forms)[f] else 0
  {
    StatusNamesParse();
    map k | k in (set s: Status :: StatusName(s)) :: Group(forms, k)
  }

  /** The status names are exactly the texts that parse as a status. */
  lemma StatusNamesParse()
    ensures forall k :: k in (set s: Status :: StatusName(s)) <==> ParseStatus(k).Some?
  {
    forall s: Status ensures ParseStatus(StatusName(s)).Some? {
      StatusNameRoundTrip(s);
    }
    forall k | ParseStatus(k).Some? ensures k in (set s: Status :: StatusName(s)) {
      assert StatusName(ParseStatus(k).value) == k;
    }
  }

  /** Every group keeps the listed order. */
  lemma GroupedByStatusConcat(a: seq<IntakeRecord>, b: seq<IntakeRecord>)
    ensures forall k :: k in GroupedByStatus(a + b) ==>
              GroupedByStatus(a + b)[k] == GroupedByStatus(a)[k] + GroupedByStatus(b)[k]
  {
    forall k | k in GroupedByStatus(a + b)
      ensures GroupedByStatus(a + b)[k] == GroupedByStatus(a)[k] + GroupedByStatus(b)[k]
    {
      FilterConcat(a, b, (f: IntakeRecord) => GroupKey(f) == k);
    }
  }

  /** `countByStatus()`: for every status name, the number of intakes in
      that group. */
  function CountByStatus(forms: seq<IntakeRecord>): (r: map<string, nat>)
    ensures r.Keys == GroupedByStatus(forms).Keys
    ensures forall k :: k in r ==> r[k] == |set i | 0 <= i < |forms| && GroupKey(forms[i]) == k|
  {
    var g := GroupedByStatus(forms);
    forall k | k in g
      ensures |g[k]| == |set i | 0 <= i < |forms| && GroupKey(forms[i]) == k|
    {
      GroupSize(forms, k);
    }
    map k | k in g :: |g[k]|
  }

  lemma GroupSize(forms: seq<IntakeRecord>, k: string)
    ensures |Group(forms, k)| == |set i | 0 <= i < |forms| && GroupKey(forms[i]) == k|
  {
    var p := (f: IntakeRecord) => GroupKey(f) == k;
    CountFromMultiset(Group(forms, k), forms, p);
    assert IndicesWhere(forms, p) == set i | 0 <= i < |forms| && GroupKey(forms[i]) == k;
  }

  function SumCounts(forms: seq<IntakeRecord>, keys: seq<string>): nat {
    if |keys| == 0 then 0 else |Group(forms, keys[0])| + SumCounts(forms, keys[1..])
  }

  /** The groups partition the intakes with a known status: summed over the
      distinct status names, the group sizes add up to the number of intakes
      whose group key is one of them. */
  lemma {:induction false} GroupsPartition(forms: seq<IntakeRecord>, keys: seq<string>)
    requires forall i, j :: 0 <= i < j < |keys| ==> keys[i] != keys[j]
    ensures SumCounts(forms, keys) == |Filter(forms, (f: IntakeRecord) => GroupKey(f) in keys)|
    decreases |forms|
  {
    if |forms| == 0 {
      SumZero(keys);
    } else {
      GroupsPartition(forms[1..], keys);
      SumStep(forms, keys);
    }
  }

  lemma {:induction false} SumZero(keys: seq<string>)
    ensures SumCounts([], keys) == 0
  {
    if |keys| > 0 {
      SumZero(keys[1..]);
    }
  }

  lemma {:induction false} SumStep(forms: seq<IntakeRecord>, keys: seq<string>)
    requires |forms| > 0
    requires forall i, j :: 0 <= i < j < |keys| ==> keys[i] != keys[j]
    ensures SumCounts(forms, keys) == SumCounts(forms[1..], keys) + (if GroupKey(forms[0]) in keys then 1 else 0)
  {
    if |keys| > 0 {
      SumStep(forms, keys[1..]);
    }
  }

  /** The status names, in table order. */
  function StatusNames(): (keys: seq<string>)
    ensures |keys| == |AllStatuses|
    ensures forall i :: 0 <= i < |keys| ==> keys[i] == StatusName(AllStatuses[i])
  {
    Map(AllStatuses, StatusName)
  }

  lemma StatusNamesDistinct()
    ensures forall i, j :: 0 <= i < j < |StatusNames()| ==> StatusNames()[i] != StatusNames()[j]
  {
    var keys := StatusNames();
    forall i, j | 0 <= i < j < |keys| ensures keys[i] != keys[j] {
      StatusNameRoundTrip(AllStatuses[i]);
      StatusNameMatches(AllStatuses[j], keys[i]);
    }
  }

  lemma StatusNamesAreKnown(k: string)
    ensures k in StatusNames() <==> ParseStatus(k).Some?
  {
    var keys := StatusNames();
    if ParseStatus(k).Some? {
      var s := ParseStatus(k).value;
      StatusNameRoundTrip(s);
      var i :| 0 <= i < |AllStatuses| && AllStatuses[i] == s;
      assert keys[i] == k;
    }
    if k in keys {
      var i :| 0 <= i < |keys| && keys[i] == k;
      StatusNameRoundTrip(AllStatuses[i]);
    }
  }

  /** Every intake with a known status lands in exactly one group: the
      group sizes add up to the number of such intakes. */
  lemma GroupedIsPartition(forms: seq<IntakeRecord>)
    ensures SumCounts(forms, StatusNames())
            == |Filter(forms, (f: IntakeRecord) => ParseStatus(GroupKey(f)).Some?)|
  {
    var keys := StatusNames();
    StatusNamesDistinct();
    GroupsPartition(forms, keys);
    forall f: IntakeRecord ensures (GroupKey(f) in keys) == ParseStatus(GroupKey(f)).Some? {
      StatusNamesAreKnown(GroupKey(f));
    }
    FilterSame(forms, (f: IntakeRecord) => GroupKey(f) in keys, (f: IntakeRecord) => ParseStatus(GroupKey(f)).Some?);
  }

  lemma {:induction false} FilterSame(forms: seq<IntakeRecord>, p: IntakeRecord -> bool, q: IntakeRecord -> bool)
    requires forall f :: p(f) == q(f)
    ensures Filter(forms, p) == Filter(forms, q)
  {
    if |forms| > 0 {
      FilterSame(forms[1..], p, q);
    }
  }

  /** Time spent in one status: the milliseconds between arriving in it and
      leaving it, with both timestamps. */
  datatype Duration = Duration(millis: int, from: int, to: int)

  /** Entry `j` is the last one before index `end` that arrives in its
      status. */
  predicate LastArrival(h: seq<HistoryEntry>, j: nat, end: nat)
    requires j < end <= |h|
  {
    forall m :: j < m < end ==> h[m].to != h[j].to
  }

  /** The duration of the stay that starts with entry `j`. */
  function StayOf(h: seq<HistoryEntry>, j: nat): Duration
    requires j + 1 < |h|
  {
    Duration(h[j + 1].at - h[j].at, h[j].at, h[j + 1].at)
  }

  /** Some entry before index `end` arrives in status `k`. */
  predicate ArrivedBefore(h: seq<HistoryEntry>, k: string, end: nat)
    requires end <= |h|
  {
    exists j :: 0 <= j < end && h[j].to == k
  }

  lemma ArrivedStep(h: seq<HistoryEntry>, k: string, i: nat)
    requires i < |h|
    ensures ArrivedBefore(h, k, i + 1) <==> ArrivedBefore(h, k, i) || h[i].to == k
  {
    if ArrivedBefore(h, k, i + 1) && h[i].to != k {
      var j :| 0 <= j < i + 1 && h[j].to == k;
      assert j < i;
    }
  }

  /** `d` holds the durations of the stays that start before index `i`. */
  ghost predicate DurationsUpTo(h: seq<HistoryEntry>, d: map<string, Duration>, i: nat)
    requires i < |h|
  {
    (forall k :: k in d <==> ArrivedBefore(h, k, i))
    && (forall j :: 0 <= j < i && LastArrival(h, j, i) ==> h[j].to in d && d[h[j].to] == StayOf(h, j))
  }

  /** Recording the stay that starts at entry `i` extends the durations by
      one entry. */
  lemma DurationsStep(h: seq<HistoryEntry>, d: map<string, Duration>, i: nat)
    requires i + 1 < |h| && DurationsUpTo(h, d, i)
    ensures DurationsUpTo(h, d[h[i].to := StayOf(h, i)], i + 1)
  {
    var d' := d[h[i].to := StayOf(h, i)];
    forall k
      ensures k in d' <==> ArrivedBefore(h, k, i + 1)
    {
      ArrivedStep(h, k, i);
    }
    forall j | 0 <= j < i + 1 && LastArrival(h, j, i + 1)
      ensures h[j].to in d' && d'[h[j].to] == StayOf(h, j)
    {
      if j < i {
        assert h[i].to != h[j].to;
        assert LastArrival(h, j, i);
      }
    }
  }

  /** `calculateDurations` over a status history: for each entry but the
      last, the time until the next entry, keyed by the status it arrived
      in; a later stay in the same status overwrites an earlier one. */
  method CalculateDurations(h: seq<HistoryEntry>) returns (d: map<string, Duration>)
    ensures |h| < 2 ==> d == map[]
    ensures |h| >= 2 ==> forall k :: k in d <==> ArrivedBefore(h, k, |h| - 1)
    ensures forall i :: 0 <= i < |h| - 1 && LastArrival(h, i, |h| - 1) ==>
              h[i].to in d && d[h[i].to] == StayOf(h, i)
  {
    d := map[];
    if |h| < 2 {
      return;
    }
    var i := 0;
    while i < |h| - 1
      invariant 0 <= i <= |h| - 1
      invariant DurationsUpTo(h, d, i)
    {
      DurationsStep(h, d, i);
      d := d[h[i].to := StayOf(h, i)];
      i := i + 1;
    }
  }
}

=== FILE: workqueue_view.dfy ===
/** The work queue list of one role (`wl-workqueue`): which queue a role
    attribute selects, the status filter and date ordering of the list, the
    per-status counts, and the priority and open-comment markers of a row. */
module WorkqueueView {
  import opened Wrappers
  import opened Seqs
  import opened Strings
  import opened Config
  import opened Sorting

  /** What the list reads from one intake. Timestamps are numbers; a missing
      one is 0, as `new Date(value || 0)` makes it. */
  datatype WorkItem = WorkItem(
    id: string,
    status: string,
    updatedAt: int,
    createdAt: int,
    prioriteit: string,
    commentStatuses: seq<string>)

  /** The role the component shows: its `role` attribute, the information
      manager when missing. */
  function RoleOf(roleAttribute: string): (r: string)
    ensures roleAttribute != "" ==> r == roleAttribute
    ensures roleAttribute == "" ==> r == RoleName(Im)
  {
    if roleAttribute != "" then roleAttribute else RoleName(Im)
  }

  /** `getConfig`: the role's queue, the information manager's for a role
      without one. */
  function QueueOf(roleAttribute: string): (c: QueueConfig)
    ensures QueueConfigFor(RoleOf(roleAttribute)).Some? ==> c == QueueConfigFor(RoleOf(roleAttribute)).value
    ensures QueueConfigFor(RoleOf(roleAttribute)).None? ==> c == QueueConfigOf(Im).value
  {
    QueueConfigFor(RoleOf(roleAttribute)).OrElse(QueueConfigOf(Im).value)
  }

  /** A missing role and every role without a queue of its own (such as a
      stakeholder) get the information manager's queue. */
  lemma UnknownRoleGetsImQueue(roleAttribute: string)
    requires roleAttribute == "" || ParseRole(roleAttribute).None? || roleAttribute == RoleName(Stakeholder)
    ensures QueueOf(roleAttribute) == QueueConfigOf(Im).value
  {
    RoleNameRoundTrip(Stakeholder);
    RoleNameRoundTrip(Im);
  }

  /** The heading: the `title` attribute, else the label of the role's own
      queue, else `Werkvoorraad`. Unlike `getConfig` it does not fall back to
      the information manager's queue. */
  function Title(titleAttribute: string, roleAttribute: string): (t: string)
    ensures titleAttribute != "" ==> t == titleAttribute
    ensures titleAttribute == "" && QueueConfigFor(RoleOf(roleAttribute)).None? ==> t == "Werkvoorraad"
    ensures titleAttribute == "" && QueueConfigFor(RoleOf(roleAttribute)).Some? ==>
      t == QueueConfigFor(RoleOf(roleAttribute)).value.title
  {
    if titleAttribute != "" then titleAttribute
    else match QueueConfigFor(RoleOf(roleAttribute))
      case None => "Werkvoorraad"
      case Some(c) => if c.title != "" then c.title else "Werkvoorraad"
  }

  /** The date fields the list can be ordered by. */
  datatype SortField = UpdatedAt | CreatedAt

  /** The ordering state: a field and `asc` or `desc`. */
  datatype SortState = SortState(field: SortField, direction: string)

  /** A fresh list is ordered by `updatedAt`, newest first. */
  const DefaultSort: SortState := SortState(UpdatedAt, "desc")

  function SortKey(field: SortField): WorkItem -> int {
    match field
    case UpdatedAt => (w: WorkItem) => w.updatedAt
    case CreatedAt => (w: WorkItem) => w.createdAt
  }

  /** `getFilteredItems`: the items with the filter status (all of them for
      `all`), ordered by the sort field, descending unless the direction is
      `asc`. The component's own list is not changed. */
  function FilteredItems(items: seq<WorkItem>, filter: string, sort: SortState): (r: seq<WorkItem>)
    ensures filter == "all" ==> multiset(r) == multiset(items)
    ensures filter != "all" ==> multiset(r) == multiset(Filter(items, (w: WorkItem) => w.status == filter))
    ensures forall i :: 0 <= i < |r| ==> filter == "all" || r[i].status == filter
    ensures SortedBy(r, SortKey(sort.field), sort.direction != "asc")
  {
    var chosen := if filter == "all" then items else Filter(items, (w: WorkItem) => w.status == filter);
    var r := SortBy(chosen, SortKey(sort.field), sort.direction != "asc");
    assert forall i :: 0 <= i < |r| ==> r[i] in multiset(chosen);
    r
  }

  /** The default order is newest update first. */
  lemma DefaultOrderIsNewestFirst(items: seq<WorkItem>, filter: string)
    ensures var r := FilteredItems(items, filter, DefaultSort);
      forall i, j :: 0 <= i < j < |r| ==> r[i].updatedAt >= r[j].updatedAt
  {
    var r := FilteredItems(items, filter, DefaultSort);
    assert SortedBy(r, SortKey(UpdatedAt), true);
    forall i, j | 0 <= i < j < |r| ensures r[i].updatedAt >= r[j].updatedAt {
      assert SortKey(UpdatedAt)(r[i]) >= SortKey(UpdatedAt)(r[j]);
    }
  }

  /** A click on a sort header: the same field flips the direction, another
      field is chosen with the direction `desc`. */
  function ToggleSort(s: SortState, field: SortField): (r: SortState)
    ensures r.field == field
    ensures field != s.field ==> r.direction == "desc"
    ensures field == s.field ==> (r.direction == "asc" <==> s.direction != "asc")
  {
    if s.field == field then SortState(field, if s.direction == "asc" then "desc" else "asc")
    else SortState(field, "desc")
  }

  /** Two clicks on the current field give the same ordering back. */
  lemma ToggleTwice(s: SortState)
    requires s.direction in {"asc", "desc"}
    ensures ToggleSort(ToggleSort(s, s.field), s.field) == s
  {
  }

  /** The status names a queue shows. */
  function QueueStatusNames(c: QueueConfig): set<string> {
    set s | s in c.statuses :: StatusName(s)
  }

  /** No status is called `all`, so the total never collides with a status. */
  lemma NoStatusIsCalledAll(s: Status)
    ensures StatusName(s) != "all"
  {
  }

  /** `countByStatus`: `all` counts every item and each status of the queue
      counts the items in that status. */
  function CountByStatus(items: seq<WorkItem>, c: QueueConfig): (r: map<string, nat>)
    ensures r.Keys == {"all"} + QueueStatusNames(c)
    ensures r["all"] == |items|
    ensures forall s :: s in c.statuses ==> r[StatusName(s)] == Count(items, (w: WorkItem) => w.status == StatusName(s))
  {
    var r := map k | k in QueueStatusNames(c) :: Count(items, (w: WorkItem) => w.status == k);
    assert forall s :: s in c.statuses ==> StatusName(s) in r && StatusName(s) != "all" by {
      forall s | s in c.statuses ensures StatusName(s) in r && StatusName(s) != "all" {
        NoStatusIsCalledAll(s);
      }
    }
    r["all" := |items|]
  }

  /** The marker of a row's priority text. */
  datatype PriorityClass = High | Low | NoPriority

  /** `hoog` or `urgent` anywhere in the lower-cased text marks it high;
      otherwise `laag` marks it low. */
  function Priority(text: string): (p: PriorityClass)
    ensures p == High <==> Contains(ToLower(text), "hoog") || Contains(ToLower(text), "urgent")
    ensures p == Low <==> !Contains(ToLower(text), "hoog") && !Contains(ToLower(text), "urgent")
                          && Contains(ToLower(text), "laag")
  {
    var t := ToLower(text);
    if Contains(t, "hoog") || Contains(t, "urgent") then High
    else if Contains(t, "laag") then Low
    else NoPriority
  }

  /** Case does not matter to the marker. */
  lemma PriorityIgnoresCase(text: string)
    ensures Priority(ToLower(text)) == Priority(text)
  {
    ToLowerIdempotent(text);
  }

  /** The number of open comments shown on a row. */
  function OpenCommentCount(w: WorkItem): (n: nat)
    ensures n == |IndicesWhere(w.commentStatuses, IsOpenStatus)|
    ensures n <= |w.commentStatuses|
    ensures n == 0 <==> forall i :: 0 <= i < |w.commentStatuses| ==> w.commentStatuses[i] != CommentOpen
  {
    var r := Filter(w.commentStatuses, IsOpenStatus);
    FilterMultiset(w.commentStatuses, IsOpenStatus);
    CountFromMultiset(r, w.commentStatuses, IsOpenStatus);
    assert |r| == 0 ==> forall i :: 0 <= i < |w.commentStatuses| ==> !IsOpenStatus(w.commentStatuses[i]);
    assert |r| > 0 ==> r[0] in w.commentStatuses && IsOpenStatus(r[0]);
    |r|
  }

  predicate IsOpenStatus(s: string) {
    s == CommentOpen
  }
}

=== FILE: wrappers.dfy ===
/** Optional values and results with an error, used wherever the JavaScript
    code answers `null`, `undefined`, `-1` or throws. */
module Wrappers {

  /** A value that may be absent (`null`, `undefined` or "not found"). */
  datatype Option<+T> = None | Some(value: T) {
    /** The carried value, or `fallback` when absent. */
    function OrElse(fallback: T): T {
      if Some? then value else fallback
    }
  }

  /** The outcome of an operation that either succeeds or throws an error. */
  datatype Result<+T, +E> = Ok(value: T) | Err(error: E) {
    predicate IsFailure() {
      Err?
    }

    function PropagateFailure<U>(): Result<U, E>
      requires Err?
    {
      Err(error)
    }

    function Extract(): T
      requires Ok?
    {
      value
    }
  }
}
